=== FILE: README.md ===
# cortx-posix metadata and IO decisions, in Dafny

This project models the decision logic at the core of the Seagate cortx-posix
file system stack. The model covers:

- the POSIX metadata operations of the three file-system forks: cortxfs, efs
  and kvsns. These are create, link, unlink, rmdir, rename, setattr, access
  checks, extended attributes, the in-memory file handles and their
  serialised form, and the file operations (create-and-open, read, write,
  truncate, open/close bookkeeping);
- the nsal layer: the namespace and tenant registries, kvnode, and the
  metadata xattr keys and listing;
- the dsal layer: backend selection, the object read/write/resize/delete
  rules of the cortx and eos backends, the kvsns extstore variants, and the
  IO buffers;
- the Motr block-IO split of kvsns (`m0common.c`), which cuts an unaligned
  range into a head block, a run of whole blocks and a tail block;
- the kvsal counter, prefix iterator and transaction calls;
- the NFS-Ganesha FSALs built on these layers:
  - file-handle digest and extract;
  - lookup and `..` at the export root;
  - rename, remove and open2;
  - the readdir cookie walk and readsymlink;
  - the open-state invariants, share reservations and delete-on-close;
  - read2;
  - the pNFS metadata-server role, data-server round robin and layouts;
  - the global state tables of FSAL_CORTXFS;
  - the export-configuration serialiser;
- the Python management CLI: option parsing and validation, request
  composition, and response interpretation;
- the fault-injection library (`experiments/ifault`) and the option parsers
  of the kvsns test framework.

The key-value stores and object stores are maps. The file-system state is a
value with maps from inode to stat record, from (directory, name) to inode,
from inode to parent list, and from object id to bytes. Every operation is a
pure function from that value to a new value and a POSIX result (`Ok` or
`Err(errno)`). The key-value store's transaction calls do nothing, so a
metadata call that fails half way keeps the writes made before the failure.
The members that model such a call as written return an `Outcome`: the state
its steps left together with `Ok` or the first error. The corrected
all-or-nothing readings return a plain result, and `Namespace.Atomic`
connects the two.

Several things become parameters of the functions:
- timestamps;
- the answers of calls whose code is not part of this model: the
  NFS-Ganesha readdir callback, the regex engine, JSON decoding,
  `random()`, `getuid()`;
- the success or failure of the backend calls.

Where the forks differ, either a `Fork` parameter selects the branch or each
fork gets its own function. A lemma then states the difference.

Where the code has evident mistakes, the model keeps the code as written as
an `...AsWritten` member and proves the discrepancy. The corrected definition
is the one the rest of the model uses (see "## Findings").

The CLI glue also has a plain-language description that differs from its
code in two places. The model follows the code:
- That description lists an "update" command that sends a JSON body. In
  `cortxfs/src/cortxfscli/cortxfscmd/request.py` the request map knows only
  create, delete, list and setup. Any other action has no HTTP method and
  raises (`CliClient.MethodOf`).
- The error statuses are exactly the ones `response.py` lists:
  400, 401, 404, 408, 409, 413, 500 and 501. 403, 405 and 503 are not
  errors (`CliClient.IsError`).

## Model

| member | source | states |
|---|---|---|
| InodeAttr.CheckMask | cortxfs/src/cortxfs/cortxfs_internal.c:113-145 | the mask for the selected class has a right's bit exactly when that right was requested |
| InodeAttr.AccessCheck | cortxfs/src/cortxfs/cortxfs_internal.c:103-154 | access is granted exactly when the caller is root, or (cortxfs/efs) the owner asking for SETATTR, or every requested right is granted to the caller's one class; the only refusal is EPERM |
| InodeAttr.Amend | cortxfs/src/cortxfs/cortxfs_internal.c:340-391 | amending keeps the object's identity and stamps exactly the selected times; in cortxfs/efs it fails with EINVAL exactly when an increment would pass MAX_LINK or wrap, or a decrement would go below zero, and otherwise moves nlink by +1/-1; kvsns wraps and refuses only the decrement from 1 |
| InodeAttr.AmendIncrDecrRoundTrip | cortxfs/src/cortxfs/cortxfs_internal.c:366-388 | a successful link increment is undone by a decrement, except in kvsns from a count of 0, where the decrement is refused |
| InodeAttr.KvsnsDecrementWrapsAtZero | src/kvsns/kvsns/kvsns_internal.c:187-222 | at nlink 0 cortxfs and efs refuse a decrement with EINVAL while kvsns wraps to 2^64-1 |
| InodeAttr.KvsnsRefusesLastDecrement | src/kvsns/kvsns/kvsns_internal.c:187-222 | kvsns refuses the decrement from 1 that cortxfs performs |
| InodeAttr.KvsnsIncrementUnbounded | src/kvsns/kvsns/kvsns_internal.c:187-222 | kvsns increments past MAX_LINK, where cortxfs refuses |
| InodeAttr.CheckName | cortxfs/src/cortxfs/cortxfs_internal.c:522-542 | a name is accepted exactly when it is at most NAME_MAX long and is not ".", "/" or ".."; too long gives E2BIG, the reserved names EEXIST |
| InodeAttr.DirentKeyCoversCheckedNames | src/kvsns/kvsns/kvsns_internal.c:60-68 | every name that passes the name check fits the uint8_t length, so the dentry key length covers the whole name |
| InodeAttr.NextInode | cortxfs/src/cortxfs/cortxfs_internal.c:544-560 | the inode number handed out is the one stored back, one above the previous counter, wrapping to 0 past 2^64-1 |
| InodeAttr.AllocationsFresh | cortxfs/src/cortxfs/cortxfs_internal.c:544-560 | n successive allocations return stored+1 ... stored+n, strictly increasing, so no number repeats while the 64-bit space lasts |
| InodeAttr.FirstInodesFollowRoot | cortxfs/src/include/cortxfs.h:108 | starting from the initial counter, no allocation hands out the root inode or anything below it |
| InodeAttr.NewStat | cortxfs/src/cortxfs/cortxfs_internal.c:615-646 | a new object is owned by the caller, has size 0, all three times from one clock reading, and 2 links for a directory, 1 otherwise |
| InodeAttr.NewStatType | cortxfs/src/cortxfs/cortxfs_internal.c:633-648 | with a permission-only mode the new object's type test answers the requested type and every requested permission bit survives |
| InodeAttr.InoToNodeId | efs/src/efs/efs_internal.h:53-62 | the node id of an inode number has a zero low word |
| InodeAttr.NodeIdToIno | efs/src/efs/efs_internal.h:44-51 | a node id with zero low word is recovered from its inode number |
| InodeAttr.NodeIdRoundTrip | efs/src/efs/efs_internal.h:44-62 | the two conversions invert each other on inode numbers, and on node ids exactly when the low word is zero |
| InodeAttr.SetattrRequestNeverRefused | cortxfs/src/cortxfs/cortxfs_ops.c:87 | the SETATTR-only request setattr makes is granted to every caller, owner or not |
| InodeAttr.SetattrCheck | cortxfs/src/cortxfs/cortxfs_internal.c:115-120 | the intended setattr permission admits exactly root and the owner, refusing others with EPERM |
| InodeAttr.SetattrCheckRefusesStrangers | cortxfs/src/cortxfs/cortxfs_ops.c:87 | the check as written admits everybody the intended check admits, and also every non-owner it refuses |
| InodeAttr.AccessForksAgree | src/kvsns/kvsns/kvsns_internal.c:465-512 | without the SETATTR bit, cortxfs, efs and kvsns reach the same access decision |
| InodeAttr.OwnerBypassIsForkSpecific | src/kvsns/kvsns/kvsns_internal.c:465-512 | an owner lacking the write bit is admitted for SETATTR with WRITE by cortxfs/efs and refused by kvsns |
| Kvsal.DiscardKeepsIncrement | src/kvsns/kvsal/mero/kvsal_mero.c:57-70 | a counter increment made between begin and discard is still in the store after the discard, which rolls nothing back |
| Kvsal.ScanCounter | src/kvsns/kvsal/mero/kvsal_mero.c:193 | stored text that does not start with a digit leaves the caller's prior value in place |
| Kvsal.IncrCounter | src/kvsns/kvsal/mero/kvsal_mero.c:179-229 | a missing counter key gives ENOENT and writes nothing; a failed write leaves the store unchanged and reports an error; on success the key holds the printed form of the returned value and nothing else changes |
| Kvsal.IncrCounterCounts | src/kvsns/kvsal/mero/kvsal_mero.c:204-229 | a counter holding the printed n returns n+1 (0 past the largest u64), stores it back printed, and leaves every other key alone |
| Kvsal.IncrCounterTwice | src/kvsns/kvsal/mero/kvsal_mero.c:204-229 | two increments in a row hand out two consecutive values, so the inode counter never hands out a number twice |
| Kvsal.PrefixRun | src/kvsns/kvsal/mero/kvsal_mero.c:261-281 | a prefix iteration visits a leading run of the keys reached, every visited key carries the prefix, and it stops exactly at the first key that does not |
| Kvsal.PrefixConvex | src/kvsns/kvsal/mero/kvsal_mero.c:261-269 | in byte-wise order, any key lying between two keys with a prefix carries that prefix too |
| Kvsal.PrefixRunComplete | src/kvsns/kvsal/mero/kvsal_mero.c:271-281 | started at the first key not below the prefix in a sorted index, the iteration misses no key that carries the prefix |
| ParentList.Decimal | src/kvsns/kvsns/kvsns_internal.c:162 | the printed form of a number is a non-empty run of decimal digits |
| ParentList.Tokens | src/kvsns/kvsns/kvsns_internal.c:139 | the tokens the scan between pipe separators yields are never empty |
| ParentList.Str2ParentList | src/kvsns/kvsns/kvsns_internal.c:127-149 | at most maxsize tokens are read, exactly min(tokens, maxsize), and each entry is the number its token starts with |
| ParentList.NonZero | src/kvsns/kvsns/kvsns_internal.c:151-168 | the entries written out are zero-free and no more than the list holds |
| ParentList.DecimalRoundTrip | src/kvsns/kvsns/kvsns_internal.c:162 | reading the digits of a printed number back gives the number |
| ParentList.ParseDecimal | src/kvsns/kvsns/kvsns_internal.c:140 | scanning the token of a printed number gives the number |
| ParentList.TokensOfPrinted | src/kvsns/kvsns/kvsns_internal.c:139-166 | splitting a printed parent list gives one token per nonzero entry, each the printed entry |
| ParentList.ParentListRoundTrip | src/kvsns/kvsns/kvsns_internal.c:127-168 | printing a parent list and reading it back gives its nonzero entries in order, cut to the reader's room |
| ParentList.DropParentShrinks | src/kvsns/kvsns/kvsns_internal.c:161-165 | zeroing a nonzero parent and re-printing drops exactly one parent from the list read back |
| LeCodec.DecodeEncode | cortxfs/src/cortxfs/cortxfs_fh.c:93-96 | an integer that fits n bytes is recovered from its little-endian bytes |
| LeCodec.EncodeDecode | cortxfs/src/cortxfs/cortxfs_fh.c:93-96 | any byte string is the encoding of the number it decodes to |
| LeCodec.EncodeU64 | cortxfs/src/cortxfs/cortxfs_fh.c:93-96 | a uint64_t occupies 8 bytes that decode back to it |
| LeCodec.DecodeU64 | cortxfs/src/cortxfs/cortxfs_fh.c:93-96 | 8 bytes decode to the u64 whose in-memory form they are |
| FileHandle.KeyIdentifiesInode | cortxfs/src/cortxfs/cortxfs_fh.c:42-45 | two handles share an in-memory key exactly when they name the same inode of the same file system, whatever stat each caches |
| FileHandle.UnpackPack | cortxfs/src/cortxfs/cortxfs_fh.c:93-96 | the 16-byte wire form gives back the file system id and the inode it was packed from |
| FileHandle.PackUnpack | cortxfs/src/cortxfs/cortxfs_fh.c:93-96 | every 16-byte buffer is the wire form of what it unpacks to |
| FileHandle.Serialize | cortxfs/src/cortxfs/cortxfs_fh.c:235-255 | ENOBUFS exactly when the buffer is shorter than the wire form; otherwise 16 bytes holding the inode and a zero file system id |
| FileHandle.SerializeWithFsid | cortxfs/src/cortxfs/cortxfs_fh.c:290-311 | ENOBUFS exactly when the buffer is too short; otherwise 16 bytes holding the inode and the caller's file system id |
| FileHandle.FromIno | cortxfs/src/cortxfs/cortxfs_fh.c:106-140 | a caller-given stat is used as is; otherwise the handle succeeds exactly when the inode's stat is stored, caches that stat, and fails with ENOENT |
| FileHandle.Deserialize | cortxfs/src/cortxfs/cortxfs_fh.c:257-283 | only a buffer of exactly the wire size is accepted (EINVAL otherwise); the result is a handle of the caller's file system for the stored inode, which must exist |
| FileHandle.SerializeRoundTrip | cortxfs/src/cortxfs/cortxfs_fh.c:235-311 | a handle whose cached stat is the stored one comes back unchanged from either serialized form, whatever file system id was stored |
| FileHandle.FhLookup | cortxfs/src/cortxfs/cortxfs_fh.c:142-191 | lookup through a handle needs READ access to the directory, fails only with EPERM or ENOENT, and on a consistent store returns a handle satisfying the handle invariant |
| FileHandle.DotDotAtRootAliases | cortxfs/src/cortxfs/cortxfs_fh.c:157-160 | ".." at the root returns the very handle it was asked through |
| FileHandle.FhLookupAgreesWithLookup | cortxfs/src/cortxfs/cortxfs_fh.c:142-191 | with a fresh cached stat, lookup through a handle succeeds exactly when the namespace lookup does and the entry's stat is stored, and names the same inode |
| FileHandle.GetRoot | cortxfs/src/cortxfs/cortxfs_fh.c:216-233 | getting the root succeeds exactly when the caller may read the root, failing with that access error, and yields the root's handle |
| Namespace.GetStat | cortxfs/src/cortxfs/cortxfs_ops.c:42-62 | the stat of an inode is found exactly when it is stored, and is the stored one; otherwise ENOENT |
| Namespace.Access | cortxfs/src/cortxfs/cortxfs_ops.c:138-150 | access succeeds exactly when the inode exists and the fork's access rule permits the request; a missing inode is ENOENT, a refusal EPERM |
| Namespace.Lookup | cortxfs/src/cortxfs/cortxfs_ops.c:230-260 | lookup succeeds only when the caller may read the parent, answers ".." at the root with the root and otherwise the directory entry, and fails only with EPERM or ENOENT |
| Namespace.UpdateStat | cortxfs/src/cortxfs/cortxfs_internal.c:393-412 | updating a stat succeeds exactly when the stat is stored and the amendment is allowed, and then replaces only that stat |
| Namespace.ApplySetattr | cortxfs/src/cortxfs/cortxfs_ops.c:88-128 | setattr keeps the inode and the link count, copies each field only when its flag is set, and keeps the stored file type when the mode is set |
| Namespace.SetattrKeepsType | cortxfs/src/cortxfs/cortxfs_ops.c:92-95 | a permission-only mode request never changes the object's file type |
| Namespace.SetattrIdempotent | cortxfs/src/cortxfs/cortxfs_ops.c:88-128 | applying the same setattr twice with the same clock reading is the same as applying it once |
| Namespace.Setattr | cortxfs/src/cortxfs/cortxfs_ops.c:64-136 | an empty request changes nothing; otherwise setattr succeeds exactly when the stat is stored (and, in kvsns, the caller may write it), and fails only with ENOENT or EPERM |
| Namespace.CreateAfterChecks | cortxfs/src/cortxfs/cortxfs_internal.c:598-683 | the all-or-nothing reading of the writes after the checks: success exactly when the parent is stored and may be amended, with the next inode number handed out and left as the counter; a failure is ENOENT or EINVAL with no state |
| Namespace.CreateSteps | cortxfs/src/cortxfs/cortxfs_internal.c:598-683 | the writes after the checks, in the code's order: success exactly when the parent is stored and may be amended; kvsns fails with nothing written; a cortxfs/efs failure at the parent (ENOENT or EINVAL) keeps the counter, the attached name and the new stat |
| Namespace.ParentFlags | cortxfs/src/cortxfs/cortxfs_internal.c:675-682 | creation always stamps the parent's ctime and mtime, never decrements it, and adds a link exactly for a new directory in cortxfs/efs |
| Namespace.CreateChecks | cortxfs/src/cortxfs/cortxfs_internal.c:582-597 | the pre-checks pass exactly for a non-empty, well-formed, untaken name with a target when a symlink is asked for; empty name and missing target are EINVAL, a bad name keeps its name-check error |
| Namespace.CreateEntryAsWritten | cortxfs/src/cortxfs/cortxfs_internal.c:562-696 | the code as written creates only when the checks pass against a full lookup; a failed check changes nothing; a success is exactly the all-or-nothing result; and in cortxfs/efs a failure at the parent keeps the name attached to the new inode |
| Namespace.CreateEntry | cortxfs/src/cortxfs/cortxfs_internal.c:562-696 | the intended create, all or nothing: it refuses an empty name and a symlink without target with EINVAL, keeps the name-check error, refuses an existing name with EEXIST, and on success adds exactly the new dentry, the new stat, the symlink text and the stamped parent, leaving every other stat and object alone |
| Namespace.CreateEffect | cortxfs/src/cortxfs/cortxfs_internal.c:598-683 | a successful creation leaves the counter at the new inode, the new dentry, a fresh stat, the parent stamped and linked as its fork demands, and every other record unchanged |
| Namespace.CreateOverwritesUnreadableName | cortxfs/src/cortxfs/cortxfs_internal.c:594-597 | when the caller cannot read the parent, the code as written goes on past an existing name, re-pointing it to a new inode |
| Namespace.CreateAgreesWhenReadable | cortxfs/src/cortxfs/cortxfs_internal.c:594-597 | whenever the caller may read the parent, the code as written and the intended create give the same result |
| Namespace.MkdirAtMaxLinkKeepsEntry | cortxfs/src/cortxfs/cortxfs_internal.c:598-684 | mkdir under a cortxfs/efs parent at MAX_LINK fails with EINVAL as written yet leaves the name attached to a new directory inode with its stat stored, because the transaction calls roll nothing back; the all-or-nothing create fails with nothing written |
| Namespace.LinkAsWritten | cortxfs/src/cortxfs/cortxfs_ops.c:338-387 | the code as written links only when the lookup probe fails; an access error or a found name changes nothing; past the probe the name is attached whatever happens next; on a free name its all-or-nothing reading is the intended link |
| Namespace.Link | cortxfs/src/cortxfs/cortxfs_ops.c:338-387 | the intended link, all or nothing: it keeps the WRITE access error on the target directory, refuses an existing name with EEXIST, and on success adds exactly the new dentry, increments the inode's link count (mod 2^64) and stamps its ctime, leaving objects and symlinks alone |
| Namespace.LinkSteps | cortxfs/src/cortxfs/cortxfs_ops.c:338-387 | the writes of link in the code's order: the name is always attached; the object's stat is then amended (ENOENT without a stat, EINVAL at MAX_LINK in cortxfs/efs) with the stats unchanged on failure; objects and symlinks are never touched |
| Namespace.LinkStampsDirOnlyInCortxfs | efs/src/efs/efs_ops.c:256-290 | cortxfs stamps the target directory's mtime on link, efs leaves its stat untouched |
| Namespace.LinkOverwritesUnreadableName | cortxfs/src/cortxfs/cortxfs_ops.c:355-359 | for a writable but unreadable directory, the intended link refuses an existing name with EEXIST while the code as written re-points it to the linked inode |
| Namespace.LinkAtMaxLinkKeepsEntry | cortxfs/src/cortxfs/cortxfs_ops.c:338-387 | linking a cortxfs/efs object at MAX_LINK fails with EINVAL as written after attaching the new name, which then names the object; the intended link fails with nothing written |
| Removal.RemoveDentry | cortxfs/src/cortxfs/cortxfs_ops.c:743-744 | detaching a name succeeds exactly when the dentry exists, removes only that dentry, and otherwise fails with ENOENT |
| Removal.DetachAsWritten | cortxfs/src/cortxfs/cortxfs_ops.c:719-763 | detach as written: a refused access or missing dentry changes nothing; otherwise the dentry is gone whatever follows; the stored stats' keys, objects and symlinks are kept, and a failure after the dentry is removed is EINVAL (link bound) or ENOENT (no stat) with the stats unchanged |
| Removal.Detach | cortxfs/src/cortxfs/cortxfs_ops.c:719-763 | the all-or-nothing reading of detach: it needs DELETE_ENTITY access on the parent and an existing dentry, removes exactly that dentry, takes one link from the object, keeps the set of stored stats and the data objects, and succeeds whenever access, dentry and the link bound allow |
| Removal.DetachAtZeroLinksDropsName | cortxfs/src/cortxfs/cortxfs_ops.c:743-750 | detaching a name of an object already at zero links fails with EINVAL as written after the name is gone, while the all-or-nothing detach fails with nothing removed |
| Removal.DestroyOrphanedFile | cortxfs/src/cortxfs/cortxfs_ops.c:394-454 | a file with no stat is ENOENT and one that still has links succeeds, both with nothing changed; at zero links its stat goes, and with it the symlink text of a symlink or the data object of a regular file, the dentries untouched; a missing text or object is ENOENT with the stat already deleted |
| Removal.UnlinkKeepsLinkedObject | cortxfs/src/cortxfs/cortxfs_ops.c:700-717 | unlinking one of several links removes only that name and one link; the object's stat and data survive |
| Removal.UnlinkLastLinkDestroys | cortxfs/src/cortxfs/cortxfs_ops.c:700-717 | unlinking the last link of a regular file removes its stat and its data object |
| Removal.LinkUnlinkRoundTrip | cortxfs/src/cortxfs/cortxfs_ops.c:338-387 | link followed by unlink of the new name restores the directory entries and the object's link count |
| Removal.RmdirChecks | cortxfs/src/cortxfs/cortxfs_ops.c:639-655 | rmdir's checks pass exactly when the caller may write the parent, the name looks up and the directory has no entries, and then yield the looked-up inode with the parent stored |
| Removal.RmdirSteps | cortxfs/src/cortxfs/cortxfs_ops.c:659-680 | rmdir's writes in the code's order: a missing dentry is ENOENT with nothing changed; otherwise the name is removed whatever follows, the directory's stat is gone unless a kvsns step failed, symlinks are untouched, no stat is added, and any error is ENOENT or EINVAL |
| Removal.RmdirAsWritten | cortxfs/src/cortxfs/cortxfs_ops.c:621-698 | as written a failed check changes nothing; past the checks the name and stat are removed step by step with no rollback, and in cortxfs/efs a failing step still reports success (the discard's result overwrites the error); a success agrees with the intended rmdir exactly when that one succeeds, and an error is the intended rmdir's error |
| Removal.Rmdir | cortxfs/src/cortxfs/cortxfs_ops.c:621-698 | the intended rmdir, all or nothing: it needs WRITE access and a successful lookup, refuses a directory with entries with ENOTEMPTY, and on success removes the dentry and the directory's stat and takes one link from the parent (kvsns: stamps it only) |
| Removal.RmdirAsWrittenHidesFailure | cortxfs/src/cortxfs/cortxfs_ops.c:684-690 | rmdir of ".." at the root of an empty file system reports success as written with nothing changed, while the intended rmdir reports ENOENT |
| Removal.CortxfsRmdirWithoutObjectId | cortxfs/src/cortxfs/cortxfs_ops.c:676-690 | a cortxfs directory with no object id is removed as written with success reported, its name and stat gone and the parent one link down, while the all-or-nothing rmdir reports ENOENT |
| Removal.EfsRmdirRemovesEmptyDir | efs/src/efs/efs_ops.c:494-552 | efs rmdir of an empty directory the caller may look up in a writable parent succeeds, removes exactly that name and that inode, and takes one link from the parent |
| Removal.EfsMkdirFacts | efs/src/efs/efs_ops.c:152-158 | after efs mkdir the name looks up to a new, empty directory, the parent stays writable and gains one link, and only the new inode joins the stats |
| Removal.MkdirRmdirRoundTrip | efs/src/efs/efs_ops.c:494-552 | a directory created and then removed leaves the namespace, the set of inodes and the parent's link count as before |
| Removal.ZeroFirst | src/kvsns/kvsns/kvsns_handle.c:539-545 | zeroing the first occurrence keeps the list length, changes at most entries equal to the directory, and leaves a list without it unchanged |
| Removal.KvsnsDropLink | src/kvsns/kvsns/kvsns_handle.c:518-555 | with one parent the parent list and stat go and an open file is marked opened-and-deleted; otherwise the directory is zeroed in the parent list and the link count drops by one (mod 2^64); dentries, objects and symlinks are untouched |
| Removal.KvsnsUnlinkMeta | src/kvsns/kvsns/kvsns_handle.c:516-574 | the metadata transaction of unlink removes exactly the dentry, never touches data objects, and drops the last link's stat and parent list or one parent of several |
| Removal.KvsnsUnlinkAsWritten | src/kvsns/kvsns/kvsns_handle.c:576-578 | the code as written succeeds exactly when the intended unlink does, and deletes the data object of every closed file it unlinks |
| Removal.KvsnsUnlink | src/kvsns/kvsns/kvsns_handle.c:469-587 | unlink succeeds only after a successful lookup, removes exactly the dentry, and keeps the data object exactly when the file is open or another link remains |
| Removal.ReadTwoParents | src/kvsns/kvsns/kvsns_handle.c:501-505 | a stored two-parent list reads back as exactly those two parents |
| Removal.KvsnsUnlinkDropsSharedData | src/kvsns/kvsns/kvsns_handle.c:576-578 | unlinking one of two names of a closed file deletes the data the other name still reaches as written, and keeps it in the intended unlink |
| Removal.KvsnsUnlinkDropsOneParent | src/kvsns/kvsns/kvsns_handle.c:538-555 | unlinking one of two names leaves the other parent as the only one in the list read back, and the file keeps its stat |
| Removal.Kvsns2Unlink | src/kvsns/kvsns/kvsns_handle.c:589-685 | a refused access or lookup changes nothing; otherwise the tree unlink removes the dentry, deletes the stat at the last link (marking an open file), otherwise drops the link count by one, keeps the data while the file is open or still linked, and fails (ENOENT) exactly for a symlink without its text or for the last link of a closed non-symlink whose data object extstore_ino_to_fid cannot find, with the writes made before the failure kept |
| Removal.Kvsns2UnlinkSucceeds | src/kvsns/kvsns/kvsns_handle.c:589-685 | for an existing non-symlink the caller may look up in a directory it may write, the tree unlink succeeds exactly when the data object exists, the file is open, or this is not its last link |
| Removal.Kvsns2UnlinkMissingObjectFails | src/kvsns/kvsns/kvsns_handle.c:633-675 | the last unlink of a closed regular file with no data object fails with ENOENT at extstore_ino_to_fid, after the name and the stat are removed and the directory's times are stamped |
| Removal.Kvsns2UnlinkKeepsDetachOnFailure | src/kvsns/kvsns/kvsns_handle.c:633-685 | unlinking the last name of a symlink whose text is missing fails with ENOENT after the name and the stat are already gone |
| Rename.RenameLink | cortxfs/src/cortxfs/cortxfs_internal.c:477-520 | an in-place rename succeeds exactly when the old name exists in a stored directory; a missing name changes nothing; otherwise the entry is moved to the new name even when the directory stat is missing (ENOENT), every link count, stat key and object is kept, and on success the directory's ctime is stamped |
| Rename.Destination | cortxfs/src/cortxfs/cortxfs_ops.c:508-517 | a given destination is used as is; otherwise a found name is the destination, ENOENT means there is none (and then the name is absent), and any other lookup error ends the rename |
| Rename.ClearDestination | cortxfs/src/cortxfs/cortxfs_ops.c:519-571 | an existing destination of the other kind (directory vs. not) is ENOTDIR, a non-empty directory destination is EEXIST, nothing is changed unless the destination is clearable, and clearing succeeds only when source and destination are of the same kind; in the intended reading a failed clearing changes nothing |
| Rename.MoveEntry | cortxfs/src/cortxfs/cortxfs_ops.c:579-605 | moving the entry removes the source name and attaches it under the chosen directory; a moved directory shifts one link from the decremented node to the destination directory; objects, the set of stats and every other stat are unchanged |
| Rename.RenameAsWritten | cortxfs/src/cortxfs/cortxfs_ops.c:456-619 | a refused access on the source directory changes nothing; for efs moving to a fresh name, the code as written is the intended rename |
| Rename.Rename | efs/src/efs/efs_ops.c:352-492 | rename needs DELETE_ENTITY on the source directory and CREATE_ENTITY on a different destination directory (a refusal changes nothing) and a source that looks up, and moving to a fresh name leaves the namespace with the source name gone and the destination name pointing to the source inode |
| Rename.CortxfsRenameLosesEntry | cortxfs/src/cortxfs/cortxfs_ops.c:594-595 | moving a file to a fresh name in another cortxfs directory attaches it under a stale node as written, so the destination directory never gets the entry; the intended rename puts it there |
| Rename.CortxfsRenameDecrementsMovedDir | cortxfs/src/cortxfs/cortxfs_ops.c:597-603 | moving a directory between cortxfs directories takes the ".." link from the moved directory as written, leaving the source directory's count unchanged; the intended rename takes it from the source directory |
| Rename.RenameFailureKeepsClearedDestination | efs/src/efs/efs_ops.c:438-466 | rename has no transaction: an in-place rename whose source name is gone fails with ENOENT after the existing file destination was already detached |
| Rename.RenameConservesLinks | efs/src/efs/efs_ops.c:472-478 | a directory moved between directories keeps the sum of the two directories' link counts: the source loses what the destination gains |
| Rename.RenameRoundTrip | cortxfs/src/cortxfs/cortxfs_ops.c:456-619 | renaming to a fresh name and back restores the directory entries |
| Rename.OpenDestinationSurvives | cortxfs/src/cortxfs/cortxfs_ops.c:607-613 | an overwritten file whose last link was the destination is destroyed exactly when the caller does not mark it open |
| Rename.KvsnsRename | src/kvsns/kvsns/kvsns_handle.c:687-790 | a refused access changes nothing; kvsns rename needs the source name, and moving to a fresh name in another directory moves only the dentry, with every stat, link count included, left as it was; a failing kvsns2_unlink of a file destination stops the rename with that error |
| Rename.KvsnsRenameStopsOnMissingDestinationData | src/kvsns/kvsns/kvsns_handle.c:761-768 | renaming onto the last link of a closed file whose data object is missing fails with ENOENT from kvsns2_unlink: the destination name is gone and the source name stays |
| Rename.KvsnsRenameKeepsLinkCounts | src/kvsns/kvsns/kvsns_handle.c:776-783 | moving a directory in kvsns leaves both parents' stats unchanged, where cortxfs and efs move its ".." link |
| MdXattr.KeyDynSize | nsal/src/metadata/md_xattrs.c:61-63 | a stored key is the prefix, a length byte, the name and its terminator, and for a name within NAME_MAX never exceeds the fixed key structure |
| MdXattr.InitKeyAsWritten | nsal/src/metadata/md_xattrs.c:65-89 | as written the key is built for every name, holds the given object and a prefix of the name |
| MdXattr.LongNameSharesKey | nsal/src/metadata/md_xattrs.c:69-77 | a name longer than NAME_MAX is accepted as written and gets the same key as its (different) prefix of length modulo 256 |
| MdXattr.InitKey | nsal/src/metadata/md_xattrs.c:65-89 | the key is built exactly when the name is at most NAME_MAX long, otherwise ENAMETOOLONG, and always fits the key structure |
| MdXattr.InitKeyInjective | nsal/src/metadata/md_xattrs.c:65-89 | two accepted (object, name) pairs share a key exactly when they are equal |
| MdXattr.InitKeyAgreesOnShortNames | nsal/src/metadata/md_xattrs.c:65-89 | on names within NAME_MAX the code as written and the checked version build the same key |
| MdXattr.MdSet | nsal/src/metadata/md_xattrs.c:91-123 | the intended md_xattr_set, over the checked InitKey: setting succeeds exactly for a value within MD_XATTR_SIZE_MAX and a name within NAME_MAX (ERANGE first, then ENAMETOOLONG), stores exactly that key's value and leaves every other attribute alone |
| MdXattr.MdGet | nsal/src/metadata/md_xattrs.c:125-156 | the intended md_xattr_get, over the checked InitKey: reading succeeds exactly when the name is valid and stored, returns the stored value, and otherwise gives ENAMETOOLONG or ENOENT |
| MdXattr.MdExists | nsal/src/metadata/md_xattrs.c:158-184 | the intended md_xattr_exists, over the checked InitKey: a name above NAME_MAX is ENAMETOOLONG, and for a name within it the answer is whether the attribute is stored; a missing one is "false", not an error |
| MdXattr.MdDelete | nsal/src/metadata/md_xattrs.c:186-211 | the intended md_xattr_delete, over the checked InitKey: deleting succeeds exactly for a stored name within NAME_MAX (ENAMETOOLONG above it, else ENOENT) and removes only that attribute |
| MdXattr.StoredName | nsal/src/metadata/md_xattrs.c:69-77 | the name a key holds as written is a prefix of the given name, and the whole name when it is within NAME_MAX |
| MdXattr.MdSetAsWritten | nsal/src/metadata/md_xattrs.c:91-123 | as written, setting fails only with ERANGE for a value above MD_XATTR_SIZE_MAX, never for the name, and stores the value under the key of the name cut to its length mod 256, leaving every other attribute alone |
| MdXattr.MdGetAsWritten | nsal/src/metadata/md_xattrs.c:125-156 | as written, reading never gives ENAMETOOLONG: it returns the value stored under the cut name's key, or ENOENT |
| MdXattr.MdExistsAsWritten | nsal/src/metadata/md_xattrs.c:158-184 | as written, exists always answers, and the answer is whether the cut name's key is stored |
| MdXattr.MdDeleteAsWritten | nsal/src/metadata/md_xattrs.c:186-211 | as written, deleting removes exactly the cut name's key when it is stored, and is ENOENT otherwise |
| MdXattr.AsWrittenAgreesOnShortNames | nsal/src/metadata/md_xattrs.c:65-211 | on names within NAME_MAX, set, get, exists and delete as written equal the intended calls |
| MdXattr.LongNameActsOnPrefix | nsal/src/metadata/md_xattrs.c:65-211 | a name above NAME_MAX is ENAMETOOLONG for the intended get and delete, while as written all four calls act on a different, shorter name: its prefix of length mod 256 |
| MdXattr.LongSetOverwritesEmptyName | nsal/src/metadata/md_xattrs.c:69-123 | as written, setting an attribute with a 256-character name overwrites the object's attribute with the empty name |
| MdXattr.GetAfterSet | nsal/src/metadata/md_xattrs.c:91-156 | a value set reads back, and every other attribute keeps its value |
| MdXattr.DeleteThenAbsent | nsal/src/metadata/md_xattrs.c:158-211 | after a delete the name does not exist, and deleting it again gives ENOENT |
| MdXattr.PackedLength | nsal/src/metadata/md_xattrs.c:252-253 | the packed form of a prefix of the name list is never longer than that of the whole list |
| MdXattr.FirstNul | nsal/src/metadata/md_xattrs.c:265-268 | the position found is the first terminator of the buffer, or its end when there is none |
| MdXattr.UnpackPacked | nsal/src/metadata/md_xattrs.c:265-269 | a list of terminator-free names packed as consecutive C strings reads back as the same names |
| MdXattr.MdList | nsal/src/metadata/md_xattrs.c:213-294 | a size above MD_XATTR_SIZE_MAX is E2BIG; size 0 returns ERANGE with the name count and the packed length; a list that fits is copied whole; one that does not is ERANGE with the offset that overflowed |
| Xattr.InoToOid | cortxfs/src/cortxfs/cortxfs_internal.c:729-764 | an inode has an object id exactly when its data object is recorded, and ENOENT otherwise |
| Xattr.SetXattr | cortxfs/src/cortxfs/cortxfs_xattr.c:31-78 | the intended setxattr, over the intended MdExists and MdSet (a name above NAME_MAX is refused): unknown flags are EINVAL; XATTR_CREATE succeeds only on a missing name and XATTR_REPLACE only on an existing one; success stores the value as md_xattr_set does, and with access, object and flag condition met the store decides |
| Xattr.GetXattr | efs/src/efs/efs_xattr.c:80-118 | the intended getxattr, over the intended MdGet: reading succeeds exactly when (efs only) the caller may read, the object exists, the attribute is stored and fits the caller's buffer, and returns the stored value |
| Xattr.RemoveXattr | cortxfs/src/cortxfs/cortxfs_xattr.c:117-135 | the intended removexattr, over the intended MdDelete: removing succeeds exactly when the caller may write, the object exists and the attribute is stored, and removes only that attribute |
| Xattr.DestroyedFileAttributesLinger | cortxfs/src/cortxfs/cortxfs_xattr.c:137-140 | after unlinking the last link of a regular file its stat and object are gone, yet remove_all leaves every attribute it had readable under its old id |
| Xattr.RemoveAllKeepsAttributes | cortxfs/src/cortxfs/cortxfs_xattr.c:137-140 | an attribute stored before remove_all is still stored after it |
| Xattr.ListXattr | cortxfs/src/cortxfs/cortxfs_xattr.c:142-167 | listing needs READ access and the object, keeping their errors, and on success lists the object's names as md_xattr_list does |
| Xattr.SetThenGet | efs/src/efs/efs_xattr.c:31-118 | a value set is read back by a caller allowed to read in efs, and by anyone in cortxfs |
| Xattr.GetXattrSkipsAccessInCortxfs | cortxfs/src/cortxfs/cortxfs_xattr.c:80-115 | cortxfs hands an attribute to a caller that efs refuses with EPERM |
| BlockIo.Lower | src/kvsns/common/mero/m0common.c:1355-1358 | the lower boundary is the block boundary at or below x, less than one block below it |
| BlockIo.Upper | src/kvsns/common/mero/m0common.c:1360-1363 | the upper boundary is the next block boundary strictly above x, exactly one block above the lower one |
| BlockIo.LowerGap | src/kvsns/common/mero/m0common.c:1355-1358 | two offsets with different lower boundaries have those boundaries at least one block apart |
| BlockIo.Split | src/kvsns/common/mero/m0common.c:1387-1498 | the range is an insider exactly when both ends share a block; otherwise there is a head block exactly when x1 is unaligned, a tail block exactly when x2 is unaligned, and the aligned run between them is a whole number of blocks within [x1, x2] |
| BlockIo.StepsCoverRange | src/kvsns/common/mero/m0common.c:1500-1676 | the head, the aligned run and the tail (or the insider step) together account for every byte of the range exactly once |
| BlockIo.TailSource | src/kvsns/common/mero/m0common.c:1582 | the intended buffer offset of the tail's bytes is where they end the caller's buffer: head and aligned run before them |
| BlockIo.TailSourceOverrunsBuffer | src/kvsns/common/mero/m0common.c:1582 | with a head block and an aligned run, the offset as written is the intended one plus the head length, and with a tail block it reads or writes past the end of the caller's buffer |
| BlockIo.TailSourceOverrunExample | src/kvsns/common/mero/m0common.c:1582 | for block size 4, offset 1 and length 10, the tail's 3 bytes are at buffer offset 7 but the code as written uses offset 10 |
| BlockIo.TailSourceAgreesWithoutHead | src/kvsns/common/mero/m0common.c:1542-1582 | without a head block or without an aligned run, the offset as written is the intended one |
| BlockIo.PatchBlock | src/kvsns/common/mero/m0common.c:1501-1544 | a read-modify-write of one block changes exactly the bytes it copies in and keeps every other byte of the object |
| BlockIo.WriteAligned | src/kvsns/common/mero/m0common.c:1176-1243 | writing n whole blocks from a boundary changes exactly the bytes of that range to the data, and no other byte |
| BlockIo.ReadAligned | src/kvsns/common/mero/m0common.c:1245-1327 | reading n whole blocks from a boundary returns exactly the object's bytes of that range |
| BlockIo.WriteRange | src/kvsns/common/mero/m0common.c:1366-1679 | the intended write, with the tail taken at the corrected buffer offset of the m0common.c:1582 finding: a write of a buffer at x leaves [x, x+len) holding the buffer and every other byte as it was, whatever the alignment |
| BlockIo.ReadRange | src/kvsns/common/mero/m0common.c:1366-1679 | the intended read, with the tail placed at the corrected buffer offset of the m0common.c:1582 finding: a read at x returns exactly the object's bytes of [x, x+len), whatever the alignment |
| BlockIo.DoIo | src/kvsns/common/mero/m0common.c:1366-1679 | the intended I/O of the m0common.c:1582 finding (corrected tail offset): a failed scratch allocation is ENOMEM with nothing changed; otherwise the call returns the length, a read returns the range and changes nothing, and a write leaves the range holding the buffer and every other byte as it was |
| BlockIo.FidToString | src/kvsns/common/mero/m0common.c:1161-1174 | a printer error is passed through; otherwise the text is the printed id and the length returned counts its terminating NUL |
| DataStore.CeilBlocks | dsal/src/dstore/plugins/cortx/cortx_dstore.c:186 | the rounded-up block count is the fewest blocks that hold the size |
| DataStore.FloorBlocks | dsal/src/dstore/plugins/cortx/cortx_dstore.c:201 | the rounded-down block count is the number of whole blocks inside the size |
| DataStore.UpdateStat | dsal/src/dstore/plugins/cortx/cortx_dstore.c:166-209 | a missing stat or unknown kind is EINVAL; a write stamps mtime and ctime and grows the size to the write's end only when it reaches further; a read stamps only atime; a truncate sets the size and stamps ctime and mtime |
| DataStore.WriteStatGrowsOnly | dsal/src/dstore/plugins/cortx/cortx_dstore.c:180-187 | a write never shrinks the recorded size, and records the end of the extent whenever that reaches further |
| DataStore.WriteBlocksDiverge | kvsfs-ganesha/src/kvsns/extstore/mero/extstore.c:78-84 | growing an empty file to 1 byte gives it one block in the dsal plugins and none in extstore, which rounds down |
| DataStore.Bytes | dsal/src/dstore/plugins/cortx/cortx_dstore.c:313-314 | a read of count bytes returns exactly count bytes |
| DataStore.Splice | dsal/src/dstore/plugins/cortx/cortx_dstore.c:330-362 | after a write the extent holds the buffer, every other byte is unchanged, and the object reaches at least the extent's end |
| DataStore.Unmap | dsal/src/dstore/plugins/cortx/cortx_dstore.c:364-410 | after unmapping a range it reads as zeros, the rest is unchanged and the object keeps its length |
| DataStore.ObjWrite | dsal/src/dstore/plugins/cortx/cortx_dstore.c:330-362 | a write succeeds exactly when the object exists (ENOENT otherwise), writes the whole buffer, changes only that object's extent, and returns a stat whose size covers the extent with the write's mtime |
| DataStore.ObjReadAsWritten | dsal/src/dstore/plugins/eos/eos_dstore.c:138-168 | eos and extstore read count bytes regardless of the size and leave the caller's end-of-file flag as it was; cortx on an empty file or past the end returns nothing and also leaves the flag |
| DataStore.CortxObjRead | dsal/src/dstore/plugins/cortx/cortx_dstore.c:276-304 | a read never returns bytes past the recorded size, reports end of file exactly when the request reaches the size, returns the object's bytes, and fails with ENOENT only for a missing object inside a non-empty file |
| DataStore.CortxReadLeavesEofUnset | dsal/src/dstore/plugins/cortx/cortx_dstore.c:293-296 | a read of an empty file leaves a false end-of-file flag false as written, where the described behaviour reports end of file |
| DataStore.ReadAfterWrite | dsal/src/dstore/plugins/cortx/cortx_dstore.c:270-362 | reading back what was just written, with the stat the write returned, gives the written bytes in every plugin |
| DataStore.ObjResize | dsal/src/dstore/plugins/cortx/cortx_dstore.c:364-410 | equal or growing sizes change nothing; shrinking succeeds exactly for an existing object, zeroes the bytes from the new size up to the old one and keeps the rest |
| DataStore.ResizeKeepsPrefix | dsal/src/dstore/plugins/cortx/cortx_dstore.c:364-410 | after shrinking, the bytes below the new size read as before |
| DataStore.ObjDelete | dsal/src/dstore/plugins/cortx/cortx_dstore.c:243-268 | deleting removes the object; only the cortx plugin reports ENOENT for a missing one |
| DataStore.DeleteTwiceDiverges | dsal/src/dstore/plugins/eos/eos_dstore.c:110-136 | a second delete of the same object fails in cortx and succeeds in eos and extstore |
| DataStore.ExtstoreDelV1 | kvsfs-ganesha/src/kvsns/extstore/mero/extstore.c:234-272 | no data mapping, or a mapping whose object is missing, leaves everything unchanged; otherwise the object and its mapping are removed |
| DataStore.ExtstoreTruncateV1 | kvsfs-ganesha/src/kvsns/extstore/mero/extstore.c:424-435 | a missing handle or stat is EINVAL; otherwise only the recorded size changes, to the requested one |
| DataStore.IoBufInit | dsal/src/dsal/dstore_bufvec.c:22-45 | the buffer is built exactly when allocation succeeds (ENOMEM otherwise) and holds the data, size and offset given |
| DataStore.IoBuf2Vec | dsal/src/dsal/dstore_bufvec.c:63-89 | on success the buffer is consumed and the vector holds it; on ENOMEM the caller keeps the buffer unchanged |
| DataStore.IoBufRoundTrip | dsal/src/dsal/dstore_bufvec.c:22-89 | a vector built from a fresh buffer holds exactly the data, size and offset the buffer was made from |
| DataStore.DstoreInitAsWritten | dsal/src/dstore/dstore_base.c:65-71 | as written a missing type is the only configuration error, and a type selects a plugin exactly when it is a prefix of "eos" |
| DataStore.DstoreInit | dsal/src/dstore/dstore_base.c:44-86 | a missing type is refused, a plugin is selected exactly when the type names a module, and the selected plugin's init result is returned |
| DataStore.DstoreInitAcceptsPrefixes | dsal/src/dstore/dstore_base.c:65-71 | the empty type and "e" select eos as written and no plugin when the name must match, while "eos" selects eos in both |
| DataStore.DstoreInitAgreesOnNames | dsal/src/dstore/dstore_base.c:65-71 | both selections agree on every type of at least three characters |
| DataStore.ObjOpen | dsal/src/dstore/dstore_base.c:158-187 | opening succeeds exactly when the plugin's open does, keeps its error, and binds the object to the store and the id asked for |
| Fops.Creat | cortxfs/src/cortxfs/cortxfs_fops.c:30-53 | creat keeps the WRITE access error on the parent, otherwise succeeds exactly when the file entry can be created, and then adds exactly the new name, a fresh regular-file stat and an empty data object bound to the new inode |
| Fops.RollbackCreate | cortxfs/src/cortxfs/cortxfs_fops.c:80-90 | the rollback after a failed setattr or getattr removes the new name whenever the unlink gets past its access and lookup, and otherwise leaves the state as it was |
| Fops.CreatEx | cortxfs/src/cortxfs/cortxfs_fops.c:55-95 | creat_ex fails with creat's error when creat fails, succeeds only after creat, returns the new inode with its final stat, and on a later failure returns the rolled-back state |
| Fops.CreatExNeverRollsBackInDsal | cortxfs/src/cortxfs/cortxfs_fops.c:55-95 | in cortxfs and efs, creat_ex succeeds whenever creat does: the owner's setattr cannot be refused, so there is never a rollback |
| Fops.KvsnsCreatExRollsBack | src/kvsns/kvsns/kvsns_file.c:65-99 | in kvsns a file created without owner write permission is refused with EPERM by the setattr and the rollback removes its name again |
| Fops.KvsnsNewFileRefusesSetattr | src/kvsns/kvsns/kvsns_file.c:79-82 | the kvsns setattr that follows a creat without owner write permission on the new file is refused with EPERM |
| Fops.KvsnsNewFileLooksUp | src/kvsns/kvsns/kvsns_file.c:79-80 | after a kvsns creat the name looks up to the new inode, the parent stays writable for the caller, and the new file is not a symlink |
| Fops.KvsnsRollbackRemovesName | src/kvsns/kvsns/kvsns_file.c:90-97 | the rollback of a refused kvsns creat_ex unlinks the name again, leaving the directory entries as they were before the creat |
| FopsIo.WriteWith | kvsfs-ganesha/src/kvsns/kvsns/kvsns_file.c:298-335 | a missing object is ENOENT with nothing changed; with the access check a write succeeds exactly when the caller may write and changes nothing on failure; without it the write succeeds whenever object and stat exist; success writes the extent and updates size, blocks and times as the plugin does |
| FopsIo.Write | cortxfs/src/cortxfs/cortxfs_fops.c:97-145 | a write succeeds exactly when the object exists and the caller may write, changes nothing on failure, and on success leaves the extent holding the buffer, the size grown to its end and mtime/ctime stamped, returning the byte count |
| FopsIo.UncheckedWriteIgnoresMode | src/kvsns/kvsns/kvsns_file.c:244-281 | the first kvsns interface writes for a caller that the checked write refuses with EPERM |
| FopsIo.WriteSizeMonotone | cortxfs/src/cortxfs/cortxfs_fops.c:97-145 | two writes in a row never make the recorded size go down |
| FopsIo.ReadWith | src/kvsns/kvsns/kvsns_file.c:283-308 | a read needs the object and the stat (and, when checked, READ access), fails only with ENOENT or EPERM, returns the object's bytes within the recorded size and stamps only atime |
| FopsIo.Read | cortxfs/src/cortxfs/cortxfs_fops.c:189-224 | a read succeeds exactly when the object exists and the caller may read, returns at most count bytes, each the object's byte at that offset, and changes no data |
| FopsIo.ReadAfterWrite | cortxfs/src/cortxfs/cortxfs_fops.c:97-224 | reading back the extent just written returns the written bytes in every fork and with every plugin |
| FopsIo.Truncate | cortxfs/src/cortxfs/cortxfs_fops.c:147-187 | truncate succeeds exactly when stat and object exist (ENOENT otherwise); the stat takes the new size, blocks rounded up, mtime and ctime stamped unless the caller sets mtime, keeps its link count, and the object keeps its bytes below the new size with the cut-off range zeroed |
| FopsIo.TruncateBlocksCoverSize | cortxfs/src/cortxfs/cortxfs_fops.c:163 | after a truncate the recorded blocks hold the size with no whole block spare |
| FopsIo.TruncateKeepsPrefix | cortxfs/src/cortxfs/cortxfs_fops.c:180-182 | after a truncate, bytes below the new size read as before |
| FopsOpen.Open | kvsfs-ganesha/src/kvsns/kvsns/kvsns_file.c:113-149 | open adds the caller as an owner of the inode (the file is then open), fills the descriptor, and changes nothing else |
| FopsOpen.Close | kvsfs-ganesha/src/kvsns/kvsns/kvsns_file.c:185-253 | closing without an owner record is EBADF; otherwise the owner is removed; the last close of a file unlinked while open drops its marker and its data (ENOENT if it has none), any other close keeps the data |
| FopsOpen.OpenCloseRoundTrip | kvsfs-ganesha/src/kvsns/kvsns/kvsns_file.c:113-253 | open followed by close by a new owner restores the state |
| FopsOpen.CloseTwiceIsBadFd | kvsfs-ganesha/src/kvsns/kvsns/kvsns_file.c:185-253 | a second close of the same descriptor is EBADF |
| FopsOpen.UnlinkWhileOpenThenClose | kvsfs-ganesha/src/kvsns/kvsns/kvsns_file.c:185-253 | unlinking the last name of an open file keeps its data and marks it; the last owner's close then deletes the data |
| FopsOpen.DisabledCloseKeepsUnlinkedData | src/kvsns/kvsns/kvsns_file.c:218-240 | the last close of a file unlinked while open deletes its data and mark with open support, and keeps both in the build without it |
| FopsOpen.IsOpenStubMatchesStore | src/kvsns/kvsns/kvsns_file.c:230-235 | with no owner recorded, the intended stub agrees with the store that the file is not open, and the stub as written disagrees exactly when the caller's flag held true |
| FopsOpen.IsOpenStubLeavesFlag | src/kvsns/kvsns/kvsns_file.c:233 | a caller whose flag held true reads "open" as written and "not open" from the intended stub |
| FsRegistry.Lookup | efs/src/fs/fs.c:56-89 | lookup succeeds exactly when some file system has the name, returns the position of one that does, and is ENOENT otherwise |
| FsRegistry.Create | efs/src/fs/fs.c:329-427 | a taken name is EEXIST with nothing changed; creation succeeds exactly when the name is free, alphanumeric, the node is allocated and the tree is created; success puts the new file system, unexported, at the head of the list under the id the namespace counter hands out |
| FsRegistry.EndpointCreate | efs/src/fs/fs.c:429-471 | exporting an unknown file system is ENOENT and an exported one EEXIST, both with nothing changed; it succeeds exactly for a known unexported file system when driver and allocation succeed, which then carries the new tenant |
| FsRegistry.EndpointDelete | efs/src/fs/fs.c:473-519 | withdrawing the export of an unknown or unexported file system is ENOENT; on success the file system forgets its tenant and the tenant record is removed; a failure changes nothing |
| FsRegistry.Delete | efs/src/fs/fs.c:521-565 | deleting an unknown name is ENOENT, an exported one EINVAL; success removes exactly that file system from the list and its namespace record |
| FsRegistry.EndpointScan | efs/src/fs/fs.c:305-327 | the callback sees exactly the exported file systems in list order; a success means it accepted all of them, a failure is the result for the last one it saw |
| FsRegistry.CreatePreservesValid | efs/src/fs/fs.c:329-427 | while the namespace counter has not wrapped, creation keeps names and ids distinct and the new file system is found by name first |
| FsRegistry.EndpointCreateDeleteRoundTrip | efs/src/fs/fs.c:429-519 | exporting a file system and then withdrawing the export restores the list and the tenant index |
| FsRegistry.LookupRespectsNames | efs/src/fs/fs.c:56-89 | lookup depends on the file system names alone |
| FsRegistry.CreateDeleteRoundTrip | efs/src/fs/fs.c:329-565 | creating a file system and deleting it leaves the list as it was |
| Ns.NextId | nsal/src/namespace/ns.c:90-139 | the next id is one more than the stored counter, or NS_ID_INIT + 1 when none is stored, in 16 bits, and the counter then holds it |
| Ns.IdsCountUp | nsal/src/namespace/ns.c:109-120 | on a fresh store the first ids are 3 and 4 |
| Ns.Create | nsal/src/namespace/ns.c:157-209 | namespace creation succeeds exactly for an alphanumeric name (EINVAL otherwise) and stores the record under a fresh id |
| Ns.Delete | nsal/src/namespace/ns.c:211-243 | deletion succeeds exactly when the record exists (ENOENT otherwise) and then removes the record and the index |
| Ns.CreateFreshId | nsal/src/namespace/ns.c:157-209 | while the counter has not wrapped, a new namespace gets an id no existing namespace has |
| Ns.CreateDeleteRoundTrip | nsal/src/namespace/ns.c:157-243 | creating and then deleting a namespace restores records and indices |
| Ns.NextIdWraps | nsal/src/namespace/ns.c:120 | at 65535 the 16-bit counter wraps to 0 |
| Ns.Scan | nsal/src/namespace/ns.c:50-88 | the scan hands the callback only records of the expected size, each one from the store |
| Ns.ScanDeliversValid | nsal/src/namespace/ns.c:50-88 | every record of the expected size reaches the callback |
| Tenant.Create | nsal/src/tenant/tenant.c:127-174 | tenant creation succeeds exactly for an alphanumeric name (EINVAL otherwise) and stores the options with their length cut to 16 bits |
| Tenant.CreatedIsWellSized | nsal/src/tenant/tenant.c:90-95 | a stored tenant passes the scan's size check exactly when its options fit in 16 bits |
| Tenant.Copy | nsal/src/tenant/tenant.c:46-62 | the copy fails only with ENOMEM, keeps id, name and size, and copies a prefix of the options, all of them when the size covers them |
| Tenant.Delete | nsal/src/tenant/tenant.c:176-204 | deletion succeeds exactly when the record exists (ENOENT otherwise) and removes only it |
| Tenant.ScanAsWritten | nsal/src/tenant/tenant.c:71-108 | as written, a failure is the callback's own result for the last record it saw, a badly sized record included |
| Tenant.Scan | nsal/src/tenant/tenant.c:71-108 | the intended scan hands every record the callback sees, in order and with the caller's context, only when it is well sized, and reaches every record on success |
| Tenant.ScansAgreeOnWellSized | nsal/src/tenant/tenant.c:71-108 | on a store of well-sized records both scans give the same result and the same calls |
| Tenant.ScanAsWrittenHidesBadRecord | nsal/src/tenant/tenant.c:90-96 | a single badly sized record goes to the callback with context -1 and the scan as written succeeds, where the intended scan returns EINVAL |
| FsalHandle.Attrlist2Stat | src/nfs-ganesha/FSAL_KVSFS/handle.c:719-787 | the conversion fails exactly when a server time is wanted and the clock fails, or, in one fork, a size is set on a non-regular file; on success each requested attribute is copied with its flag raised and no other flag, the mode loses the umask, and every field not requested is zero |
| FsalHandle.Attrlist2StatFlagsAreSetattrFlags | src/nfs-ganesha/FSAL_KVSFS/handle.c:719-787 | the conversion never asks for a link change, a ctime or an attach, and asks for nothing exactly when no attribute is requested |
| FsalHandle.MaskFlagsAreSetattrFlags | src/nfs-ganesha/FSAL_KVSFS/handle.c:719-787 | the flags raised for an attribute mask never include a link change, a ctime or an attach, and are empty exactly when the mask is |
| FsalHandle.Setattrs | src/nfs-ganesha/FSAL_KVSFS/handle.c:790-835 | setattrs passes on the conversion's error, refuses a size on anything but a regular file, and otherwise truncates exactly when a size is requested |
| FsalHandle.SetattrsForksAgree | kvsfs-ganesha/src/FSAL/FSAL_KVSFS/handle.c:1061-1106 | the three plugin copies route a setattr identically except on a size for a non-regular file |
| FsalHandle.SetattrsForksDifferOnlyInError | kvsfs-ganesha/src/nfs-ganesha/FSAL_KVSFS/handle.c:878-880 | where the copies differ, both refuse: one with INVAL, the others with the file system's EPERM |
| FsalHandle.Digest | kvsfs-ganesha/src/FSAL/FSAL_KVSFS/handle.c:1237-1268 | digest serves NFSv4 only (SERVERFAULT otherwise), needs a buffer at least as long as the handle (TOOSMALL otherwise) and returns exactly the handle's bytes |
| FsalHandle.ExtractAsWritten | kvsfs-ganesha/src/FSAL/FSAL_KVSFS/handle.c:1281-1308 | as written, extract accepts any NFSv4 buffer not longer than the handle and reports the handle's full size |
| FsalHandle.Extract | src/nfs-ganesha/FSAL_KVSFS/handle.c:912-942 | extract succeeds exactly for an accepted digest type and a buffer of exactly the handle's size, whose length it passes back, and is SERVERFAULT otherwise |
| FsalHandle.ExtractAsWrittenAcceptsShortBuffer | kvsfs-ganesha/src/FSAL/FSAL_KVSFS/handle.c:1298-1306 | a short NFSv4 buffer is accepted by the extract as written with an inflated length and refused by the exact check |
| FsalHandle.ExtractsAgreeFromHandleSizeUp | kvsfs-ganesha/src/FSAL/FSAL_KVSFS/handle.c:1281-1308 | on buffers at least as long as the handle both extracts give the same answer |
| FsalHandle.DigestExtractRoundTrip | kvsfs-ganesha/src/FSAL/FSAL_KVSFS/handle.c:1237-1308 | a digested handle is extracted by the exact-size check of the intended extract with its length unchanged and still names the same file system and inode |
| FsalHandle.CreateHandle | src/nfs-ganesha/FSAL_KVSFS/handle.c:981-1030 | a descriptor of the wrong length is FAULT; otherwise the handle is made exactly when the inode exists (ENOENT otherwise) and carries its stat |
| FsalHandle.ExtractFeedsCreateHandle | src/nfs-ganesha/FSAL_KVSFS/handle.c:912-1030 | extract accepts exactly the descriptors create_handle does not refuse with FAULT |
| FsalHandle.FsalLookup | src/nfs-ganesha/FSAL_KVSFS/handle.c:88-155 | lookup under a non-directory is NOTDIR; ".." at the root is the root; any other name resolves to what the file system lookup finds, returned with its stat |
| FsalHandle.FsalLookupDotDotAtRoot | src/nfs-ganesha/FSAL_KVSFS/handle.c:118-123 | ".." at the root resolves to the root whatever the credentials and the entries |
| FsalHandle.FsalLookupAgreesElsewhere | src/nfs-ganesha/FSAL_KVSFS/handle.c:88-155 | away from ".." at the root, the plugin lookup returns what the file system lookup finds, or ENOENT when that inode has no stat |
| FsalHandle.LookupPath | src/nfs-ganesha/FSAL_KVSFS/handle.c:159-195 | only the path "/" is served (NOTSUPP otherwise), by the root's stat |
| FsalHandle.LookupPathMeetsDotDot | src/nfs-ganesha/FSAL_KVSFS/handle.c:88-195 | lookup_path "/" and ".." from the root reach the same object |
| FsalHandle.FsalRename | src/nfs-ganesha/FSAL_KVSFS/handle.c:626-678 | rename across file system contexts is XDEV with nothing changed, and only then; otherwise it leaves the state the kvsns rename leaves, succeeds exactly when that rename does, and passes its errno on as a POSIX error |
| FsalHandle.FsalRemove | kvsfs-ganesha/src/nfs-ganesha/FSAL_KVSFS/handle.c:1009-1050 | removing a directory leaves the state the kvsns rmdir as written leaves (the v1 kvsns_rmdir standing in for kvsns2_rmdir, which is declared but not defined here) and a file the state kvsns2_unlink leaves, succeeding exactly when that call does and passing its errno on; a file the caller may unlink loses its name even when the unlink then fails, as it does with ENOENT at the last link of a closed file whose data object is missing |
| FsalHandle.FsalRemoveDropsName | kvsfs-ganesha/src/nfs-ganesha/FSAL_KVSFS/handle.c:1009-1050 | after a successful remove the name is gone from the directory (for a directory, through the kvsns_rmdir stand-in) |
| FsalHandle.Open2Kvsfs | kvsfs-ganesha/src/FSAL/FSAL_KVSFS/handle.c:2122-2269 | open2 is NOTSUPP without a state and for the NFSv4.1 and 9P exclusive modes; a plain open goes by handle or name; a name is used exactly when one is given |
| FsalHandle.GuardedIsUnchecked | kvsfs-ganesha/src/FSAL/FSAL_KVSFS/handle.c:2196-2221 | GUARDED with a name is handled as UNCHECKED |
| FsalHandle.Open2Ganesha | kvsfs-ganesha/src/nfs-ganesha/FSAL_KVSFS/handle.c:1636-1727 | this open2 is NOTSUPP only without a state; a create needs a create mode and a name |
| FsalHandle.Open2ForksCompare | kvsfs-ganesha/src/FSAL/FSAL_KVSFS/handle.c:2122-2269 | both open2 copies treat plain opens alike, and only the newer copy refuses the NFSv4.1 exclusive create |
| FsalReaddir.Start | kvsfs-ganesha/src/FSAL/FSAL_KVSFS/handle.c:731-738 | the walk starts at cookie 3 with eof set; FSAL_KVSFS resumes one past the given cookie, the other copies at the cookie itself |
| FsalReaddir.Callback | kvsfs-ganesha/src/FSAL/FSAL_KVSFS/handle.c:648-717 | one entry is delivered, at the current cookie, exactly when the client still wants more, the entry is not below the resume point and its getattr succeeds; a client that stopped clears eof |
| FsalReaddir.Walk | kvsfs-ganesha/src/FSAL/FSAL_KVSFS/handle.c:648-717 | the walk delivers at most one call per entry, with cookies strictly increasing and not below the resume point, and never sets eof anew |
| FsalReaddir.Readdir | kvsfs-ganesha/src/FSAL/FSAL_KVSFS/handle.c:719-792 | a failing listing is passed on with no delivery; every delivered cookie is at least 3 and the cookies strictly increase |
| FsalReaddir.WalkDeliversSuffix | kvsfs-ganesha/src/FSAL/FSAL_KVSFS/handle.c:648-717 | when every getattr succeeds and the client always continues, FSAL_KVSFS delivers the reference listing and keeps eof |
| FsalReaddir.ReaddirListsAll | kvsfs-ganesha/src/FSAL/FSAL_KVSFS/handle.c:719-792 | a listing from the start delivers every entry in order, numbered from cookie 3, with eof set |
| FsalReaddir.ReaddirResumesAfterCookie | kvsfs-ganesha/src/FSAL/FSAL_KVSFS/handle.c:731-738 | resuming after cookie w delivers exactly the entries whose cookie is beyond w |
| FsalReaddir.StallingWalkSkipsAll | src/nfs-ganesha/FSAL_KVSFS/handle.c:499-502 | in the other copies a skipped entry does not advance the cookie, so a walk that starts below the resume point delivers nothing |
| FsalReaddir.ReaddirAsWrittenStalls | src/nfs-ganesha/FSAL_KVSFS/handle.c:499-502 | those copies, asked to resume past the first cookie, deliver nothing and report the end of the directory |
| FsalReaddir.ReaddirStopClearsEof | kvsfs-ganesha/src/FSAL/FSAL_KVSFS/handle.c:660-670 | a client that stops after the first entry gets no more, and eof holds only when that entry was the last |
| FsalReaddir.ReadSymlink | kvsfs-ganesha/src/FSAL/FSAL_KVSFS/handle.c:524-575 | readlink of a non-symlink is EINVAL; otherwise the target comes back NUL-terminated within the buffer, in full when it fits |
| FsalReaddir.ReadSymlinkStrlen | kvsfs-ganesha/src/nfs-ganesha/FSAL_KVSFS/handle.c:472-509 | this copy returns FAULT for a non-symlink and otherwise a NUL-terminated prefix of the buffer |
| FsalReaddir.ReadSymlinkCopiesAgree | kvsfs-ganesha/src/nfs-ganesha/FSAL_KVSFS/handle.c:472-509 | for a short target without its own NUL both readlink copies agree |
| FsalState.NewState | kvsfs-ganesha/src/nfs-ganesha/FSAL_KVSFS/handle.c:1394-1406 | a new file state is closed and not open |
| FsalState.Update | kvsfs-ganesha/src/nfs-ganesha/FSAL_KVSFS/handle.c:1240-1264 | the share record starts counting the new flags and stops counting the old ones; closed flags count for nothing |
| FsalState.StateOpen | src/nfs-ganesha/FSAL_KVSFS/kvsfs_internal.c:157-263 | a share conflict is SHAREDENIED with nothing changed; otherwise the state is open with the new flags on the object's inode and the share counts them |
| FsalState.StateClose | src/nfs-ganesha/FSAL_KVSFS/kvsfs_internal.c:267-295 | a failing close changes nothing; otherwise the state is closed and the share no longer counts its flags |
| FsalState.OpenCloseRoundTrip | src/nfs-ganesha/FSAL_KVSFS/kvsfs_internal.c:219-295 | opening a closed state and closing it again restores the state and the share |
| FsalState.Close2 | kvsfs-ganesha/src/nfs-ganesha/FSAL_KVSFS/handle.c:1781-1798 | close2 always reports success, with the state and share the close leaves |
| FsalState.Close2HidesCloseError | kvsfs-ganesha/src/nfs-ganesha/FSAL_KVSFS/handle.c:1794-1797 | a failing close leaves the state open while close2 reports success |
| FsalState.UnlinkReg | src/nfs-ganesha/FSAL_KVSFS/kvsfs_internal.c:48-92 | the file object is destroyed exactly when the name was detached and no state holds it open; errors are the detach's or the destroy's |
| FsalState.UnlinkDefersWhileOpen | src/nfs-ganesha/FSAL_KVSFS/kvsfs_internal.c:48-92 | kvsfs_unlink_reg does not destroy a file while a state holds it open; after kvsfs_file_state_close (lines 267-295) has closed that state, it does; the close itself deletes nothing |
| FsalState.FindFd | src/nfs-ganesha/FSAL_KVSFS/kvsfs_internal.c:316-363 | a file state is returned only when its flags satisfy the request, the open state standing in for a lock state |
| FsalState.Ftruncate | src/nfs-ganesha/FSAL_KVSFS/kvsfs_internal.c:370-407 | truncate needs a state offering write access, and passes on the file system truncate's error |
| FsalState.Read2 | kvsfs-ganesha/src/nfs-ganesha/FSAL_KVSFS/handle.c:1834-1896 | read2 reads the iovec entries in order, each at most its length, the amount being the total read; success covers every entry and sets end of file exactly when nothing was read |
| Gtbl.Bucket | cortx-fs-ganesha/src/FSAL/FSAL_CORTXFS/fsal_global_tables.c:129 | a key always lands in one of the 64 buckets |
| Gtbl.TypeGuardInverted | cortx-fs-ganesha/src/FSAL/FSAL_CORTXFS/fsal_global_tables.c:131 | the type assertion as written rejects the one table there is and admits only types without a table; it is the exact negation of the intended guard |
| Gtbl.FirstMatch | cortx-fs-ganesha/src/FSAL/FSAL_CORTXFS/fsal_global_tables.c:139-146 | the chain position returned holds an entry of the same size and bytes, and when none is returned no entry matches |
| Gtbl.AddWith | cortx-fs-ganesha/src/FSAL/FSAL_CORTXFS/fsal_global_tables.c:123-158 | adding fails with EEXIST, changing nothing, exactly when the bucket already holds a match; otherwise the new entry heads its bucket and nothing else changes |
| Gtbl.Find | cortx-fs-ganesha/src/FSAL/FSAL_CORTXFS/fsal_global_tables.c:160-189 | find returns an element exactly when the key's bucket holds a match, and the element returned agrees with the one asked for over the size compared |
| Gtbl.Remove | cortx-fs-ganesha/src/FSAL/FSAL_CORTXFS/fsal_global_tables.c:191-224 | remove returns what find returns, changes nothing when that is none, and otherwise unlinks exactly the first matching entry of that bucket |
| Gtbl.AddAsWrittenLosesElements | cortx-fs-ganesha/src/FSAL/FSAL_CORTXFS/fsal_global_tables.c:148-151 | as written, with entries recorded without their size, a lookup with a nonzero size never finds what was added and a second add stores a duplicate |
| Gtbl.AddThenFind | cortx-fs-ganesha/src/FSAL/FSAL_CORTXFS/fsal_global_tables.c:123-189 | with the size recorded, an added element is found again |
| Gtbl.AddIdempotent | cortx-fs-ganesha/src/FSAL/FSAL_CORTXFS/fsal_global_tables.c:123-158 | a second add of the same element reports EEXIST and leaves the table as the first add left it |
| Gtbl.AddRemoveRoundTrip | cortx-fs-ganesha/src/FSAL/FSAL_CORTXFS/fsal_global_tables.c:123-224 | removing an element just added returns it and gives back the original table |
| Gtbl.OtherBucketsUntouched | cortx-fs-ganesha/src/FSAL/FSAL_CORTXFS/fsal_global_tables.c:123-224 | add and remove change only the key's bucket |
| Kvnode.Init | nsal/src/kvtree/kvnode.c:35-66 | init fails only with ENOMEM, and otherwise holds the tree, the id and a copy of the attribute |
| Kvnode.LoadedBufferIsDumped | nsal/src/kvtree/kvnode.c:277-288 | a node loaded back after a dump hands out the dumped attribute with its length as the size, which fits the 16-bit size field |
| Kvnode.Dump | nsal/src/kvtree/kvnode.c:68-98 | dump stores the node's attribute under its id, and no other record changes |
| Kvnode.Load | nsal/src/kvtree/kvnode.c:100-136 | load succeeds exactly when the id has a stored attribute (ENOENT otherwise), and the node then carries that attribute |
| Kvnode.Delete | nsal/src/kvtree/kvnode.c:138-164 | delete succeeds exactly when the attribute exists (ENOENT otherwise), and then removes only it |
| Kvnode.Fini | nsal/src/kvtree/kvnode.c:166-181 | fini empties a node that belongs to a tree and leaves an empty node as it is |
| Kvnode.DumpLoadRoundTrip | nsal/src/kvtree/kvnode.c:68-136 | a dumped node loads back unchanged |
| Kvnode.LoadAfterDelete | nsal/src/kvtree/kvnode.c:100-164 | after a delete the node no longer loads, and a second delete is ENOENT |
| Kvnode.SysKey | nsal/src/kvtree/kvnode.c:183-214 | the key of a system attribute holds the node id and the attribute id narrowed to 8 bits |
| Kvnode.SetSysAttr | nsal/src/kvtree/kvnode.c:183-214 | set stores the value under the node's attribute key, adds no other key and changes no other value |
| Kvnode.GetSysAttr | nsal/src/kvtree/kvnode.c:216-246 | get succeeds exactly when the attribute exists (ENOENT otherwise) and returns its value |
| Kvnode.DelSysAttr | nsal/src/kvtree/kvnode.c:248-275 | delete succeeds exactly when the attribute exists (ENOENT otherwise) and removes only it |
| Kvnode.SysAttrRoundTrip | nsal/src/kvtree/kvnode.c:183-275 | a system attribute reads back as set, a second delete fails, and other attributes are untouched |
| Kvnode.SysAttrIdsWrap | nsal/src/kvtree/kvnode.c:183-246 | attribute ids that agree modulo 256 name the same attribute |
| Mds.RoleOf | kvsfs-ganesha/src/FSAL/FSAL_KVSFS/mds.c:351-362 | the role is "disabled" exactly when pNFS is off or neither service is enabled |
| Mds.RoleServesMdsIffEnabled | kvsfs-ganesha/src/FSAL/FSAL_KVSFS/mds.c:351-364 | the metadata server role is reached exactly when pNFS and the MDS service are enabled; data server alone is the role exactly when only that service is |
| Mds.BuildList | kvsfs-ganesha/src/FSAL/FSAL_KVSFS/mds.c:377-425 | the server list has one entry per configured server, in reverse order of configuration, each with its index as id and its address |
| Mds.UpdateExp | kvsfs-ganesha/src/FSAL/FSAL_KVSFS/mds.c:338-449 | a role up to data server leaves the context alone; a metadata role rebuilds it exactly when allocation succeeds (ENOMEM otherwise), with the new role, the server list and a cursor on no server |
| Mds.UpdateExpKeepsValid | kvsfs-ganesha/src/FSAL/FSAL_KVSFS/mds.c:338-449 | an update keeps a valid context valid |
| Mds.Pick | kvsfs-ganesha/src/FSAL/FSAL_KVSFS/mds.c:532-554 | with servers present, the next server is the first on the first call and then the following one, wrapping; with none there is no server |
| Mds.GetDevInfo | kvsfs-ganesha/src/FSAL/FSAL_KVSFS/mds.c:472-617 | getdeviceinfo is NOTSUPP below the metadata role and INVAL for another FSAL's device, changing nothing on error; on success it returns the chosen server's addresses and leaves the cursor there |
| Mds.HandoutsFrom | kvsfs-ganesha/src/FSAL/FSAL_KVSFS/mds.c:532-554 | from a cursor on server j, the next n calls hand out servers j+1, j+2, and so on, wrapping past the last |
| Mds.RoundRobin | kvsfs-ganesha/src/FSAL/FSAL_KVSFS/mds.c:532-554 | a freshly configured server list is handed out once in list order, and then the first server comes again |
| Mds.OrCommitThruMds | kvsfs-ganesha/src/FSAL/FSAL_KVSFS/mds.c:933 | setting the commit-through-MDS bit keeps a 32-bit word |
| Mds.StripeUnitFitsIffAligned | kvsfs-ganesha/src/FSAL/FSAL_KVSFS/mds.c:933-940 | the stripe unit survives the encoding exactly when it is a multiple of 64 |
| Mds.LayoutGet | kvsfs-ganesha/src/FSAL/FSAL_KVSFS/mds.c:865-974 | layoutget is NO_LAYOUT below the metadata role, UNKNOWN_LAYOUTTYPE for anything but a files layout, SERVERFAULT for a stripe unit the encoding truncates, and otherwise grants the whole file in one segment with the encoder's status |
| Mds.LayoutReturn | kvsfs-ganesha/src/FSAL/FSAL_KVSFS/mds.c:991-1018 | layoutreturn succeeds exactly for a files layout, and is UNKNOWN_LAYOUTTYPE otherwise |
| Mds.LayoutCommit | kvsfs-ganesha/src/FSAL/FSAL_KVSFS/mds.c:1039-1072 | layoutcommit succeeds exactly for a files layout, marking the commit done with no new size |
| Mds.GrantedLayoutReturnsAndCommits | kvsfs-ganesha/src/FSAL/FSAL_KVSFS/mds.c:865-1072 | every layout layoutget grants can be returned and committed |
| Ifault.ArgCount | experiments/ifault/ifault.h:65-84 | every fault-point macro passes one or two arguments, two exactly for REPEAT, SKIP and USER_FUNC |
| Ifault.DataInitWith | experiments/ifault/ifault-internal.h:138-188 | initialised data has the given type and a zero hit count, and holds the variadic words ifp_data_init is given, in order, with zero for a missing second one |
| Ifault.SpecFiresWith | experiments/ifault/ifault-internal.h:75-125 | ONCE fires exactly at hit_start, ALWAYS from hit_start on, DELAY always, USER_FUNC with the call-back's answer |
| Ifault.SpecFiresAsWritten | experiments/ifault/ifault-internal.h:85-90 | as written, REPEAT fires exactly when the hit count equals hit_start |
| Ifault.SpecFires | experiments/ifault/ifault-internal.h:85-97 | the intended REPEAT fires exactly when the hit count lies in the window from hit_start to hit_end, and the intended SKIP exactly when it lies outside that window |
| Ifault.SkipComplementsRepeat | experiments/ifault/ifault-internal.h:85-97 | over a window hit_start <= hit_end, the intended SKIP fires exactly where the intended REPEAT does not; as written SKIP fires at hit_start and is silent past hit_end, the reverse of the intended one |
| Ifault.RepeatSkipIgnoreEnd | experiments/ifault/ifault-internal.h:85-97 | as written, REPEAT and SKIP fire exactly when ONCE with the same start would |
| Ifault.RepeatWindowDiffers | experiments/ifault/ifault-internal.h:85-90 | on a window of two counts or more, the intended REPEAT fires at the window's end where the code as written does not |
| Ifault.RandomHitsCount | experiments/ifault/ifault-internal.h:107-110 | of the residues below n, the rule as written fires on prob + 1 of them and the intended one on prob, capped at n |
| Ifault.RandomFiresPercent | experiments/ifault/ifault-internal.h:105-110 | RANDOM as written fires exactly when random() modulo 100 is at most prob, so prob + 1 times in 100; the intended rule fires below prob, exactly prob times in 100 |
| Ifault.UserFuncCallsData | experiments/ifault/ifault-internal.h:178-181 | as written, the USER_FUNC handler calls the data pointer with a NULL argument; the intended handler calls the call-back with its data |
| Ifault.NewState | experiments/ifault/ifault-internal.h:276-290 | a new state is disabled, carries its id and has no fault point attached |
| Ifault.Enable | experiments/ifault/ifault-internal.h:330-345 | enable leaves the state enabled and returns 1 exactly when it already was, 0 otherwise |
| Ifault.Disable | experiments/ifault/ifault-internal.h:347-362 | disable leaves the state disabled and returns 1 exactly when it already was, 0 otherwise |
| Ifault.EnableDisableRoundTrip | experiments/ifault/ifault-internal.h:330-362 | disable undoes enable, and a second enable reports that the state was already enabled |
| Ifault.InitTable | experiments/ifault/ifault.c:27-52 | a new table is empty and well formed, with room for 256 states |
| Ifault.FindIndex | experiments/ifault/ifault-internal.h:304-311 | the index returned holds a state with the id, and when none is returned no state has it |
| Ifault.FindGuardStopsEveryCaller | experiments/ifault/ifault-internal.h:298 | the assertion as written fails for the NULL state pointer every caller passes |
| Ifault.StateFindWith | experiments/ifault/ifault-internal.h:292-328 | find returns the existing state with the id, changing nothing, or appends a new disabled state with that id; as written a full list overflows its allocation |
| Ifault.StateFind | experiments/ifault/ifault-internal.h:292-328 | the intended find always succeeds and keeps the table well formed, growing a full list |
| Ifault.FullTableOverflowsAsWritten | experiments/ifault/ifault-internal.h:246-256 | on a full list the code as written writes past the allocation for a new id, while the intended growth doubles the list and stores the state |
| Ifault.StateFindIdempotent | experiments/ifault/ifault-internal.h:292-328 | finding an id twice gives the same state and changes nothing the second time |
| Ifault.StateFindKeepsIdsUnique | experiments/ifault/ifault-internal.h:292-328 | find never adds a second state with an id already present |
| Ifault.RegisterWith | experiments/ifault/ifault.c:65-93 | registration leaves the table well formed with a state of the id whose data is initialised from the words given, keeps that state's enabled flag and leaves every other state as it was |
| Ifault.RegisterAsWritten | experiments/ifault/ifault.c:65-93 | as written the state's data is initialised from whatever words ifp_data_init reads through the va_list passed as its one variadic argument, not from the macro's arguments |
| Ifault.Register | experiments/ifault/ifault.c:65-93 | the intended registration leaves a state with the id whose data has the type, a zero hit count and the macro's arguments in order, zero for a missing second one |
| Ifault.RegisterAsWrittenLosesArguments | experiments/ifault/ifault.c:83-86 | FP_ONCE(h) registered as written stores the word ifp_data_init happens to read, which need not be h; the intended registration stores h |
| Ifault.CheckWith | experiments/ifault/ifault.c:95-115 | a disabled point never fires and never changes; an enabled point changes at most its hit count; as written nothing changes |
| Ifault.CheckAsWritten | experiments/ifault/ifault.c:95-115 | as written a check never changes the state |
| Ifault.Checks | experiments/ifault/ifault.c:95-115 | after any number of checks only the hit count has changed |
| Ifault.ChecksCount | experiments/ifault/ifault.c:95-115 | after n intended checks a freshly registered enabled point has counted n hits, and after any number of checks as written none |
| Ifault.AlwaysNeverFiresAsWritten | experiments/ifault/ifault.h:68-69 | with the hit count frozen, FP_ALWAYS never fires as written; counting hits it fires on every check, and FP_ONCE(h) fires on exactly the h-th |
| Ifault.NextCheckAsks | experiments/ifault/ifault.c:95-115 | after n counted checks from a zero hit count, the next check of an enabled fault point asks the handler with hit count n + 1; as written it asks with the frozen data |
| TestOption.WordLen | src/kvsns/test/framework/option.c:86-87 | the leading run holds no delimiter and stops at the first one |
| TestOption.StrTok | src/kvsns/test/framework/option.c:86-87 | every token strtok returns is a non-empty run without delimiters |
| TestOption.StrTokJoin | src/kvsns/test/framework/option.c:86-87 | tokens joined with a delimiter come back from strtok unchanged |
| TestOption.Atoi | src/kvsns/test/framework/option.c:153 | atoi of text with no digits after the white space is 0 |
| TestOption.AtoiDecimal | src/kvsns/test/framework/option.c:153 | atoi reads a printed number back as that number |
| TestOption.StrtolOctal | src/kvsns/test/framework/option.c:77 | strtol in base 8 stays within the range of long, and is 0 for text without octal digits |
| TestOption.Lookup | src/kvsns/test/framework/option.c:92-99 | a name has a value exactly when it is in the table, and that value uses only the table's bits |
| TestOption.ParseNames | src/kvsns/test/framework/option.c:86-110 | the names parse exactly when every token is in the table, to a value that contains each token's bits and no bit outside the table |
| TestOption.NumberOrNames | src/kvsns/test/framework/option.c:63-190 | a number the parser takes is the result; otherwise parsing succeeds exactly when every token is a name, with the OR of their values; a failure gives 0 |
| TestOption.ModeNumber | src/kvsns/test/framework/option.c:77-78 | the mode taken from strtol is the value truncated to 32 bits when that is neither 0, INT_MAX nor INT_MIN; every value strictly between 0 and INT_MAX is taken |
| TestOption.FlagsNumber | src/kvsns/test/framework/option.c:153-154 | the flags are taken as a number exactly when atoi gives a positive value, which is then the flags |
| TestOption.ParseMode | src/kvsns/test/framework/option.c:63-115 | a NULL mode fails with 0; otherwise the octal number when it is taken, else the OR of the mode names |
| TestOption.ParseFlags | src/kvsns/test/framework/option.c:139-190 | NULL flags fail with 0; otherwise the positive decimal, else the OR of the flag names |
| TestOption.SymbolicRoundTrip | src/kvsns/test/framework/option.c:63-190 | table names joined with a delimiter parse to the OR of their values, for modes and flags alike |
| TestOption.LetterIsNoNumber | src/kvsns/test/framework/option.c:77-153 | a string starting with a letter is read as 0 by both atoi and strtol |
| TestOption.ZeroModeRejected | src/kvsns/test/framework/option.c:63-115 | "0" is not accepted as a mode, while the empty string gives mode 0 |
| TestOption.ZeroIsNoModeName | src/kvsns/test/framework/option.c:86-105 | the word "0" is one token that matches no mode name, so the symbolic parse of it fails |
| TestOption.ShortNameIsNoMode | src/kvsns/test/framework/option.c:47-61 | a word whose length is not seven matches no entry of the mode table |
| TestOption.OctalModeNumber | src/kvsns/test/framework/option.c:63-115 | a string of octal digits whose value is neither 0 nor INT_MAX and fits in 31 bits is taken as the mode itself |
| TestOption.StrtolOctalDigits | src/kvsns/test/framework/option.c:77 | strtol reads a string of octal digits as its octal value |
| TestOption.StrtolOctalPlain | src/kvsns/test/framework/option.c:77 | strtol reads a string that starts with neither white space nor a sign and is octal digits throughout as its octal value |
| TestOption.NumericFlags | src/kvsns/test/framework/option.c:139-190 | a positive decimal is taken as the flag word itself |
| TestOption.ParseUserCredWith | src/kvsns/test/framework/option.c:16-45 | fewer than two tokens is undefined, a third token fails, and a successful parse never leaves uid 0 unless getuid() is 0 |
| TestOption.ParseUserCredAsWritten | src/kvsns/test/framework/option.c:16-45 | the credential parse as written is undefined exactly when fewer than two tokens are given |
| TestOption.ParseUserCred | src/kvsns/test/framework/option.c:16-45 | the intended parse never leaves gid 0 unless getgid() is 0 |
| TestOption.UserCredRoundTrip | src/kvsns/test/framework/option.c:16-45 | "uid:gid" with both positive and below 2^32 parses to that credential both as written and as intended; with gid 0 the code as written takes getuid() for the uid and keeps gid 0 |
| TestOption.CredOfTokens | src/kvsns/test/framework/option.c:24-41 | as written, two positive tokens give that credential, and gid 0 gives getuid() for the uid |
| TestOption.CredTokens | src/kvsns/test/framework/option.c:24-30 | a printed "uid:gid" splits into exactly its two numbers |
| TestOption.ParseIoMode | src/kvsns/test/framework/option.c:192-206 | the IO mode parses exactly for "FILE" or "INODE", to the mode of that name, and fails otherwise leaving it unset |
| TestOption.IoModeRoundTrip | src/kvsns/test/framework/option.c:192-206 | each IO mode's name parses back to that mode |
| CliValidate.Split | cortxfs/src/cortxfscli/cortxfscmd/utils.py:50-53 | splitting gives at least one piece, no piece holds the separator, and there is exactly one piece when the separator does not occur |
| CliValidate.SplitJoin | cortxfs/src/cortxfscli/cortxfscmd/utils.py:50-53 | joining the pieces with the separator gives the string back |
| CliValidate.JoinSplit | cortxfs/src/cortxfscli/cortxfscmd/utils.py:50-53 | separator-free pieces joined with the separator split back into the same pieces |
| CliValidate.ParseOption | cortxfs/src/cortxfscli/cortxfscmd/utils.py:53-54 | an option token parses exactly when it holds '=', into a key and a value that hold no '=' |
| CliValidate.ParseAllOptions | cortxfs/src/cortxfscli/cortxfscmd/utils.py:52-54 | the option list parses exactly when every token holds '=', one pair per token |
| CliValidate.ToDict | cortxfs/src/cortxfscli/cortxfscmd/utils.py:49-54 | the option dictionary has exactly the keys that occur among the pairs |
| CliValidate.ToDictLastWins | cortxfs/src/cortxfscli/cortxfscmd/utils.py:52-54 | each key keeps the value of its last occurrence |
| CliValidate.ParseOptionDropsAfterSecondEquals | cortxfs/src/cortxfscli/cortxfscmd/utils.py:53-54 | a token k=v=w keeps only v |
| CliValidate.PyIntDecimal | cortxfs/src/cortxfscli/cortxfscmd/utils.py:33 | int() reads a printed number back as that number |
| CliValidate.RegexPatternCheck | cortxfs/src/cortxfscli/cortxfscmd/utils.py:12-19 | the check passes exactly when the text is within the length limit and the pattern does not occur in it |
| CliValidate.ValidateKeyVal | cortxfs/src/cortxfscli/cortxfscmd/utils.py:26-46 | an accepted value equals a "str" rule, is within a "max_count" rule, passes a "regex" rule within its "limit", and is in a "set" rule; no rules accept everything |
| CliValidate.SetRuleAcceptsListed | cortxfs/src/cortxfscli/cortxfscmd/utils.py:37-41 | a "set" rule accepts exactly the listed values |
| CliValidate.MaxCountRuleAcceptsBounded | cortxfs/src/cortxfscli/cortxfscmd/utils.py:32-36 | a "max_count" rule accepts a printed count exactly when it is within the bound |
| CliValidate.ValidateInpConfigParams | cortxfs/src/cortxfscli/cortxfscmd/utils.py:48-59 | an accepted option string parses into options, names a protocol with rules, and gives every key rules of that protocol |
| CliValidate.ValidatedOptionsPassRules | cortxfs/src/cortxfscli/cortxfscmd/utils.py:48-59 | every accepted option value passes the rules for its key under the given protocol, its last occurrence included |
| CliValidate.FsValidate | cortxfs/src/cortxfscli/cortxfscmd/command.py:44-58 | fs list is accepted exactly without arguments; create and delete exactly with one argument that is a valid name |
| CliValidate.ChooseRules | cortxfs/src/cortxfscli/cortxfscmd/command.py:93-101 | the developer rules file wins when it exists, then an existing user file, and the embedded rules are used exactly when neither exists |
| CliValidate.EndpointValidate | cortxfs/src/cortxfscli/cortxfscmd/command.py:82-124 | endpoint update is always accepted; delete exactly with one valid name; create exactly with a valid name and an option string that passes the rules |
| CliValidate.AuthValidate | cortxfs/src/cortxfscli/cortxfscmd/command.py:145-162 | auth setup is accepted exactly with five arguments the first of which is "ldap"; the other actions are not checked |
| CliValidate.GetCommand | cortxfs/src/cortxfscli/cortxfscmd/command.py:173-192 | a command is returned unchanged when its arguments pass validation, and validation fails exactly when they do not |
| CliClient.MethodOf | cortxfs/src/cortxfscli/cortxfscmd/request.py:31-46 | create maps to PUT, delete to DELETE, list to GET, and setup to PUT in cortxfscli only; any other action raises |
| CliClient.RequestLine | cortxfs/src/cortxfscli/cortxfscmd/client.py:40 | the request line is "/", the command, "/" and the URL path, in that order |
| CliClient.HeadersFor | cortxfs/src/cortxfscli/cortxfscmd/client.py:98-108 | a request with content is marked JSON and carries the content's length; one without content carries length "0" |
| CliClient.Compose | cortxfs/src/cortxfscli/cortxfscmd/client.py:51-108 | a request other than PUT has no content; a PUT without arguments raises; a composed request keeps the verb and command, and content comes with matching headers |
| CliClient.ComposeForksAgree | efs/src/efscli/client.py:161-188 | efscli and cortxfscli compose the same request except for a cortxfscli PUT with options or for auth |
| CliClient.ComposeOptionsLastWins | cortxfs/src/cortxfscli/cortxfscmd/client.py:85-92 | an options argument becomes a map in which a repeated key keeps its last value |
| CliClient.ValidatedCommandComposes | cortxfs/src/cortxfscli/cortxfscmd/client.py:51-108 | an accepted command whose action has a method composes without raising; endpoint update and auth show, check and remove pass validation but have no method |
| CliClient.IsError | cortxfs/src/cortxfscli/cortxfscmd/response.py:13-46 | success statuses are never errors, errors are 4xx or 5xx statuses, and 403, 405 and 503 are not counted as errors |
| CliClient.ReadBody | cortxfs/src/cortxfscli/cortxfscmd/response.py:37-40 | the body is read from the wire once and kept, and reading it again returns the kept body |
| CliClient.ErrnoOf | cortxfs/src/cortxfscli/cortxfscmd/response.py:48-56 | errno parses "rc" from the body only when the body has not yet been read; otherwise it returns the errno kept so far |
| CliClient.ErrnoDependsOnReadOrder | cortxfs/src/cortxfscli/cortxfscmd/response.py:37-56 | asked first, errno gives the body's "rc"; asked after the body was read, it gives nothing; asked twice it repeats itself |
| CliClient.RowsFrom | cortxfs/src/cortxfscli/cortxfscmd/response.py:75-94 | one row per file system, numbered consecutively from the given start, exported exactly when it carries endpoint options |
| CliClient.Display | cortxfs/src/cortxfscli/cortxfscmd/response.py:58-94 | only a GET of "fs" prints a table; 204 prints the header alone; otherwise one row per file system |
| CliClient.RecvReadsBody | efs/src/efscli/client.py:154-159 | efscli reads a body only for a GET whose status is not 204 |
| CliClient.ListingNeedsBody | efs/src/efscli/client.py:154-159 | whenever a listing has rows to print efscli has read a body, and it read none exactly when the listing is empty |
| Config.InitBuffer | kvsfs-ganesha/src/FSAL/FSAL_KVSFS/config/config_impl.c:34-44 | a new serialisation buffer is empty and well formed, with the 2048-byte default capacity |
| Config.Append | kvsfs-ganesha/src/FSAL/FSAL_KVSFS/config/config_impl.c:65-89 | an append that goes through adds exactly the text and keeps the buffer well formed; as written it goes through exactly when the text fits the capacity, which never grows |
| Config.AppendAll | kvsfs-ganesha/src/FSAL/FSAL_KVSFS/config/config_impl.c:79-89 | appending lines one after another that goes through adds exactly their concatenation and keeps the buffer well formed |
| Config.AppendAllAsWrittenFits | kvsfs-ganesha/src/FSAL/FSAL_KVSFS/config/config_impl.c:65-89 | as written, appending succeeds exactly when everything fits in the capacity the buffer started with |
| Config.AppendAllNeverAborts | kvsfs-ganesha/src/FSAL/FSAL_KVSFS/config/config_impl.c:65-89 | with the grown capacity recorded, no append aborts while every line is no longer than the starting capacity |
| Config.AppendLines | kvsfs-ganesha/src/FSAL/FSAL_KVSFS/config/config_impl.c:79-89 | the serialiser's loop appends the concatenation of the lines, and as written succeeds exactly when it fits |
| Config.GetString | kvsfs-ganesha/src/FSAL/FSAL_KVSFS/config/config_impl.c:101-144 | a key yields text exactly when the object has it as a string |
| Config.Field | kvsfs-ganesha/src/FSAL/FSAL_KVSFS/config/config_impl.c:101-179 | a required member is read exactly when it is a string, and is EINVAL otherwise |
| Config.DefaultBlock | kvsfs-ganesha/src/FSAL/FSAL_KVSFS/config/config_impl.c:182-208 | the default configuration has one worker, a gid expiration of 3600, grace off, and the fixed library, plugin directory and domain |
| Config.JsonToClientBlock | kvsfs-ganesha/src/FSAL/FSAL_KVSFS/config/config_impl.c:101-144 | the client block is built exactly when all four members are strings (EINVAL otherwise) and holds their values |
| Config.JsonToExportBlock | kvsfs-ganesha/src/FSAL/FSAL_KVSFS/config/config_impl.c:147-179 | the export block is built exactly when the security type and file system id are strings and the client block builds (EINVAL otherwise); id and both paths come from the endpoint |
| Config.AppendedExportEndsText | kvsfs-ganesha/src/FSAL/FSAL_KVSFS/config/config_impl.c:375-381 | adding an export at the tail appends its block at the end of the text |
| Config.ExportTextLength | kvsfs-ganesha/src/FSAL/FSAL_KVSFS/config/config_impl.c:320-373 | an export block takes at least 231 bytes, whatever its strings |
| Config.ExportsTextLength | kvsfs-ganesha/src/FSAL/FSAL_KVSFS/config/config_impl.c:320-381 | n export blocks take at least 231 * n bytes |
| Config.SerializeToBuffer | kvsfs-ganesha/src/FSAL/FSAL_KVSFS/config/config_impl.c:375-381 | the buffer holds the whole configuration text or the process aborts; as written it aborts exactly when the text outgrows the default capacity |
| Config.DumpWith | kvsfs-ganesha/src/FSAL/FSAL_KVSFS/config/config_impl.c:390-438 | a dump that does not abort succeeds exactly when writing and renaming succeed, installs the configuration text, and otherwise returns -1 |
| Config.DumpAsWritten | kvsfs-ganesha/src/FSAL/FSAL_KVSFS/config/config_impl.c:390-438 | the dump as written, when it does not abort, succeeds exactly when the file operations do |
| Config.Dump | kvsfs-ganesha/src/FSAL/FSAL_KVSFS/config/config_impl.c:390-438 | the intended dump, when it does not abort, succeeds exactly when the file operations do and installs the text |
| Config.DumpAbortsPastDefaultSize | kvsfs-ganesha/src/FSAL/FSAL_KVSFS/config/config_impl.c:65-89 | as written the dump aborts exactly when the text exceeds 2048 bytes; with the capacity recorded it never aborts on lines that fit |
| Config.NineExportsAbortAsWritten | kvsfs-ganesha/src/FSAL/FSAL_KVSFS/config/config_impl.c:65-89 | nine exports make the dump as written abort whatever their strings, while the intended dump goes through |
| Config.AddExport | kvsfs-ganesha/src/FSAL/FSAL_KVSFS/config/config.c:32-70 | a description that does not parse or lacks a member is EINVAL; otherwise the export goes at the tail and the configuration is dumped; a failed dump takes the export out again |
| Config.FirstWithId | kvsfs-ganesha/src/FSAL/FSAL_KVSFS/config/config.c:191-226 | the position returned holds an export with the id, and when none is returned no export has it |
| Config.RemoveExport | kvsfs-ganesha/src/FSAL/FSAL_KVSFS/config/config.c:191-226 | removing an id no export carries is ENOENT; otherwise the first export with it is dropped and the configuration dumped |
| Config.AddRemoveRoundTrip | kvsfs-ganesha/src/FSAL/FSAL_KVSFS/config/config.c:32-226 | removing the export just added under an unused id gives the configuration back |

## Left out

- Motr, Clovis and Redis calls, and the KV/object plumbing on top of them, are not part of this model. Each store is a map. A read or delete of a missing key is taken to give ENOENT.
- Concurrency is not modelled: mutexes and rwlocks in the FSAL handle code, the global tables, mds.c and m0init. Each operation is atomic.
- Timestamps (`gettimeofday`, `clock_gettime`) are inputs. The retry-and-sleep loop of the aligned write is not modelled, and neither is the gettimeofday failure path.
- Allocation failures, `dassert`/`assert` aborts on NULL arguments, and other NULL-pointer paths are not modelled. An assertion that the code can reach with valid input is modelled as an error outcome (`None` or an error code).
- Memory-safety defects that cannot be expressed over values are not modelled. These are the allocation-size mismatch of `kvnode_del_sys_attr`, `strlen` on an unterminated buffer, `sprintf`/`sscanf` overflow of fixed buffers, and dangling pointers after `realloc` in ifault.
- Config.Dump: succeeds only when every line fits its fixed line buffer (`LinesFit`), because `sprintf` past a line buffer is undefined behaviour.
- `cfs_lookup` destroys the returned handle and the parent handle. For `..` at the root these are the same handle, so it is destroyed twice. This is a memory defect and is not modelled. The aliasing itself is modelled (`FileHandle.DotDotAtRootAliases`).
- `kvtree_detach`, `efs_tree_detach` and `kvsns_tree_detach` are not part of this model. Detaching a name is modelled as removing the dentry.
- `str256_isalphanum` and `str256_from_cstr` are not part of this model. A name is taken to be valid when every character is an ASCII letter or digit.
- Iterator errors other than end-of-iteration are not modelled.
- `efs_fs_is_empty` always returns 0, so `fs_delete` is modelled without an emptiness check.
- `fsal_default_linksize` and the `sizeof` values of on-disk records are parameters or named constants, not derived from C layouts.
- `open_correct`, `check_share_conflict` and `update_share_counters` belong to NFS-Ganesha and are not part of this model. The share record is a multiset of open-flag words. The conflict answer is an input.
- `posix2fsal_error` is not modelled: a POSIX error passes through as `Posix(code)`. `fsal2unix_mode` is the identity.
- `kvsns2_read` and `FSAL_encode_file_layout` are oracles, because their data paths are not part of this model.
- The third fork's ftruncate stub (`kvsfs-ganesha/src/nfs-ganesha/FSAL_KVSFS/handle.c`, which always succeeds) is not modelled separately.
- The wire form of the kvsns file handle is modelled only by its size.
- `kvsfs_config_init` and the head insertion of `endpoint_scan_cb` are not modelled. Exports enter the configuration through `AddExport`.
- The HTTP transport, REST server controllers, `auth_setup.c`, Ganesha registration glue, benchmarks, experiments other than ifault, and the unit-test drivers are not part of this model. The tests are used only as evidence for properties.
- Python type checks: an argument that is not a `str` raises. The model takes every argument to be a string.
- Python `int()` accepts surrounding whitespace and underscores. The model parses plain decimal digits with an optional sign.
- The regular-expression engine is an oracle (a predicate parameter).
- The CLI's rules files, `fs_name_regex`, `fs_name_max_len` and the embedded rules are parameters.
- JSON encoding and decoding are oracles, and so is the printing of `display`.
- The key-value store's transaction calls (`cortx_kvs_begin_transaction` and its siblings, `eos_kvs_*_transaction`, the Motr `kvsal_*_transaction`) return 0 and do nothing. The model therefore keeps the writes a failing call made before its failure: every `...AsWritten` member and every member returning an `Outcome` shows them. The Redis kvsal's MULTI/EXEC/DISCARD, whose commands are queued and only run at EXEC, is not modelled command by command.
- Namespace.CreateEntry: the intended create, all or nothing. It no longer promises what the code does on a failure at the parent, which keeps the name and the new stat (Namespace.CreateEntryAsWritten does).
- Namespace.CreateAfterChecks: the all-or-nothing reading of Namespace.CreateSteps. A failure yields no state, whereas the code keeps its earlier writes.
- Namespace.Link: the intended link, all or nothing. On a failure after the name is attached, the code keeps the name (Namespace.LinkAsWritten does).
- Removal.Detach: the intended detach, all or nothing. On a failure after the dentry is removed, the code keeps that removal (Removal.DetachAsWritten does).
- Removal.Rmdir: the intended rmdir, all or nothing. The code keeps the steps made before a failure and, in cortxfs/efs, reports success (Removal.RmdirAsWritten does).
- Fops.Creat: built on the all-or-nothing Namespace.CreateEntry. A creat that fails at the parent is modelled as writing nothing, while the code keeps the name and stat. Fops.CreatEx and Fops.CreatExNeverRollsBackInDsal inherit this reading.
- Removal.KvsnsUnlink: kvsns_unlink's kvsal transaction is read as rolling back, as the Redis backend's MULTI/DISCARD is meant to. On the Motr backend the transaction calls do nothing, so a step that fails there (a symlink whose text is missing) keeps the parent-list, stat and dentry writes made before it; the model does not promise that state. Removal.KvsnsUnlinkWith, Removal.KvsnsUnlinkAsWritten and Removal.KvsnsUnlinkMeta share this reading.
- Namespace.CreateSteps: the parent is amended from its stat as read before the call. The code re-loads it after the new stat is stored, and the two are the same node unless the new inode number equals the parent's.
- After kvsns unlink, `kvsns_remove_all_xattr` is not followed into the xattr store.
- MdSet: the intended md_xattr_set, which refuses a name above NAME_MAX with ENAMETOOLONG. As written the code stores the value under the name cut to its length mod 256; MdXattr.MdSetAsWritten models that.
- MdGet: the intended md_xattr_get. Its ENAMETOOLONG outcome never occurs as written, where a long name reads its cut prefix's attribute; MdXattr.MdGetAsWritten models that.
- MdExists: the intended md_xattr_exists, which answers only for names within NAME_MAX. As written it answers for every name, about the cut prefix; MdXattr.MdExistsAsWritten models that.
- MdDelete: the intended md_xattr_delete, which refuses a name above NAME_MAX. As written it deletes the cut prefix's attribute; MdXattr.MdDeleteAsWritten models that.
- Xattr.SetXattr, Xattr.GetXattr and Xattr.RemoveXattr: built on the intended MdExists, MdSet, MdGet and MdDelete. They do not model what the cortxfs/efs calls do as written with a name above NAME_MAX, which is to act on its cut prefix (MdXattr.LongNameActsOnPrefix).
- FsalHandle.FsalRemove: kvsfs_unlink calls kvsns2_rmdir for a directory. kvsns.h declares that function but no file of this model defines it, so the v1 kvsns_rmdir of kvsns_handle.c, which is the kvsns fork of Removal.RmdirAsWritten, stands in for it. FsalHandle.FsalRemoveDropsName rests on the same stand-in.
- The DELAY action of ifault sleeps. The sleep is not modelled; only the decision to inject is.
- ifault's `random()` and the user call-back are inputs.
- Ifault.SpecFires: the intended REPEAT is the window from hit_start to hit_end that the handler's two comparisons evidently meant, and SKIP is its complement. The header's comment describes a repeating cycle (skip N, fire M, start over), which neither the code nor the model computes.
- Ifault.DataInitWith: models ifp_data_init given its variadic words. How ifault_register actually passes them (a `va_list` as one variadic argument) is modelled by Ifault.RegisterAsWritten, whose words are unconstrained inputs. The extra `va_argc` and count words that FP_SPEC puts before the macro's arguments are not modelled, since `va_argc` is undeclared and the macros do not compile as written.
- The `FP_RANDOM(prob)` macro (`experiments/ifault/ifault.h`) expands to `f_prob` rather than its parameter `prob`. That is a compile-time slip and is not modelled. The model takes the probability passed at registration.
- The u32 wrap of the ifault table-size doubling is not modelled. Sizes are unbounded naturals.
- `atoi` overflow is undefined behaviour. TestOption.Atoi reads digits into an unbounded integer.
- Flag and mode values are the Linux x86-64 ones.
- Messages written to stderr and the CLI's `print` output are not modelled.

## Findings

| source | as written | input that shows it | evidently intended | confidence | as-written member | corrected member |
|---|---|---|---|---|---|---|
| cortxfs/src/cortxfs/cortxfs_ops.c:594-595 | a cross-directory rename re-attaches the moved inode under `dnode_id`, the destination's old inode or an unset id, not under the destination directory | move a file to a fresh name in another directory | the entry is attached under the destination directory, as efs does | high, not executed | Rename.RenameAsWritten (lemma Rename.CortxfsRenameLosesEntry) | Rename.Rename |
| cortxfs/src/cortxfs/cortxfs_ops.c:597-603 | moving a directory between directories decrements the link count of the moved directory | move directory d from p1 to p2 | the source parent loses the link that the ".." of d held | high, not executed | Rename.RenameAsWritten (lemma Rename.CortxfsRenameDecrementsMovedDir) | Rename.Rename |
| nsal/src/metadata/md_xattrs.c:69-77 | the name length is stored in a `uint8_t`, so the NAME_MAX check can never fire and long names are cut to their length mod 256 | a 256-character name gets the key of the empty name | names longer than NAME_MAX are refused with ENAMETOOLONG | high, not executed | MdXattr.InitKeyAsWritten, MdXattr.MdSetAsWritten, MdXattr.MdGetAsWritten, MdXattr.MdExistsAsWritten, MdXattr.MdDeleteAsWritten (lemmas MdXattr.LongNameSharesKey, MdXattr.LongNameActsOnPrefix, MdXattr.LongSetOverwritesEmptyName) | MdXattr.InitKey (used by MdXattr.MdSet, MdXattr.MdGet, MdXattr.MdExists, MdXattr.MdDelete, Xattr.SetXattr, Xattr.GetXattr, Xattr.RemoveXattr) |
| src/kvsns/common/mero/m0common.c:1582 | the buffer position advances by the whole `done` counter, so the head is counted twice | bs 4, offset 1, length 10: the tail is read from buffer offset 10 instead of 7 | the position advances by the bytes of the step just done | high, not executed | BlockIo.TailSourceAsWritten (lemmas BlockIo.TailSourceOverrunsBuffer, BlockIo.TailSourceOverrunExample) | BlockIo.TailSource (used by BlockIo.WriteRange, BlockIo.ReadRange, BlockIo.DoIo) |
| src/nfs-ganesha/FSAL_KVSFS/handle.c:499-502 | the skip branch of the readdir callback returns without advancing `where` (also kvsfs-ganesha/src/nfs-ganesha/FSAL_KVSFS/handle.c:606-609) | any readdir resumed from a cookie past the first entry | skipped entries still advance the cookie, as FSAL_KVSFS does | high, not executed | FsalReaddir.ReaddirAsWrittenStalls (lemma FsalReaddir.StallingWalkSkipsAll) | FsalReaddir.Readdir (lemma FsalReaddir.ReaddirResumesAfterCookie) |
| cortx-fs-ganesha/src/FSAL/FSAL_CORTXFS/fsal_global_tables.c:148-151 | a new entry is stored without its size | add an element of size 8, then find it with size 8: not found; adding it twice stores it twice | the entry records its size | high, not executed | Gtbl.AddAsWritten (lemma Gtbl.AddAsWrittenLosesElements) | Gtbl.Add (lemma Gtbl.AddThenFind) |
| cortx-fs-ganesha/src/FSAL/FSAL_CORTXFS/fsal_global_tables.c:129-131 | the type guard asserts `type >= END` | the layouts table, type 0, fails the guard | assert `type < END` (also at line 169) | high, not executed | Gtbl.TypeGuardAsWritten (lemma Gtbl.TypeGuardInverted) | Gtbl.ValidType |
| kvsfs-ganesha/src/FSAL/FSAL_KVSFS/config/config_impl.c:65-69 | `reserve` doubles the allocation but never records the new capacity | nine exports overflow the 2048-byte buffer, and the capacity assertion then fails | the capacity is updated after the reallocation | high, not executed | Config.DumpAsWritten (lemma Config.NineExportsAbortAsWritten) | Config.Dump (lemma Config.DumpAbortsPastDefaultSize) |
| dsal/src/dstore/dstore_base.c:65-71 | the backend name is compared over the length of the configured type only | type "" or "e" selects eos | the exact name is matched | high, not executed | DataStore.DstoreInitAsWritten (lemma DataStore.DstoreInitAcceptsPrefixes) | DataStore.DstoreInit |
| kvsfs-ganesha/src/FSAL/FSAL_KVSFS/handle.c:1298-1306 | extract refuses only buffers longer than a handle and then reports the full handle size | an NFSv4 buffer of 4 bytes is accepted as a whole handle | the length must equal the handle size, as the src/nfs-ganesha copy requires | medium, not executed | FsalHandle.ExtractAsWritten (lemma FsalHandle.ExtractAsWrittenAcceptsShortBuffer) | FsalHandle.Extract |
| cortxfs/src/cortxfs/cortxfs_internal.c:115-118 | setattr asks only for the SETATTR right, which no mode bit gates, so the check admits every caller | a non-owner, non-root caller changes another user's attributes | only the owner or root may set attributes | medium, not executed | InodeAttr.SetattrRequestNeverRefused (lemma InodeAttr.SetattrCheckRefusesStrangers) | InodeAttr.SetattrCheck |
| cortxfs/src/cortxfs/cortxfs_internal.c:594-597 | create probes for an existing name with a lookup that needs READ on the parent | a caller with write but not read permission on the parent creates over an existing name | an existing name gives EEXIST whatever the caller may read | medium, not executed | Namespace.CreateEntryAsWritten (lemma Namespace.CreateOverwritesUnreadableName) | Namespace.CreateEntry |
| cortxfs/src/cortxfs/cortxfs_ops.c:355-359 | link probes for an existing name with the same lookup | the same caller links over an existing name | an existing name gives EEXIST | medium, not executed | Namespace.LinkAsWritten (lemma Namespace.LinkOverwritesUnreadableName) | Namespace.Link |
| src/kvsns/kvsns/kvsns_handle.c:576-578 | unlink deletes the data object whenever the file is not open, even when other links remain | unlink one of two hard links of a closed file | the data is deleted with the last link, as kvsns2 does | high, not executed | Removal.KvsnsUnlinkAsWritten (lemma Removal.KvsnsUnlinkDropsSharedData) | Removal.KvsnsUnlink |
| cortxfs/src/cortxfs/cortxfs_ops.c:684-690 | the error of an aborted rmdir is overwritten by the result of the transaction discard, which does nothing and returns 0 | rmdir of ".." at the root of an empty file system reports success; so does a cortxfs rmdir whose directory has no object id, after its name and stat were removed | the original error (ENOENT) is returned, with nothing removed | high, not executed | Removal.RmdirAsWritten (lemmas Removal.RmdirAsWrittenHidesFailure, Removal.CortxfsRmdirWithoutObjectId) | Removal.Rmdir |
| dsal/src/dstore/plugins/cortx/cortx_dstore.c:293-296 | a read at or past the end of the file returns 0 without setting `*end_of_file` | read 4096 bytes at offset 0 of an empty file with the flag false | end of file is reported | high, not executed | DataStore.ObjReadAsWritten (lemma DataStore.CortxReadLeavesEofUnset) | DataStore.CortxObjRead |
| src/kvsns/kvsns/kvsns_file.c:230-235 | the stub assigns its local pointer instead of `*is_open` | a caller whose flag holds true reads "open" | `*is_open` is set to false | high, not executed | FopsOpen.IsOpenStubAsWritten (lemma FopsOpen.IsOpenStubLeavesFlag) | FopsOpen.IsOpenStub (lemma FopsOpen.IsOpenStubMatchesStore) |
| nsal/src/tenant/tenant.c:90-96 | a wrongly sized record sets EINVAL, then the callback's result overwrites it | one badly sized record that the callback accepts | the scan stops with EINVAL | high, not executed | Tenant.ScanAsWritten (lemma Tenant.ScanAsWrittenHidesBadRecord) | Tenant.Scan (lemma Tenant.ScansAgreeOnWellSized) |
| experiments/ifault/ifault-internal.h:85-97 | REPEAT and SKIP compare the hit count with `hit_start` on both sides | REPEAT(2, 5) fires only at hit 2 | REPEAT fires from hit_start to hit_end, and SKIP outside that range | high, not executed | Ifault.SpecFiresAsWritten (lemma Ifault.RepeatSkipIgnoreEnd) | Ifault.SpecFires (lemmas Ifault.RepeatWindowDiffers, Ifault.SkipComplementsRepeat) |
| experiments/ifault/ifault-internal.h:107-110 | RANDOM fires when `prob >= random() % 100` | prob 0 fires on residue 0, one time in a hundred | fire on exactly prob of the hundred residues | medium, not executed | Ifault.SpecFiresAsWritten (lemma Ifault.RandomFiresPercent) | Ifault.SpecFires |
| experiments/ifault/ifault-internal.h:178-181 | USER_FUNC registration stores the data pointer over the call-back | any USER_FUNC point calls its data pointer | the call-back is stored and called with its data | high, not executed | Ifault.DataInitAsWritten (lemma Ifault.UserFuncCallsData) | Ifault.DataInit |
| experiments/ifault/ifault-internal.h:246-256 | table growth discards the result of `realloc` | registering a new point when the table is full writes past the allocation | the grown table is kept | high, not executed | Ifault.StateFindAsWritten (lemma Ifault.FullTableOverflowsAsWritten) | Ifault.StateFind |
| experiments/ifault/ifault-internal.h:298 | `state_find` asserts that the caller's state pointer is non-NULL | every caller passes a NULL state pointer | assert on the out-pointer, which is never NULL | medium, not executed | Ifault.FindGuardAsWritten (lemma Ifault.FindGuardStopsEveryCaller) | Ifault.StateFind |
| experiments/ifault/ifault.c:95-115 | the hit count is never incremented | FP_ALWAYS() never fires | each check counts a hit | high, not executed | Ifault.CheckAsWritten (lemma Ifault.AlwaysNeverFiresAsWritten) | Ifault.Check (lemma Ifault.ChecksCount) |
| src/kvsns/test/framework/option.c:40-41 | a gid of 0 or less assigns `getuid()` to the uid | "1000:0" gives uid getuid() and gid 0 | the gid defaults to `getgid()` | high, not executed | TestOption.ParseUserCredAsWritten (lemma TestOption.UserCredRoundTrip) | TestOption.ParseUserCred |
| nsal/src/kvstore/plugins/cortx/cortx_kvstore.c:162-175 | begin, end and discard transaction do nothing and return 0, so the calls that bracket their writes with them keep every write made before a failure | cortxfs/efs mkdir under a parent at MAX_LINK fails with EINVAL yet leaves the new name and stat; link of an object at MAX_LINK fails with EINVAL yet leaves the new name | a failing call leaves the store as it was | medium, not executed | Namespace.CreateEntryAsWritten, Namespace.LinkAsWritten, Removal.DetachAsWritten (lemmas Namespace.MkdirAtMaxLinkKeepsEntry, Namespace.LinkAtMaxLinkKeepsEntry, Removal.DetachAtZeroLinksDropsName) | Namespace.CreateEntry, Namespace.Link, Removal.Detach |
| experiments/ifault/ifault.c:83-86 | ifault_register passes its `va_list` as the one variadic argument of the variadic ifp_data_init, which then reads its words with `va_arg` from a list that does not hold them | FP_ONCE(3) may store any hit_start, not 3 | ifp_data_init takes a `va_list` (a `v`-style function) and reads the macro's arguments | high, not executed | Ifault.RegisterAsWritten (lemma Ifault.RegisterAsWrittenLosesArguments) | Ifault.Register |

=== FILE: block_io.dfy ===
/** m0store_do_io: a byte-range read or write on an object that only
    accepts whole blocks.  The range [x1, x2) is cut into an optional
    partial head block, a run of aligned blocks and an optional partial
    tail block, or, when both ends fall in one block, a single
    read-modify-write of that block. */
module BlockIo {
  import opened Errno
  import opened InodeAttr
  import opened DataStore

  /** Facts about whole-number division by the block size, kept apart so
      that the solver meets one multiplication at a time. */
  lemma DivBounds(x: nat, bs: nat)
    requires bs > 0
    ensures (x / bs) * bs <= x < (x / bs) * bs + bs
  {
  }

  lemma MulStep(i: nat, bs: nat)
    ensures (i + 1) * bs == i * bs + bs
  {
  }

  lemma MulMono(i: nat, j: nat, bs: nat)
    requires i < j
    ensures i * bs + bs <= j * bs
  {
    MulStep(i, bs);
    var d := j - (i + 1);
    assert j * bs == (i + 1) * bs + d * bs;
  }

  /** lower(x, bs): the block boundary at or below x. */
  function Lower(x: nat, bs: nat): (l: nat)
    requires bs > 0
    ensures l <= x < l + bs
  {
    DivBounds(x, bs);
    (x / bs) * bs
  }

  /** upper(x, bs): the block boundary strictly above x. */
  function Upper(x: nat, bs: nat): (u: nat)
    requires bs > 0
    ensures x < u <= x + bs && u == Lower(x, bs) + bs
  {
    MulStep(x / bs, bs);
    (x / bs + 1) * bs
  }

  /** Two boundaries that differ are at least one block apart. */
  lemma LowerGap(x1: nat, x2: nat, bs: nat)
    requires bs > 0 && x1 <= x2
    ensures Lower(x1, bs) != Lower(x2, bs) ==> x1 / bs < x2 / bs && Lower(x1, bs) + bs <= Lower(x2, bs)
  {
    if Lower(x1, bs) != Lower(x2, bs) {
      DivBounds(x1, bs);
      DivBounds(x2, bs);
      if x1 / bs > x2 / bs {
        MulMono(x2 / bs, x1 / bs, bs);
      }
      MulMono(x1 / bs, x2 / bs, bs);
    }
  }

  /** The way do_io cuts [x1, x2): `insider` when both ends share a block;
      otherwise a head block when x1 is not on a boundary, a tail block
      when x2 is not, and the run of `blocks` aligned blocks [lio, uio). */
  datatype Plan = Plan(insider: bool, bprev: bool, bnext: bool, lio: nat, uio: nat, blocks: nat)

  function Split(x1: nat, x2: nat, bs: nat): (p: Plan)
    requires bs > 0 && x1 <= x2
    ensures p.insider <==> Lower(x1, bs) == Lower(x2, bs)
    ensures p.insider ==> !p.bprev && !p.bnext && p.lio == p.uio && p.blocks == 0
    ensures !p.insider ==> (p.bprev <==> x1 != Lower(x1, bs)) && (p.bnext <==> x2 != Lower(x2, bs))
    ensures !p.insider ==> p.lio == (if p.bprev then Upper(x1, bs) else x1)
    ensures !p.insider ==> p.uio == (if p.bnext then Lower(x2, bs) else x2)
    ensures x1 <= p.lio <= p.uio <= x2 && p.uio - p.lio == p.blocks * bs
  {
    var lx1 := Lower(x1, bs);
    var lx2 := Lower(x2, bs);
    if lx1 == lx2 then Plan(true, false, false, x1, x1, 0)
    else
      LowerGap(x1, x2, bs);
      var bprev := x1 != lx1;
      var bnext := x2 != lx2;
      var q1 := if bprev then x1 / bs + 1 else x1 / bs;
      var q2 := x2 / bs;
      var blocks := q2 - q1;
      assert q2 * bs - q1 * bs == blocks * bs;
      Plan(false, bprev, bnext, if bprev then Upper(x1, bs) else x1, if bnext then lx2 else x2, blocks)
  }

  /** The bytes each step moves: the head, the aligned run, the tail and
      the single-block case. */
  function HeadLen(x1: nat, x2: nat, bs: nat): nat
    requires bs > 0 && x1 <= x2
  {
    var p := Split(x1, x2, bs);
    if p.bprev then Upper(x1, bs) - x1 else 0
  }

  function MiddleLen(x1: nat, x2: nat, bs: nat): nat
    requires bs > 0 && x1 <= x2
  {
    var p := Split(x1, x2, bs);
    p.uio - p.lio
  }

  function TailLen(x1: nat, x2: nat, bs: nat): nat
    requires bs > 0 && x1 <= x2
  {
    var p := Split(x1, x2, bs);
    if p.bnext then x2 - Lower(x2, bs) else 0
  }

  /** The steps account for every byte of the range exactly once. */
  lemma StepsCoverRange(x1: nat, x2: nat, bs: nat)
    requires bs > 0 && x1 <= x2
    ensures var p := Split(x1, x2, bs);
            if p.insider then HeadLen(x1, x2, bs) == 0 && MiddleLen(x1, x2, bs) == 0 && TailLen(x1, x2, bs) == 0
            else HeadLen(x1, x2, bs) + MiddleLen(x1, x2, bs) + TailLen(x1, x2, bs) == x2 - x1
  {
  }

  /** Where the tail step takes its bytes in the caller's buffer AS
      WRITTEN: after the aligned run, `delta_pos += done` adds the head a
      second time. */
  function TailSourceAsWritten(x1: nat, x2: nat, bs: nat): nat
    requires bs > 0 && x1 <= x2
  {
    var p := Split(x1, x2, bs);
    var head := HeadLen(x1, x2, bs);
    var done := head + MiddleLen(x1, x2, bs);
    if p.lio != p.uio then head + done else head
  }

  /** Where the tail's bytes are in the buffer: after the head and the
      aligned run. */
  function TailSource(x1: nat, x2: nat, bs: nat): (d: nat)
    requires bs > 0 && x1 <= x2
    ensures !Split(x1, x2, bs).insider ==> d + TailLen(x1, x2, bs) == x2 - x1
  {
    HeadLen(x1, x2, bs) + MiddleLen(x1, x2, bs)
  }

  /** Whenever the range has a head block and a run of aligned blocks, the
      tail step reads the head's length past where the tail's bytes are,
      and with a tail block that is past the end of the caller's buffer. */
  lemma TailSourceOverrunsBuffer(x1: nat, x2: nat, bs: nat)
    requires bs > 0 && x1 <= x2
    requires Split(x1, x2, bs).bprev && Split(x1, x2, bs).lio != Split(x1, x2, bs).uio
    ensures TailSourceAsWritten(x1, x2, bs) == TailSource(x1, x2, bs) + HeadLen(x1, x2, bs)
    ensures HeadLen(x1, x2, bs) > 0
    ensures Split(x1, x2, bs).bnext ==> TailSourceAsWritten(x1, x2, bs) + TailLen(x1, x2, bs) > x2 - x1
  {
  }

  /** bs 4, x 1, len 10: the head is [1, 4), the run [4, 8), the tail
      [8, 11).  The tail's 3 bytes sit at buffer offset 7, but the code
      takes them from offset 10, past the end of the 10-byte buffer. */
  lemma TailSourceOverrunExample(x: nat, len: nat, bs: nat)
    requires x == 1 && len == 10 && bs == 4
    ensures TailLen(x, x + len, bs) == 3
    ensures TailSource(x, x + len, bs) == 7
    ensures TailSourceAsWritten(x, x + len, bs) == 10
  {
    assert Lower(x, bs) == 0 by { assert x / bs == 0; }
    assert Lower(x + len, bs) == 8 by { assert (x + len) / bs == 2; }
    var p := Split(x, x + len, bs);
    assert !p.insider && p.bprev && p.bnext && p.lio == 4 && p.uio == 8;
  }

  /** The two offsets agree whenever there is no head or no aligned run. */
  lemma TailSourceAgreesWithoutHead(x1: nat, x2: nat, bs: nat)
    requires bs > 0 && x1 <= x2
    requires !Split(x1, x2, bs).bprev || Split(x1, x2, bs).lio == Split(x1, x2, bs).uio
    ensures TailSourceAsWritten(x1, x2, bs) == TailSource(x1, x2, bs)
  {
  }

  // ---------------------------------------------------------------- the IO

  /** A read-modify-write of one block: the block at `start` is read, `data`
      is copied in at `from`, and the whole block is written back. */
  function PatchBlock(obj: seq<Byte>, start: nat, bs: nat, from: nat, data: seq<Byte>): (r: seq<Byte>)
    requires start <= from && from + |data| <= start + bs
    ensures forall p: nat :: ByteAt(r, p) == if from <= p < from + |data| then data[p - from] else ByteAt(obj, p)
  {
    var tmp := Bytes(obj, start, bs);
    var k := from - start;
    var tmp2 := tmp[..k] + data + tmp[k + |data|..];
    assert forall p: nat :: start <= p < start + bs ==>
             tmp2[p - start] == if from <= p < from + |data| then data[p - from] else ByteAt(obj, p);
    Splice(obj, start, tmp2)
  }

  /** write_data_aligned: `data` holds `n` whole blocks, written one block
      at a time from the boundary `off`. */
  method WriteAligned(obj: seq<Byte>, off: nat, data: seq<Byte>, n: nat, bs: nat) returns (r: seq<Byte>)
    requires |data| == n * bs
    ensures forall p: nat :: ByteAt(r, p) == if off <= p < off + |data| then data[p - off] else ByteAt(obj, p)
  {
    r := obj;
    var i := 0;
    var k := 0;
    while i < n
      invariant 0 <= i <= n && k == i * bs && k <= |data|
      invariant forall p: nat :: ByteAt(r, p) == if off <= p < off + k then data[p - off] else ByteAt(obj, p)
    {
      MulMono(i, n, bs);
      MulStep(i, bs);
      r := Splice(r, off + k, data[k..k + bs]);
      i := i + 1;
      k := k + bs;
    }
  }

  /** read_data_aligned: `n` whole blocks from the boundary `off`, gathered
      one block at a time. */
  method ReadAligned(obj: seq<Byte>, off: nat, n: nat, bs: nat) returns (r: seq<Byte>)
    ensures r == Bytes(obj, off, n * bs)
  {
    r := [];
    var i := 0;
    while i < n
      invariant 0 <= i <= n && |r| == i * bs
      invariant forall j :: 0 <= j < |r| ==> r[j] == ByteAt(obj, off + j)
    {
      MulStep(i, bs);
      r := r + Bytes(obj, off + |r|, bs);
      i := i + 1;
    }
  }

  /** The write half of m0store_do_io as intended: the tail step takes its
      bytes from the buffer offset given by the corrected TailSource, where
      the code as written uses TailSourceAsWritten.  The range
      [x, x + |buff|) ends up holding `buff` and every other byte is as it
      was. */
  method WriteRange(obj: seq<Byte>, x: nat, buff: seq<Byte>, bs: nat) returns (r: seq<Byte>)
    requires bs > 0
    ensures forall p: nat :: ByteAt(r, p) == if x <= p < x + |buff| then buff[p - x] else ByteAt(obj, p)
  {
    var x1 := x;
    var x2 := x + |buff|;
    var plan := Split(x1, x2, bs);
    StepsCoverRange(x1, x2, bs);
    if plan.insider {
      r := PatchBlock(obj, Lower(x1, bs), bs, x1, buff);
      return;
    }
    var head := HeadLen(x1, x2, bs);
    var mid := MiddleLen(x1, x2, bs);
    var tail := TailLen(x1, x2, bs);
    r := obj;
    if plan.bprev {
      r := PatchBlock(r, Lower(x1, bs), bs, x1, buff[..head]);
    }
    if plan.lio != plan.uio {
      r := WriteAligned(r, plan.lio, buff[head..head + mid], plan.blocks, bs);
    }
    if plan.bnext {
      var delta := TailSource(x1, x2, bs);
      r := PatchBlock(r, Lower(x2, bs), bs, plan.uio, buff[delta..delta + tail]);
    }
  }

  /** The read half of m0store_do_io as intended: the bytes of [x, x + len),
      the tail block's bytes landing right after the head and the aligned
      run, which is where TailSource puts them.  The code as written copies
      them at TailSourceAsWritten instead. */
  method ReadRange(obj: seq<Byte>, x: nat, len: nat, bs: nat) returns (out: seq<Byte>)
    requires bs > 0
    ensures out == Bytes(obj, x, len)
  {
    var x1 := x;
    var x2 := x + len;
    var plan := Split(x1, x2, bs);
    StepsCoverRange(x1, x2, bs);
    if plan.insider {
      out := Bytes(obj, x1, len);
      return;
    }
    var head := HeadLen(x1, x2, bs);
    var mid := MiddleLen(x1, x2, bs);
    var tail := TailLen(x1, x2, bs);
    out := [];
    if plan.bprev {
      out := Bytes(obj, x1, head);
    }
    if plan.lio != plan.uio {
      var run := ReadAligned(obj, plan.lio, plan.blocks, bs);
      out := out + run;
    }
    if plan.bnext {
      out := out + Bytes(obj, plan.uio, tail);
    }
    assert |out| == len;
    forall i | 0 <= i < len ensures out[i] == ByteAt(obj, x + i) {
      if i < head {
      } else if i < head + mid {
      } else {
      }
    }
  }

  datatype IoType = IoRead | IoWrite

  /** m0store_do_io as intended, with the tail step's buffer offset taken
      from the corrected TailSource (through WriteRange and ReadRange), not
      from TailSourceAsWritten.  `allocOk` is the answer of malloc for the
      one-block scratch buffer.  A write of `buff` leaves the range holding
      `buff` and every other byte as it was; a read returns the range. */
  method DoIo(obj: seq<Byte>, io: IoType, x: nat, len: nat, bs: nat, buff: seq<Byte>, allocOk: bool)
    returns (res: Result<nat>, obj2: seq<Byte>, out: seq<Byte>)
    requires bs > 0
    requires io == IoWrite ==> |buff| == len
    ensures !allocOk ==> res == Err(ENOMEM) && obj2 == obj
    ensures allocOk ==> res == Ok(len)
    ensures io == IoRead ==> obj2 == obj
    ensures io == IoRead && allocOk ==> out == Bytes(obj, x, len)
    ensures io == IoWrite ==>
              forall p: nat :: ByteAt(obj2, p) == if allocOk && x <= p < x + len then buff[p - x] else ByteAt(obj, p)
  {
    obj2 := obj;
    out := [];
    if !allocOk {
      res := Err(ENOMEM);
      return;
    }
    if io == IoWrite {
      obj2 := WriteRange(obj, x, buff, bs);
    } else {
      out := ReadRange(obj, x, len, bs);
    }
    res := Ok(len);
  }

  /** m0_fid_to_string: the length of the printed id plus its terminating
      NUL, or the printer's error. */
  function FidToString(printed: Result<string>): (r: Result<(string, nat)>)
    ensures r.Err? <==> printed.Err?
    ensures r.Err? ==> r.code == printed.code
    ensures r.Ok? ==> r.value.0 == printed.value && r.value.1 == |printed.value| + 1
  {
    var s :- printed;
    Ok((s, |s| + 1))
  }
}

=== FILE: cli_client.dfy ===
/** The REST side of the two management command lines (cortxfscli and
    efscli): the HTTP method an action maps to, how a request's URL,
    JSON content and headers are composed from the arguments, and how a
    response is classified, read and listed.  JSON encoding is an input
    (`encode`), and so is the network. */
module CliClient {
  import opened Errno
  import opened ParentList
  import opened CliValidate

  datatype Method = Put | Get | Delete

  /** The cortxfscli request (request.py) and the efscli request
      (client.py) differ: only the former maps "setup". */
  datatype CliFork = CortxfsCli | EfsCli

  /** HttpRequest.request_map; any other action raises (None). */
  function MethodOf(fork: CliFork, action: string): (m: Option<Method>)
    ensures action == "create" ==> m == Some(Put)
    ensures action == "delete" ==> m == Some(Delete)
    ensures action == "list" ==> m == Some(Get)
    ensures action == "setup" ==> (m.Some? <==> fork == CortxfsCli) && (m.Some? ==> m.value == Put)
    ensures m.Some? ==> action in {"create", "delete", "list", "setup"}
  {
    if action == "create" then Some(Put)
    else if action == "delete" then Some(Delete)
    else if action == "list" then Some(Get)
    else if action == "setup" && fork == CortxfsCli then Some(Put)
    else None
  }

  /** The request line: "/" + command type, then "/" + the URL path. */
  function RequestLine(command: string, urlPath: string): (line: string)
    ensures |line| == |command| + |urlPath| + 2
    ensures line[0] == '/' && line[|command| + 1] == '/'
    ensures line[1..|command| + 1] == command && line[|command| + 2..] == urlPath
  {
    "/" + command + "/" + urlPath
  }

  // ---------------------------------------------------------------- compose

  /** The JSON content of a request, before encoding. */
  datatype Content =
    | NoContent
    | NameOnly(name: string)
    | NameOptions(name: string, options: map<string, string>)
    | LdapSetup(server: string, baseDN: string, adminAccount: string, adminPassword: string)

  datatype Request = Request(
    verb: Method,
    command: string,
    urlPath: string,
    content: Content,
    headers: map<string, string>)

  /** The header rule: a request with non-empty encoded content says it
      is JSON and gives the content's length; otherwise the length is
      "0". */
  function HeadersFor(content: Content, encode: Content -> string): (h: map<string, string>)
    ensures "Content-Length" in h
    ensures content != NoContent && |encode(content)| > 0 ==>
              h == map["Content-Type" := "application/json", "Content-Length" := Decimal(|encode(content)|)]
    ensures content == NoContent ==> h == map["Content-Length" := "0"]
  {
    if content != NoContent && |encode(content)| > 0 then
      map["Content-Type" := "application/json", "Content-Length" := Decimal(|encode(content)|)]
    else map["Content-Length" := "0"]
  }

  const COMMANDS_WITH_OPTIONS: set<string> := {"fs", "endpoint", "auth"}

  /** RestClient.compose of both command lines.  A request other than PUT
      carries its first argument, if any, as the URL path.  A PUT carries
      JSON content: efscli sends only the name; cortxfscli sends the name
      and, for fs and endpoint with a second argument, the options parsed
      from it, and for auth the LDAP settings.  Indexing past the
      arguments or an option without '=' raises (None).  An auth type
      other than "ldap" returns at once, leaving no content and no
      headers. */
  function Compose(fork: CliFork, verb: Method, command: string, args: seq<string>,
                   encode: Content -> string): (r: Option<Request>)
    ensures verb != Put ==> r.Some? && r.value.content == NoContent
                              && r.value.urlPath == (if |args| != 0 then args[0] else "")
                              && r.value.headers == map["Content-Length" := "0"]
    ensures verb == Put && |args| == 0 ==> r.None?
    ensures r.Some? ==> r.value.verb == verb && r.value.command == command
    ensures r.Some? && r.value.content != NoContent ==> r.value.headers == HeadersFor(r.value.content, encode)
  {
    if verb != Put then
      Some(Request(verb, command, if |args| != 0 then args[0] else "", NoContent, HeadersFor(NoContent, encode)))
    else if |args| == 0 then None
    else if fork == EfsCli then
      var content := NameOnly(args[0]);
      Some(Request(verb, command, "", content, HeadersFor(content, encode)))
    else if command == "auth" then
      if args[0] == "ldap" then
        if |args| < 5 then None
        else
          var content := LdapSetup(args[1], args[2], args[3], args[4]);
          Some(Request(verb, command, "", content, HeadersFor(content, encode)))
      else Some(Request(verb, command, "", NoContent, map[]))
    else if command in COMMANDS_WITH_OPTIONS && |args| > 1 then
      match ParseOptions(args[1])
      case None => None
      case Some(pairs) =>
        var content := NameOptions(args[0], ToDict(pairs));
        Some(Request(verb, command, "", content, HeadersFor(content, encode)))
    else
      var content := NameOnly(args[0]);
      Some(Request(verb, command, "", content, HeadersFor(content, encode)))
  }

  /** The two command lines compose the same request for everything but
      a cortxfscli PUT with options or for auth. */
  lemma ComposeForksAgree(verb: Method, command: string, args: seq<string>, encode: Content -> string)
    requires verb != Put || (|args| == 1 && command != "auth")
    ensures Compose(CortxfsCli, verb, command, args, encode) == Compose(EfsCli, verb, command, args, encode)
  {
  }

  /** An options argument becomes a map in which a repeated key keeps its
      last value. */
  lemma ComposeOptionsLastWins(verb: Method, command: string, args: seq<string>,
                               encode: Content -> string, i: nat)
    requires verb == Put && command in {"fs", "endpoint"} && |args| > 1
    requires ParseOptions(args[1]).Some? && i < |ParseOptions(args[1]).value|
    requires var ps := ParseOptions(args[1]).value;
             forall j :: i < j < |ps| ==> ps[j].0 != ps[i].0
    ensures var r := Compose(CortxfsCli, verb, command, args, encode);
            var (k, v) := ParseOptions(args[1]).value[i];
            r.Some? && r.value.content.NameOptions? && r.value.content.name == args[0]
            && k in r.value.content.options && r.value.content.options[k] == v
  {
    ToDictLastWins(ParseOptions(args[1]).value, i);
  }

  /** The actions of a command, as the command line spells them. */
  function ActionName(cmd: Command): string {
    match cmd
    case Fs(a, _) => (match a case FsCreate => "create" case FsList => "list" case FsDelete => "delete")
    case Endpoint(a, _) => (match a case EpCreate => "create" case EpDelete => "delete" case EpUpdate => "update")
    case Auth(a, _) => (match a case AuthSetup => "setup" case AuthShow => "show" case AuthCheck => "check" case AuthRemove => "remove")
  }

  function CommandName(cmd: Command): string {
    match cmd
    case Fs(_, _) => "fs"
    case Endpoint(_, _) => "endpoint"
    case Auth(_, _) => "auth"
  }

  function ArgsOf(cmd: Command): seq<string> {
    match cmd
    case Fs(_, args) => args
    case Endpoint(_, args) => args
    case Auth(_, args) => args
  }

  /** What validation accepts, cortxfscli can send: an accepted command
      whose action has a method composes without raising.  Endpoint update
      and auth show, check and remove pass validation but have no
      method. */
  lemma ValidatedCommandComposes(search: (string, string) -> bool, rule: NameRule, conf: ConfRules,
                                 cmd: Command, encode: Content -> string)
    requires GetCommand(search, rule, conf, cmd).Accepted?
    ensures MethodOf(CortxfsCli, ActionName(cmd)).None? <==>
              cmd == Endpoint(EpUpdate, ArgsOf(cmd)) || (cmd.Auth? && cmd.authAction != AuthSetup)
    ensures MethodOf(CortxfsCli, ActionName(cmd)).Some? ==>
              Compose(CortxfsCli, MethodOf(CortxfsCli, ActionName(cmd)).value, CommandName(cmd), ArgsOf(cmd), encode).Some?
  {
  }

  // ---------------------------------------------------------------- response

  /** The statuses Response.iserror treats as failures. */
  const ERROR_STATUSES: set<int> := {400, 401, 404, 408, 409, 413, 500, 501}

  function IsError(status: int): (e: bool)
    ensures 200 <= status < 300 ==> !e
    ensures e ==> 400 <= status < 600
    ensures status in {403, 405, 503} ==> !e
  {
    status in ERROR_STATUSES
  }

  /** A response body: its text and the "rc" member of its JSON. */
  datatype Body = Body(text: string, rc: Option<int>)

  /** A response object: the body once read, and the errno once parsed. */
  datatype Response = Response(status: int, body: Option<Body>, errno: Option<int>)

  function Fresh(status: int): Response {
    Response(status, None, None)
  }

  /** Response.body: reads the wire body the first time, then keeps it. */
  function ReadBody(r: Response, wire: Body): (res: (Response, Body))
    ensures r.body.Some? ==> res == (r, r.body.value)
    ensures r.body.None? ==> res.1 == wire && res.0.body == Some(wire)
    ensures res.0.status == r.status && res.0.errno == r.errno
  {
    match r.body
    case Some(b) => (r, b)
    case None => (r.(body := Some(wire)), wire)
  }

  /** Response.errno: the body is read and its "rc" parsed only when the
      body has not been read yet; otherwise the errno kept so far is
      returned. */
  function ErrnoOf(r: Response, wire: Body): (res: (Response, Option<int>))
    ensures r.body.None? ==> res.1 == wire.rc && res.0.body == Some(wire)
    ensures r.body.Some? ==> res == (r, r.errno)
  {
    if r.body.None? then (r.(body := Some(wire), errno := wire.rc), wire.rc)
    else (r, r.errno)
  }

  /** Asked first, errno gives the body's "rc"; asked after the body was
      read, it gives nothing, whatever the body says. */
  lemma ErrnoDependsOnReadOrder(status: int, wire: Body)
    ensures ErrnoOf(Fresh(status), wire).1 == wire.rc
    ensures ErrnoOf(ReadBody(Fresh(status), wire).0, wire).1 == None
    ensures var (r1, e1) := ErrnoOf(Fresh(status), wire); ErrnoOf(r1, wire).1 == e1
  {
  }

  /** One listed file system: its name and, when exported, its endpoint
      options. */
  datatype FsEntry = FsEntry(name: Option<string>, endpointOptions: Option<map<string, string>>)

  datatype Row = Row(fsId: nat, name: Option<string>, exported: string, protocol: string)

  /** What Response.display prints: nothing, or the header row followed
      by the rows. */
  datatype Listing = NoOutput | Table(rows: seq<Row>)

  function RowsFrom(list: seq<FsEntry>, first: nat): (rows: seq<Row>)
    ensures |rows| == |list|
    ensures forall i :: 0 <= i < |list| ==>
              rows[i].fsId == first + i && rows[i].name == list[i].name
              && (rows[i].exported == "YES" <==> list[i].endpointOptions.Some?)
    decreases |list|
  {
    if |list| == 0 then []
    else
      var e := list[0];
      var row :=
        match e.endpointOptions
        case None => Row(first, e.name, "NO", "None")
        case Some(opts) => Row(first, e.name, "YES", if "proto" in opts then opts["proto"] else "None");
      [row] + RowsFrom(list[1..], first + 1)
  }

  const NO_CONTENT: int := 204

  /** Response.display: only a GET of "fs" prints; 204 prints the header
      row alone; otherwise file systems are numbered from 1 and marked
      exported exactly when they carry endpoint options. */
  function Display(verb: Method, command: string, status: int, list: seq<FsEntry>): (out: Listing)
    ensures out.Table? <==> verb == Get && command == "fs"
    ensures out.Table? && status == NO_CONTENT ==> out.rows == []
    ensures out.Table? && status != NO_CONTENT ==> |out.rows| == |list|
    ensures out.Table? && status != NO_CONTENT ==>
              forall i :: 0 <= i < |list| ==> out.rows[i].fsId == i + 1
                                              && (out.rows[i].exported == "YES" <==> list[i].endpointOptions.Some?)
  {
    if verb != Get || command != "fs" then NoOutput
    else if status == NO_CONTENT then Table([])
    else Table(RowsFrom(list, 1))
  }

  /** efscli RestClient.recv: the body is read only for a GET whose status
      is not 204. */
  function RecvReadsBody(verb: Method, status: int): (readsBody: bool)
    ensures readsBody ==> verb == Get
    ensures verb == Get ==> (readsBody <==> status != NO_CONTENT)
  {
    verb == Get && status != NO_CONTENT
  }

  /** Whenever a listing has rows to print, efscli's recv read a body for
      it, and an empty listing is exactly the case it did not. */
  lemma ListingNeedsBody(command: string, status: int, list: seq<FsEntry>)
    requires command == "fs"
    ensures Display(Get, command, status, list).Table?
    ensures |list| > 0 && Display(Get, command, status, list).rows != [] ==> RecvReadsBody(Get, status)
    ensures !RecvReadsBody(Get, status) ==> Display(Get, command, status, list).rows == []
  {
  }
}

=== FILE: cli_validate.dfy ===
/** Argument validation of the CORTX-FS management command line
    (cortxfscli: utils.py and command.py): name checks against a length
    limit and an exclusion pattern, `key=value` option strings checked
    against per-protocol rules, and the argument counts each command
    accepts.  The regular-expression engine is an input: `search(pattern,
    text)` says whether the pattern occurs anywhere in the text. */
module CliValidate {
  import opened Errno
  import opened ParentList

  // ---------------------------------------------------------------- str.split

  /** Python's `s.split(sep)` for a one-character separator: the pieces
      between separators, empty ones included; never an empty list. */
  function Split(s: string, sep: char): (parts: seq<string>)
    ensures |parts| >= 1
    ensures forall i :: 0 <= i < |parts| ==> sep !in parts[i]
    ensures |parts| == 1 <==> sep !in s
    decreases |s|
  {
    if |s| == 0 then [""]
    else
      var rest := Split(s[1..], sep);
      assert s == [s[0]] + s[1..];
      if s[0] == sep then [""] + rest
      else
        var parts := [[s[0]] + rest[0]] + rest[1..];
        assert forall i :: 1 <= i < |parts| ==> parts[i] == rest[i];
        parts
  }

  /** `sep.join(parts)`. */
  function JoinWith(parts: seq<string>, sep: char): string
    requires |parts| >= 1
    decreases |parts|
  {
    if |parts| == 1 then parts[0] else parts[0] + [sep] + JoinWith(parts[1..], sep)
  }

  lemma {:induction false} JoinWithHead(c: char, parts: seq<string>, sep: char)
    requires |parts| >= 1
    ensures JoinWith([[c] + parts[0]] + parts[1..], sep) == [c] + JoinWith(parts, sep)
  {
    var q := [[c] + parts[0]] + parts[1..];
    assert q[1..] == parts[1..];
  }

  /** Joining the pieces with the separator gives the string back. */
  lemma {:induction false} SplitJoin(s: string, sep: char)
    ensures JoinWith(Split(s, sep), sep) == s
    decreases |s|
  {
    if |s| != 0 {
      var rest := Split(s[1..], sep);
      SplitJoin(s[1..], sep);
      assert s == [s[0]] + s[1..];
      if s[0] == sep {
        assert ([""] + rest)[1..] == rest;
      } else {
        JoinWithHead(s[0], rest, sep);
      }
    }
  }

  /** Splitting a separator-free word followed by more text. */
  lemma {:induction false} SplitWord(w: string, t: string, sep: char)
    requires sep !in w
    ensures Split(w + t, sep) == [w + Split(t, sep)[0]] + Split(t, sep)[1..]
    decreases |w|
  {
    if |w| != 0 {
      assert (w + t)[0] == w[0] && (w + t)[1..] == w[1..] + t;
      SplitWord(w[1..], t, sep);
      assert [w[0]] + (w[1..] + Split(t, sep)[0]) == w + Split(t, sep)[0];
    } else {
      var p := Split(t, sep);
      assert w + t == t && w + p[0] == p[0];
      assert p == [p[0]] + p[1..];
    }
  }

  /** Splitting separator-free pieces joined with the separator gives the
      pieces back. */
  lemma {:induction false} JoinSplit(parts: seq<string>, sep: char)
    requires |parts| >= 1
    requires forall i :: 0 <= i < |parts| ==> sep !in parts[i]
    ensures Split(JoinWith(parts, sep), sep) == parts
    decreases |parts|
  {
    if |parts| == 1 {
      SplitWord(parts[0], "", sep);
      assert Split("", sep) == [""];
      assert parts[0] + "" == parts[0];
      assert parts == [parts[0]];
    } else {
      var more := parts[1..];
      var tail := JoinWith(more, sep);
      JoinSplit(more, sep);
      assert Split([sep] + tail, sep) == [""] + more by {
        assert ([sep] + tail)[1..] == tail;
      }
      assert JoinWith(parts, sep) == parts[0] + ([sep] + tail);
      SplitWord(parts[0], [sep] + tail, sep);
      var q := [""] + more;
      assert q[0] == "" && q[1..] == more;
      assert parts[0] + "" == parts[0];
      assert parts == [parts[0]] + more;
    }
  }

  // ---------------------------------------------------------------- option strings

  /** `token.split('=')` then `option[0]`, `option[1]`: the key and the text
      up to a second '=', if any; a token without '=' raises (None). */
  function ParseOption(token: string): (r: Option<(string, string)>)
    ensures r.None? <==> '=' !in token
    ensures r.Some? ==> '=' !in r.value.0 && '=' !in r.value.1
  {
    var parts := Split(token, '=');
    if |parts| < 2 then None else Some((parts[0], parts[1]))
  }

  /** Every comma-separated token of an option string, in order. */
  function ParseOptions(s: string): Option<seq<(string, string)>> {
    ParseAllOptions(Split(s, ','))
  }

  function ParseAllOptions(tokens: seq<string>): (r: Option<seq<(string, string)>>)
    ensures r.Some? <==> forall i :: 0 <= i < |tokens| ==> '=' in tokens[i]
    ensures r.Some? ==> |r.value| == |tokens|
                        && forall i :: 0 <= i < |tokens| ==> Some(r.value[i]) == ParseOption(tokens[i])
    decreases |tokens|
  {
    if |tokens| == 0 then Some([])
    else
      match ParseOption(tokens[0])
      case None => None
      case Some(kv) =>
        match ParseAllOptions(tokens[1..])
        case None => None
        case Some(rest) =>
          assert forall i :: 1 <= i < |tokens| ==> tokens[i] == tokens[1..][i - 1];
          Some([kv] + rest)
  }

  /** Filling a dict pair by pair: a later key replaces an earlier one. */
  function ToDict(pairs: seq<(string, string)>): (d: map<string, string>)
    ensures forall k :: k in d <==> exists i :: 0 <= i < |pairs| && pairs[i].0 == k
    decreases |pairs|
  {
    if |pairs| == 0 then map[]
    else
      var last := pairs[|pairs| - 1];
      var d0 := ToDict(pairs[..|pairs| - 1]);
      assert forall i :: 0 <= i < |pairs| - 1 ==> pairs[..|pairs| - 1][i] == pairs[i];
      d0[last.0 := last.1]
  }

  /** The value a key ends up with is the one from its last occurrence. */
  lemma {:induction false} ToDictLastWins(pairs: seq<(string, string)>, i: nat)
    requires i < |pairs|
    requires forall j :: i < j < |pairs| ==> pairs[j].0 != pairs[i].0
    ensures pairs[i].0 in ToDict(pairs) && ToDict(pairs)[pairs[i].0] == pairs[i].1
    decreases |pairs|
  {
    if i < |pairs| - 1 {
      var init := pairs[..|pairs| - 1];
      ToDictLastWins(init, i);
    }
  }

  /** A token `k=v=w` keeps only `v`: whatever follows a second '=' is
      dropped. */
  lemma ParseOptionDropsAfterSecondEquals(k: string, v: string, w: string)
    requires '=' !in k && '=' !in v && '=' !in w
    ensures ParseOption(k + "=" + v + "=" + w) == Some((k, v))
  {
    var parts := [k, v, w];
    assert JoinWith(parts, '=') == k + "=" + v + "=" + w by {
      assert parts[1..] == [v, w] && parts[1..][1..] == [w];
      assert JoinWith([w], '=') == w;
      assert JoinWith([v, w], '=') == v + "=" + w;
    }
    JoinSplit(parts, '=');
  }

  // ---------------------------------------------------------------- rules

  /** Python's `int()` on the strings the rules use: an optional sign and
      one or more decimal digits. */
  function PyInt(s: string): (r: Option<int>)
    ensures r.Some? ==> |s| > 0
  {
    if |s| > 1 && (s[0] == '-' || s[0] == '+') && forall i :: 1 <= i < |s| ==> IsDigit(s[i]) then
      var m := DigitsValue(s[1..]);
      Some(if s[0] == '-' then 0 - m else m)
    else if |s| > 0 && forall i :: 0 <= i < |s| ==> IsDigit(s[i]) then Some(DigitsValue(s))
    else None
  }

  lemma PyIntDecimal(n: nat)
    ensures PyInt(Decimal(n)) == Some(n)
  {
    DecimalRoundTrip(n);
  }

  /** regex_pattern_check: False past the length limit, otherwise True
      exactly when the pattern does NOT occur: the pattern lists what a
      name must not contain. */
  function RegexPatternCheck(search: (string, string) -> bool, pattern: string, limit: int, arg: string): (ok: bool)
    ensures |arg| > limit ==> !ok
    ensures ok <==> |arg| <= limit && !search(pattern, arg)
  {
    if |arg| > limit then false else !search(pattern, arg)
  }

  /** The rules of one option, as the rules file spells them: any of
      "str", "max_count", "set", "regex" (with "limit"). */
  type RuleSet = map<string, string>

  /** validate_key_val: True when no rule raises.  Each present rule is
      applied; a value or bound that is not an integer raises, and a
      "regex" rule without "limit" raises. */
  function ValidateKeyVal(search: (string, string) -> bool, val: string, rules: RuleSet): (ok: bool)
    ensures ok && "str" in rules ==> val == rules["str"]
    ensures ok && "max_count" in rules ==>
              PyInt(val).Some? && PyInt(rules["max_count"]).Some? && PyInt(val).value <= PyInt(rules["max_count"]).value
    ensures ok && "regex" in rules ==>
              ("limit" in rules && PyInt(rules["limit"]).Some? && |val| <= PyInt(rules["limit"]).value)
    ensures rules == map[] ==> ok
  {
    && ("str" in rules ==> val == rules["str"])
    && ("max_count" in rules ==>
          PyInt(val).Some? && PyInt(rules["max_count"]).Some? && PyInt(val).value <= PyInt(rules["max_count"]).value)
    && ("set" in rules ==> val in Split(rules["set"], ','))
    && ("regex" in rules ==>
          "limit" in rules && PyInt(rules["limit"]).Some?
          && RegexPatternCheck(search, rules["regex"], PyInt(rules["limit"]).value, val))
  }

  /** A "set" rule accepts exactly the listed values. */
  lemma SetRuleAcceptsListed(search: (string, string) -> bool, values: seq<string>, val: string)
    requires |values| >= 1 && forall i :: 0 <= i < |values| ==> ',' !in values[i]
    ensures ValidateKeyVal(search, val, map["set" := JoinWith(values, ',')]) <==> val in values
  {
    JoinSplit(values, ',');
  }

  /** A "max_count" rule accepts a printed count exactly when it is
      within the bound. */
  lemma MaxCountRuleAcceptsBounded(search: (string, string) -> bool, n: nat, m: nat)
    ensures ValidateKeyVal(search, Decimal(n), map["max_count" := Decimal(m)]) <==> n <= m
  {
    PyIntDecimal(n);
    PyIntDecimal(m);
  }

  /** The rules file: per protocol, per option key, the rules. */
  type ConfRules = map<string, map<string, RuleSet>>

  /** validate_inp_config_params: the option string is split on ',' and
      then '=', the protocol named by "proto" selects the rules, and every
      given key must have rules and pass them.  Any lookup that fails
      raises (False). */
  function ValidateInpConfigParams(search: (string, string) -> bool, conf: ConfRules, inp: string): (ok: bool)
    ensures ok ==> ParseOptions(inp).Some?
    ensures ok ==> var params := ToDict(ParseOptions(inp).value);
                   "proto" in params && params["proto"] in conf
                   && forall k :: k in params ==> k in conf[params["proto"]]
  {
    match ParseOptions(inp)
    case None => false
    case Some(pairs) =>
      var params := ToDict(pairs);
      && "proto" in params
      && params["proto"] in conf
      && var rules := conf[params["proto"]];
         forall k :: k in params ==> k in rules && ValidateKeyVal(search, params[k], rules[k])
  }

  /** Every accepted option passed its own rules. */
  lemma ValidatedOptionsPassRules(search: (string, string) -> bool, conf: ConfRules, inp: string, i: nat)
    requires ValidateInpConfigParams(search, conf, inp)
    requires i < |ParseOptions(inp).value|
    requires forall j :: i < j < |ParseOptions(inp).value| ==> ParseOptions(inp).value[j].0 != ParseOptions(inp).value[i].0
    ensures var (k, v) := ParseOptions(inp).value[i];
            var rules := conf[ToDict(ParseOptions(inp).value)["proto"]];
            k in rules && ValidateKeyVal(search, v, rules[k])
  {
    ToDictLastWins(ParseOptions(inp).value, i);
  }

  // ---------------------------------------------------------------- commands

  /** The file-system name rule: an exclusion pattern and a length limit
      (fs_name_regex, fs_name_max_len). */
  datatype NameRule = NameRule(pattern: string, maxLen: int)

  function NameOk(search: (string, string) -> bool, rule: NameRule, name: string): bool {
    RegexPatternCheck(search, rule.pattern, rule.maxLen, name)
  }

  datatype FsAction = FsCreate | FsList | FsDelete
  datatype EndpointAction = EpCreate | EpDelete | EpUpdate
  datatype AuthAction = AuthSetup | AuthShow | AuthCheck | AuthRemove

  /** FsCommand.validate_args_payload: list takes no argument; create and
      delete take exactly one, a valid name. */
  function FsValidate(search: (string, string) -> bool, rule: NameRule, action: FsAction, args: seq<string>): (ok: bool)
    ensures action == FsList ==> (ok <==> |args| == 0)
    ensures action != FsList ==> (ok <==> |args| == 1 && NameOk(search, rule, args[0]))
  {
    match action
    case FsList => |args| == 0
    case _ => |args| == 1 && NameOk(search, rule, args[0])
  }

  /** Where the endpoint rules come from: the development file when it
      exists, else the file the user named when it exists, else the rules
      built into the tool. */
  datatype RuleSource = DevFile | UserFile | Embedded

  function ChooseRules(devExists: bool, userExists: bool): (src: RuleSource)
    ensures devExists ==> src == DevFile
    ensures src == UserFile ==> userExists && !devExists
    ensures src == Embedded <==> !devExists && !userExists
  {
    if devExists then DevFile else if userExists then UserFile else Embedded
  }

  /** EndpointCommand.validate_args_payload: delete takes one valid name;
      create takes a valid name and an option string that passes the
      rules; update is not checked. */
  function EndpointValidate(search: (string, string) -> bool, rule: NameRule, conf: ConfRules,
                            action: EndpointAction, args: seq<string>): (ok: bool)
    ensures action == EpUpdate ==> ok
    ensures action == EpDelete ==> (ok <==> |args| == 1 && NameOk(search, rule, args[0]))
    ensures action == EpCreate ==>
              (ok <==> (|args| == 2 && NameOk(search, rule, args[0])
                        && ValidateInpConfigParams(search, conf, args[1])))
  {
    match action
    case EpUpdate => true
    case EpDelete => |args| == 1 && NameOk(search, rule, args[0])
    case EpCreate => |args| == 2 && NameOk(search, rule, args[0]) && ValidateInpConfigParams(search, conf, args[1])
  }

  /** AuthCommand.validate_args_payload: setup needs at least five
      arguments, the first "ldap" and exactly five in all; any other type
      raises. */
  function AuthValidate(action: AuthAction, args: seq<string>): (ok: bool)
    ensures action == AuthSetup ==> (ok <==> |args| == 5 && args[0] == "ldap")
    ensures action != AuthSetup ==> ok
  {
    if action != AuthSetup then true
    else if |args| < 5 then false
    else args[0] == "ldap" && |args| == 5
  }

  datatype Command =
    | Fs(fsAction: FsAction, fsArgs: seq<string>)
    | Endpoint(epAction: EndpointAction, epArgs: seq<string>)
    | Auth(authAction: AuthAction, authArgs: seq<string>)

  /** CommandFactory.get_command: whatever a validation raises is re-raised
      as "Command Validation failed". */
  datatype Validated = Accepted(cmd: Command) | ValidationFailed

  function GetCommand(search: (string, string) -> bool, rule: NameRule, conf: ConfRules, cmd: Command): (r: Validated)
    ensures r.Accepted? ==> r.cmd == cmd
    ensures r.ValidationFailed? <==>
              match cmd
              case Fs(a, args) => !FsValidate(search, rule, a, args)
              case Endpoint(a, args) => !EndpointValidate(search, rule, conf, a, args)
              case Auth(a, args) => !AuthValidate(a, args)
  {
    var ok :=
      match cmd
      case Fs(a, args) => FsValidate(search, rule, a, args)
      case Endpoint(a, args) => EndpointValidate(search, rule, conf, a, args)
      case Auth(a, args) => AuthValidate(a, args);
    if ok then Accepted(cmd) else ValidationFailed
  }
}

=== FILE: config.dfy ===
/** The KVSFS FSAL's NFS-Ganesha configuration writer (config_impl.c and
    config.c): export blocks built from an endpoint's JSON description, the
    whole configuration serialized line by line into a growable buffer, and
    the export list edited when an endpoint is added or removed.  Parsing
    the written file back and renaming it into place are inputs. */
module Config {
  import opened Errno
  import opened ParentList
  import Ns

  const SERIALIZE_BUFFER_DEFAULT_SIZE: nat := 2048
  /** Every line is formatted into a `char str[256]` before it is appended. */
  const LINE_BUFFER_SIZE: nat := 256

  const PLUGINS_DIR: string := "/usr/lib64/ganesha/"
  const FSAL_NAME: string := "CORTX-FS"
  const FSAL_SHARED_LIBRARY: string := "/usr/lib64/ganesha/libfsalcortx-fs.so.4.2.0"
  const EFS_CONFIG: string := "/etc/cortx/cortxfs.conf"
  const DOMAIN_NAME: string := "localdomain"

  // ---------------------------------------------------------------- lines

  /** The text of a sequence of lines, first to last. */
  function Join(ls: seq<string>): string
    decreases |ls|
  {
    if |ls| == 0 then [] else ls[0] + Join(ls[1..])
  }

  lemma {:induction false} JoinAppend(a: seq<string>, b: seq<string>)
    ensures Join(a + b) == Join(a) + Join(b)
    decreases |a|
  {
    if |a| == 0 {
      assert a + b == b;
    } else {
      assert (a + b)[1..] == a[1..] + b;
      JoinAppend(a[1..], b);
    }
  }

  lemma {:induction false} JoinPrefixLength(ls: seq<string>, i: nat)
    requires i <= |ls|
    ensures |Join(ls[..i])| <= |Join(ls)|
  {
    assert ls == ls[..i] + ls[i..];
    JoinAppend(ls[..i], ls[i..]);
  }

  // ---------------------------------------------------------------- serialized buffer

  /** struct serialized_buffer: the bytes written so far (`length` is their
      count) and the recorded capacity. */
  datatype Buffer = Buffer(data: string, capacity: nat)

  predicate Valid(b: Buffer) {
    |b.data| <= b.capacity
  }

  /** init_serialized_buffer. */
  function InitBuffer(): (b: Buffer)
    ensures Valid(b) && b.data == [] && b.capacity == SERIALIZE_BUFFER_DEFAULT_SIZE
  {
    Buffer([], SERIALIZE_BUFFER_DEFAULT_SIZE)
  }

  /** append_data.  When the text does not fit, reserve doubles the
      allocation; AS WRITTEN the recorded capacity is left as it was, so the
      assertion that follows fails and the process aborts (None).  The
      intended reserve records the doubled capacity. */
  function Append(b: Buffer, s: string, recordCapacity: bool): (r: Option<Buffer>)
    ensures r.Some? ==> r.value.data == b.data + s && Valid(r.value)
    ensures r.Some? ==> r.value.capacity >= b.capacity
    ensures !recordCapacity ==> (r.Some? <==> |b.data| + |s| <= b.capacity)
    ensures !recordCapacity && r.Some? ==> r.value.capacity == b.capacity
    ensures recordCapacity && Valid(b) && |s| <= b.capacity ==> r.Some?
  {
    var need := |b.data| + |s|;
    var capacity := if b.capacity < need && recordCapacity then 2 * b.capacity else b.capacity;
    if capacity < need then None else Some(Buffer(b.data + s, capacity))
  }

  /** Appending lines one after another, stopping at the first abort. */
  function AppendAll(b: Buffer, ls: seq<string>, recordCapacity: bool): (r: Option<Buffer>)
    ensures r.Some? ==> r.value.data == b.data + Join(ls) && r.value.capacity >= b.capacity
    ensures r.Some? && Valid(b) ==> Valid(r.value)
    decreases |ls|
  {
    if |ls| == 0 then Some(b)
    else
      match Append(b, ls[0], recordCapacity)
      case None => None
      case Some(b1) => AppendAll(b1, ls[1..], recordCapacity)
  }

  /** As written the buffer can never grow: appending succeeds exactly
      when everything fits in the capacity the buffer started with. */
  lemma {:induction false} AppendAllAsWrittenFits(b: Buffer, ls: seq<string>)
    requires Valid(b)
    ensures AppendAll(b, ls, false).Some? <==> |b.data| + |Join(ls)| <= b.capacity
    decreases |ls|
  {
    if |ls| != 0 {
      assert Join(ls) == ls[0] + Join(ls[1..]);
      var r1 := Append(b, ls[0], false);
      if r1.Some? {
        AppendAllAsWrittenFits(r1.value, ls[1..]);
      }
    }
  }

  /** With the capacity recorded, no append aborts as long as every line
      is no longer than the capacity the buffer started with. */
  lemma {:induction false} AppendAllNeverAborts(b: Buffer, ls: seq<string>)
    requires Valid(b)
    requires forall i :: 0 <= i < |ls| ==> |ls[i]| <= b.capacity
    ensures AppendAll(b, ls, true).Some?
    decreases |ls|
  {
    if |ls| != 0 {
      var b1 := Append(b, ls[0], true).value;
      AppendAllNeverAborts(b1, ls[1..]);
    }
  }

  /** The serializer's loop over the lines, on a buffer held as a
      sequence. */
  method AppendLines(b: Buffer, ls: seq<string>, recordCapacity: bool) returns (r: Option<Buffer>)
    requires Valid(b)
    ensures r == AppendAll(b, ls, recordCapacity)
    ensures r.Some? ==> r.value.data == b.data + Join(ls)
    ensures !recordCapacity ==> (r.Some? <==> |b.data| + |Join(ls)| <= b.capacity)
  {
    var cur := b;
    var i := 0;
    while i < |ls|
      invariant 0 <= i <= |ls|
      invariant AppendAll(b, ls, recordCapacity) == AppendAll(cur, ls[i..], recordCapacity)
    {
      var next := Append(cur, ls[i], recordCapacity);
      assert ls[i..][0] == ls[i] && ls[i..][1..] == ls[i + 1..];
      if next.None? {
        r := None;
        AppendAllAsWrittenFits(b, ls);
        return;
      }
      cur := next.value;
      i := i + 1;
    }
    assert ls[i..] == [];
    r := Some(cur);
    AppendAllAsWrittenFits(b, ls);
  }

  // ---------------------------------------------------------------- blocks

  /** A JSON value as json_object_get_string renders it: a JSON null gives
      no string, anything else its text.  An endpoint description that is
      not a JSON object behaves as the empty object: every lookup misses. */
  datatype JsonValue = JNull | JText(text: string)
  type JsonObject = map<string, JsonValue>

  function GetString(obj: JsonObject, key: string): (r: Option<string>)
    ensures r.Some? <==> key in obj && obj[key].JText?
  {
    if key in obj && obj[key].JText? then Some(obj[key].text) else None
  }

  /** A string member the block cannot do without. */
  function Field(obj: JsonObject, key: string): (r: Result<string>)
    ensures r.Ok? ==> Some(r.value) == GetString(obj, key)
    ensures r.Err? <==> GetString(obj, key).None?
    ensures r.Err? ==> r.code == EINVAL
  {
    match GetString(obj, key)
    case None => Err(EINVAL)
    case Some(s) => Ok(s)
  }

  datatype ClientBlock = ClientBlock(clients: string, squash: string, accessType: string, protocols: string)

  datatype ExportBlock = ExportBlock(
    exportId: Ns.u16,
    path: string,
    pseudo: string,
    fsalName: string,
    efsConfig: string,
    secType: string,
    filesystemId: string,
    client: ClientBlock)

  /** The default FSAL, NFS_Core_Param and NFSv4 blocks. */
  datatype Defaults = Defaults(
    fsalSharedLibrary: string,
    nbWorker: nat,
    manageGidsExpiration: nat,
    pluginsDir: string,
    domainName: string,
    graceless: bool)

  datatype GaneshaConfig = GaneshaConfig(defaults: Defaults, exports: seq<ExportBlock>)

  /** get_default_block. */
  function DefaultBlock(): (d: Defaults)
    ensures d.nbWorker == 1 && d.manageGidsExpiration == 3600 && d.graceless
    ensures d.fsalSharedLibrary == FSAL_SHARED_LIBRARY && d.pluginsDir == PLUGINS_DIR
    ensures d.domainName == DOMAIN_NAME
  {
    Defaults(FSAL_SHARED_LIBRARY, 1, 3600, PLUGINS_DIR, DOMAIN_NAME, true)
  }

  /** json_to_client_block: EINVAL as soon as one of the four keys is
      missing or null. */
  function JsonToClientBlock(obj: JsonObject): (r: Result<ClientBlock>)
    ensures r.Ok? <==> GetString(obj, "clients").Some? && GetString(obj, "Squash").Some?
                       && GetString(obj, "access_type").Some? && GetString(obj, "protocols").Some?
    ensures r.Err? ==> r.code == EINVAL
    ensures r.Ok? ==> (Some(r.value.clients) == GetString(obj, "clients")
                       && Some(r.value.squash) == GetString(obj, "Squash")
                       && Some(r.value.accessType) == GetString(obj, "access_type")
                       && Some(r.value.protocols) == GetString(obj, "protocols"))
  {
    var clients :- Field(obj, "clients");
    var squash :- Field(obj, "Squash");
    var accessType :- Field(obj, "access_type");
    var protocols :- Field(obj, "protocols");
    Ok(ClientBlock(clients, squash, accessType, protocols))
  }

  /** json_to_export_block: the export id and both paths come from the
      endpoint itself, the FSAL sub-block is fixed, and the security type,
      file system id and client block come from the JSON. */
  function JsonToExportBlock(name: string, id: Ns.u16, obj: JsonObject): (r: Result<ExportBlock>)
    ensures r.Ok? <==> GetString(obj, "secType").Some? && GetString(obj, "Filesystem_id").Some?
                       && JsonToClientBlock(obj).Ok?
    ensures r.Err? ==> r.code == EINVAL
    ensures r.Ok? ==> (r.value.exportId == id && r.value.path == name && r.value.pseudo == name
                       && FromEndpoint(r.value)
                       && Some(r.value.secType) == GetString(obj, "secType")
                       && Some(r.value.filesystemId) == GetString(obj, "Filesystem_id")
                       && r.value.client == JsonToClientBlock(obj).value)
  {
    var secType :- Field(obj, "secType");
    var filesystemId :- Field(obj, "Filesystem_id");
    var client :- JsonToClientBlock(obj);
    Ok(ExportBlock(id, name, name, FSAL_NAME, EFS_CONFIG, secType, filesystemId, client))
  }

  // ---------------------------------------------------------------- serializer

  function FsalLines(d: Defaults): seq<string> {
    ["FSAL {\n",
     "\tCORTX-FS {\n",
     "\t\tFSAL_Shared_Library = " + d.fsalSharedLibrary + ";\n",
     "\t}\n",
     "}\n"]
  }

  /** The plugin directory is printed from the compiled-in constant, not
      from the block. */
  function CoreParamLines(d: Defaults): seq<string> {
    ["NFS_Core_Param {\n",
     "\tNb_Worker = " + Decimal(d.nbWorker) + ";\n",
     "\tManage_Gids_Expiration = " + Decimal(d.manageGidsExpiration) + ";\n",
     "\tPlugins_Dir = " + PLUGINS_DIR + ";\n",
     "}\n"]
  }

  /** The domain name and Graceless are printed from constants, not from
      the block. */
  function Nfsv4Lines(d: Defaults): seq<string> {
    ["NFSv4 {\n",
     "\tDomainName = " + DOMAIN_NAME + ";\n",
     "\tGraceless = YES;\n",
     "}\n"]
  }

  function ClientLines(c: ClientBlock): seq<string> {
    ["\tclient {\n",
     "\t\tclients = " + c.clients + ";\n",
     "\t\tSquash = " + c.squash + ";\n",
     "\t\taccess_type = " + c.accessType + ";\n",
     "\t\tprotocols = " + c.protocols + ";\n",
     "\t}\n"]
  }

  /** The lines of an export block ahead of its client sub-block. */
  function ExportHeadLines(e: ExportBlock): seq<string> {
    ["EXPORT {\n",
     "\tExport_Id =  " + Decimal(e.exportId) + ";\n",
     "\tPath = " + e.path + ";\n",
     "\tPseudo = /" + e.pseudo + ";\n",
     "\tFSAL {\n",
     "\t\tNAME = " + e.fsalName + ";\n",
     "\t\tcortxfs_config = " + e.efsConfig + ";\n",
     "\t}\n",
     "\tSecType = " + e.secType + ";\n",
     "\tFilesystem_id = " + e.filesystemId + ";\n"]
  }

  function ExportLines(e: ExportBlock): seq<string> {
    ExportHeadLines(e) + ClientLines(e.client) + ["}\n"]
  }

  function ExportsLines(es: seq<ExportBlock>): seq<string>
    decreases |es|
  {
    if |es| == 0 then [] else ExportsLines(es[..|es| - 1]) + ExportLines(es[|es| - 1])
  }

  /** ganesha_config_to_buffer followed by one export_to_buffer per export,
      in list order. */
  function ConfigLines(cfg: GaneshaConfig): seq<string> {
    FsalLines(cfg.defaults) + CoreParamLines(cfg.defaults) + Nfsv4Lines(cfg.defaults)
    + ExportsLines(cfg.exports)
  }

  function Text(cfg: GaneshaConfig): string {
    Join(ConfigLines(cfg))
  }

  /** Every formatted line fits the 256-byte line buffer. */
  predicate LinesFit(cfg: GaneshaConfig) {
    forall i :: 0 <= i < |ConfigLines(cfg)| ==> |ConfigLines(cfg)[i]| < LINE_BUFFER_SIZE
  }

  /** Appending an export at the tail appends its block at the end of the
      text, after every block already there. */
  lemma AppendedExportEndsText(cfg: GaneshaConfig, e: ExportBlock)
    ensures Text(cfg.(exports := cfg.exports + [e]))
            == Text(cfg) + Join(ExportLines(e))
  {
    var es := cfg.exports + [e];
    assert es[..|es| - 1] == cfg.exports;
    var head := FsalLines(cfg.defaults) + CoreParamLines(cfg.defaults) + Nfsv4Lines(cfg.defaults);
    assert ConfigLines(cfg.(exports := es)) == (head + ExportsLines(cfg.exports)) + ExportLines(e);
    JoinAppend(head + ExportsLines(cfg.exports), ExportLines(e));
  }

  /** The FSAL sub-block every export built from an endpoint carries. */
  predicate FromEndpoint(e: ExportBlock) {
    e.fsalName == FSAL_NAME && e.efsConfig == EFS_CONFIG
  }

  lemma ClientTextLength(c: ClientBlock)
    ensures |Join(ClientLines(c))| >= 74
  {
    var ls := ClientLines(c);
    assert Join(ls[5..]) == ls[5];
    assert Join(ls[4..]) == ls[4] + Join(ls[5..]);
    assert Join(ls[3..]) == ls[3] + Join(ls[4..]);
    assert Join(ls[2..]) == ls[2] + Join(ls[3..]);
    assert Join(ls[1..]) == ls[1] + Join(ls[2..]);
  }

  /** An export block built from an endpoint takes at least 231 bytes,
      whatever its strings. */
  lemma ExportTextLength(e: ExportBlock)
    requires FromEndpoint(e)
    ensures |Join(ExportLines(e))| >= 231
  {
    var ls := ExportHeadLines(e);
    JoinAppend(ls + ClientLines(e.client), ["}\n"]);
    JoinAppend(ls, ClientLines(e.client));
    ClientTextLength(e.client);
    assert Join(ls[9..]) == ls[9];
    assert Join(ls[8..]) == ls[8] + Join(ls[9..]);
    assert Join(ls[7..]) == ls[7] + Join(ls[8..]);
    assert Join(ls[6..]) == ls[6] + Join(ls[7..]);
    assert Join(ls[5..]) == ls[5] + Join(ls[6..]);
    assert Join(ls[4..]) == ls[4] + Join(ls[5..]);
    assert Join(ls[3..]) == ls[3] + Join(ls[4..]);
    assert Join(ls[2..]) == ls[2] + Join(ls[3..]);
    assert Join(ls[1..]) == ls[1] + Join(ls[2..]);
  }

  lemma {:induction false} ExportsTextLength(es: seq<ExportBlock>)
    requires forall i :: 0 <= i < |es| ==> FromEndpoint(es[i])
    ensures |Join(ExportsLines(es))| >= 231 * |es|
    decreases |es|
  {
    if |es| != 0 {
      var init := es[..|es| - 1];
      ExportsTextLength(init);
      ExportTextLength(es[|es| - 1]);
      JoinAppend(ExportsLines(init), ExportLines(es[|es| - 1]));
    }
  }

  /** The buffer the serializer fills: the whole text, or an abort. */
  method SerializeToBuffer(cfg: GaneshaConfig, recordCapacity: bool) returns (r: Option<Buffer>)
    ensures r == AppendAll(InitBuffer(), ConfigLines(cfg), recordCapacity)
    ensures r.Some? ==> r.value.data == Text(cfg)
    ensures !recordCapacity ==> (r.Some? <==> |Text(cfg)| <= SERIALIZE_BUFFER_DEFAULT_SIZE)
    ensures recordCapacity && LinesFit(cfg) ==> r.Some?
  {
    r := AppendLines(InitBuffer(), ConfigLines(cfg), recordCapacity);
    if recordCapacity && LinesFit(cfg) {
      AppendAllNeverAborts(InitBuffer(), ConfigLines(cfg));
    }
  }

  // ---------------------------------------------------------------- dump

  /** What the file system does with the dumped text: whether the error
      stream could be created, whether the text parses as a configuration,
      and whether the rename into place succeeds. */
  datatype DumpIo = DumpIo(errorStreamOk: bool, parseOk: bool, renameOk: bool)

  predicate DumpSucceeds(io: DumpIo) {
    io.errorStreamOk && io.parseOk && io.renameOk
  }

  /** ganesha_config_dump: None when the buffer assertion aborts the
      process; otherwise Ok with the text now installed as the
      configuration, or the -1 every failure returns (stored as 1). */
  function DumpWith(cfg: GaneshaConfig, io: DumpIo, recordCapacity: bool): (r: Option<Result<string>>)
    ensures r.Some? ==> (r.value.Ok? <==> DumpSucceeds(io))
    ensures r.Some? && r.value.Ok? ==> r.value.value == Text(cfg)
    ensures r.Some? && r.value.Err? ==> r.value.code == EPERM
  {
    var buffered := AppendAll(InitBuffer(), ConfigLines(cfg), recordCapacity);
    if buffered.None? then None
    else if !DumpSucceeds(io) then Some(Err(EPERM))
    else Some(Ok(buffered.value.data))
  }

  function DumpAsWritten(cfg: GaneshaConfig, io: DumpIo): (r: Option<Result<string>>)
    ensures r.Some? ==> (r.value.Ok? <==> DumpSucceeds(io))
  {
    DumpWith(cfg, io, false)
  }

  function Dump(cfg: GaneshaConfig, io: DumpIo): (r: Option<Result<string>>)
    ensures r.Some? ==> (r.value.Ok? <==> DumpSucceeds(io))
    ensures r.Some? && r.value.Ok? ==> r.value.value == Text(cfg)
  {
    DumpWith(cfg, io, true)
  }

  /** As written the dump aborts exactly when the text outgrows the
      2048-byte default buffer; with the capacity recorded it never aborts
      on a configuration whose lines fit the line buffer. */
  lemma DumpAbortsPastDefaultSize(cfg: GaneshaConfig, io: DumpIo)
    ensures DumpAsWritten(cfg, io).None? <==> |Text(cfg)| > SERIALIZE_BUFFER_DEFAULT_SIZE
    ensures LinesFit(cfg) ==> Dump(cfg, io).Some?
  {
    AppendAllAsWrittenFits(InitBuffer(), ConfigLines(cfg));
    if LinesFit(cfg) {
      AppendAllNeverAborts(InitBuffer(), ConfigLines(cfg));
    }
  }

  /** Nine exports added through endpoints are enough: the dump as
      written aborts, whatever the strings, while the intended one goes
      through whenever the lines fit. */
  lemma NineExportsAbortAsWritten(cfg: GaneshaConfig, io: DumpIo)
    requires |cfg.exports| >= 9
    requires forall i :: 0 <= i < |cfg.exports| ==> FromEndpoint(cfg.exports[i])
    ensures DumpAsWritten(cfg, io).None?
    ensures LinesFit(cfg) ==> Dump(cfg, io).Some?
  {
    var head := FsalLines(cfg.defaults) + CoreParamLines(cfg.defaults) + Nfsv4Lines(cfg.defaults);
    JoinAppend(head, ExportsLines(cfg.exports));
    ExportsTextLength(cfg.exports);
    DumpAbortsPastDefaultSize(cfg, io);
  }

  // ---------------------------------------------------------------- add / remove

  /** kvsfs_add_export: EINVAL when the description does not parse (None)
      or lacks a key; otherwise the block goes at the tail and the
      configuration is dumped, and a failed dump takes the block out again.
      The outer None is an abort in the dump. */
  function AddExport(cfg: GaneshaConfig, name: string, id: Ns.u16, doc: Option<JsonObject>, io: DumpIo)
    : (r: Option<(GaneshaConfig, Result<()>)>)
    ensures doc.None? ==> r == Some((cfg, Err(EINVAL)))
    ensures r.Some? && r.value.1.Err? ==> r.value.0 == cfg
    ensures r.Some? && r.value.1.Ok? ==>
              doc.Some? && JsonToExportBlock(name, id, doc.value).Ok? && DumpSucceeds(io)
              && r.value.0 == cfg.(exports := cfg.exports + [JsonToExportBlock(name, id, doc.value).value])
  {
    match doc
    case None => Some((cfg, Err(EINVAL)))
    case Some(obj) =>
      match JsonToExportBlock(name, id, obj)
      case Err(code) => Some((cfg, Err(code)))
      case Ok(block) =>
        var cfg1 := cfg.(exports := cfg.exports + [block]);
        match Dump(cfg1, io)
        case None => None
        case Some(Ok(_)) => Some((cfg1, Ok(())))
        case Some(Err(code)) => Some((cfg, Err(code)))
  }

  /** The position of the first export with the given id. */
  function FirstWithId(es: seq<ExportBlock>, id: Ns.u16): (r: Option<nat>)
    ensures r.Some? ==> r.value < |es| && es[r.value].exportId == id
                        && forall j :: 0 <= j < r.value ==> es[j].exportId != id
    ensures r.None? ==> forall j :: 0 <= j < |es| ==> es[j].exportId != id
    decreases |es|
  {
    if |es| == 0 then None
    else if es[0].exportId == id then Some(0)
    else
      match FirstWithId(es[1..], id)
      case None => None
      case Some(j) => Some(j + 1)
  }

  /** kvsfs_remove_export: ENOENT when no export carries the id; otherwise
      the first one that does is dropped and the configuration dumped.
      Unlike an add, a failed dump does not put the block back. */
  function RemoveExport(cfg: GaneshaConfig, id: Ns.u16, io: DumpIo): (r: Option<(GaneshaConfig, Result<()>)>)
    ensures FirstWithId(cfg.exports, id).None? ==> r == Some((cfg, Err(ENOENT)))
    ensures FirstWithId(cfg.exports, id).Some? && r.Some? ==>
              var j := FirstWithId(cfg.exports, id).value;
              r.value.0 == cfg.(exports := cfg.exports[..j] + cfg.exports[j + 1..])
              && (r.value.1.Ok? <==> DumpSucceeds(io))
  {
    if |cfg.exports| == 0 then Some((cfg, Err(ENOENT)))
    else
      match FirstWithId(cfg.exports, id)
      case None => Some((cfg, Err(ENOENT)))
      case Some(j) =>
        var cfg1 := cfg.(exports := cfg.exports[..j] + cfg.exports[j + 1..]);
        match Dump(cfg1, io)
        case None => None
        case Some(Ok(_)) => Some((cfg1, Ok(())))
        case Some(Err(code)) => Some((cfg1, Err(code)))
  }

  /** Removing the export just added, under an id no other export uses,
      gives the configuration back. */
  lemma AddRemoveRoundTrip(cfg: GaneshaConfig, name: string, id: Ns.u16, obj: JsonObject, io: DumpIo)
    requires forall j :: 0 <= j < |cfg.exports| ==> cfg.exports[j].exportId != id
    requires JsonToExportBlock(name, id, obj).Ok? && DumpSucceeds(io)
    requires LinesFit(cfg.(exports := cfg.exports + [JsonToExportBlock(name, id, obj).value]))
    requires LinesFit(cfg)
    ensures AddExport(cfg, name, id, Some(obj), io).Some?
    ensures var (cfg1, rc) := AddExport(cfg, name, id, Some(obj), io).value;
            rc == Ok(()) && RemoveExport(cfg1, id, io) == Some((cfg, Ok(())))
  {
    var block := JsonToExportBlock(name, id, obj).value;
    var es := cfg.exports + [block];
    DumpAbortsPastDefaultSize(cfg.(exports := es), io);
    DumpAbortsPastDefaultSize(cfg, io);
    assert FirstWithId(es, id) == Some(|cfg.exports|);
    assert es[..|cfg.exports|] + es[|cfg.exports| + 1..] == cfg.exports;
  }
}

=== FILE: dstore.dfy ===
/** The data-object layer under the file operations: the dsal plugins
    cortx_dstore and eos_dstore, the kvsns extstore, the dsal IO buffers
    and backend selection.  An object store is a map from object id to the
    object's bytes; a byte never written (a hole, or past the end) reads as
    zero. */
module DataStore {
  import opened Errno
  import opened InodeAttr

  /** DEV_BSIZE from <sys/param.h>. */
  const DEV_BSIZE: nat := 512

  /** Which plugin serves the call. */
  datatype Backend = CortxDs | EosDs | ExtStore

  type Store = map<nat, seq<Byte>>

  /** The update_stat kinds; any other value is the "should not occur"
      default branch. */
  const UP_ST_WRITE: int := 1
  const UP_ST_READ: int := 2
  const UP_ST_TRUNCATE: int := 3

  // ---------------------------------------------------------------- blocks

  /** `(size + DEV_BSIZE - 1) / DEV_BSIZE`: the fewest blocks that hold
      `size` bytes. */
  function CeilBlocks(size: nat): (n: nat)
    ensures n * DEV_BSIZE >= size
    ensures n == 0 || (n - 1) * DEV_BSIZE < size
  {
    (size + DEV_BSIZE - 1) / DEV_BSIZE
  }

  /** `size / DEV_BSIZE`: the whole blocks inside `size` bytes. */
  function FloorBlocks(size: nat): (n: nat)
    ensures n * DEV_BSIZE <= size < (n + 1) * DEV_BSIZE
  {
    size / DEV_BSIZE
  }

  /** The block count a growing write records: dsal rounds up, extstore
      rounds down. */
  function WriteBlocks(b: Backend, size: nat): nat {
    if b == ExtStore then FloorBlocks(size) else CeilBlocks(size)
  }

  /** update_stat (the same in all three plugins except for the rounding
      of a growing write).  A missing stat or an unknown kind is EINVAL. */
  function UpdateStat(b: Backend, st: Option<Stat>, how: int, size: nat, t: Time): (r: Result<Stat>)
    ensures r.Err? <==> st.None? || !(how == UP_ST_WRITE || how == UP_ST_READ || how == UP_ST_TRUNCATE)
    ensures r.Err? ==> r.code == EINVAL
    ensures r.Ok? && how == UP_ST_WRITE ==>
              && r.value.size == (if size > st.value.size then size else st.value.size)
              && r.value.blocks == (if size > st.value.size then WriteBlocks(b, size) else st.value.blocks)
              && r.value.mtime == t && r.value.ctime == t
              && r.value.(size := st.value.size, blocks := st.value.blocks,
                          mtime := st.value.mtime, ctime := st.value.ctime) == st.value
    ensures r.Ok? && how == UP_ST_READ ==> r.value == st.value.(atime := t)
    ensures r.Ok? && how == UP_ST_TRUNCATE ==>
              && r.value.size == size && r.value.blocks * DEV_BSIZE <= size
              && r.value.mtime == t && r.value.ctime == t
              && r.value.(size := st.value.size, blocks := st.value.blocks,
                          mtime := st.value.mtime, ctime := st.value.ctime) == st.value
  {
    if st.None? then Err(EINVAL)
    else
      var s := st.value;
      if how == UP_ST_WRITE then
        var s1 := s.(mtime := t, ctime := t);
        Ok(if size > s.size then s1.(size := size, blocks := WriteBlocks(b, size)) else s1)
      else if how == UP_ST_READ then Ok(s.(atime := t))
      else if how == UP_ST_TRUNCATE then
        Ok(s.(ctime := t, mtime := t, size := size, blocks := FloorBlocks(size)))
      else Err(EINVAL)
  }

  /** A write never shrinks the recorded size, and the size it records is
      the end of the written extent whenever that extent reaches further. */
  lemma WriteStatGrowsOnly(b: Backend, st: Stat, end: nat, t: Time)
    ensures var r := UpdateStat(b, Some(st), UP_ST_WRITE, end, t).value;
            r.size >= st.size && r.size >= end
            && (r.size == st.size || r.size == end)
  {
  }

  /** With dsal the blocks of a grown file cover its size; extstore's
      rounding down leaves a 1-byte file with no block at all. */
  lemma WriteBlocksDiverge(st: Stat, t: Time)
    requires st.size == 0
    ensures UpdateStat(CortxDs, Some(st), UP_ST_WRITE, 1, t).value.blocks == 1
    ensures UpdateStat(EosDs, Some(st), UP_ST_WRITE, 1, t).value.blocks == 1
    ensures UpdateStat(ExtStore, Some(st), UP_ST_WRITE, 1, t).value.blocks == 0
  {
  }

  // ---------------------------------------------------------------- bytes

  /** The byte at position `p` of an object: zero past its end. */
  function ByteAt(d: seq<Byte>, p: nat): Byte {
    if p < |d| then d[p] else 0
  }

  function Zeros(n: nat): (z: seq<Byte>)
    ensures |z| == n && forall i :: 0 <= i < n ==> z[i] == 0
  {
    seq(n, _ => 0)
  }

  /** The `count` bytes at `off` that a pread hands back. */
  function Bytes(d: seq<Byte>, off: nat, count: nat): (r: seq<Byte>)
    ensures |r| == count
  {
    seq<Byte>(count, i requires 0 <= i < count => ByteAt(d, off + i))
  }

  /** The object after `buf` is written at `off`: the extent holds `buf`,
      every other byte is unchanged, and a gap before `off` becomes a hole. */
  function Splice(d: seq<Byte>, off: nat, buf: seq<Byte>): (r: seq<Byte>)
    ensures |r| == if |d| > off + |buf| then |d| else off + |buf|
    ensures forall p: nat :: ByteAt(r, p) == if off <= p < off + |buf| then buf[p - off] else ByteAt(d, p)
  {
    var head := if |d| >= off then d[..off] else d + Zeros(off - |d|);
    var tail := if |d| > off + |buf| then d[off + |buf|..] else [];
    var r := head + buf + tail;
    assert forall p: nat :: p < off ==> r[p] == ByteAt(d, p);
    r
  }

  /** The object after the range [off, off + count) is unmapped: that range
      reads as zero and the rest is unchanged. */
  function Unmap(d: seq<Byte>, off: nat, count: nat): (r: seq<Byte>)
    ensures |r| == |d|
    ensures forall p: nat :: ByteAt(r, p) == if off <= p < off + count then 0 else ByteAt(d, p)
  {
    if |d| <= off then d
    else
      var end := if |d| < off + count then |d| else off + count;
      d[..off] + Zeros(end - off) + d[end..]
  }

  // ---------------------------------------------------------------- object IO

  /** What obj_write hands back: the store, the byte count, the stat it
      updated and the stable flag. */
  datatype WriteOut = WriteOut(store: Store, written: nat, stat: Stat, stable: bool)

  /** cortx_ds_obj_write / eos_ds_obj_write / extstore2_write: write the
      whole buffer, then update the caller's stat with the end of the
      written extent. */
  function ObjWrite(b: Backend, store: Store, oid: nat, off: nat, buf: seq<Byte>, st: Stat, t: Time)
    : (r: Result<WriteOut>)
    ensures r.Ok? <==> oid in store
    ensures r.Err? ==> r.code == ENOENT
    ensures r.Ok? ==> r.value.written == |buf| && r.value.stable
    ensures r.Ok? ==> r.value.store.Keys == store.Keys
                      && forall o :: o in store && o != oid ==> r.value.store[o] == store[o]
    ensures r.Ok? ==> forall p: nat :: ByteAt(r.value.store[oid], p)
                        == if off <= p < off + |buf| then buf[p - off] else ByteAt(store[oid], p)
    ensures r.Ok? ==> r.value.stat.size >= off + |buf| && r.value.stat.mtime == t
  {
    if oid !in store then Err(ENOENT)
    else
      var st2 := UpdateStat(b, Some(st), UP_ST_WRITE, off + |buf|, t).value;
      Ok(WriteOut(store[oid := Splice(store[oid], off, buf)], |buf|, st2, true))
  }

  /** What obj_read hands back: the bytes, the end-of-file flag and the
      stat it updated. */
  datatype ReadOut = ReadOut(data: seq<Byte>, eof: bool, stat: Stat)

  /** cortx_ds_obj_read: clamps the read at the recorded size.  An empty
      file or an offset past the size returns nothing before the flag is
      assigned, so the caller's `eofIn` comes back AS WRITTEN
      (`assignEof` false); the comment's promise, EOF true, is `assignEof`
      true. */
  function CortxReadWith(store: Store, oid: nat, st: Stat, off: nat, count: nat, eofIn: bool,
                         t: Time, assignEof: bool): (r: Result<ReadOut>)
  {
    if st.size == 0 || st.size < off then Ok(ReadOut([], if assignEof then true else eofIn, st))
    else
      var clamp := st.size <= off + count;
      var n := if clamp then st.size - off else count;
      if oid !in store then Err(ENOENT)
      else Ok(ReadOut(Bytes(store[oid], off, n), clamp, st.(atime := t)))
  }

  /** obj_read of each plugin.  eos and extstore read `count` bytes without
      looking at the size and never assign the end-of-file flag. */
  function ObjReadAsWritten(b: Backend, store: Store, oid: nat, st: Stat, off: nat, count: nat,
                            eofIn: bool, t: Time): (r: Result<ReadOut>)
    ensures b != CortxDs ==> (r.Ok? <==> oid in store)
    ensures b != CortxDs && r.Ok? ==> r.value == ReadOut(Bytes(store[oid], off, count), eofIn, st.(atime := t))
    ensures b == CortxDs && (st.size == 0 || st.size < off) ==> r == Ok(ReadOut([], eofIn, st))
  {
    if b == CortxDs then CortxReadWith(store, oid, st, off, count, eofIn, t, false)
    else if oid !in store then Err(ENOENT)
    else Ok(ReadOut(Bytes(store[oid], off, count), eofIn, st.(atime := t)))
  }

  /** cortx_ds_obj_read as its comment describes it: never more than the
      recorded size, and EOF exactly when the request reaches the size. */
  function CortxObjRead(store: Store, oid: nat, st: Stat, off: nat, count: nat, t: Time)
    : (r: Result<ReadOut>)
    ensures st.size == 0 || st.size < off ==> r == Ok(ReadOut([], true, st))
    ensures r.Err? <==> 0 < st.size && off <= st.size && oid !in store
    ensures r.Err? ==> r.code == ENOENT
    ensures r.Ok? ==> (r.value.eof <==> st.size <= off + count)
    ensures r.Ok? ==> |r.value.data| == if st.size <= off then 0
                                         else if st.size < off + count then st.size - off else count
    ensures r.Ok? ==> forall i :: 0 <= i < |r.value.data| ==> r.value.data[i] == ByteAt(store[oid], off + i)
  {
    CortxReadWith(store, oid, st, off, count, false, t, true)
  }

  /** The flag left unassigned: a read past the end of an empty file
      reports "not at EOF" to a caller whose flag held false. */
  lemma CortxReadLeavesEofUnset(store: Store, oid: nat, st: Stat, t: Time)
    requires st.size == 0
    ensures ObjReadAsWritten(CortxDs, store, oid, st, 0, 4096, false, t).value.eof == false
    ensures CortxObjRead(store, oid, st, 0, 4096, t).value.eof == true
  {
  }

  /** Reading back what was just written gives the written bytes, whichever
      plugin serves both calls: the stat the write returns covers the
      extent, so cortx's clamp cuts nothing. */
  lemma ReadAfterWrite(b: Backend, store: Store, oid: nat, off: nat, buf: seq<Byte>, st: Stat,
                       t1: Time, t2: Time, eofIn: bool)
    requires oid in store
    ensures var w := ObjWrite(b, store, oid, off, buf, st, t1).value;
            var r := ObjReadAsWritten(b, w.store, oid, w.stat, off, |buf|, eofIn, t2);
            r.Ok? && r.value.data == buf
  {
    var w := ObjWrite(b, store, oid, off, buf, st, t1).value;
    var r := ObjReadAsWritten(b, w.store, oid, w.stat, off, |buf|, eofIn, t2);
    if buf != [] {
      assert r.Ok?;
      forall i | 0 <= i < |buf| ensures r.value.data[i] == buf[i] {
        assert ByteAt(w.store[oid], off + i) == buf[i];
      }
    }
  }

  /** cortx_ds_obj_resize / eos_ds_obj_resize / extstore2_truncate: equal
      or growing sizes do nothing (the hole reads as zero anyway); shrinking
      unmaps `old - new` bytes at `new`. */
  function ObjResize(store: Store, oid: nat, oldSize: nat, newSize: nat): (r: Result<Store>)
    ensures oldSize <= newSize ==> r == Ok(store)
    ensures oldSize > newSize ==> (r.Ok? <==> oid in store)
    ensures r.Err? ==> r.code == ENOENT
    ensures r.Ok? ==> r.value.Keys == store.Keys
    ensures r.Ok? && oldSize > newSize ==>
              forall p: nat :: ByteAt(r.value[oid], p)
                == if newSize <= p < oldSize then 0 else ByteAt(store[oid], p)
  {
    if oldSize <= newSize then Ok(store)
    else if oid !in store then Err(ENOENT)
    else Ok(store[oid := Unmap(store[oid], newSize, oldSize - newSize)])
  }

  /** Shrinking an object and reading it again: the bytes below the new
      size are the old ones. */
  lemma ResizeKeepsPrefix(store: Store, oid: nat, oldSize: nat, newSize: nat, off: nat, count: nat)
    requires oid in store && off + count <= newSize
    ensures Bytes(ObjResize(store, oid, oldSize, newSize).value[oid], off, count)
            == Bytes(store[oid], off, count)
  {
  }

  /** obj_delete: cortx passes a missing object's ENOENT up, eos and
      extstore2_del report success. */
  function ObjDelete(b: Backend, store: Store, oid: nat): (r: Result<Store>)
    ensures r.Err? <==> b == CortxDs && oid !in store
    ensures r.Err? ==> r.code == ENOENT
    ensures r.Ok? ==> oid !in r.value && r.value == store - {oid}
  {
    if oid in store then Ok(store - {oid})
    else if b == CortxDs then Err(ENOENT)
    else Ok(store)
  }

  /** Deleting an object twice: an error from cortx, success from the other
      plugins. */
  lemma DeleteTwiceDiverges(store: Store, oid: nat)
    requires oid in store
    ensures ObjDelete(CortxDs, ObjDelete(CortxDs, store, oid).value, oid) == Err(ENOENT)
    ensures ObjDelete(EosDs, ObjDelete(EosDs, store, oid).value, oid).Ok?
    ensures ObjDelete(ExtStore, ObjDelete(ExtStore, store, oid).value, oid).Ok?
  {
  }

  /** extstore_del (the first kvsns interface): `dataMap` is the
      "<ino>.data" mapping.  No mapping means no data was created; a mapped
      but missing object returns before the mapping is removed. */
  function ExtstoreDelV1(store: Store, dataMap: map<Ino, nat>, ino: Ino): (r: (Store, map<Ino, nat>))
    ensures ino !in dataMap ==> r == (store, dataMap)
    ensures ino in dataMap && dataMap[ino] !in store ==> r == (store, dataMap)
    ensures ino in dataMap && dataMap[ino] in store ==>
              r.0 == store - {dataMap[ino]} && r.1 == dataMap - {ino}
  {
    if ino !in dataMap then (store, dataMap)
    else if dataMap[ino] !in store then (store, dataMap)
    else (store - {dataMap[ino]}, dataMap - {ino})
  }

  /** extstore_truncate: a missing handle or stat is EINVAL; otherwise only
      the recorded size changes. */
  function ExtstoreTruncateV1(ino: Option<Ino>, st: Option<Stat>, filesize: nat): (r: Result<Stat>)
    ensures r.Err? <==> ino.None? || st.None?
    ensures r.Err? ==> r.code == EINVAL
    ensures r.Ok? ==> r.value.size == filesize && r.value.(size := st.value.size) == st.value
  {
    if ino.None? || st.None? then Err(EINVAL) else Ok(st.value.(size := filesize))
  }

  // ---------------------------------------------------------------- IO buffers

  /** dstore_io_buf: a caller's buffer, its size and its offset. */
  datatype IoBuf = IoBuf(data: seq<Byte>, size: nat, offset: nat)

  /** dstore_io_vec built from one buffer. */
  datatype IoVec = IoVec(edbuf: IoBuf)

  /** dstore_io_buf_init: `allocOk` is the answer of malloc. */
  function IoBufInit(data: seq<Byte>, size: nat, offset: nat, allocOk: bool): (r: Result<IoBuf>)
    ensures r.Ok? <==> allocOk
    ensures r.Err? ==> r.code == ENOMEM
    ensures r.Ok? ==> r.value.data == data && r.value.size == size && r.value.offset == offset
  {
    if !allocOk then Err(ENOMEM) else Ok(IoBuf(data, size, offset))
  }

  /** dstore_io_buf2vec: on success the buffer is consumed (the caller's
      pointer becomes NULL) and the vector holds its former contents; on
      ENOMEM the buffer is left as it was. */
  function IoBuf2Vec(buf: IoBuf, allocOk: bool): (r: (Option<IoBuf>, Result<IoVec>))
    ensures r.1.Ok? <==> allocOk
    ensures r.1.Ok? ==> r.0.None? && r.1.value.edbuf == buf
    ensures r.1.Err? ==> r.0 == Some(buf) && r.1.code == ENOMEM
  {
    if !allocOk then (Some(buf), Err(ENOMEM)) else (None, Ok(IoVec(buf)))
  }

  /** Building a vector from a fresh buffer hands back exactly what the
      buffer was made from. */
  lemma IoBufRoundTrip(data: seq<Byte>, size: nat, offset: nat)
    ensures var v := IoBuf2Vec(IoBufInit(data, size, offset, true).value, true).1.value;
            v.edbuf.data == data && v.edbuf.size == size && v.edbuf.offset == offset
  {
  }

  // ---------------------------------------------------------------- dstore_base

  /** The plugin table dstore_init scans: only "eos" is registered. */
  const MODULES: seq<(string, Backend)> := [("eos", EosDs)]

  /** How dstore_init ends. */
  datatype InitOutcome = Selected(backend: Backend, rc: int) | MissingType | NoBackend

  /** dstore_init AS WRITTEN: the configured type is compared with
      strncmp over strlen(configured) characters, so it matches every module
      name it is a prefix of.  `initRc` is the selected plugin's init
      result.  NoBackend is the `dstore_ops != NULL` assertion failing. */
  function DstoreInitAsWritten(typ: Option<string>, initRc: int): (r: InitOutcome)
    ensures typ.None? <==> r.MissingType?
    ensures typ.Some? ==> (r.Selected? <==> typ.value <= "eos")
    ensures r.Selected? ==> r.backend == EosDs && r.rc == initRc
  {
    if typ.None? then MissingType
    else if typ.value <= MODULES[0].0 then Selected(MODULES[0].1, initRc)
    else NoBackend
  }

  /** dstore_init as intended: the configured type must name a module. */
  function DstoreInit(typ: Option<string>, initRc: int): (r: InitOutcome)
    ensures typ.None? <==> r.MissingType?
    ensures r.Selected? <==> typ.Some? && exists i :: 0 <= i < |MODULES| && MODULES[i].0 == typ.value
    ensures r.Selected? ==> r.rc == initRc
  {
    if typ.None? then MissingType
    else if typ.value == MODULES[0].0 then Selected(MODULES[0].1, initRc)
    else NoBackend
  }

  /** The prefix match selects eos for an empty type or for "e"; the
      intended match rejects both. */
  lemma DstoreInitAcceptsPrefixes()
    ensures DstoreInitAsWritten(Some(""), 0) == Selected(EosDs, 0)
    ensures DstoreInitAsWritten(Some("e"), 0) == Selected(EosDs, 0)
    ensures DstoreInit(Some(""), 0) == NoBackend
    ensures DstoreInit(Some("e"), 0) == NoBackend
    ensures DstoreInit(Some("eos"), 0) == Selected(EosDs, 0)
  {
  }

  /** The two selections agree on every full module name. */
  lemma DstoreInitAgreesOnNames(typ: string, initRc: int)
    requires |typ| >= 3
    ensures DstoreInitAsWritten(Some(typ), initRc) == DstoreInit(Some(typ), initRc)
  {
    if typ <= "eos" {
      assert typ == "eos";
    }
  }

  /** An open data object: the store it belongs to and its id. */
  datatype DsObj = DsObj(ds: Backend, oid: nat)

  /** dstore_obj_open: the plugin's open result `openRc`, and on success an
      object bound to the store and the id asked for. */
  function ObjOpen(ds: Backend, oid: nat, openRc: Result<()>): (r: Result<DsObj>)
    ensures r.Ok? <==> openRc.Ok?
    ensures r.Err? ==> r.code == openRc.code
    ensures r.Ok? ==> r.value.ds == ds && r.value.oid == oid
  {
    var _ :- openRc;
    Ok(DsObj(ds, oid))
  }
}

=== FILE: errno.dfy ===
/** Error numbers and the failure-compatible result types shared by every
    layer of the model.  The C code returns `0` or a negated errno; here a
    failure carries the positive errno and `Rc()` gives back the C value. */
module Errno {
  const EPERM: nat := 1
  const ENOENT: nat := 2
  const E2BIG: nat := 7
  const EBADF: nat := 9
  const ENOMEM: nat := 12
  const EEXIST: nat := 17
  const EXDEV: nat := 18
  const ENOTDIR: nat := 20
  const EINVAL: nat := 22
  const ERANGE: nat := 34
  const ENAMETOOLONG: nat := 36
  const ENOTEMPTY: nat := 39
  const ENOBUFS: nat := 105

  datatype Option<+T> = None | Some(value: T) {
    predicate IsFailure() { None? }

    function PropagateFailure<U>(): Option<U>
      requires None?
    {
      None
    }

    function Extract(): T
      requires Some?
    {
      value
    }
  }

  /** Outcome of an operation that either produces a value or fails with an
      errno (stored positive). */
  datatype Result<+T> = Ok(value: T) | Err(code: nat) {
    predicate IsFailure() { Err? }

    function PropagateFailure<U>(): Result<U>
      requires Err?
    {
      Err(code)
    }

    function Extract(): T
      requires Ok?
    {
      value
    }

    /** The integer the C function returns: 0, or the negated errno. */
    function Rc(): int {
      if Ok? then 0 else -(code as int)
    }
  }
}

=== FILE: file_handle.dfy ===
/** cortxfs file handles (cortxfs_fh.c; efs_fh.c is the same code under the
    efs prefix): an inode of one file system with its stat cached, the
    in-memory key, the 16-byte wire form and lookup through a handle. */
module FileHandle {
  import opened Errno
  import opened InodeAttr
  import opened Namespace
  import opened LeCodec

  /** A handle.  `fs` is the file system the handle belongs to (None is a
      NULL pointer) and `stat` the cached stat record (None is NULL). */
  datatype Fh = Fh(fs: Option<nat>, ino: Ino, stat: Option<Stat>)

  /** cfs_fh_invariant: file system set, inode non-zero, stat present and
      describing this inode. */
  predicate Invariant(fh: Fh) {
    fh.fs.Some? && fh.ino != 0 && fh.stat.Some? && fh.stat.value.ino == fh.ino
  }

  /** A store whose stat records sit under their own inode numbers, which
      start at the root. */
  ghost predicate Consistent(fs: Fs) {
    forall i :: i in fs.stats ==> i >= ROOT_INODE && fs.stats[i].ino == i
  }

  /** cfs_fh_key: the handle's identity in maps and sets. */
  datatype Key = Key(fs: Option<nat>, file: Ino)

  function FhKey(fh: Fh): Key {
    Key(fh.fs, fh.ino)
  }

  /** Two handles share a key exactly when they name the same inode of the
      same file system, whatever stat each has cached. */
  lemma KeyIdentifiesInode(a: Fh, b: Fh)
    ensures FhKey(a) == FhKey(b) <==> a.fs == b.fs && a.ino == b.ino
  {
  }

  // ---------------------------------------------------------------- wire form

  /** struct cfs_fh_serialized: the file system id, then the inode. */
  datatype Serialized = Serialized(fsid: u64, ino: Ino)

  const SERIALIZED_SIZE: nat := 16

  function Pack(d: Serialized): (s: seq<Byte>)
    ensures |s| == SERIALIZED_SIZE
  {
    EncodeU64(d.fsid) + EncodeU64(d.ino)
  }

  function Unpack(s: seq<Byte>): Serialized
    requires |s| == SERIALIZED_SIZE
  {
    Serialized(DecodeU64(s[..8]), DecodeU64(s[8..]))
  }

  lemma UnpackPack(d: Serialized)
    ensures Unpack(Pack(d)) == d
  {
    var s := Pack(d);
    assert s[..8] == EncodeU64(d.fsid) && s[8..] == EncodeU64(d.ino);
  }

  lemma PackUnpack(s: seq<Byte>)
    requires |s| == SERIALIZED_SIZE
    ensures Pack(Unpack(s)) == s
  {
    assert s == s[..8] + s[8..];
  }

  /** cfs_fh_serialize: ENOBUFS when the buffer is shorter than the wire
      form; otherwise the inode with a zero file system id, whose length is
      the return value. */
  function Serialize(fh: Fh, maxSize: nat): (r: Result<seq<Byte>>)
    requires Invariant(fh)
    ensures r.Err? <==> maxSize < SERIALIZED_SIZE
    ensures r.Err? ==> r.code == ENOBUFS
    ensures r.Ok? ==> |r.value| == SERIALIZED_SIZE <= maxSize && Unpack(r.value) == Serialized(0, fh.ino)
  {
    if maxSize < SERIALIZED_SIZE then Err(ENOBUFS)
    else
      UnpackPack(Serialized(0, fh.ino));
      Ok(Pack(Serialized(0, fh.ino)))
  }

  /** cfs_fh_ser_with_fsid: as Serialize, but the caller's file system id
      is stored too. */
  function SerializeWithFsid(fh: Fh, fsid: u64, maxSize: nat): (r: Result<seq<Byte>>)
    requires Invariant(fh)
    ensures r.Err? <==> maxSize < SERIALIZED_SIZE
    ensures r.Err? ==> r.code == ENOBUFS
    ensures r.Ok? ==> |r.value| == SERIALIZED_SIZE <= maxSize && Unpack(r.value) == Serialized(fsid, fh.ino)
  {
    if maxSize < SERIALIZED_SIZE then Err(ENOBUFS)
    else
      UnpackPack(Serialized(fsid, fh.ino));
      Ok(Pack(Serialized(fsid, fh.ino)))
  }

  /** cfs_fh_from_ino: a handle of file system `fsRef` for `ino`, with the
      stat either given by the caller or loaded from the store. */
  function FromIno(fs: Fs, fsRef: nat, ino: Ino, given: Option<Stat>): (r: Result<Fh>)
    ensures given.Some? ==> r == Ok(Fh(Some(fsRef), ino, given))
    ensures given.None? ==> (r.Ok? <==> ino in fs.stats)
    ensures given.None? && r.Err? ==> r.code == ENOENT
    ensures given.None? && r.Ok? ==> r.value.stat == Some(fs.stats[ino])
    ensures given.None? && Consistent(fs) && r.Ok? ==> Invariant(r.value) && r.value.ino == ino
  {
    if given.Some? then Ok(Fh(Some(fsRef), ino, given))
    else
      var st :- GetStat(fs, ino);
      Ok(Fh(Some(fsRef), ino, Some(st)))
  }

  /** cfs_fh_deserialize: only a buffer of exactly the wire size is
      accepted (EINVAL otherwise); the stored file system id is ignored and
      the handle is rebuilt from the inode. */
  function Deserialize(fs: Fs, fsRef: nat, buf: seq<Byte>): (r: Result<Fh>)
    ensures |buf| != SERIALIZED_SIZE ==> r == Err(EINVAL)
    ensures |buf| == SERIALIZED_SIZE ==> (r.Ok? <==> Unpack(buf).ino in fs.stats)
    ensures r.Ok? ==> r.value.ino == Unpack(buf).ino && r.value.fs == Some(fsRef)
    ensures r.Err? ==> r.code == EINVAL || r.code == ENOENT
  {
    if |buf| != SERIALIZED_SIZE then Err(EINVAL)
    else FromIno(fs, fsRef, Unpack(buf).ino, None)
  }

  /** A handle whose cached stat is the stored one survives the wire
      form: deserializing what Serialize or SerializeWithFsid produced
      gives the same handle back, whatever file system id was stored. */
  lemma SerializeRoundTrip(fs: Fs, fh: Fh, fsid: u64, maxSize: nat)
    requires Invariant(fh) && fh.ino in fs.stats && fh.stat == Some(fs.stats[fh.ino])
    requires maxSize >= SERIALIZED_SIZE
    ensures Deserialize(fs, fh.fs.value, Serialize(fh, maxSize).value) == Ok(fh)
    ensures Deserialize(fs, fh.fs.value, SerializeWithFsid(fh, fsid, maxSize).value) == Ok(fh)
  {
  }

  // ---------------------------------------------------------------- lookup

  /** cfs_fh_lookup: READ access on the handle's cached stat; ".." at the
      root answers with the parent handle itself; otherwise the directory
      entry, then a handle loaded from the store. */
  function FhLookup(fs: Fs, cred: Cred, fh: Fh, name: string): (r: Result<Fh>)
    requires fh.fs.Some? && fh.stat.Some?
    ensures r.Err? ==> r.code == EPERM || r.code == ENOENT
    ensures r.Ok? ==> Permitted(Cortxfs, cred, fh.stat.value, {ReadReq})
    ensures r.Ok? && !(fh.ino == ROOT_INODE && name == "..") ==>
              Dentry(fh.ino, name) in fs.dentries && r.value.ino == fs.dentries[Dentry(fh.ino, name)]
              && r.value.fs == fh.fs
    ensures Consistent(fs) && r.Ok? && !(fh.ino == ROOT_INODE && name == "..") ==> Invariant(r.value)
  {
    var _ :- AccessCheck(Cortxfs, cred, fh.stat.value, {ReadReq});
    if fh.ino == ROOT_INODE && name == ".." then Ok(fh)
    else if Dentry(fh.ino, name) !in fs.dentries then Err(ENOENT)
    else FromIno(fs, fh.fs.value, fs.dentries[Dentry(fh.ino, name)], None)
  }

  /** ".." at the root is the very handle it was asked through, so the
      caller ends up holding two references to one handle. */
  lemma DotDotAtRootAliases(fs: Fs, cred: Cred, fh: Fh)
    requires fh.fs.Some? && fh.stat.Some? && fh.ino == ROOT_INODE
    requires Permitted(Cortxfs, cred, fh.stat.value, {ReadReq})
    ensures FhLookup(fs, cred, fh, "..") == Ok(fh)
  {
  }

  /** With a fresh cached stat, lookup through a handle finds what the
      namespace lookup finds; it fails beyond that only when the entry's
      stat is missing from the store. */
  lemma FhLookupAgreesWithLookup(fs: Fs, cred: Cred, fh: Fh, name: string)
    requires fh.fs.Some? && fh.ino in fs.stats && fh.stat == Some(fs.stats[fh.ino])
    ensures FhLookup(fs, cred, fh, name).Ok? ==>
              Lookup(Cortxfs, fs, cred, fh.ino, name) == Ok(FhLookup(fs, cred, fh, name).value.ino)
    ensures (Lookup(Cortxfs, fs, cred, fh.ino, name).Ok?
             && (RootDotDot(Cortxfs, fh.ino, name) || Lookup(Cortxfs, fs, cred, fh.ino, name).value in fs.stats))
            ==> FhLookup(fs, cred, fh, name).Ok?
  {
  }

  /** cfs_fh_getroot: the root handle, then READ access on its stat. */
  function GetRoot(fs: Fs, fsRef: nat, cred: Cred): (r: Result<Fh>)
    ensures r.Ok? <==> Access(Cortxfs, fs, cred, ROOT_INODE, {ReadReq}).Ok?
    ensures r.Err? ==> r.code == Access(Cortxfs, fs, cred, ROOT_INODE, {ReadReq}).code
    ensures Consistent(fs) && r.Ok? ==> Invariant(r.value) && r.value.ino == ROOT_INODE
  {
    var fh :- FromIno(fs, fsRef, ROOT_INODE, None);
    var _ :- AccessCheck(Cortxfs, cred, fh.stat.value, {ReadReq});
    Ok(fh)
  }
}

=== FILE: fops.dfy ===
/** The file operations that create objects: creat of cortxfs and efs (the
    two files differ only in names) and kvsns's creat_ex.  A creat writes
    the store before a later step can fail, so its outcome is the state
    left behind together with the result. */
module Fops {
  import opened Errno
  import opened InodeAttr
  import opened Namespace
  import opened Removal
  import opened DataStore

  /** cortxfs and efs keep their objects in a dsal plugin, kvsns in the
      extstore. */
  predicate Wired(fork: Fork, ds: Backend) {
    (fork == Kvsns) == (ds == ExtStore)
  }

  /** The write stat the callers clear with memset before the write. */
  function ZeroStat(): Stat {
    Stat(0, {}, 0, 0, 0, 0, 0, 0, 0, 0)
  }

  // ---------------------------------------------------------------- creat

  /** cfs_creat / efs_creat / kvsns_creat: WRITE on the parent, a new file
      entry, and an empty data object bound to the new inode. */
  function Creat(fork: Fork, fs: Fs, cred: Cred, parent: Ino, name: string, mode: ModeBits, t: Time)
    : (r: Result<(Fs, Ino)>)
    ensures Access(fork, fs, cred, parent, {WriteReq}).Err? ==>
              r == Err(Access(fork, fs, cred, parent, {WriteReq}).code)
    ensures Access(fork, fs, cred, parent, {WriteReq}).Ok? ==>
              (r.Ok? <==> CreateEntry(fork, fs, cred, parent, name, None, mode, File, t).Ok?)
    ensures r.Ok? ==> parent in fs.stats && Dentry(parent, name) !in fs.dentries
    ensures r.Ok? ==> var (fs2, ino) := r.value;
                      && fs2.dentries == fs.dentries[Dentry(parent, name) := ino]
                      && ino in fs2.stats
                      && (ino != parent ==> fs2.stats[ino] == NewStat(File, mode, cred, ino, t))
                      && ino in fs2.objects && fs2.objects[ino] == []
                      && fs2.openOwners == fs.openOwners
  {
    var _ :- Access(fork, fs, cred, parent, {WriteReq});
    var created :- CreateEntry(fork, fs, cred, parent, name, None, mode, File, t);
    var (fs1, ino) := created;
    Ok((fs1.(objects := fs1.objects[ino := []]), ino))
  }

  /** The new file's stat and the set of attributes the caller asked for,
      as creat_ex hands them back. */
  datatype Created = Created(ino: Ino, stat: Stat)

  /** The rollback creat_ex runs when setattr or getattr fails after the
      file exists: cortxfs/efs unlink the new inode by number, kvsns looks
      the name up again.  Its own result is ignored, so whatever the
      unlink wrote before any failure of its own stays. */
  function RollbackCreate(fork: Fork, fs: Fs, cred: Cred, parent: Ino, name: string, ino: Ino, t: Time)
    : (r: Fs)
    ensures fork != Kvsns && Access(fork, fs, cred, parent, DELETE_ENTITY).Ok? && Dentry(parent, name) in fs.dentries
            ==> r.dentries == fs.dentries - {Dentry(parent, name)}
    ensures fork != Kvsns && (Access(fork, fs, cred, parent, DELETE_ENTITY).Err? || Dentry(parent, name) !in fs.dentries)
            ==> r == fs
    ensures fork == Kvsns && Kvsns2Unlinkable(fs, cred, parent, name) ==>
              r.dentries == fs.dentries - {Dentry(parent, name)}
    ensures fork == Kvsns && !Kvsns2Unlinkable(fs, cred, parent, name) ==> r == fs
  {
    var u := if fork == Kvsns then Kvsns2Unlink(fs, cred, parent, name, t)
             else Unlink(fork, fs, cred, parent, Some(ino), name, t);
    u.fs
  }

  /** cfs_creat_ex / efs_creat_ex / both kvsns_creat_ex: creat, setattr
      with the caller's attributes, getattr; a failure once the file exists
      unlinks it again. */
  function CreatEx(fork: Fork, fs: Fs, cred: Cred, parent: Ino, name: string, mode: ModeBits,
                   statIn: Stat, flags: StatFlags, t: Time): (r: Outcome<Created>)
    requires fork != Kvsns ==> SizeAttach !in flags
    ensures Creat(fork, fs, cred, parent, name, mode, t).Err? ==>
              r == Outcome(fs, Err(Creat(fork, fs, cred, parent, name, mode, t).code))
    ensures r.res.Ok? ==> Creat(fork, fs, cred, parent, name, mode, t).Ok?
    ensures r.res.Ok? ==> var (fs1, ino) := Creat(fork, fs, cred, parent, name, mode, t).value;
                          && r.res.value.ino == ino
                          && r.fs.dentries == fs.dentries[Dentry(parent, name) := ino]
                          && ino in r.fs.stats && r.res.value.stat == r.fs.stats[ino]
                          && (flags != {} ==> r.fs.stats[ino] == ApplySetattr(fork, fs1.stats[ino], statIn, flags, t))
    ensures r.res.Err? && Creat(fork, fs, cred, parent, name, mode, t).Ok? ==>
              var (fs1, ino) := Creat(fork, fs, cred, parent, name, mode, t).value;
              r.fs == RollbackCreate(fork, fs1, cred, parent, name, ino, t)
  {
    var c := Creat(fork, fs, cred, parent, name, mode, t);
    if c.Err? then Outcome(fs, Err(c.code))
    else
      var (fs1, ino) := c.value;
      var s := Setattr(fork, fs1, cred, ino, statIn, flags, t);
      if s.Err? then Outcome(RollbackCreate(fork, fs1, cred, parent, name, ino, t), Err(s.code))
      else Outcome(s.value, Ok(Created(ino, s.value.stats[ino])))
  }

  /** In cortxfs and efs the setattr after a successful creat cannot fail,
      so creat_ex succeeds exactly when creat does and never rolls back. */
  lemma CreatExNeverRollsBackInDsal(fork: Fork, fs: Fs, cred: Cred, parent: Ino, name: string,
                                    mode: ModeBits, statIn: Stat, flags: StatFlags, t: Time)
    requires fork != Kvsns && SizeAttach !in flags
    ensures CreatEx(fork, fs, cred, parent, name, mode, statIn, flags, t).res.Ok?
            <==> Creat(fork, fs, cred, parent, name, mode, t).Ok?
  {
  }

  /** The conditions of a kvsns creat_ex whose setattr is refused: the file
      is created, is not the parent itself, carries no type bits in its
      mode, the caller has no owner write permission on it, and may read
      and write the parent. */
  predicate KvsnsRefusedSetup(fs: Fs, cred: Cred, parent: Ino, name: string, mode: ModeBits, t: Time) {
    && Creat(Kvsns, fs, cred, parent, name, mode, t).Ok?
    && Creat(Kvsns, fs, cred, parent, name, mode, t).value.1 != parent
    && mode * S_IFMT == {}
    && !Permitted(Kvsns, cred, NewStat(File, mode, cred, Creat(Kvsns, fs, cred, parent, name, mode, t).value.1, t), {WriteReq})
    && Permitted(Kvsns, cred, fs.stats[parent], {ReadReq, WriteReq})
  }

  /** Under those conditions the kvsns setattr of the new file is refused. */
  lemma KvsnsNewFileRefusesSetattr(fs: Fs, cred: Cred, parent: Ino, name: string, mode: ModeBits,
                                   statIn: Stat, flags: StatFlags, t: Time)
    requires KvsnsRefusedSetup(fs, cred, parent, name, mode, t) && flags != {}
    ensures var (fs1, ino) := Creat(Kvsns, fs, cred, parent, name, mode, t).value;
            Setattr(Kvsns, fs1, cred, ino, statIn, flags, t) == Err(EPERM)
  {
    var (fs1, ino) := Creat(Kvsns, fs, cred, parent, name, mode, t).value;
    assert fs1.stats[ino] == NewStat(File, mode, cred, ino, t);
  }

  /** Under those conditions the new name is found again in the parent,
      which the caller may still write, and names a file that is not a
      symlink. */
  lemma KvsnsNewFileLooksUp(fs: Fs, cred: Cred, parent: Ino, name: string, mode: ModeBits, t: Time)
    requires KvsnsRefusedSetup(fs, cred, parent, name, mode, t)
    ensures var (fs1, ino) := Creat(Kvsns, fs, cred, parent, name, mode, t).value;
            && parent in fs1.stats && Permitted(Kvsns, cred, fs1.stats[parent], {WriteReq})
            && Lookup(Kvsns, fs1, cred, parent, name) == Ok(ino)
            && ino in fs1.stats && !(S_IFLNK <= fs1.stats[ino].mode)
  {
    var (fs1, ino) := Creat(Kvsns, fs, cred, parent, name, mode, t).value;
    var created := CreateEntry(Kvsns, fs, cred, parent, name, None, mode, File, t).value;
    assert fs1.stats == created.0.stats;
    assert fs1.stats[ino] == NewStat(File, mode, cred, ino, t);
    NewStatType(File, mode, cred, ino, t);
    assert fs1.stats[parent].mode == fs.stats[parent].mode;
    assert fs1.stats[parent].uid == fs.stats[parent].uid && fs1.stats[parent].gid == fs.stats[parent].gid;
    assert Permitted(Kvsns, cred, fs1.stats[parent], {ReadReq});
    assert !(S_IFLNK <= fs1.stats[ino].mode) by {
      assert 13 !in fs1.stats[ino].mode;
    }
  }

  /** Under those conditions the kvsns rollback finds the new name again
      and removes it. */
  lemma KvsnsRollbackRemovesName(fs: Fs, cred: Cred, parent: Ino, name: string, mode: ModeBits, t: Time)
    requires KvsnsRefusedSetup(fs, cred, parent, name, mode, t)
    ensures var (fs1, ino) := Creat(Kvsns, fs, cred, parent, name, mode, t).value;
            RollbackCreate(Kvsns, fs1, cred, parent, name, ino, t).dentries == fs.dentries
  {
    var (fs1, ino) := Creat(Kvsns, fs, cred, parent, name, mode, t).value;
    KvsnsNewFileLooksUp(fs, cred, parent, name, mode, t);
    Kvsns2UnlinkSucceeds(fs1, cred, parent, name, t);
    assert fs1.dentries - {Dentry(parent, name)} == fs.dentries;
  }

  /** In kvsns the setattr asks for WRITE on the new file: a caller who
      creates a file without owner write permission is refused, and the
      rollback removes the name again when the caller may read and write
      the parent. */
  lemma KvsnsCreatExRollsBack(fs: Fs, cred: Cred, parent: Ino, name: string, mode: ModeBits,
                              statIn: Stat, flags: StatFlags, t: Time)
    requires Creat(Kvsns, fs, cred, parent, name, mode, t).Ok?
    requires Creat(Kvsns, fs, cred, parent, name, mode, t).value.1 != parent
    requires mode * S_IFMT == {}
    requires flags != {}
    requires !Permitted(Kvsns, cred, NewStat(File, mode, cred, Creat(Kvsns, fs, cred, parent, name, mode, t).value.1, t), {WriteReq})
    requires Permitted(Kvsns, cred, fs.stats[parent], {ReadReq, WriteReq})
    ensures CreatEx(Kvsns, fs, cred, parent, name, mode, statIn, flags, t).res == Err(EPERM)
    ensures CreatEx(Kvsns, fs, cred, parent, name, mode, statIn, flags, t).fs.dentries == fs.dentries
  {
    KvsnsNewFileRefusesSetattr(fs, cred, parent, name, mode, statIn, flags, t);
    KvsnsRollbackRemovesName(fs, cred, parent, name, mode, t);
  }

}

=== FILE: fops_io.dfy ===
/** The file operations that move data: write, read and truncate of
    cortxfs and efs and kvsns's write and read.  A write stores the data
    before the stat is loaded, so its outcome is the state left behind
    together with the result. */
module FopsIo {
  import opened Errno
  import opened InodeAttr
  import opened Namespace
  import opened Removal
  import opened DataStore
  import opened Fops

  // ---------------------------------------------------------------- write

  /** cfs_write / efs_write / both kvsns2_write.  The object must exist,
      then (except in the first kvsns interface, `checkAccess` false) the
      caller needs WRITE.  The data is written before the stat is loaded, so
      a missing stat leaves the data written.  The merged stat takes size
      and blocks from the write only if they grow the file, and mtime and
      ctime always. */
  function WriteWith(fork: Fork, ds: Backend, fs: Fs, cred: Cred, ino: Ino, off: nat, buf: seq<Byte>,
                     t: Time, checkAccess: bool): (r: Outcome<nat>)
    requires Wired(fork, ds)
    ensures ino !in fs.objects ==> r == Outcome(fs, Err(ENOENT))
    ensures checkAccess ==>
              (r.res.Ok? <==> ino in fs.objects && Access(fork, fs, cred, ino, {WriteReq}).Ok?)
    ensures checkAccess && r.res.Err? ==> r.fs == fs
    ensures !checkAccess ==> (r.res.Ok? <==> ino in fs.objects && ino in fs.stats)
    ensures r.res.Ok? ==> WrittenAs(ds, fs, r.fs, ino, off, buf, t) && r.res.value == |buf|
  {
    if ino !in fs.objects then Outcome(fs, Err(ENOENT))
    else if checkAccess && Access(fork, fs, cred, ino, {WriteReq}).Err? then
      Outcome(fs, Err(Access(fork, fs, cred, ino, {WriteReq}).code))
    else
      var w := ObjWrite(ds, fs.objects, ino, off, buf, ZeroStat(), t).value;
      var fs1 := fs.(objects := w.store);
      if ino !in fs.stats then Outcome(fs1, Err(ENOENT))
      else
        var st := fs.stats[ino];
        var merged := if w.stat.size > st.size then st.(size := w.stat.size, blocks := w.stat.blocks) else st;
        Outcome(fs1.(stats := fs.stats[ino := merged.(mtime := w.stat.mtime, ctime := w.stat.ctime)]),
                Ok(w.written))
  }

  /** What a successful write leaves: the extent holds the buffer, the size
      is the larger of the old size and the end of the extent (blocks
      follow a growing size), mtime and ctime are the write's time, and
      nothing else changes. */
  ghost predicate WrittenAs(ds: Backend, fs: Fs, fs2: Fs, ino: Ino, off: nat, buf: seq<Byte>, t: Time) {
    var end := off + |buf|;
    && ino in fs.stats && ino in fs.objects && ino in fs2.stats && ino in fs2.objects
    && fs2.stats.Keys == fs.stats.Keys && fs2.objects.Keys == fs.objects.Keys
    && (forall i :: i in fs.stats && i != ino ==> fs2.stats[i] == fs.stats[i])
    && (forall i :: i in fs.objects && i != ino ==> fs2.objects[i] == fs.objects[i])
    && (forall p: nat :: ByteAt(fs2.objects[ino], p)
          == if off <= p < end then buf[p - off] else ByteAt(fs.objects[ino], p))
    && fs2.stats[ino].size == (if end > fs.stats[ino].size then end else fs.stats[ino].size)
    && fs2.stats[ino].blocks == (if end > fs.stats[ino].size then WriteBlocks(ds, end) else fs.stats[ino].blocks)
    && fs2.stats[ino].mtime == t && fs2.stats[ino].ctime == t
    && fs2.stats[ino].(size := 0, blocks := 0, mtime := 0, ctime := 0)
       == fs.stats[ino].(size := 0, blocks := 0, mtime := 0, ctime := 0)
    && fs2.dentries == fs.dentries && fs2.symlinks == fs.symlinks
  }

  /** cfs_write, efs_write and the kvsfs-ganesha kvsns2_write: WRITE is
      checked. */
  function Write(fork: Fork, ds: Backend, fs: Fs, cred: Cred, ino: Ino, off: nat, buf: seq<Byte>, t: Time)
    : (r: Outcome<nat>)
    requires Wired(fork, ds)
    ensures r.res.Ok? <==> ino in fs.objects && Access(fork, fs, cred, ino, {WriteReq}).Ok?
    ensures r.res.Err? ==> r.fs == fs
    ensures r.res.Ok? ==> WrittenAs(ds, fs, r.fs, ino, off, buf, t) && r.res.value == |buf|
  {
    WriteWith(fork, ds, fs, cred, ino, off, buf, t, true)
  }

  /** The first kvsns interface's kvsns2_write does not check access at
      all: a caller refused by the checked write succeeds. */
  lemma UncheckedWriteIgnoresMode(fs: Fs, cred: Cred, ino: Ino, off: nat, buf: seq<Byte>, t: Time)
    requires ino in fs.objects && ino in fs.stats
    requires !Permitted(Kvsns, cred, fs.stats[ino], {WriteReq})
    ensures Write(Kvsns, ExtStore, fs, cred, ino, off, buf, t).res == Err(EPERM)
    ensures WriteWith(Kvsns, ExtStore, fs, cred, ino, off, buf, t, false).res == Ok(|buf|)
  {
  }

  /** Two writes in a row: the recorded size never goes down. */
  lemma WriteSizeMonotone(fork: Fork, ds: Backend, fs: Fs, cred: Cred, ino: Ino,
                          off1: nat, buf1: seq<Byte>, off2: nat, buf2: seq<Byte>, t1: Time, t2: Time)
    requires Wired(fork, ds)
    requires Write(fork, ds, fs, cred, ino, off1, buf1, t1).res.Ok?
    ensures var fs1 := Write(fork, ds, fs, cred, ino, off1, buf1, t1).fs;
            var w2 := Write(fork, ds, fs1, cred, ino, off2, buf2, t2);
            w2.res.Ok? && fs.stats[ino].size <= fs1.stats[ino].size <= w2.fs.stats[ino].size
  {
    var fs1 := Write(fork, ds, fs, cred, ino, off1, buf1, t1).fs;
    assert fs1.stats[ino].mode == fs.stats[ino].mode && fs1.stats[ino].uid == fs.stats[ino].uid
           && fs1.stats[ino].gid == fs.stats[ino].gid by {
      assert fs1.stats[ino].(size := 0, blocks := 0, mtime := 0, ctime := 0)
             == fs.stats[ino].(size := 0, blocks := 0, mtime := 0, ctime := 0);
    }
    assert Access(fork, fs1, cred, ino, {WriteReq}).Ok?;
  }

  // ---------------------------------------------------------------- read

  /** cfs_read / efs_read / both kvsns2_read: the object and the stat must
      exist, then (except in the first kvsns interface) the caller needs
      READ; the plugin's read updates atime in the stat, which is written
      back.  cortx clamps at the recorded size, the other plugins do not. */
  function ReadWith(fork: Fork, ds: Backend, fs: Fs, cred: Cred, ino: Ino, off: nat, count: nat,
                    t: Time, checkAccess: bool): (r: Result<(Fs, seq<Byte>)>)
    requires Wired(fork, ds)
    ensures r.Ok? <==> ino in fs.objects && ino in fs.stats
                       && (checkAccess ==> Permitted(fork, cred, fs.stats[ino], {ReadReq}))
    ensures r.Err? ==> r.code == ENOENT || r.code == EPERM
    ensures r.Ok? ==> var (fs2, data) := r.value;
                      && |data| == (if ds != CortxDs then count
                                    else if fs.stats[ino].size <= off then 0
                                    else if fs.stats[ino].size < off + count then fs.stats[ino].size - off
                                    else count)
                      && (forall i :: 0 <= i < |data| ==> data[i] == ByteAt(fs.objects[ino], off + i))
                      && fs2.objects == fs.objects && fs2.dentries == fs.dentries
                      && fs2.stats.Keys == fs.stats.Keys
                      && fs2.stats[ino].(atime := 0) == fs.stats[ino].(atime := 0)
  {
    if ino !in fs.objects then Err(ENOENT)
    else
      var st :- GetStat(fs, ino);
      var _ :- if checkAccess then Access(fork, fs, cred, ino, {ReadReq}) else Ok(());
      // With the object present, no plugin's read can fail.
      var ro := (if ds == CortxDs then CortxObjRead(fs.objects, ino, st, off, count, t)
                 else ObjReadAsWritten(ds, fs.objects, ino, st, off, count, false, t)).value;
      Ok((fs.(stats := fs.stats[ino := ro.stat]), ro.data))
  }

  /** cfs_read, efs_read and the kvsfs-ganesha kvsns2_read: READ is
      checked. */
  function Read(fork: Fork, ds: Backend, fs: Fs, cred: Cred, ino: Ino, off: nat, count: nat, t: Time)
    : (r: Result<(Fs, seq<Byte>)>)
    requires Wired(fork, ds)
    ensures r.Ok? <==> ino in fs.objects && Access(fork, fs, cred, ino, {ReadReq}).Ok?
    ensures r.Ok? ==> forall i :: 0 <= i < |r.value.1| ==> r.value.1[i] == ByteAt(fs.objects[ino], off + i)
    ensures r.Ok? ==> |r.value.1| <= count && r.value.0.objects == fs.objects
  {
    ReadWith(fork, ds, fs, cred, ino, off, count, t, true)
  }

  /** Reading back the extent just written returns the written bytes, in
      every fork and with every plugin. */
  lemma ReadAfterWrite(fork: Fork, ds: Backend, fs: Fs, cred: Cred, ino: Ino, off: nat,
                       buf: seq<Byte>, t1: Time, t2: Time)
    requires Wired(fork, ds)
    requires Write(fork, ds, fs, cred, ino, off, buf, t1).res.Ok?
    requires Permitted(fork, cred, fs.stats[ino], {ReadReq})
    ensures var fs1 := Write(fork, ds, fs, cred, ino, off, buf, t1).fs;
            var rd := Read(fork, ds, fs1, cred, ino, off, |buf|, t2);
            rd.Ok? && rd.value.1 == buf
  {
    var fs1 := Write(fork, ds, fs, cred, ino, off, buf, t1).fs;
    assert fs1.stats[ino].(size := 0, blocks := 0, mtime := 0, ctime := 0)
           == fs.stats[ino].(size := 0, blocks := 0, mtime := 0, ctime := 0);
    assert fs1.stats[ino].mode == fs.stats[ino].mode;
    var rd := Read(fork, ds, fs1, cred, ino, off, |buf|, t2);
    assert rd.Ok?;
    assert |rd.value.1| == |buf|;
    forall i | 0 <= i < |buf| ensures rd.value.1[i] == buf[i] {
      assert ByteAt(fs1.objects[ino], off + i) == buf[i];
    }
  }

  // ---------------------------------------------------------------- truncate

  /** cfs_truncate / efs_truncate.  SIZE_SET must be requested.  The new
      block count is the size rounded up to whole DEV_BSIZE blocks; unless
      the caller sets mtime, mtime and ctime both become now.  The stat is
      written before the object is looked up, and the object is resized
      from the size the stat had before. */
  function Truncate(fork: Fork, fs: Fs, cred: Cred, ino: Ino, newStat: Stat, flags: StatFlags, t: Time)
    : (r: Outcome<()>)
    requires fork != Kvsns
    requires SizeSet in flags && SizeAttach !in flags
    ensures ino !in fs.stats ==> r == Outcome(fs, Err(ENOENT))
    ensures r.res.Ok? <==> ino in fs.stats && ino in fs.objects
    ensures r.res.Err? ==> r.res.code == ENOENT
    ensures ino in fs.stats ==>
              && ino in r.fs.stats
              && r.fs.stats[ino].size == newStat.size
              && r.fs.stats[ino].blocks == CeilBlocks(newStat.size)
              && (MtimeSet !in flags ==> r.fs.stats[ino].mtime == t && r.fs.stats[ino].ctime == t)
              && (MtimeSet in flags ==> r.fs.stats[ino].mtime == newStat.mtime)
              && r.fs.stats[ino].nlink == fs.stats[ino].nlink
              && r.fs.dentries == fs.dentries
    ensures r.res.Ok? ==> TruncatedAs(fs.objects, r.fs.objects, ino, fs.stats[ino].size, newStat.size)
  {
    if ino !in fs.stats then Outcome(fs, Err(ENOENT))
    else
      var oldSize := fs.stats[ino].size;
      var newSize := newStat.size;
      var ns1 := newStat.(blocks := CeilBlocks(newSize));
      var ns2 := if MtimeSet !in flags then ns1.(mtime := t, ctime := t) else ns1;
      var flags2 := if MtimeSet !in flags then flags + {MtimeSet, CtimeSet} else flags;
      var fs1 := fs.(stats := fs.stats[ino := ApplySetattr(fork, fs.stats[ino], ns2, flags2, t)]);
      assert Setattr(fork, fs, cred, ino, ns2, flags2, t) == Ok(fs1);
      if ino !in fs.objects then Outcome(fs1, Err(ENOENT))
      else Outcome(fs1.(objects := ObjResize(fs1.objects, ino, oldSize, newSize).value), Ok(()))
  }

  /** The object after a truncate from `oldSize` to `newSize`: bytes below
      the new size are kept; when shrinking, the cut-off range reads as
      zero; growing leaves the object as it was. */
  ghost predicate TruncatedAs(objs: map<Ino, seq<Byte>>, objs2: map<Ino, seq<Byte>>, ino: Ino, oldSize: nat, newSize: nat) {
    && ino in objs && ino in objs2 && objs2.Keys == objs.Keys
    && (forall i :: i in objs && i != ino ==> objs2[i] == objs[i])
    && (forall p: nat :: ByteAt(objs2[ino], p)
          == if newSize <= p < oldSize then 0 else ByteAt(objs[ino], p))
  }

  /** The size the stat records and the blocks it counts agree after a
      truncate: the blocks hold the size and no whole block is spare. */
  lemma TruncateBlocksCoverSize(fork: Fork, fs: Fs, cred: Cred, ino: Ino, newStat: Stat, flags: StatFlags, t: Time)
    requires fork != Kvsns && SizeSet in flags && SizeAttach !in flags
    requires ino in fs.stats
    ensures var st := Truncate(fork, fs, cred, ino, newStat, flags, t).fs.stats[ino];
            st.blocks * DEV_BSIZE >= st.size && (st.blocks == 0 || (st.blocks - 1) * DEV_BSIZE < st.size)
  {
  }

  /** Shrinking a file and reading below the new size returns the bytes it
      had: truncate keeps the prefix. */
  lemma TruncateKeepsPrefix(fork: Fork, fs: Fs, cred: Cred, ino: Ino, newStat: Stat, flags: StatFlags,
                            t: Time, off: nat, count: nat)
    requires fork != Kvsns && SizeSet in flags && SizeAttach !in flags
    requires Truncate(fork, fs, cred, ino, newStat, flags, t).res.Ok?
    requires off + count <= newStat.size
    ensures Bytes(Truncate(fork, fs, cred, ino, newStat, flags, t).fs.objects[ino], off, count)
            == Bytes(fs.objects[ino], off, count)
  {
    var o2 := Truncate(fork, fs, cred, ino, newStat, flags, t).fs.objects[ino];
    forall i | 0 <= i < count ensures Bytes(o2, off, count)[i] == Bytes(fs.objects[ino], off, count)[i] {
      assert ByteAt(o2, off + i) == ByteAt(fs.objects[ino], off + i);
    }
  }

}

=== FILE: fops_open.dfy ===
/** The kvsns open-owner protocol of open and close, and the is_open stub
    of the ganesha plugin. */
module FopsOpen {
  import opened Errno
  import opened InodeAttr
  import opened Namespace
  import opened Removal
  import opened DataStore
  import opened Fops

  // ---------------------------------------------------------------- open / close

  /** A kvsns open file descriptor. */
  datatype Fd = Fd(ino: Ino, owner: Owner, flags: int)

  /** The open owners of `ino`. */
  function OwnersOf(fs: Fs, ino: Ino): set<Owner> {
    if ino in fs.openOwners then fs.openOwners[ino] else {}
  }

  /** kvsns2_open (kvsfs-ganesha): records "<ino>.openowner.<pid>.<tid>"
      whether or not it already existed, and fills the descriptor.  The
      inode is not checked. */
  function Open(fs: Fs, ino: Ino, owner: Owner, flags: int): (r: (Fs, Fd))
    ensures r.1 == Fd(ino, owner, flags)
    ensures OwnersOf(r.0, ino) == OwnersOf(fs, ino) + {owner} && IsOpen(r.0, ino)
    ensures forall i :: i != ino ==> OwnersOf(r.0, i) == OwnersOf(fs, i)
    ensures r.0.(openOwners := fs.openOwners) == fs
  {
    (fs.(openOwners := fs.openOwners[ino := OwnersOf(fs, ino) + {owner}]), Fd(ino, owner, flags))
  }

  /** kvsns2_close (kvsfs-ganesha).  A missing owner key is EBADF.  A file
      unlinked while open keeps its data until the last owner closes; that
      close removes the opened_and_deleted marker, then the data object
      (ENOENT if it has none). */
  function Close(fs: Fs, fd: Fd): (r: Outcome<()>)
    ensures fd.owner !in OwnersOf(fs, fd.ino) ==> r == Outcome(fs, Err(EBADF))
    ensures fd.owner in OwnersOf(fs, fd.ino) ==>
              && OwnersOf(r.fs, fd.ino) == OwnersOf(fs, fd.ino) - {fd.owner}
              && r.fs.dentries == fs.dentries && r.fs.stats == fs.stats
    ensures fd.owner in OwnersOf(fs, fd.ino) && (fd.ino !in fs.openedAndDeleted || OwnersOf(fs, fd.ino) != {fd.owner}) ==>
              r.res.Ok? && r.fs.objects == fs.objects && r.fs.openedAndDeleted == fs.openedAndDeleted
    ensures fd.owner in OwnersOf(fs, fd.ino) && fd.ino in fs.openedAndDeleted && OwnersOf(fs, fd.ino) == {fd.owner} ==>
              && r.fs.openedAndDeleted == fs.openedAndDeleted - {fd.ino}
              && r.fs.objects == fs.objects - {fd.ino}
              && (r.res.Ok? <==> fd.ino in fs.objects)
  {
    var ino := fd.ino;
    if fd.owner !in OwnersOf(fs, ino) then Outcome(fs, Err(EBADF))
    else
      var rest := OwnersOf(fs, ino) - {fd.owner};
      var fs1 := fs.(openOwners := if rest == {} then fs.openOwners - {ino} else fs.openOwners[ino := rest]);
      if ino !in fs.openedAndDeleted || rest != {} then Outcome(fs1, Ok(()))
      else
        var fs2 := fs1.(openedAndDeleted := fs1.openedAndDeleted - {ino});
        if ino !in fs2.objects then Outcome(fs2, Err(ENOENT))
        else Outcome(fs2.(objects := fs2.objects - {ino}), Ok(()))
  }

  /** Opening and closing again by a new owner restores the state, given
      that only open files carry the opened_and_deleted marker. */
  lemma OpenCloseRoundTrip(fs: Fs, ino: Ino, owner: Owner, flags: int)
    requires owner !in OwnersOf(fs, ino)
    requires ino in fs.openOwners ==> fs.openOwners[ino] != {}
    requires ino in fs.openedAndDeleted ==> IsOpen(fs, ino)
    ensures var (fs1, fd) := Open(fs, ino, owner, flags);
            Close(fs1, fd) == Outcome(fs, Ok(()))
  {
    var (fs1, fd) := Open(fs, ino, owner, flags);
    var c := Close(fs1, fd);
    assert OwnersOf(fs1, ino) - {owner} == OwnersOf(fs, ino);
    if ino in fs.openOwners {
      assert c.fs.openOwners == fs.openOwners;
    } else {
      assert OwnersOf(fs1, ino) - {owner} == {};
      assert fs.openOwners[ino := {owner}] - {ino} == fs.openOwners;
      assert c.fs.openOwners == fs.openOwners;
    }
  }

  /** Closing twice: the second close is EBADF. */
  lemma CloseTwiceIsBadFd(fs: Fs, fd: Fd)
    requires fd.owner in OwnersOf(fs, fd.ino)
    ensures Close(Close(fs, fd).fs, fd).res == Err(EBADF)
  {
  }

  /** The unlink-while-open protocol end to end: unlinking the last name of
      an open file keeps its data and marks it; the last owner's close then
      deletes the data. */
  lemma UnlinkWhileOpenThenClose(fs: Fs, cred: Cred, dir: Ino, name: string, t: Time, fd: Fd)
    requires Kvsns2Unlink(fs, cred, dir, name, t).res.Ok?
    requires Lookup(Kvsns, fs, cred, dir, name) == Ok(fd.ino)
    requires fd.ino in fs.stats && fs.stats[fd.ino].nlink == 1
    requires fd.ino in fs.objects
    requires OwnersOf(fs, fd.ino) == {fd.owner}
    ensures var fs1 := Kvsns2Unlink(fs, cred, dir, name, t).fs;
            && fd.ino in fs1.objects && fd.ino in fs1.openedAndDeleted
            && Close(fs1, fd) == Outcome(fs1.(openOwners := fs1.openOwners - {fd.ino},
                                              openedAndDeleted := fs1.openedAndDeleted - {fd.ino},
                                              objects := fs1.objects - {fd.ino}), Ok(()))
  {
    var fs1 := Kvsns2Unlink(fs, cred, dir, name, t).fs;
    assert IsOpen(fs, fd.ino);
    assert fs1.openOwners == fs.openOwners;
    assert OwnersOf(fs1, fd.ino) - {fd.owner} == {};
  }

  /** kvsns2_open and kvsns2_close built without KVS open support (the
      first kvsns interface by default): both return 0 and leave the
      descriptor and the store alone. */
  function OpenDisabled(fs: Fs, fd: Fd): (r: (Fs, Fd, Result<()>))
    ensures r == (fs, fd, Ok(()))
  {
    (fs, fd, Ok(()))
  }

  /** The last close of a file unlinked while open: with open support it
      deletes the file's data, the close of the build without it succeeds
      and keeps the data and the opened_and_deleted mark. */
  lemma DisabledCloseKeepsUnlinkedData(fs: Fs, fd: Fd)
    requires fd.ino in fs.openedAndDeleted && fd.ino in fs.objects && OwnersOf(fs, fd.ino) == {fd.owner}
    ensures var (fs1, _, rc) := OpenDisabled(fs, fd);
            rc.Ok? && fd.ino in fs1.objects && fd.ino in fs1.openedAndDeleted
    ensures var c := Close(fs, fd);
            c.res.Ok? && fd.ino !in c.fs.objects && fd.ino !in c.fs.openedAndDeleted
  {
  }

  /** kvsns_is_open in the build without KVS open AS WRITTEN: it assigns
      false to its own pointer parameter, so the caller's flag keeps
      whatever it held. */
  function IsOpenStubAsWritten(callerFlag: bool): (r: (Result<()>, bool))
    ensures r.0.Ok? && r.1 == callerFlag
  {
    (Ok(()), callerFlag)
  }

  /** kvsns_is_open as intended in that build: nothing is ever open. */
  function IsOpenStub(callerFlag: bool): (r: (Result<()>, bool))
    ensures r.0.Ok? && !r.1
  {
    (Ok(()), false)
  }

  /** Without open support no open owner is ever recorded, so the store
      says nothing is open: the intended stub agrees with it whatever the
      caller's flag held, the stub as written disagrees whenever that flag
      was true. */
  lemma IsOpenStubMatchesStore(fs: Fs, ino: Ino, callerFlag: bool)
    requires OwnersOf(fs, ino) == {}
    ensures IsOpenStub(callerFlag).1 == IsOpen(fs, ino)
    ensures IsOpenStubAsWritten(callerFlag).1 == IsOpen(fs, ino) <==> !callerFlag
  {
  }

  /** A caller that did not clear its flag reads "open". */
  lemma IsOpenStubLeavesFlag()
    ensures IsOpenStubAsWritten(true).1 && !IsOpenStub(true).1
  {
  }
}

=== FILE: fs_registry.dfy ===
/** The in-memory list of efs file systems (fs.c): each entry couples a
    namespace record with the root attribute of its tree and, once the file
    system is exported, the tenant describing the endpoint. */
module FsRegistry {
  import opened Errno
  import opened InodeAttr
  import Ns
  import Tenant

  /** struct efs_fs_node: the namespace, the stat the root kvnode was created
      with, and the tenant (None is NULL: not exported). */
  datatype FsNode = FsNode(ns: Ns.Namespace, root: Stat, tenant: Option<Tenant.Tenant>)

  /** fs_list together with the two metadata indices it mirrors. */
  datatype Registry = Registry(fsList: seq<FsNode>, nsMeta: Ns.Meta, tenants: Tenant.Meta)

  /** The attribute of a new file system's root: a directory with mode 0777,
      inode EFS_ROOT_INODE, two links, owned by root, all times zero. */
  const ROOT_STAT: Stat := Stat(ROOT_INODE, S_IFDIR + PERMS_0777, 2, 0, 0, 0, 0, 0, 0, 0)

  predicate HasName(l: seq<FsNode>, name: string) {
    exists i :: 0 <= i < |l| && l[i].ns.name == name
  }

  /** efs_fs_lookup: the position of the first file system called `name`,
      ENOENT when there is none. */
  function Lookup(l: seq<FsNode>, name: string): (r: Result<nat>)
    ensures r.Ok? <==> HasName(l, name)
    ensures r.Err? ==> r.code == ENOENT
    ensures r.Ok? ==> r.value < |l| && l[r.value].ns.name == name
                      && forall j :: 0 <= j < r.value ==> l[j].ns.name != name
  {
    if |l| == 0 then Err(ENOENT)
    else if l[0].ns.name == name then Ok(0)
    else
      var r := Lookup(l[1..], name);
      assert HasName(l[1..], name) ==> HasName(l, name) by {
        if HasName(l[1..], name) {
          var k :| 0 <= k < |l[1..]| && l[1..][k].ns.name == name;
          assert l[k + 1].ns.name == name;
        }
      }
      assert HasName(l, name) ==> HasName(l[1..], name) by {
        if HasName(l, name) {
          var k :| 0 <= k < |l| && l[k].ns.name == name;
          assert k != 0 && l[1..][k - 1] == l[k];
        }
      }
      if r.Err? then Err(ENOENT) else Ok(r.value + 1)
  }

  /** efs_fs_create: EEXIST for a taken name, ENOMEM when the list node
      cannot be allocated, then ns_create (`fid` is the index it gets), then
      the kvtree with ROOT_STAT; `treeRc` is the outcome of kvtree_create,
      kvtree_init, kvnode_load and the inode generator.  A failure after
      ns_create leaves the namespace record behind.  The new node goes to
      the head of the list. */
  function Create(reg: Registry, name: string, fid: nat, allocOk: bool, treeRc: Result<()>)
    : (r: (Registry, Result<()>))
    ensures HasName(reg.fsList, name) ==> r == (reg, Err(EEXIST))
    ensures r.1.Ok? <==> !HasName(reg.fsList, name) && allocOk && Ns.IsAlnum(name) && treeRc.Ok?
    ensures r.0.tenants == reg.tenants
    ensures r.1.Ok? ==> var ns := Ns.NextId(reg.nsMeta).1;
              r.0.fsList == [FsNode(Ns.Namespace(ns, name, fid), ROOT_STAT, None)] + reg.fsList
    ensures r.1.Err? ==> r.0.fsList == reg.fsList
  {
    if Lookup(reg.fsList, name).Ok? then (reg, Err(EEXIST))
    else if !allocOk then (reg, Err(ENOMEM))
    else
      var c := Ns.Create(reg.nsMeta, name, fid);
      if c.Err? then (reg, Err(c.code))
      else
        var (meta2, ns) := c.value;
        if treeRc.Err? then (reg.(nsMeta := meta2), Err(treeRc.code))
        else (reg.(fsList := [FsNode(ns, ROOT_STAT, None)] + reg.fsList, nsMeta := meta2), Ok(()))
  }

  /** efs_endpoint_create: ENOENT for an unknown file system, EEXIST when it
      is already exported; then the endpoint driver (`epRc`), tenant_create
      and tenant_copy (`allocOk`), whose copy becomes the node's tenant.  A
      failing copy leaves the stored tenant record behind. */
  function EndpointCreate(reg: Registry, name: string, options: string, hdr: nat, epRc: Result<()>,
                          allocOk: bool): (r: (Registry, Result<()>))
    ensures !HasName(reg.fsList, name) ==> r == (reg, Err(ENOENT))
    ensures HasName(reg.fsList, name) && reg.fsList[Lookup(reg.fsList, name).value].tenant.Some?
            ==> r == (reg, Err(EEXIST))
    ensures r.0.nsMeta == reg.nsMeta
    ensures r.1.Ok? <==> HasName(reg.fsList, name) && reg.fsList[Lookup(reg.fsList, name).value].tenant.None?
                         && epRc.Ok? && Ns.IsAlnum(name) && allocOk
    ensures r.1.Ok? ==> var i := Lookup(reg.fsList, name).value;
              var id := reg.fsList[i].ns.id;
              id in r.0.tenants && r.0.tenants == reg.tenants[id := r.0.tenants[id]]
              && |r.0.fsList| == |reg.fsList|
              && r.0.fsList[i].tenant.Some? && r.0.fsList[i].tenant.value.id == id
              && r.0.fsList[i].tenant.value.name == name
              && r.0.fsList == reg.fsList[i := r.0.fsList[i]]
  {
    var found := Lookup(reg.fsList, name);
    if found.Err? then (reg, Err(ENOENT))
    else
      var i := found.value;
      var node := reg.fsList[i];
      if node.tenant.Some? then (reg, Err(EEXIST))
      else if epRc.Err? then (reg, epRc)
      else
        var c := Tenant.Create(reg.tenants, name, node.ns.id, options, hdr);
        if c.Err? then (reg, Err(c.code))
        else
          var (tenants2, t) := c.value;
          var copy := Tenant.Copy(t, allocOk);
          if copy.Err? then (reg.(tenants := tenants2), Err(copy.code))
          else (reg.(fsList := reg.fsList[i := node.(tenant := Some(copy.value))], tenants := tenants2), Ok(()))
  }

  /** efs_endpoint_delete: ENOENT for an unknown file system or one that is
      not exported; then the endpoint driver (`epRc`), then tenant_delete;
      on success the node forgets its tenant. */
  function EndpointDelete(reg: Registry, name: string, epRc: Result<()>): (r: (Registry, Result<()>))
    ensures !HasName(reg.fsList, name) ==> r == (reg, Err(ENOENT))
    ensures HasName(reg.fsList, name) && reg.fsList[Lookup(reg.fsList, name).value].tenant.None?
            ==> r == (reg, Err(ENOENT))
    ensures r.0.nsMeta == reg.nsMeta
    ensures r.1.Err? ==> r.0 == reg
    ensures r.1.Ok? ==> var i := Lookup(reg.fsList, name).value;
              var t := reg.fsList[i].tenant;
              t.Some? && epRc.Ok? && t.value.id in reg.tenants
              && r.0.tenants == reg.tenants - {t.value.id}
              && r.0.fsList == reg.fsList[i := reg.fsList[i].(tenant := None)]
  {
    var found := Lookup(reg.fsList, name);
    if found.Err? then (reg, Err(ENOENT))
    else
      var i := found.value;
      var node := reg.fsList[i];
      if node.tenant.None? then (reg, Err(ENOENT))
      else if epRc.Err? then (reg, epRc)
      else
        var d := Tenant.Delete(reg.tenants, node.tenant.value);
        if d.Err? then (reg, Err(d.code))
        else (reg.(fsList := reg.fsList[i := node.(tenant := None)], tenants := d.value), Ok(()))
  }

  /** efs_fs_delete: ENOENT for an unknown name, EINVAL while exported (the
      emptiness check always passes); then the inode generator and the tree
      (`treeRc`); then the node leaves the list and its namespace is
      deleted, so a failing ns_delete is reported after the node is gone. */
  function Delete(reg: Registry, name: string, treeRc: Result<()>): (r: (Registry, Result<()>))
    ensures !HasName(reg.fsList, name) ==> r == (reg, Err(ENOENT))
    ensures HasName(reg.fsList, name) && reg.fsList[Lookup(reg.fsList, name).value].tenant.Some?
            ==> r == (reg, Err(EINVAL))
    ensures r.0.tenants == reg.tenants
    ensures r.1.Ok? ==> var i := Lookup(reg.fsList, name).value;
              reg.fsList[i].tenant.None? && treeRc.Ok?
              && r.0.fsList == reg.fsList[..i] + reg.fsList[i + 1..]
              && r.0.nsMeta.records == reg.nsMeta.records - {reg.fsList[i].ns.id}
  {
    var found := Lookup(reg.fsList, name);
    if found.Err? then (reg, Err(found.code))
    else
      var i := found.value;
      var node := reg.fsList[i];
      if node.tenant.Some? then (reg, Err(EINVAL))
      else if treeRc.Err? then (reg, treeRc)
      else
        var l2 := reg.fsList[..i] + reg.fsList[i + 1..];
        var d := Ns.Delete(reg.nsMeta, node.ns);
        if d.Err? then (reg.(fsList := l2), Err(d.code))
        else (reg.(fsList := l2, nsMeta := d.value), Ok(()))
  }

  /** The exported file systems, in list order: the reference for the
      endpoint scan. */
  function Exported(l: seq<FsNode>): seq<FsNode> {
    if |l| == 0 then []
    else if l[0].tenant.Some? then [l[0]] + Exported(l[1..])
    else Exported(l[1..])
  }

  /** efs_endpoint_scan: the callback sees every exported file system in
      list order and skips the rest; its first failure ends the scan. */
  function EndpointScan(l: seq<FsNode>, cb: FsNode -> Result<()>): (r: (Result<()>, seq<FsNode>))
    ensures forall i :: 0 <= i < |r.1| ==> r.1[i].tenant.Some? && r.1[i] in l
    ensures r.0.Ok? ==> r.1 == Exported(l) && forall i :: 0 <= i < |r.1| ==> cb(r.1[i]).Ok?
    ensures r.0.Err? ==> |r.1| > 0 && r.0 == cb(r.1[|r.1| - 1])
  {
    if |l| == 0 then (Ok(()), [])
    else if l[0].tenant.None? then EndpointScan(l[1..], cb)
    else
      var rc := cb(l[0]);
      if rc.Err? then (rc, [l[0]])
      else
        var rest := EndpointScan(l[1..], cb);
        (rest.0, [l[0]] + rest.1)
  }

  // ---------------------------------------------------------------- invariant

  /** Names are unique, every listed namespace is stored under its id, and
      an exported file system has its tenant record. */
  ghost predicate Valid(reg: Registry) {
    (forall i, j :: 0 <= i < j < |reg.fsList| ==> reg.fsList[i].ns.name != reg.fsList[j].ns.name)
    && (forall i :: 0 <= i < |reg.fsList| ==>
          reg.fsList[i].ns.id in reg.nsMeta.records && reg.nsMeta.records[reg.fsList[i].ns.id] == reg.fsList[i].ns)
    && (forall i :: 0 <= i < |reg.fsList| && reg.fsList[i].tenant.Some? ==>
          reg.fsList[i].ns.id in reg.tenants && reg.fsList[i].tenant.value.id == reg.fsList[i].ns.id)
  }

  /** While the namespace counter has not wrapped, creating a file system
      keeps the registry valid, and the new file system is found by name. */
  lemma CreatePreservesValid(reg: Registry, name: string, fid: nat, treeRc: Result<()>)
    requires Valid(reg) && Ns.IdsBelowCounter(reg.nsMeta)
    requires reg.nsMeta.nextId.Some? ==> reg.nsMeta.nextId.value + 1 < Ns.U16_LIMIT
    requires Create(reg, name, fid, true, treeRc).1.Ok?
    ensures Valid(Create(reg, name, fid, true, treeRc).0)
    ensures Lookup(Create(reg, name, fid, true, treeRc).0.fsList, name) == Ok(0)
  {
    Ns.CreateFreshId(reg.nsMeta, name, fid);
    var reg2 := Create(reg, name, fid, true, treeRc).0;
    var (meta2, ns) := Ns.Create(reg.nsMeta, name, fid).value;
    assert reg2.fsList == [FsNode(ns, ROOT_STAT, None)] + reg.fsList;
    forall i | 0 <= i < |reg2.fsList|
      ensures reg2.fsList[i].ns.id in reg2.nsMeta.records
      ensures reg2.nsMeta.records[reg2.fsList[i].ns.id] == reg2.fsList[i].ns
    {
      if i > 0 {
        assert reg2.fsList[i] == reg.fsList[i - 1];
        assert reg.fsList[i - 1].ns.id != ns.id;
      }
    }
    forall i, j | 0 <= i < j < |reg2.fsList|
      ensures reg2.fsList[i].ns.name != reg2.fsList[j].ns.name
    {
      assert reg2.fsList[j] == reg.fsList[j - 1];
      if i == 0 {
        assert !HasName(reg.fsList, name);
      } else {
        assert reg2.fsList[i] == reg.fsList[i - 1];
      }
    }
  }

  /** Exporting a file system and withdrawing the export restores the list
      and the tenant index, provided no tenant record was stored under its
      id. */
  lemma EndpointCreateDeleteRoundTrip(reg: Registry, name: string, options: string, hdr: nat)
    requires EndpointCreate(reg, name, options, hdr, Ok(()), true).1.Ok?
    requires reg.fsList[Lookup(reg.fsList, name).value].ns.id !in reg.tenants
    ensures var reg2 := EndpointCreate(reg, name, options, hdr, Ok(()), true).0;
            EndpointDelete(reg2, name, Ok(())) == (reg, Ok(()))
  {
    var reg2 := EndpointCreate(reg, name, options, hdr, Ok(()), true).0;
    var i := Lookup(reg.fsList, name).value;
    assert Lookup(reg2.fsList, name) == Ok(i) by {
      assert forall j :: 0 <= j < |reg2.fsList| && j != i ==> reg2.fsList[j] == reg.fsList[j];
      assert reg2.fsList[i].ns == reg.fsList[i].ns;
      LookupRespectsNames(reg.fsList, reg2.fsList, name);
    }
    var id := reg.fsList[i].ns.id;
    assert reg2.fsList[i].(tenant := None) == reg.fsList[i];
    assert reg.fsList[i := reg2.fsList[i].(tenant := None)] == reg.fsList;
    assert reg2.tenants - {id} == reg.tenants;
    assert EndpointDelete(reg2, name, Ok(())).0 == reg;
  }

  /** Lookup depends on the names alone. */
  lemma {:induction false} LookupRespectsNames(l1: seq<FsNode>, l2: seq<FsNode>, name: string)
    requires |l1| == |l2| && forall j :: 0 <= j < |l1| ==> l1[j].ns.name == l2[j].ns.name
    ensures Lookup(l1, name) == Lookup(l2, name)
  {
    if |l1| > 0 {
      LookupRespectsNames(l1[1..], l2[1..], name);
    }
  }

  /** A file system that was never exported can be created and deleted
      again, leaving the list as it was. */
  lemma CreateDeleteRoundTrip(reg: Registry, name: string, fid: nat)
    requires Valid(reg) && Ns.IdsBelowCounter(reg.nsMeta)
    requires reg.nsMeta.nextId.Some? ==> reg.nsMeta.nextId.value + 1 < Ns.U16_LIMIT
    requires Create(reg, name, fid, true, Ok(())).1.Ok?
    ensures var reg2 := Create(reg, name, fid, true, Ok(())).0;
            Delete(reg2, name, Ok(())).1.Ok? && Delete(reg2, name, Ok(())).0.fsList == reg.fsList
            && Delete(reg2, name, Ok(())).0.nsMeta.records == reg.nsMeta.records
  {
    CreatePreservesValid(reg, name, fid, Ok(()));
    Ns.CreateFreshId(reg.nsMeta, name, fid);
    var reg2 := Create(reg, name, fid, true, Ok(())).0;
    assert reg2.fsList[1..] == reg.fsList;
  }
}

=== FILE: fsal_handle.dfy ===
/** The object-handle operations of the three NFS-Ganesha KVSFS FSALs that
    decide something before (or instead of) calling into the file system:
    attribute conversion and setattr routing, handle digest/extract, handle
    creation, lookup, rename, remove and the open2 dispatch. */
module FsalHandle {
  import opened Errno
  import opened InodeAttr
  import opened Namespace
  import opened Removal
  import opened FsalStatus
  import FileHandle
  import Rename

  /** Which handle.c: kvsfs-ganesha/src/FSAL/FSAL_KVSFS, src/nfs-ganesha
      and kvsfs-ganesha/src/nfs-ganesha. */
  datatype HandleFork = KvsfsFsal | NfsGanesha | KvsnsGanesha

  /** The object type of an FSAL handle. */
  datatype ObjType = RegularFile | Directory | SymbolicLink | OtherType

  // ---------------------------------------------------------------- attrlist2stat

  datatype AttrBit = AttrSize | AttrMode | AttrOwner | AttrGroup
                   | AttrAtime | AttrAtimeServer | AttrMtime | AttrMtimeServer

  /** The part of struct attrlist that setattr looks at. */
  datatype AttrList = AttrList(mask: set<AttrBit>, filesize: nat, mode: ModeBits,
                               owner: nat, group: nat, atime: Time, mtime: Time)

  /** The STAT_* flag each ATTR_* bit asks for. */
  function FlagOf(a: AttrBit): StatFlag {
    match a
    case AttrSize => SizeSet
    case AttrMode => ModeSet
    case AttrOwner => UidSet
    case AttrGroup => GidSet
    case AttrAtime | AttrAtimeServer => AtimeSet
    case AttrMtime | AttrMtimeServer => MtimeSet
  }

  predicate WantsServerTime(mask: set<AttrBit>) {
    AttrAtimeServer in mask || AttrMtimeServer in mask
  }

  /** The flags a mask raises, one per requested attribute. */
  function MaskFlags(m: set<AttrBit>): (flags: StatFlags)
    ensures forall f :: f in flags <==> exists a :: a in m && FlagOf(a) == f
  {
    set a | a in m :: FlagOf(a)
  }

  /** kvsfs_setattr_attrlist2stat: starting from a zeroed stat, every
      requested attribute is copied and its flag raised; the mode loses the
      export's umask; the *_SERVER bits take the clock (`clock`, None when
      clock_gettime fails, whose -1 comes back as errno 1).  Only the
      kvsfs-ganesha/src/nfs-ganesha fork looks at the object type, refusing a
      size on anything but a regular file before anything else. */
  function Attrlist2Stat(fork: HandleFork, attrs: AttrList, ty: ObjType, umask: ModeBits, clock: Option<Time>)
    : (r: Fsal<(Stat, StatFlags)>)
    ensures r.FErr? <==> (fork == KvsnsGanesha && AttrSize in attrs.mask && ty != RegularFile)
                         || (WantsServerTime(attrs.mask) && clock.None?)
    ensures r.FErr? ==> r.err == if fork == KvsnsGanesha && AttrSize in attrs.mask && ty != RegularFile
                                 then Inval else Posix(EPERM)
    ensures r.FOk? ==> var (st, flags) := r.value;
              (forall f :: f in flags <==> exists a :: a in attrs.mask && FlagOf(a) == f)
              && st.size == (if AttrSize in attrs.mask then attrs.filesize else 0)
              && st.mode == (if AttrMode in attrs.mask then attrs.mode - umask else {})
              && st.uid == (if AttrOwner in attrs.mask then attrs.owner else 0)
              && st.gid == (if AttrGroup in attrs.mask then attrs.group else 0)
              && st.atime == (if AttrAtimeServer in attrs.mask then clock.value
                              else if AttrAtime in attrs.mask then attrs.atime else 0)
              && st.mtime == (if AttrMtimeServer in attrs.mask then clock.value
                              else if AttrMtime in attrs.mask then attrs.mtime else 0)
              && st.ino == 0 && st.nlink == 0 && st.blocks == 0 && st.ctime == 0
  {
    var m := attrs.mask;
    if fork == KvsnsGanesha && AttrSize in m && ty != RegularFile then FErr(Inval)
    else if WantsServerTime(m) && clock.None? then FErr(Posix(EPERM))
    else
      var flags := MaskFlags(m);
      var atime := if AttrAtimeServer in m then clock.value else if AttrAtime in m then attrs.atime else 0;
      var mtime := if AttrMtimeServer in m then clock.value else if AttrMtime in m then attrs.mtime else 0;
      FOk((Stat(0,
                if AttrMode in m then attrs.mode - umask else {},
                0,
                if AttrOwner in m then attrs.owner else 0,
                if AttrGroup in m then attrs.group else 0,
                if AttrSize in m then attrs.filesize else 0,
                0, atime, mtime, 0),
           flags))
  }

  /** The conversion never asks for a link-count change, a ctime or an
      attach: setattr's link and ctime logic is the file system's. */
  lemma Attrlist2StatFlagsAreSetattrFlags(fork: HandleFork, attrs: AttrList, ty: ObjType, umask: ModeBits, clock: Option<Time>)
    requires Attrlist2Stat(fork, attrs, ty, umask, clock).FOk?
    ensures var flags := Attrlist2Stat(fork, attrs, ty, umask, clock).value.1;
            IncrLink !in flags && DecrLink !in flags && CtimeSet !in flags && SizeAttach !in flags
            && (flags == {} <==> attrs.mask == {})
  {
    MaskFlagsAreSetattrFlags(attrs.mask);
  }

  /** A mask raises none of the link, ctime or attach flags, and some flag
      exactly when it asks for something. */
  lemma MaskFlagsAreSetattrFlags(m: set<AttrBit>)
    ensures var flags := MaskFlags(m);
            IncrLink !in flags && DecrLink !in flags && CtimeSet !in flags && SizeAttach !in flags
            && (flags == {} <==> m == {})
  {
    if m != {} {
      var a :| a in m;
      assert FlagOf(a) in MaskFlags(m);
    }
  }

  // ---------------------------------------------------------------- setattrs

  /** Where kvsfs_setattrs sends a converted request: to ftruncate when a
      size was asked for, otherwise to the file system's setattr, whose new
      state is carried. */
  datatype Routed = ToTruncate(stats: Stat, flags: StatFlags) | Updated(fs: Fs)

  /** kvsfs_setattrs: the conversion's error, then INVAL for a size on
      anything but a regular file, then the routing. */
  function Setattrs(fork: HandleFork, fs: Fs, cred: Cred, ino: Ino, attrs: AttrList, ty: ObjType,
                    umask: ModeBits, clock: Option<Time>, t: Time)
    : (r: Fsal<Routed>)
    ensures Attrlist2Stat(fork, attrs, ty, umask, clock).FErr? ==> r == FErr(Attrlist2Stat(fork, attrs, ty, umask, clock).err)
    ensures AttrSize in attrs.mask && ty != RegularFile ==> r.FErr?
    ensures r.FOk? ==> (r.value.ToTruncate? <==> AttrSize in attrs.mask)
    ensures r.FOk? && r.value.ToTruncate? ==> SizeSet in r.value.flags && ty == RegularFile
    ensures r.FOk? && r.value.Updated? ==>
              var (st, flags) := Attrlist2Stat(fork, attrs, ty, umask, clock).value;
              Setattr(Kvsns, fs, cred, ino, st, flags, t) == Ok(r.value.fs)
  {
    var (st, flags) :- Attrlist2Stat(fork, attrs, ty, umask, clock);
    if AttrSize in attrs.mask then
      if ty != RegularFile then FErr(Inval)
      else FOk(ToTruncate(st, flags))
    else
      match Setattr(Kvsns, fs, cred, ino, st, flags, t)
      case Ok(fs2) => FOk(Updated(fs2))
      case Err(e) => FErr(Posix(e))
  }

  /** The three forks route every request the same way, except that a size
      on a non-regular file is refused with INVAL by
      kvsfs-ganesha/src/nfs-ganesha even when the clock also failed, where
      the other two report the clock. */
  lemma SetattrsForksAgree(f1: HandleFork, f2: HandleFork, fs: Fs, cred: Cred, ino: Ino, attrs: AttrList,
                           ty: ObjType, umask: ModeBits, clock: Option<Time>, t: Time)
    requires !(AttrSize in attrs.mask && ty != RegularFile && WantsServerTime(attrs.mask) && clock.None?)
    ensures Setattrs(f1, fs, cred, ino, attrs, ty, umask, clock, t) == Setattrs(f2, fs, cred, ino, attrs, ty, umask, clock, t)
  {
  }

  /** Where the forks differ, both refuse. */
  lemma SetattrsForksDifferOnlyInError(fs: Fs, cred: Cred, ino: Ino, attrs: AttrList, umask: ModeBits, t: Time)
    requires AttrSize in attrs.mask && WantsServerTime(attrs.mask)
    ensures Setattrs(KvsnsGanesha, fs, cred, ino, attrs, Directory, umask, None, t) == FErr(Inval)
    ensures Setattrs(KvsfsFsal, fs, cred, ino, attrs, Directory, umask, None, t) == FErr(Posix(EPERM))
  {
  }

  // ---------------------------------------------------------------- digest / extract

  datatype DigestType = NfsV3 | NfsV4 | OtherDigest

  /** The digest types each fork's extract accepts. */
  const KVSFS_DIGESTS: set<DigestType> := {NfsV4}
  const GANESHA_DIGESTS: set<DigestType> := {NfsV3, NfsV4}

  /** kvsfs_handle_digest: NFSv4 only (SERVERFAULT); a buffer shorter than
      the wire form is TOOSMALL; otherwise the handle with the export's
      file system id, whose length becomes the descriptor's. */
  function Digest(dt: DigestType, fsid: u64, ino: Ino, bufLen: nat): (r: Fsal<seq<Byte>>)
    ensures dt != NfsV4 ==> r == FErr(ServerFault)
    ensures dt == NfsV4 ==> (r.FOk? <==> bufLen >= FileHandle.SERIALIZED_SIZE)
    ensures r.FErr? && dt == NfsV4 ==> r.err == TooSmall
    ensures r.FOk? ==> |r.value| == FileHandle.SERIALIZED_SIZE <= bufLen
                       && FileHandle.Unpack(r.value) == FileHandle.Serialized(fsid, ino)
  {
    if dt != NfsV4 then FErr(ServerFault)
    else if FileHandle.SERIALIZED_SIZE > bufLen then FErr(TooSmall)
    else
      FileHandle.UnpackPack(FileHandle.Serialized(fsid, ino));
      FOk(FileHandle.Pack(FileHandle.Serialized(fsid, ino)))
  }

  /** kvsfs_extract_handle in kvsfs-ganesha/src/FSAL/FSAL_KVSFS AS WRITTEN:
      only a buffer LONGER than the handle is refused, and the length
      passed back is the handle's size, so a short buffer is accepted and
      its length inflated. */
  function ExtractAsWritten(dt: DigestType, len: nat): (r: Fsal<nat>)
    ensures r.FOk? <==> dt == NfsV4 && len <= FileHandle.SERIALIZED_SIZE
    ensures r.FErr? ==> r.err == ServerFault
    ensures r.FOk? ==> r.value == FileHandle.SERIALIZED_SIZE
  {
    if dt != NfsV4 then FErr(ServerFault)
    else if FileHandle.SERIALIZED_SIZE < len then FErr(ServerFault)
    else FOk(FileHandle.SERIALIZED_SIZE)
  }

  /** kvsfs_extract_handle as in src/nfs-ganesha, and as the other fork
      evidently intends: a digest type of the fork and a buffer of exactly
      the handle's size, whose length is passed back unchanged. */
  function Extract(dt: DigestType, accepted: set<DigestType>, fhSize: nat, len: nat): (r: Fsal<nat>)
    ensures r.FOk? <==> dt in accepted && len == fhSize
    ensures r.FErr? ==> r.err == ServerFault
    ensures r.FOk? ==> r.value == len
  {
    if dt !in accepted then FErr(ServerFault)
    else if len != fhSize then FErr(ServerFault)
    else FOk(fhSize)
  }

  /** A short NFSv4 buffer: the extract as written accepts it and reports
      the full handle size; the exact check refuses it. */
  lemma ExtractAsWrittenAcceptsShortBuffer(len: nat)
    requires len < FileHandle.SERIALIZED_SIZE
    ensures ExtractAsWritten(NfsV4, len) == FOk(FileHandle.SERIALIZED_SIZE) && len != FileHandle.SERIALIZED_SIZE
    ensures Extract(NfsV4, KVSFS_DIGESTS, FileHandle.SERIALIZED_SIZE, len) == FErr(ServerFault)
  {
  }

  /** On buffers at least as long as the handle the two extracts agree. */
  lemma ExtractsAgreeFromHandleSizeUp(dt: DigestType, len: nat)
    requires len >= FileHandle.SERIALIZED_SIZE
    ensures ExtractAsWritten(dt, len) == Extract(dt, KVSFS_DIGESTS, FileHandle.SERIALIZED_SIZE, len)
  {
  }

  /** What digest hands out, extract takes back with its length unchanged,
      and the wire form still names the same file system and inode. */
  lemma DigestExtractRoundTrip(fsid: u64, ino: Ino, bufLen: nat)
    requires bufLen >= FileHandle.SERIALIZED_SIZE
    ensures var d := Digest(NfsV4, fsid, ino, bufLen);
            d.FOk? && Extract(NfsV4, KVSFS_DIGESTS, FileHandle.SERIALIZED_SIZE, |d.value|) == FOk(|d.value|)
            && FileHandle.Unpack(d.value) == FileHandle.Serialized(fsid, ino)
  {
  }

  /** kvsfs_create_handle: a descriptor of any length but the handle's is
      FAULT; otherwise the handle's inode is looked up (getattr). */
  function CreateHandle(fs: Fs, fhSize: nat, len: nat, ino: Ino): (r: Fsal<Stat>)
    ensures r.FErr? && r.err == Fault <==> len != fhSize
    ensures r.FOk? <==> len == fhSize && ino in fs.stats
    ensures r.FOk? ==> r.value == fs.stats[ino]
    ensures r.FErr? && len == fhSize ==> r.err == Posix(ENOENT)
  {
    if len != fhSize then FErr(Fault)
    else
      match GetStat(fs, ino)
      case Ok(st) => FOk(st)
      case Err(e) => FErr(Posix(e))
  }

  /** In src/nfs-ganesha, extract passes on exactly the descriptors
      create_handle takes without FAULT. */
  lemma ExtractFeedsCreateHandle(fs: Fs, dt: DigestType, fhSize: nat, len: nat, ino: Ino)
    requires dt in GANESHA_DIGESTS
    ensures Extract(dt, GANESHA_DIGESTS, fhSize, len).FOk? <==> CreateHandle(fs, fhSize, len, ino) != FErr(Fault)
  {
  }

  // ---------------------------------------------------------------- lookup

  /** kvsfs_lookup (src/nfs-ganesha): NOTDIR unless the parent is a
      directory; ".." at the export root is the root itself, without asking
      the file system; any other name goes through kvsns2_lookup; then
      getattr on the object found. */
  function FsalLookup(fs: Fs, cred: Cred, parentTy: ObjType, parent: Ino, root: Ino, name: string)
    : (r: Fsal<(Ino, Stat)>)
    ensures parentTy != Directory ==> r == FErr(NotDir)
    ensures r.FOk? ==> r.value.0 in fs.stats && r.value.1 == fs.stats[r.value.0]
    ensures r.FOk? && name == ".." && parent == root ==> r.value.0 == root
    ensures r.FOk? && !(name == ".." && parent == root) ==> Lookup(Kvsns, fs, cred, parent, name) == Ok(r.value.0)
    ensures r.FErr? && parentTy == Directory ==> r.err.Posix?
  {
    if parentTy != Directory then FErr(NotDir)
    else
      var obj :- if name == ".." && parent == root then FOk(root)
                 else match Lookup(Kvsns, fs, cred, parent, name)
                      case Ok(i) => FOk(i)
                      case Err(e) => FErr(Posix(e));
      match GetStat(fs, obj)
      case Ok(st) => FOk((obj, st))
      case Err(e) => FErr(Posix(e))
  }

  /** ".." at the root resolves to the root whatever the credentials and
      however the store's entries look; kvsns2_lookup alone would need a
      ".." entry and READ access. */
  lemma FsalLookupDotDotAtRoot(fs: Fs, cred: Cred, root: Ino)
    requires root in fs.stats
    ensures FsalLookup(fs, cred, Directory, root, root, "..") == FOk((root, fs.stats[root]))
  {
  }

  /** Every other lookup finds what kvsns2_lookup finds. */
  lemma FsalLookupAgreesElsewhere(fs: Fs, cred: Cred, parent: Ino, root: Ino, name: string)
    requires !(name == ".." && parent == root)
    requires Lookup(Kvsns, fs, cred, parent, name).Ok?
    ensures var i := Lookup(Kvsns, fs, cred, parent, name).value;
            FsalLookup(fs, cred, Directory, parent, root, name)
            == if i in fs.stats then FOk((i, fs.stats[i])) else FErr(Posix(ENOENT))
  {
  }

  /** kvsfs_lookup_path: only the export root "/" is served (NOTSUPP for
      any other path), by its stat. */
  function LookupPath(fs: Fs, root: Ino, path: string): (r: Fsal<(Ino, Stat)>)
    ensures path != "/" ==> r == FErr(NotSupp)
    ensures r.FOk? <==> path == "/" && root in fs.stats
    ensures r.FOk? ==> r.value == (root, fs.stats[root])
  {
    if path != "/" then FErr(NotSupp)
    else
      match GetStat(fs, root)
      case Ok(st) => FOk((root, st))
      case Err(e) => FErr(Posix(e))
  }

  /** lookup_path "/" and lookup ".." from the root reach the same object. */
  lemma LookupPathMeetsDotDot(fs: Fs, cred: Cred, root: Ino)
    ensures LookupPath(fs, root, "/") == FsalLookup(fs, cred, Directory, root, root, "..")
  {
  }

  // ---------------------------------------------------------------- rename

  /** What a state-changing FSAL call leaves: the file system as its steps
      left it, and the status it returns. */
  datatype FsalOutcome = FsalOutcome(fs: Fs, res: Fsal<()>)

  /** The FSAL status of a file system call's outcome: 0 is success, an
      errno becomes a POSIX error; the state is passed on unchanged. */
  function ToFsal(o: Outcome<()>): (r: FsalOutcome)
    ensures r.fs == o.fs
    ensures r.res.FOk? <==> o.res.Ok?
    ensures r.res.FErr? ==> r.res.err == Posix(o.res.code)
  {
    FsalOutcome(o.fs, if o.res.Ok? then FOk(()) else FErr(Posix(o.res.code)))
  }

  /** kvsfs_rename (src/nfs-ganesha): the object and both directories must
      belong to the same file system context (XDEV otherwise); then
      kvsns_rename by name, whose partial writes stay when it fails. */
  function FsalRename(fs: Fs, cred: Cred, objCtx: nat, oldCtx: nat, newCtx: nat, a: Rename.Args, t: Time)
    : (r: FsalOutcome)
    requires Rename.ValidArgs(a) && a.psrc.None? && a.pdst.None?
    ensures r.res == FErr(Xdev) <==> objCtx != oldCtx || objCtx != newCtx
    ensures r.res == FErr(Xdev) ==> r.fs == fs
    ensures objCtx == oldCtx == newCtx ==>
              var k := Rename.KvsnsRename(fs, cred, a, t);
              r.fs == k.fs && (r.res.FOk? <==> k.res.Ok?) && (k.res.Err? ==> r.res == FErr(Posix(k.res.code)))
  {
    if objCtx != oldCtx || objCtx != newCtx then FsalOutcome(fs, FErr(Xdev))
    else ToFsal(Rename.KvsnsRename(fs, cred, a, t))
  }

  // ---------------------------------------------------------------- remove

  /** kvsfs_unlink (kvsfs-ganesha/src/nfs-ganesha): a file or symlink goes
      to kvsns2_unlink; the code asserts that nothing else but a directory
      reaches it.  A directory goes to kvsns2_rmdir, which kvsns.h declares
      but no file of this model defines; the kvsns rmdir of Removal (the
      kvsns_rmdir of kvsns_handle.c, without the context argument) stands
      in for it.  Whatever either call wrote before failing stays; the last
      unlink of a closed file whose data object is missing is one such
      failure (ENOENT). */
  function FsalRemove(fs: Fs, cred: Cred, dir: Ino, ty: ObjType, name: string, t: Time): (r: FsalOutcome)
    requires ty != OtherType
    ensures ty == Directory ==>
              var o := RmdirAsWritten(Kvsns, fs, cred, dir, name, t);
              r.fs == o.fs && (r.res.FOk? <==> o.res.Ok?) && (o.res.Err? ==> r.res == FErr(Posix(o.res.code)))
    ensures ty != Directory ==>
              var o := Kvsns2Unlink(fs, cred, dir, name, t);
              r.fs == o.fs && (r.res.FOk? <==> o.res.Ok?) && (o.res.Err? ==> r.res == FErr(Posix(o.res.code)))
    ensures ty != Directory && Kvsns2Unlinkable(fs, cred, dir, name) ==> Dentry(dir, name) !in r.fs.dentries
    ensures ty != Directory && Kvsns2Unlinkable(fs, cred, dir, name)
              && DataObjectMissing(fs, Lookup(Kvsns, fs, cred, dir, name).value)
            ==> r.res == FErr(Posix(ENOENT))
    ensures r.res.FErr? ==> r.res.err.Posix?
  {
    ToFsal(if ty == Directory then RmdirAsWritten(Kvsns, fs, cred, dir, name, t)
           else Kvsns2Unlink(fs, cred, dir, name, t))
  }

  /** Either way the name is gone from the directory after a successful
      remove (for a directory, through the kvsns_rmdir stand-in). */
  lemma FsalRemoveDropsName(fs: Fs, cred: Cred, dir: Ino, ty: ObjType, name: string, t: Time)
    requires ty != OtherType && FsalRemove(fs, cred, dir, ty, name, t).res.FOk?
    ensures Dentry(dir, name) !in FsalRemove(fs, cred, dir, ty, name, t).fs.dentries
  {
  }

  // ---------------------------------------------------------------- open2

  /** fsal_create_mode, in its declaration order. */
  datatype CreateMode = NoCreate | Unchecked | Guarded | Exclusive | Exclusive41 | Exclusive9P

  /** The helper an open2 call ends in. */
  datatype OpenRoute =
    | ByHandle            // open2_by_handle
    | ByName              // open2_by_name
    | CreateUnchecked     // create_unchecked
    | OpenUnchecked       // open_unchecked
    | OpenExclusive40     // open_exclusive40
    | CreateExclusive40   // create_exclusive40
    | Create2(verifier: bool)  // create2, with the verifier stored in the attributes

  /** The routes that need the name the caller gave. */
  predicate NeedsName(route: OpenRoute) {
    route.ByName? || route.CreateUnchecked? || route.CreateExclusive40? || route.Create2?
  }

  /** kvsfs_open2 in kvsfs-ganesha/src/FSAL/FSAL_KVSFS: NOTSUPP without a
      state (NFSv3); no create opens by handle or by name; UNCHECKED
      creates by name or opens the handle; GUARDED creates as UNCHECKED
      does; EXCLUSIVE (NFSv4.0) opens a retransmitted request or creates;
      EXCLUSIVE_41 and 9P are NOTSUPP. */
  function Open2Kvsfs(hasState: bool, mode: CreateMode, hasName: bool): (r: Fsal<OpenRoute>)
    ensures r.FErr? <==> !hasState || mode == Exclusive41 || mode == Exclusive9P
    ensures r.FErr? ==> r.err == NotSupp
    ensures r.FOk? ==> (mode == NoCreate <==> r.value == ByHandle || r.value == ByName)
    ensures r.FOk? && r.value != CreateUnchecked ==> (NeedsName(r.value) <==> hasName)
    ensures r.FOk? ==> !r.value.Create2?
  {
    if !hasState then FErr(NotSupp)
    else
      match mode
      case NoCreate => FOk(if hasName then ByName else ByHandle)
      case Unchecked => FOk(if hasName then CreateUnchecked else OpenUnchecked)
      case Guarded => FOk(CreateUnchecked)
      case Exclusive => FOk(if hasName then CreateExclusive40 else OpenExclusive40)
      case Exclusive41 | Exclusive9P => FErr(NotSupp)
  }

  /** GUARDED with a name is handled exactly as UNCHECKED. */
  lemma GuardedIsUnchecked(hasState: bool)
    ensures Open2Kvsfs(hasState, Guarded, true) == Open2Kvsfs(hasState, Unchecked, true)
  {
  }

  /** kvsfs_open2 in kvsfs-ganesha/src/nfs-ganesha: NOTSUPP without a
      state; no create opens by handle or by name; an UNCHECKED truncating
      open of the handle itself opens by handle; everything else creates
      by name (create2 asserts the name is there), storing the verifier for
      the exclusive modes. */
  function Open2Ganesha(hasState: bool, mode: CreateMode, hasName: bool, trunc: bool): (r: Fsal<OpenRoute>)
    requires hasState && mode != NoCreate && !hasName ==> trunc && mode == Unchecked
    ensures r.FErr? <==> !hasState
    ensures r.FErr? ==> r.err == NotSupp
    ensures r.FOk? ==> (r.value == ByHandle || r.value == ByName || r.value.Create2?)
    ensures r.FOk? && r.value.Create2? ==> mode != NoCreate && hasName
                                           && (r.value.verifier <==> mode in {Exclusive, Exclusive41, Exclusive9P})
    ensures r.FOk? && mode == NoCreate ==> r.value == (if hasName then ByName else ByHandle)
  {
    if !hasState then FErr(NotSupp)
    else if mode == NoCreate then FOk(if hasName then ByName else ByHandle)
    else if trunc && !hasName && mode == Unchecked then FOk(ByHandle)
    else FOk(Create2(mode in {Exclusive, Exclusive41, Exclusive9P}))
  }

  /** The two open2s agree on plain opens, and differ on NFSv4.1 and 9P
      exclusive creates, which only the newer fork serves. */
  lemma Open2ForksCompare(hasState: bool, hasName: bool, trunc: bool)
    ensures Open2Kvsfs(hasState, NoCreate, hasName) == Open2Ganesha(hasState, NoCreate, hasName, trunc)
    ensures hasState && hasName ==> Open2Kvsfs(true, Exclusive41, true) == FErr(NotSupp)
                                    && Open2Ganesha(true, Exclusive41, true, trunc) == FOk(Create2(true))
  {
  }
}

=== FILE: fsal_readdir.dfy ===
/** Directory listing and symlink reading in the KVSFS FSALs (the
    kvsfs_readdir callback state machine and kvsfs_readsymlink).  Three
    copies of the FSAL exist; for readdir they split into two behaviours,
    for readsymlink into two as well. */
module FsalReaddir {
  import opened Errno
  import opened InodeAttr
  import opened FsalStatus

  /** KVSFS_FIRST_COOKIE: cookies 0-2 are reserved by NFS-Ganesha. */
  const FIRST_COOKIE: nat := 3

  /** What NFS-Ganesha's readdir callback answers for one entry. */
  datatype DirResult = DirContinue | DirReadahead | DirTerminate

  /** One directory entry as the file system lists it. */
  datatype Dirent = Dirent(name: string, ino: Ino)

  /** One call of NFS-Ganesha's callback: the entry and the cookie it gets. */
  datatype Delivery = Delivery(name: string, ino: Ino, cookie: nat)

  /** FSAL_KVSFS resumes after the given cookie and counts skipped entries;
      the two nfs-ganesha/FSAL_KVSFS copies resume at the cookie itself and
      do not count skipped entries. */
  datatype ReaddirFork = FsalKvsfs | NfsGanesha

  /** struct kvsfs_readdir_cb_ctx: the first cookie to deliver, the cookie of
      the current entry, the eof flag, whether the client wants more, and
      the getattr error that ended the walk. */
  datatype CbCtx = CbCtx(whence: nat, where: nat, eof: bool, cont: bool, innerRc: Result<()>)

  /** The context kvsfs_readdir starts with. */
  function Start(fork: ReaddirFork, whence: Option<nat>): (c: CbCtx)
    ensures c.where == FIRST_COOKIE && c.eof && c.cont && c.innerRc.Ok?
    ensures whence.None? ==> c.whence == FIRST_COOKIE
    ensures whence.Some? && fork == FsalKvsfs ==> c.whence == whence.value + 1
    ensures whence.Some? && fork == NfsGanesha ==> c.whence == whence.value
  {
    var first := if whence.None? then FIRST_COOKIE
                 else if fork == FsalKvsfs then whence.value + 1 else whence.value;
    CbCtx(first, FIRST_COOKIE, true, true, Ok(()))
  }

  /** kvsfs_readdir_cb on one entry: the new context, whether the walk goes
      on, and the callback call made (at most one).  `getattr` is the file
      system's getattr, `client` NFS-Ganesha's callback. */
  function Callback(fork: ReaddirFork, c: CbCtx, e: Dirent, getattr: Ino -> Result<()>,
                    client: Delivery -> DirResult): (r: (CbCtx, bool, seq<Delivery>))
    ensures |r.2| <= 1 && r.0.whence == c.whence
    ensures |r.2| == 1 <==> c.cont && c.whence <= c.where && getattr(e.ino).Ok?
    ensures |r.2| == 1 ==> r.2[0] == Delivery(e.name, e.ino, c.where)
                           && r.0.where == c.where + 1 && r.0.cont == (client(r.2[0]) == DirContinue)
    ensures !c.cont ==> !r.1 && !r.0.eof
    ensures c.cont ==> r.0.eof == c.eof
    ensures r.0.innerRc.Err? <==> c.innerRc.Err? || (c.cont && c.whence <= c.where && getattr(e.ino).Err?)
    ensures r.1 <==> c.cont && (c.where < c.whence || getattr(e.ino).Ok?)
  {
    if !c.cont then (c.(eof := false), false, [])
    else if c.where < c.whence then
      (if fork == FsalKvsfs then c.(where := c.where + 1) else c, true, [])
    else
      var g := getattr(e.ino);
      if g.Err? then (c.(innerRc := g), false, [])
      else
        var d := Delivery(e.name, e.ino, c.where);
        (c.(cont := client(d) == DirContinue, where := c.where + 1), true, [d])
  }

  /** The directory walk of kvsns_readdir: the callback on each entry in
      turn until it returns false. */
  function Walk(fork: ReaddirFork, c: CbCtx, es: seq<Dirent>, getattr: Ino -> Result<()>,
                client: Delivery -> DirResult): (r: (CbCtx, seq<Delivery>))
    ensures |r.1| <= |es|
    ensures forall i :: 0 <= i < |r.1| ==> c.whence <= r.1[i].cookie && c.where <= r.1[i].cookie
    ensures forall i, j :: 0 <= i < j < |r.1| ==> r.1[i].cookie < r.1[j].cookie
    ensures r.0.eof ==> c.eof
    decreases |es|
  {
    if |es| == 0 then (c, [])
    else
      var (c1, more, d) := Callback(fork, c, es[0], getattr, client);
      if !more then (c1, d)
      else
        var (c2, d2) := Walk(fork, c1, es[1..], getattr, client);
        (c2, d + d2)
  }

  datatype ReaddirOut = ReaddirOut(res: Fsal<bool>, delivered: seq<Delivery>)

  /** kvsfs_readdir: `listing` is the directory as kvsns_readdir walks it
      (or its error); the result is the eof flag, or the error of a failed
      getattr. */
  function Readdir(fork: ReaddirFork, whence: Option<nat>, listing: Result<seq<Dirent>>,
                   getattr: Ino -> Result<()>, client: Delivery -> DirResult): (r: ReaddirOut)
    ensures listing.Err? ==> r == ReaddirOut(FErr(Posix(listing.code)), [])
    ensures forall i :: 0 <= i < |r.delivered| ==> FIRST_COOKIE <= r.delivered[i].cookie
    ensures forall i, j :: 0 <= i < j < |r.delivered| ==> r.delivered[i].cookie < r.delivered[j].cookie
  {
    if listing.Err? then ReaddirOut(FErr(Posix(listing.code)), [])
    else
      var (c, d) := Walk(fork, Start(fork, whence), listing.value, getattr, client);
      if c.innerRc.Err? then ReaddirOut(FErr(Posix(c.innerRc.code)), d)
      else ReaddirOut(FOk(c.eof), d)
  }

  // ---------------------------------------------------------------- reference listing

  /** How many leading entries lie below `whence` when the first entry has
      cookie `where`. */
  function Skipped(n: nat, where: nat, whence: nat): (s: nat)
    ensures s <= n
  {
    if whence <= where then 0 else if whence - where <= n then whence - where else n
  }

  /** The reference listing: entry k has cookie where + k, and exactly the
      entries with a cookie of at least `whence` are delivered. */
  function Suffix(es: seq<Dirent>, where: nat, whence: nat): (d: seq<Delivery>)
    ensures |d| == |es| - Skipped(|es|, where, whence)
  {
    var s := Skipped(|es|, where, whence);
    seq(|es| - s, j requires 0 <= j < |es| - s => Delivery(es[s + j].name, es[s + j].ino, where + s + j))
  }

  ghost predicate AllAttrs(getattr: Ino -> Result<()>) {
    forall ino :: getattr(ino).Ok?
  }

  ghost predicate AlwaysContinue(client: Delivery -> DirResult) {
    forall d :: client(d) == DirContinue
  }

  /** Dropping an entry below `whence` shifts the reference listing by one. */
  lemma SuffixSkip(es: seq<Dirent>, where: nat, whence: nat)
    requires |es| > 0 && where < whence
    ensures Suffix(es, where, whence) == Suffix(es[1..], where + 1, whence)
  {
    var s := Skipped(|es|, where, whence);
    var rest := Suffix(es[1..], where + 1, whence);
    assert Skipped(|es| - 1, where + 1, whence) == s - 1;
    forall j | 0 <= j < |rest| ensures Suffix(es, where, whence)[j] == rest[j] {
      assert es[1..][s - 1 + j] == es[s + j];
    }
  }

  /** An entry at or beyond `whence` heads the reference listing. */
  lemma SuffixDeliver(es: seq<Dirent>, where: nat, whence: nat)
    requires |es| > 0 && whence <= where
    ensures Suffix(es, where, whence)
            == [Delivery(es[0].name, es[0].ino, where)] + Suffix(es[1..], where + 1, whence)
  {
    var rest := Suffix(es[1..], where + 1, whence);
    var d := [Delivery(es[0].name, es[0].ino, where)];
    forall j | 0 <= j < |es| ensures Suffix(es, where, whence)[j] == (d + rest)[j] {
      if j > 0 {
        assert es[1..][j - 1] == es[j];
      }
    }
  }

  /** With every getattr succeeding and a client that always continues,
      FSAL_KVSFS's walk delivers the reference listing and keeps eof. */
  lemma {:induction false} WalkDeliversSuffix(c: CbCtx, es: seq<Dirent>, getattr: Ino -> Result<()>,
                                              client: Delivery -> DirResult)
    requires AllAttrs(getattr) && AlwaysContinue(client) && c.cont && c.innerRc.Ok?
    ensures Walk(FsalKvsfs, c, es, getattr, client).1 == Suffix(es, c.where, c.whence)
    ensures Walk(FsalKvsfs, c, es, getattr, client).0.eof == c.eof
    ensures Walk(FsalKvsfs, c, es, getattr, client).0.innerRc.Ok?
    decreases |es|
  {
    if |es| > 0 {
      var r := Callback(FsalKvsfs, c, es[0], getattr, client);
      assert getattr(es[0].ino).Ok?;
      var c1 := r.0;
      if c.where < c.whence {
        assert r == (c.(where := c.where + 1), true, []);
        WalkDeliversSuffix(c1, es[1..], getattr, client);
        SuffixSkip(es, c.where, c.whence);
      } else {
        var d := Delivery(es[0].name, es[0].ino, c.where);
        assert client(d) == DirContinue;
        assert r == (c.(where := c.where + 1), true, [d]);
        WalkDeliversSuffix(c1, es[1..], getattr, client);
        SuffixDeliver(es, c.where, c.whence);
      }
    }
  }

  /** A full listing from the start: every entry, numbered from
      FIRST_COOKIE in listing order, with eof set. */
  lemma ReaddirListsAll(fork: ReaddirFork, es: seq<Dirent>, getattr: Ino -> Result<()>,
                        client: Delivery -> DirResult)
    requires AllAttrs(getattr) && AlwaysContinue(client)
    ensures Readdir(FsalKvsfs, None, Ok(es), getattr, client)
            == ReaddirOut(FOk(true), Suffix(es, FIRST_COOKIE, FIRST_COOKIE))
    ensures |Suffix(es, FIRST_COOKIE, FIRST_COOKIE)| == |es|
    ensures forall k :: 0 <= k < |es| ==>
              Suffix(es, FIRST_COOKIE, FIRST_COOKIE)[k] == Delivery(es[k].name, es[k].ino, FIRST_COOKIE + k)
  {
    WalkDeliversSuffix(Start(FsalKvsfs, None), es, getattr, client);
  }

  /** Resuming FSAL_KVSFS's readdir after cookie `w` delivers exactly the
      entries whose cookie is beyond `w`. */
  lemma ReaddirResumesAfterCookie(es: seq<Dirent>, w: nat, getattr: Ino -> Result<()>,
                                  client: Delivery -> DirResult)
    requires AllAttrs(getattr) && AlwaysContinue(client)
    ensures Readdir(FsalKvsfs, Some(w), Ok(es), getattr, client)
            == ReaddirOut(FOk(true), Suffix(es, FIRST_COOKIE, w + 1))
    ensures forall d :: d in Suffix(es, FIRST_COOKIE, w + 1) ==> d.cookie > w
    ensures FIRST_COOKIE <= w < FIRST_COOKIE + |es| ==>
              |Suffix(es, FIRST_COOKIE, w + 1)| == FIRST_COOKIE + |es| - (w + 1)
  {
    WalkDeliversSuffix(Start(FsalKvsfs, Some(w)), es, getattr, client);
  }

  /** On the nfs-ganesha copies a skipped entry does not move `where`, so
      once `where` is below `whence` the walk skips every entry. */
  lemma {:induction false} StallingWalkSkipsAll(c: CbCtx, es: seq<Dirent>, getattr: Ino -> Result<()>,
                                                client: Delivery -> DirResult)
    requires c.cont && c.where < c.whence
    ensures Walk(NfsGanesha, c, es, getattr, client) == (c, [])
    decreases |es|
  {
    if |es| > 0 {
      StallingWalkSkipsAll(c, es[1..], getattr, client);
    }
  }

  /** The nfs-ganesha copies, asked to resume after any cookie beyond the
      first, deliver nothing and report the end of the directory, however
      many entries follow. */
  lemma ReaddirAsWrittenStalls(es: seq<Dirent>, w: nat, getattr: Ino -> Result<()>,
                               client: Delivery -> DirResult)
    requires w > FIRST_COOKIE
    ensures Readdir(NfsGanesha, Some(w), Ok(es), getattr, client) == ReaddirOut(FOk(true), [])
  {
    StallingWalkSkipsAll(Start(NfsGanesha, Some(w)), es, getattr, client);
  }

  /** A client that stops after the first of several entries gets no more,
      and eof is cleared by the next entry; had it been the last entry,
      eof would stay set. */
  lemma ReaddirStopClearsEof(fork: ReaddirFork, es: seq<Dirent>, getattr: Ino -> Result<()>,
                             client: Delivery -> DirResult)
    requires |es| >= 1 && getattr(es[0].ino).Ok?
    requires client(Delivery(es[0].name, es[0].ino, FIRST_COOKIE)) != DirContinue
    ensures Readdir(fork, None, Ok(es), getattr, client).delivered == [Delivery(es[0].name, es[0].ino, FIRST_COOKIE)]
    ensures Readdir(fork, None, Ok(es), getattr, client).res == FOk(|es| == 1)
  {
    var c := Start(fork, None);
    var (c1, more, d) := Callback(fork, c, es[0], getattr, client);
    assert !c1.cont && more;
    if |es| > 1 {
      var es1 := es[1..];
      assert Walk(fork, c1, es1, getattr, client) == (c1.(eof := false), []);
    } else {
      assert es[1..] == [];
    }
  }

  // ---------------------------------------------------------------- readsymlink

  /** kvsfs_readsymlink in FSAL_KVSFS and src/nfs-ganesha: EINVAL for an
      object that is not a symlink; otherwise the link as kvsns_readlink
      wrote it into a buffer of `linkSize` bytes, NUL-terminated: a full
      buffer loses its last byte to the NUL, a shorter one gets the NUL
      appended and the length counts it. */
  function ReadSymlink(isLink: bool, link: Result<seq<char>>, linkSize: nat): (r: Fsal<seq<char>>)
    requires linkSize > 0 && (link.Ok? ==> |link.value| <= linkSize)
    ensures !isLink ==> r == FErr(Posix(EINVAL))
    ensures isLink && link.Err? ==> r == FErr(Posix(link.code))
    ensures r.FOk? ==> 0 < |r.value| <= linkSize && r.value[|r.value| - 1] == '\0'
                       && r.value[..|r.value| - 1] <= link.value
    ensures r.FOk? && |link.value| < linkSize ==> r.value[..|r.value| - 1] == link.value
  {
    if !isLink then FErr(Posix(EINVAL))
    else if link.Err? then FErr(Posix(link.code))
    else
      var c := link.value;
      if |c| == linkSize then FOk(c[..linkSize - 1] + ['\0'])
      else FOk(c + ['\0'])
  }

  function FirstNul(s: seq<char>): (k: nat)
    requires '\0' in s
    ensures k < |s| && s[k] == '\0' && '\0' !in s[..k]
  {
    if s[0] == '\0' then 0
    else
      var k := FirstNul(s[1..]);
      assert s[..k + 1] == [s[0]] + s[1..][..k];
      k + 1
  }

  /** kvsfs_readsymlink in kvsfs-ganesha/src/nfs-ganesha: FAULT for an
      object that is not a symlink; otherwise the buffer up to and including
      its first NUL, the length being strlen + 1. */
  function ReadSymlinkStrlen(isLink: bool, link: Result<seq<char>>): (r: Fsal<seq<char>>)
    requires link.Ok? ==> '\0' in link.value
    ensures !isLink ==> r == FErr(Fault)
    ensures isLink && link.Err? ==> r == FErr(Posix(link.code))
    ensures r.FOk? ==> |r.value| > 0 && r.value <= link.value && r.value[|r.value| - 1] == '\0'
                       && '\0' !in r.value[..|r.value| - 1]
  {
    if !isLink then FErr(Fault)
    else if link.Err? then FErr(Posix(link.code))
    else FOk(link.value[..FirstNul(link.value) + 1])
  }

  /** For a link shorter than the buffer whose content carries no NUL of its
      own, the two copies agree. */
  lemma ReadSymlinkCopiesAgree(target: string, linkSize: nat)
    requires '\0' !in target && |target| + 1 < linkSize
    ensures ReadSymlink(true, Ok(target), linkSize)
            == ReadSymlinkStrlen(true, Ok(target + ['\0']))
  {
    var s := target + ['\0'];
    assert s[..|target|] == target;
    assert FirstNul(s) == |target|;
    assert s[..|target| + 1] == s;
  }
}

=== FILE: fsal_state.dfy ===
/** Open-file states of the KVSFS FSALs (kvsfs_internal.c and the state
    code of FSAL_KVSFS/handle.c): the open/closed invariant of a file state,
    the share reservations of an object, the delete-on-close rule of
    unlink, the lookup of a usable state for IO, and the read loop. */
module FsalState {
  import opened Errno
  import opened InodeAttr
  import opened FsalStatus

  /** The fsal_openflags_t bits the FSAL passes around. */
  datatype OpenFlag = ORead | OWrite | OTrunc
  type OpenFlags = set<OpenFlag>

  /** FSAL_O_CLOSED is the empty flag word. */
  const O_CLOSED: OpenFlags := {}

  /** kvsfs_invalid_file_handle / KVSNS_INVALID_INO_FOR_FD. */
  const INVALID_INO: Ino := 0

  /** struct kvsfs_file_state: the open flags and the inode of the open
      file. */
  datatype FileState = FileState(openflags: OpenFlags, ino: Ino)

  /** kvsfs_file_state_invariant_closed. */
  predicate Closed(s: FileState) {
    s.openflags == O_CLOSED && s.ino == INVALID_INO
  }

  /** kvsfs_file_state_invariant_open. */
  predicate Open(s: FileState) {
    s.openflags != O_CLOSED && s.ino != INVALID_INO
  }

  /** kvsfs_alloc_state: a fresh state is closed, and so not open. */
  function NewState(): (s: FileState)
    ensures Closed(s) && !Open(s)
  {
    FileState(O_CLOSED, INVALID_INO)
  }

  /** The share reservations of an object: the open flags of each state
      open on it (NFS-Ganesha's share counters, which are not part of this
      model, count exactly these). */
  type Share = multiset<OpenFlags>

  /** update_share_counters: the old flags stop counting and the new ones
      start, a closed flag word counting for nothing. */
  function Update(sh: Share, oldFlags: OpenFlags, newFlags: OpenFlags): (r: Share)
    ensures oldFlags == O_CLOSED && newFlags != O_CLOSED ==> r == sh + multiset{newFlags}
    ensures oldFlags != O_CLOSED && newFlags == O_CLOSED ==> r == sh - multiset{oldFlags}
    ensures oldFlags == O_CLOSED && newFlags == O_CLOSED ==> r == sh
  {
    var removed := if oldFlags == O_CLOSED then sh else sh - multiset{oldFlags};
    if newFlags == O_CLOSED then removed else removed + multiset{newFlags}
  }

  /** kvsfs_fh_is_open: the share record differs from the all-zero one. */
  predicate ShareIsOpen(sh: Share) {
    sh != multiset{}
  }

  /** kvsfs_file_state_open: a state that is not being reopened must be
      closed; a share conflict (`conflict`, the answer of
      check_share_conflict) fails with the state and the share unchanged;
      otherwise the share counts the new flags and the state is open on the
      object's inode (the kvsns open it announces to is a stub that
      succeeds).  The final invariant assertion needs real flags and a
      real inode. */
  function StateOpen(s: FileState, flags: OpenFlags, objIno: Ino, sh: Share, conflict: bool, reopen: bool)
    : (r: (FileState, Share, Fsal<()>))
    requires reopen || Closed(s)
    requires flags != O_CLOSED && objIno != INVALID_INO
    ensures conflict ==> r == (s, sh, FErr(ShareDenied))
    ensures !conflict ==> r.2.FOk? && Open(r.0) && r.0.openflags == flags && r.0.ino == objIno
    ensures !conflict && Closed(s) ==> r.1 == sh + multiset{flags}
    ensures ShareIsOpen(r.1) <==> !conflict || ShareIsOpen(sh)
  {
    if conflict then (s, sh, FErr(ShareDenied))
    else (FileState(flags, objIno), Update(sh, s.openflags, flags), FOk(()))
  }

  /** kvsfs_file_state_close: the state must be open; when the kvsns close
      (`closeRc`, a stub that succeeds in this code) fails, nothing changes;
      otherwise the share forgets the flags and the state is closed. */
  function StateClose(s: FileState, sh: Share, closeRc: Fsal<()>): (r: (FileState, Share, Fsal<()>))
    requires Open(s)
    ensures closeRc.FErr? ==> r == (s, sh, closeRc)
    ensures closeRc.FOk? ==> r.2.FOk? && Closed(r.0) && r.1 == sh - multiset{s.openflags}
  {
    if closeRc.FErr? then (s, sh, closeRc)
    else (FileState(O_CLOSED, INVALID_INO), Update(sh, s.openflags, O_CLOSED), FOk(()))
  }

  /** Opening a closed state and closing it again restores both the state
      and the share record. */
  lemma OpenCloseRoundTrip(s: FileState, flags: OpenFlags, objIno: Ino, sh: Share)
    requires Closed(s) && flags != O_CLOSED && objIno != INVALID_INO
    ensures var (s1, sh1, _) := StateOpen(s, flags, objIno, sh, false, false);
            StateClose(s1, sh1, FOk(())) == (s, sh, FOk(()))
  {
    var (s1, sh1, _) := StateOpen(s, flags, objIno, sh, false, false);
    assert sh1 - multiset{flags} == sh;
  }

  /** kvsfs_close2: closes the state and reports success whatever the
      close returned. */
  function Close2(s: FileState, sh: Share, closeRc: Fsal<()>): (r: (FileState, Share, Fsal<()>))
    requires Open(s)
    ensures r.2 == FOk(())
    ensures (r.0, r.1) == (StateClose(s, sh, closeRc).0, StateClose(s, sh, closeRc).1)
  {
    var (s1, sh1, _) := StateClose(s, sh, closeRc);
    (s1, sh1, FOk(()))
  }

  /** A failing close leaves the state open, yet close2 reports success. */
  lemma Close2HidesCloseError(s: FileState, sh: Share, e: FsalErr)
    requires Open(s)
    ensures Open(Close2(s, sh, FErr(e)).0) && Close2(s, sh, FErr(e)).2 == FOk(())
    ensures StateClose(s, sh, FErr(e)).2 == FErr(e)
  {
  }

  /** What kvsfs_unlink_reg did to the file: the outcome and whether the
      file object was destroyed. */
  datatype Unlinked = Unlinked(res: Fsal<()>, destroyed: bool)

  /** kvsfs_unlink_reg: the name is detached (`linkRc`, kvsns_destroy_link);
      then a file some state still holds open is kept for the last close,
      and any other file object is destroyed (`destroyRc`). */
  function UnlinkReg(linkRc: Result<()>, sh: Share, destroyRc: Result<()>): (r: Unlinked)
    ensures r.destroyed <==> linkRc.Ok? && !ShareIsOpen(sh)
    ensures linkRc.Err? ==> r.res == FErr(Posix(linkRc.code))
    ensures linkRc.Ok? && ShareIsOpen(sh) ==> r.res == FOk(())
    ensures r.destroyed ==> r.res == if destroyRc.Ok? then FOk(()) else FErr(Posix(destroyRc.code))
  {
    if linkRc.Err? then Unlinked(FErr(Posix(linkRc.code)), false)
    else if ShareIsOpen(sh) then Unlinked(FOk(()), false)
    else if destroyRc.Err? then Unlinked(FErr(Posix(destroyRc.code)), true)
    else Unlinked(FOk(()), true)
  }

  /** Unlinking a file while a state holds it open does not destroy it;
      once that state is closed, unlinking the file does.  The close itself
      deletes nothing. */
  lemma UnlinkDefersWhileOpen(s: FileState, flags: OpenFlags, objIno: Ino)
    requires Closed(s) && flags != O_CLOSED && objIno != INVALID_INO
    ensures var (s1, sh1, _) := StateOpen(s, flags, objIno, multiset{}, false, false);
            !UnlinkReg(Ok(()), sh1, Ok(())).destroyed
            && UnlinkReg(Ok(()), StateClose(s1, sh1, FOk(())).1, Ok(())).destroyed
  {
    OpenCloseRoundTrip(s, flags, objIno, multiset{});
  }

  // ---------------------------------------------------------------- finding a state for IO

  /** The NFS-Ganesha states an IO call can carry: a lock state points to
      the open state it was taken under. */
  datatype StateT = LockState(openState: FileState) | ShareState(fd: FileState) | DelegState(fd: FileState)

  /** open_correct (NFS-Ganesha, not part of this model), taken as: the
      state is open and offers every read/write mode asked for. */
  predicate OpenCorrect(fdFlags: OpenFlags, want: OpenFlags) {
    fdFlags != O_CLOSED && want * {ORead, OWrite} <= fdFlags
  }

  /** kvsfs_find_fd: a lock state is replaced by its open state, whose file
      state is used when it offers the modes asked for; otherwise the code
      reaches its unreachable-assertion, which is None here. */
  function FindFd(st: StateT, want: OpenFlags): (r: Option<FileState>)
    ensures r.Some? ==> OpenCorrect(r.value.openflags, want)
    ensures st.LockState? ==> r == (if OpenCorrect(st.openState.openflags, want) then Some(st.openState) else None)
    ensures !st.LockState? ==> r == (if OpenCorrect(st.fd.openflags, want) then Some(st.fd) else None)
  {
    var base := if st.LockState? then st.openState else st.fd;
    if OpenCorrect(base.openflags, want) then Some(base) else None
  }

  /** kvsfs_ftruncate: only for a size change of a regular file (asserted);
      the state must offer write access, and the truncate (`truncRc`)
      applies to the inode of that state.  None is the failed assertion of
      find_fd. */
  function Ftruncate(st: StateT, flags: StatFlags, isReg: bool, truncRc: Result<()>): (r: Option<Fsal<Ino>>)
    requires SizeSet in flags && isReg
    ensures r.None? <==> FindFd(st, {OWrite}).None?
    ensures r.Some? && r.value.FOk? ==> truncRc.Ok? && OWrite in FindFd(st, {OWrite}).value.openflags
                                        && r.value.value == FindFd(st, {OWrite}).value.ino
    ensures r.Some? && truncRc.Err? ==> r.value == FErr(Posix(truncRc.code))
  {
    var fd := FindFd(st, {OWrite});
    if fd.None? then None
    else if truncRc.Err? then Some(FErr(Posix(truncRc.code)))
    else Some(FOk(fd.value.ino))
  }

  // ---------------------------------------------------------------- read2

  /** The bytes of `data` from `off` on, at most `n` of them. */
  function Window(data: seq<Byte>, off: nat, n: nat): (w: seq<Byte>)
    ensures |w| <= n
    ensures off + n <= |data| ==> w == data[off..off + n]
  {
    var lo := if off <= |data| then off else |data|;
    var hi := if off + n <= |data| then off + n else |data|;
    data[lo..hi]
  }

  /** `read` serves the file `data`: each call returns the window at its
      offset. */
  ghost predicate ReadsWindow(read: (nat, nat) -> Result<seq<Byte>>, data: seq<Byte>) {
    forall o, n :: read(o, n) == Ok(Window(data, o, n))
  }

  /** Two windows read back to back make one window. */
  lemma WindowSplit(data: seq<Byte>, off: nat, a: nat, b: nat)
    ensures Window(data, off, a) + Window(data, off + |Window(data, off, a)|, b) == Window(data, off, a + b)
  {
  }

  function Sum(iov: seq<nat>): nat {
    if |iov| == 0 then 0 else Sum(iov[..|iov| - 1]) + iov[|iov| - 1]
  }

  /** A prefix of the iovec asks for no more than the whole. */
  lemma {:induction false} SumPrefix(iov: seq<nat>, i: nat)
    requires i <= |iov|
    ensures Sum(iov[..i]) <= Sum(iov)
    decreases |iov|
  {
    if i < |iov| {
      var front := iov[..|iov| - 1];
      assert front[..i] == iov[..i];
      SumPrefix(front, i);
    } else {
      assert iov[..i] == iov;
    }
  }

  function Concat(bufs: seq<seq<Byte>>): seq<Byte> {
    if |bufs| == 0 then [] else Concat(bufs[..|bufs| - 1]) + bufs[|bufs| - 1]
  }

  /** One more iovec entry served from the file extends the window read so
      far by the next `iov[i]` bytes. */
  lemma ReadStep(data: seq<Byte>, off: nat, bufs: seq<seq<Byte>>, iov: seq<nat>, i: nat, v: seq<Byte>)
    requires i < |iov|
    requires Concat(bufs) == Window(data, off, Sum(iov[..i]))
    requires v == Window(data, off + |Concat(bufs)|, iov[i])
    ensures Concat(bufs + [v]) == Window(data, off, Sum(iov[..i + 1]))
  {
    WindowSplit(data, off, Sum(iov[..i]), iov[i]);
    assert iov[..i + 1][..i] == iov[..i];
    assert (bufs + [v])[..|bufs|] == bufs;
  }

  /** Whatever file `read` serves, the buffers hold its first `total` bytes
      from `off`. */
  ghost predicate WindowRead(read: (nat, nat) -> Result<seq<Byte>>, off: nat, bufs: seq<seq<Byte>>, total: nat) {
    forall data :: ReadsWindow(read, data) ==> Concat(bufs) == Window(data, off, total)
  }

  lemma WindowReadStep(read: (nat, nat) -> Result<seq<Byte>>, off: nat, bufs: seq<seq<Byte>>, iov: seq<nat>, i: nat, v: seq<Byte>)
    requires i < |iov|
    requires WindowRead(read, off, bufs, Sum(iov[..i]))
    requires read(off + |Concat(bufs)|, iov[i]) == Ok(v)
    ensures WindowRead(read, off, bufs + [v], Sum(iov[..i + 1]))
  {
    forall data | ReadsWindow(read, data)
      ensures Concat(bufs + [v]) == Window(data, off, Sum(iov[..i + 1]))
    {
      assert read(off + |Concat(bufs)|, iov[i]) == Ok(Window(data, off + |Concat(bufs)|, iov[i]));
      ReadStep(data, off, bufs, iov, i, v);
    }
  }

  /** A reader that serves some file never fails. */
  lemma WindowReadOk(read: (nat, nat) -> Result<seq<Byte>>, o: nat, n: nat)
    ensures forall data :: ReadsWindow(read, data) ==> read(o, n).Ok?
  {
  }

  /** kvsfs_read2: reads each iovec entry in turn at the running offset
      (`read` is kvsns2_read, returning at most the size asked for); the
      first failure ends the call with its error; otherwise the amount is
      the sum of the reads and end_of_file is set iff nothing was read. */
  method Read2(read: (nat, nat) -> Result<seq<Byte>>, off: nat, iov: seq<nat>)
    returns (res: Fsal<bool>, bufs: seq<seq<Byte>>, amount: nat)
    requires forall o, n :: read(o, n).Ok? ==> |read(o, n).value| <= n
    ensures |bufs| <= |iov| && forall i :: 0 <= i < |bufs| ==> |bufs[i]| <= iov[i]
    ensures amount == |Concat(bufs)| && amount <= Sum(iov)
    ensures res.FOk? ==> |bufs| == |iov| && res.value == (amount == 0)
    ensures res.FErr? ==> res.err.Posix?
    ensures forall data :: ReadsWindow(read, data) ==> res.FOk? && Concat(bufs) == Window(data, off, Sum(iov))
  {
    bufs := [];
    amount := 0;
    var i := 0;
    while i < |iov|
      invariant 0 <= i <= |iov| && |bufs| == i
      invariant forall k :: 0 <= k < i ==> |bufs[k]| <= iov[k]
      invariant amount == |Concat(bufs)| && amount <= Sum(iov[..i])
      invariant WindowRead(read, off, bufs, Sum(iov[..i]))
    {
      var at, want := off + amount, iov[i];
      var r := read(at, want);
      if r.Err? {
        res := FErr(Posix(r.code));
        WindowReadOk(read, at, want);
        SumPrefix(iov, i);
        return;
      }
      WindowReadStep(read, off, bufs, iov, i, r.value);
      assert iov[..i + 1][..i] == iov[..i];
      assert (bufs + [r.value])[..i] == bufs;
      bufs := bufs + [r.value];
      amount := amount + |r.value|;
      i := i + 1;
    }
    assert iov[..i] == iov;
    res := FOk(amount == 0);
  }
}

=== FILE: fsal_status.dfy ===
/** The status an NFS-Ganesha FSAL call reports: success with a value, one
    of the FSAL error codes the KVSFS FSALs raise themselves, or an errno
    from the file system passed through posix2fsal_error (which is not
    part of this model). */
module FsalStatus {
  datatype FsalErr =
    | Inval        // ERR_FSAL_INVAL
    | Fault        // ERR_FSAL_FAULT
    | NotSupp      // ERR_FSAL_NOTSUPP
    | ServerFault  // ERR_FSAL_SERVERFAULT
    | TooSmall     // ERR_FSAL_TOOSMALL
    | NoEnt        // ERR_FSAL_NOENT
    | Xdev         // ERR_FSAL_XDEV
    | NotDir       // ERR_FSAL_NOTDIR
    | ShareDenied  // ERR_FSAL_SHARE_DENIED, from the share reservation check
    | Posix(errno: nat)

  datatype Fsal<+T> = FOk(value: T) | FErr(err: FsalErr) {
    predicate IsFailure() { FErr? }

    function PropagateFailure<U>(): Fsal<U>
      requires FErr?
    {
      FErr(err)
    }

    function Extract(): T
      requires FOk?
    {
      value
    }
  }
}

=== FILE: gtbl.dfy ===
/** The CORTXFS FSAL's global tables (fsal_global_tables.c): one hash
    table per state type, 64 buckets chained as lists, whose elements are
    matched by their size and bytes. */
module Gtbl {
  import opened Errno
  import opened InodeAttr

  const HASH_TABLE_SIZE: nat := 64

  /** enum cortxfs_gtbl_types: the layouts table is the only one, so
      CORTXFS_GTBL_STATE_END is 1. */
  const GTBL_STATE_LAYOUTS: nat := 0
  const GTBL_STATE_END: nat := 1

  /** struct cortxfs_hash_elem: the recorded size and the element. */
  datatype Entry = Entry(helmSize: nat, helm: seq<Byte>)

  type Chain = seq<Entry>

  /** A table: one chain per bucket. */
  predicate ValidTable(t: seq<Chain>) {
    |t| == HASH_TABLE_SIZE
  }

  /** The bucket a key hashes to. */
  function Bucket(key: u64): (b: nat)
    ensures b < HASH_TABLE_SIZE
  {
    key % HASH_TABLE_SIZE
  }

  // ---------------------------------------------------------------- type guard

  /** The guard gtbl_add_elem and gtbl_find_elem assert AS WRITTEN. */
  predicate TypeGuardAsWritten(ty: nat) {
    ty >= GTBL_STATE_END
  }

  /** The guard evidently intended: a type that has a table. */
  predicate ValidType(ty: nat) {
    ty < GTBL_STATE_END
  }

  /** The assertion as written fails on the one table there is and passes
      only types with no table behind them; the intended guard is its
      exact opposite. */
  lemma TypeGuardInverted(ty: nat)
    ensures !TypeGuardAsWritten(GTBL_STATE_LAYOUTS) && ValidType(GTBL_STATE_LAYOUTS)
    ensures TypeGuardAsWritten(ty) <==> !ValidType(ty)
  {
  }

  // ---------------------------------------------------------------- matching

  /** An entry matches a lookup when the recorded size equals the asked
      size and the first `size` bytes compare equal. */
  predicate Matches(e: Entry, elem: seq<Byte>, size: nat)
    requires size <= |elem|
  {
    e.helmSize == size && size <= |e.helm| && e.helm[..size] == elem[..size]
  }

  /** The position of the first matching entry of a chain. */
  function FirstMatch(c: Chain, elem: seq<Byte>, size: nat): (r: Option<nat>)
    requires size <= |elem|
    ensures r.Some? ==> r.value < |c| && Matches(c[r.value], elem, size)
                        && forall j :: 0 <= j < r.value ==> !Matches(c[j], elem, size)
    ensures r.None? ==> forall j :: 0 <= j < |c| ==> !Matches(c[j], elem, size)
  {
    if |c| == 0 then None
    else if Matches(c[0], elem, size) then Some(0)
    else
      match FirstMatch(c[1..], elem, size)
      case None => None
      case Some(i) => Some(i + 1)
  }

  // ---------------------------------------------------------------- add / find / remove

  /** gtbl_add_elem, with the recorded size as a switch: EEXIST (and no
      change) when the bucket already holds a match; otherwise a new entry
      at the head of the bucket.  AS WRITTEN the entry's size is never
      recorded (it stays 0 from the allocation); the intended entry records
      `size`. */
  function AddWith(t: seq<Chain>, elem: seq<Byte>, size: nat, key: u64, recordSize: bool)
    : (r: (seq<Chain>, Result<()>))
    requires ValidTable(t) && size <= |elem|
    ensures ValidTable(r.0)
    ensures r.1.Err? <==> FirstMatch(t[Bucket(key)], elem, size).Some?
    ensures r.1.Err? ==> r.1.code == EEXIST && r.0 == t
    ensures r.1.Ok? ==> r.0 == t[Bucket(key) := [Entry(if recordSize then size else 0, elem)] + t[Bucket(key)]]
  {
    var b := Bucket(key);
    if FirstMatch(t[b], elem, size).Some? then (t, Err(EEXIST))
    else (t[b := [Entry(if recordSize then size else 0, elem)] + t[b]], Ok(()))
  }

  function AddAsWritten(t: seq<Chain>, elem: seq<Byte>, size: nat, key: u64): (r: (seq<Chain>, Result<()>))
    requires ValidTable(t) && size <= |elem|
    ensures ValidTable(r.0)
  {
    AddWith(t, elem, size, key, false)
  }

  function Add(t: seq<Chain>, elem: seq<Byte>, size: nat, key: u64): (r: (seq<Chain>, Result<()>))
    requires ValidTable(t) && size <= |elem|
    ensures ValidTable(r.0)
  {
    AddWith(t, elem, size, key, true)
  }

  /** gtbl_find_elem: the first matching element of the key's bucket. */
  function Find(t: seq<Chain>, elem: seq<Byte>, size: nat, key: u64): (r: Option<seq<Byte>>)
    requires ValidTable(t) && size <= |elem|
    ensures r.Some? <==> exists j :: 0 <= j < |t[Bucket(key)]| && Matches(t[Bucket(key)][j], elem, size)
    ensures r.Some? ==> |r.value| >= size && r.value[..size] == elem[..size]
  {
    match FirstMatch(t[Bucket(key)], elem, size)
    case None => None
    case Some(j) => Some(t[Bucket(key)][j].helm)
  }

  /** gtbl_remove_elem: the first matching entry is unlinked and its
      element returned; nothing changes when there is none. */
  function Remove(t: seq<Chain>, elem: seq<Byte>, size: nat, key: u64): (r: (seq<Chain>, Option<seq<Byte>>))
    requires ValidTable(t) && size <= |elem|
    ensures ValidTable(r.0)
    ensures r.1 == Find(t, elem, size, key)
    ensures r.1.None? ==> r.0 == t
    ensures r.1.Some? ==> var c := t[Bucket(key)];
              var j := FirstMatch(c, elem, size).value;
              r.0 == t[Bucket(key) := c[..j] + c[j + 1..]]
  {
    var b := Bucket(key);
    match FirstMatch(t[b], elem, size)
    case None => (t, None)
    case Some(j) => (t[b := t[b][..j] + t[b][j + 1..]], Some(t[b][j].helm))
  }

  // ---------------------------------------------------------------- properties

  /** Every entry of a table filled by the code as written has size 0. */
  predicate Unsized(t: seq<Chain>) {
    forall b, j :: 0 <= b < |t| && 0 <= j < |t[b]| ==> t[b][j].helmSize == 0
  }

  /** As written, entries are never recorded with their size, so a lookup
      with a nonzero size finds nothing, and adding the same element twice
      stores it twice. */
  lemma AddAsWrittenLosesElements(t: seq<Chain>, elem: seq<Byte>, size: nat, key: u64)
    requires ValidTable(t) && Unsized(t) && 0 < size <= |elem|
    ensures var (t1, rc1) := AddAsWritten(t, elem, size, key);
            rc1 == Ok(()) && Unsized(t1) && Find(t1, elem, size, key).None?
            && var (t2, rc2) := AddAsWritten(t1, elem, size, key);
               rc2 == Ok(()) && |t2[Bucket(key)]| == |t[Bucket(key)]| + 2
  {
    var (t1, rc1) := AddAsWritten(t, elem, size, key);
    assert Unsized(t1);
  }

  /** With the size recorded, what was added is found again. */
  lemma AddThenFind(t: seq<Chain>, elem: seq<Byte>, size: nat, key: u64)
    requires ValidTable(t) && size <= |elem|
    ensures var (t1, _) := Add(t, elem, size, key);
            Find(t1, elem, size, key).Some?
  {
    var (t1, rc) := Add(t, elem, size, key);
    var c := t1[Bucket(key)];
    if rc.Ok? {
      assert Matches(c[0], elem, size);
    } else {
      var j := FirstMatch(t[Bucket(key)], elem, size).value;
      assert Matches(c[j], elem, size);
    }
  }

  /** Adding twice is adding once: the second add reports EEXIST and
      leaves the table alone. */
  lemma AddIdempotent(t: seq<Chain>, elem: seq<Byte>, size: nat, key: u64)
    requires ValidTable(t) && size <= |elem|
    ensures var (t1, _) := Add(t, elem, size, key);
            Add(t1, elem, size, key) == (t1, Err(EEXIST))
  {
    AddThenFind(t, elem, size, key);
  }

  /** Removing what was just added gives the table back, together with
      the element. */
  lemma AddRemoveRoundTrip(t: seq<Chain>, elem: seq<Byte>, size: nat, key: u64)
    requires ValidTable(t) && size <= |elem|
    requires Find(t, elem, size, key).None?
    ensures var (t1, _) := Add(t, elem, size, key);
            Remove(t1, elem, size, key) == (t, Some(elem))
  {
    var b := Bucket(key);
    assert FirstMatch(t[b], elem, size).None?;
    var t1 := t[b := [Entry(size, elem)] + t[b]];
    assert Add(t, elem, size, key).0 == t1;
    var c := t1[b];
    assert Matches(c[0], elem, size);
    assert FirstMatch(c, elem, size) == Some(0);
    assert c[..0] + c[1..] == t[b];
    assert t1[b := t[b]] == t;
  }

  /** The operations touch only the key's bucket. */
  lemma OtherBucketsUntouched(t: seq<Chain>, elem: seq<Byte>, size: nat, key: u64, b: nat)
    requires ValidTable(t) && size <= |elem| && b < HASH_TABLE_SIZE && b != Bucket(key)
    ensures Add(t, elem, size, key).0[b] == t[b]
    ensures Remove(t, elem, size, key).0[b] == t[b]
  {
  }
}

=== FILE: ifault.dfy ===
/** The fault-injection framework (experiments/ifault): fault-point data
    and the trigger rule of each fault-point type, the table of fault-point
    states, and enabling, disabling and checking a fault point.  The
    random number, the user call-back and the sleep are inputs. */
module Ifault {
  import opened Errno

  const U32_LIMIT: nat := 0x1_0000_0000
  const FI_RAND_PROB_SCALE: nat := 100
  const IFAULT_INIT_TABLE_SIZE: nat := 256

  /** enum ifault_fp_type. */
  datatype FpType = Once | Always | Repeat | Skip | Delay | Random | UserFunc

  /** struct ifault_fp_data: the type, the hit count, and the union of
      the type's parameters, read as the model's two words, not as the C
      layout: word0 holds hit_start, delay, prob or func_cb, and word1
      holds hit_end or func_cb_data.  (In C a pointer member of the union
      spans both u32 words of the hit_start/hit_end pair.)  A pointer is a
      number here, 0 being NULL. */
  datatype FpData = FpData(fpType: FpType, hitCount: nat, word0: nat, word1: nat)

  /** How many variadic arguments each FP_* macro passes. */
  function ArgCount(t: FpType): (n: nat)
    ensures 1 <= n <= 2
    ensures n == 2 <==> t in {Repeat, Skip, UserFunc}
  {
    match t
    case Repeat => 2
    case Skip => 2
    case UserFunc => 2
    case _ => 1
  }

  // ---------------------------------------------------------------- ifp_data_init

  /** ifp_data_init: the data is zeroed, the type recorded and the
      parameters read in order.  For USER_FUNC the code AS WRITTEN stores
      the second argument over func_cb, so func_cb holds the data pointer
      and func_cb_data stays NULL; the intended code stores it in
      func_cb_data. */
  function DataInitWith(t: FpType, args: seq<nat>, fixed: bool): (d: FpData)
    requires |args| >= ArgCount(t)
    ensures d.fpType == t && d.hitCount == 0
    ensures t != UserFunc ==> d.word0 == args[0] && d.word1 == (if ArgCount(t) == 2 then args[1] else 0)
  {
    match t
    case UserFunc =>
      if fixed then FpData(t, 0, args[0], args[1]) else FpData(t, 0, args[1], 0)
    case Repeat | Skip => FpData(t, 0, args[0], args[1])
    case _ => FpData(t, 0, args[0], 0)
  }

  function DataInitAsWritten(t: FpType, args: seq<nat>): (d: FpData)
    requires |args| >= ArgCount(t)
    ensures d.fpType == t && d.hitCount == 0
  {
    DataInitWith(t, args, false)
  }

  function DataInit(t: FpType, args: seq<nat>): (d: FpData)
    requires |args| >= ArgCount(t)
    ensures d.fpType == t && d.hitCount == 0
  {
    DataInitWith(t, args, true)
  }

  // ---------------------------------------------------------------- spec handlers

  /** The spec handler of the data's type (ifault_spec_table): nonzero
      means the fault fires.  `rnd` is what random() returns and `call`
      invokes a call-back pointer with an argument pointer.  AS WRITTEN
      REPEAT compares the count against hit_start on both sides, and
      RANDOM fires when prob >= random() % 100; the intended REPEAT fires
      from hit_start to hit_end, the intended SKIP fires on every other
      count (the window's hits are skipped), and the intended RANDOM fires
      on prob of the hundred residues.  The cycle the header describes for
      REPEAT (skip N, fire M, start over) is not what either comparison
      computes; the intended rule here is the window the two comparisons
      evidently meant. */
  function SpecFiresWith(d: FpData, rnd: nat, call: (nat, nat) -> int, fixed: bool): (fires: int)
    ensures d.fpType == Once ==> (fires != 0 <==> d.hitCount == d.word0)
    ensures d.fpType == Always ==> (fires != 0 <==> d.hitCount >= d.word0)
    ensures d.fpType == Delay ==> fires == 1
    ensures d.fpType == UserFunc ==> fires == call(d.word0, d.word1)
    ensures d.fpType != UserFunc ==> fires in {0, 1}
  {
    var count := d.hitCount;
    match d.fpType
    case Once => if count == d.word0 then 1 else 0
    case Always => if count >= d.word0 then 1 else 0
    case Repeat =>
      var last := if fixed then d.word1 else d.word0;
      if count >= d.word0 && count <= last then 1 else 0
    case Skip =>
      if fixed then (if count < d.word0 || count > d.word1 then 1 else 0)
      else if count <= d.word0 && count >= d.word0 then 1 else 0
    case Delay => 1
    case Random =>
      var r := rnd % FI_RAND_PROB_SCALE;
      if (if fixed then d.word0 > r else d.word0 >= r) then 1 else 0
    case UserFunc => call(d.word0, d.word1)
  }

  function SpecFiresAsWritten(d: FpData, rnd: nat, call: (nat, nat) -> int): (fires: int)
    ensures d.fpType == Repeat ==> (fires != 0 <==> d.hitCount == d.word0)
  {
    SpecFiresWith(d, rnd, call, false)
  }

  function SpecFires(d: FpData, rnd: nat, call: (nat, nat) -> int): (fires: int)
    ensures d.fpType == Repeat ==> (fires != 0 <==> d.word0 <= d.hitCount <= d.word1)
    ensures d.fpType == Skip ==> (fires != 0 <==> !(d.word0 <= d.hitCount <= d.word1))
  {
    SpecFiresWith(d, rnd, call, true)
  }

  /** As written, REPEAT and SKIP ignore hit_end: each fires exactly when
      ONCE with the same start would. */
  lemma RepeatSkipIgnoreEnd(count: nat, start: nat, end1: nat, end2: nat, rnd: nat, call: (nat, nat) -> int)
    ensures var once := SpecFiresAsWritten(FpData(Once, count, start, 0), rnd, call);
            SpecFiresAsWritten(FpData(Repeat, count, start, end1), rnd, call) == once
            && SpecFiresAsWritten(FpData(Skip, count, start, end2), rnd, call) == once
  {
  }

  /** The intended REPEAT fires on a window of hit_end - hit_start + 1
      counts: a window of more than one count shows the difference. */
  lemma RepeatWindowDiffers(start: nat, end: nat, rnd: nat, call: (nat, nat) -> int)
    requires start < end
    ensures SpecFires(FpData(Repeat, end, start, end), rnd, call) == 1
    ensures SpecFiresAsWritten(FpData(Repeat, end, start, end), rnd, call) == 0
  {
  }

  /** The intended SKIP is the complement of the intended REPEAT over the
      same window; as written, SKIP fires at hit_start, where the intended
      one is silent, and is silent past hit_end, where the intended one
      fires. */
  lemma SkipComplementsRepeat(count: nat, start: nat, end: nat, rnd: nat, call: (nat, nat) -> int)
    requires start <= end
    ensures (SpecFires(FpData(Skip, count, start, end), rnd, call) != 0)
            <==> (SpecFires(FpData(Repeat, count, start, end), rnd, call) == 0)
    ensures SpecFiresAsWritten(FpData(Skip, start, start, end), rnd, call) == 1
    ensures SpecFires(FpData(Skip, start, start, end), rnd, call) == 0
    ensures SpecFiresAsWritten(FpData(Skip, end + 1, start, end), rnd, call) == 0
    ensures SpecFires(FpData(Skip, end + 1, start, end), rnd, call) == 1
  {
  }

  /** How many of the residues 0 .. n-1 make RANDOM with this prob fire. */
  function RandomHits(prob: nat, n: nat, fixed: bool): nat
    decreases n
  {
    if n == 0 then 0
    else RandomHits(prob, n - 1, fixed) + (if (if fixed then prob > n - 1 else prob >= n - 1) then 1 else 0)
  }

  lemma {:induction false} RandomHitsCount(prob: nat, n: nat, fixed: bool)
    ensures RandomHits(prob, n, fixed) == if fixed then Min(prob, n) else Min(prob + 1, n)
    decreases n
  {
    if n != 0 {
      RandomHitsCount(prob, n - 1, fixed);
    }
  }

  function Min(a: nat, b: nat): nat {
    if a < b then a else b
  }

  /** RANDOM with probability `prob` percent: as written it fires on
      prob + 1 of the hundred equally likely residues (so prob 0 still
      fires one time in a hundred); the intended rule fires on exactly
      prob of them. */
  lemma RandomFiresPercent(prob: nat, call: (nat, nat) -> int)
    requires prob <= FI_RAND_PROB_SCALE
    ensures RandomHits(prob, FI_RAND_PROB_SCALE, false) == Min(prob + 1, FI_RAND_PROB_SCALE)
    ensures RandomHits(prob, FI_RAND_PROB_SCALE, true) == prob
    ensures forall rnd: nat ::
              (SpecFiresAsWritten(FpData(Random, 0, prob, 0), rnd, call) != 0 <==> rnd % FI_RAND_PROB_SCALE <= prob)
              && (SpecFires(FpData(Random, 0, prob, 0), rnd, call) != 0 <==> rnd % FI_RAND_PROB_SCALE < prob)
  {
    RandomHitsCount(prob, FI_RAND_PROB_SCALE, false);
    RandomHitsCount(prob, FI_RAND_PROB_SCALE, true);
  }

  /** USER_FUNC: as written the handler calls the data pointer with a NULL
      argument; the intended handler calls the call-back with its data. */
  lemma UserFuncCallsData(cb: nat, data: nat, rnd: nat, call: (nat, nat) -> int)
    ensures SpecFiresAsWritten(DataInitAsWritten(UserFunc, [cb, data]), rnd, call) == call(data, 0)
    ensures SpecFires(DataInit(UserFunc, [cb, data]), rnd, call) == call(cb, data)
  {
  }

  // ---------------------------------------------------------------- states

  /** struct ifault_fp_id: a fault point is named by its function and
      tag; two ids are equal when both strings are. */
  datatype FpId = FpId(func: string, tag: string)

  /** struct ifault_fp_state: enabled flag, id, and the data with its
      handler once the fault point is registered. */
  datatype FpState = FpState(enabled: bool, id: FpId, data: Option<FpData>)

  /** ifp_state_init: a new state is disabled, with no fault point
      attached. */
  function NewState(id: FpId): (s: FpState)
    ensures !s.enabled && s.id == id && s.data.None?
  {
    FpState(false, id, None)
  }

  /** ifp_state_enable: 1 when the state was already enabled, else 0; the
      state is enabled afterwards either way. */
  function Enable(s: FpState): (r: (FpState, int))
    ensures r.0 == s.(enabled := true)
    ensures r.1 == 1 <==> s.enabled
    ensures r.1 in {0, 1}
  {
    (s.(enabled := true), if s.enabled then 1 else 0)
  }

  /** ifp_state_disable: 1 when the state was already disabled, else 0. */
  function Disable(s: FpState): (r: (FpState, int))
    ensures r.0 == s.(enabled := false)
    ensures r.1 == 1 <==> !s.enabled
    ensures r.1 in {0, 1}
  {
    (s.(enabled := false), if s.enabled then 0 else 1)
  }

  /** Disabling undoes enabling, and a second enable reports that the
      state was already enabled. */
  lemma EnableDisableRoundTrip(s: FpState)
    ensures Disable(Enable(s).0).0 == s.(enabled := false)
    ensures !s.enabled ==> Disable(Enable(s).0).0 == s
    ensures Enable(Enable(s).0) == (Enable(s).0, 1)
  {
  }

  // ---------------------------------------------------------------- table

  /** struct ifault_fp_table: the states in use (fpt_idx of them), the
      recorded size fpt_size, and how many states the list's allocation
      really holds. */
  datatype Table = Table(states: seq<FpState>, size: nat, capacity: nat)

  /** ifault_init: an empty list of IFAULT_INIT_TABLE_SIZE states. */
  function InitTable(): (t: Table)
    ensures Valid(t) && |t.states| == 0
  {
    Table([], IFAULT_INIT_TABLE_SIZE, IFAULT_INIT_TABLE_SIZE)
  }

  predicate Valid(t: Table) {
    0 < t.size && |t.states| <= t.size == t.capacity
  }

  /** The position of the first state with this id. */
  function FindIndex(states: seq<FpState>, id: FpId): (r: Option<nat>)
    ensures r.Some? ==> r.value < |states| && states[r.value].id == id
                        && forall j :: 0 <= j < r.value ==> states[j].id != id
    ensures r.None? ==> forall j :: 0 <= j < |states| ==> states[j].id != id
    decreases |states|
  {
    if |states| == 0 then None
    else if states[0].id == id then Some(0)
    else
      match FindIndex(states[1..], id)
      case None => None
      case Some(i) => Some(i + 1)
  }

  /** The assertion ifp_state_find opens with, AS WRITTEN: the state
      pointer the caller passes in must already be non-NULL.  `callerState`
      is that pointer. */
  predicate FindGuardAsWritten(callerState: Option<nat>) {
    callerState.Some?
  }

  /** ifault_register, ifault_enable and ifault_disable all start from a
      NULL state pointer, so the assertion as written stops every one of
      them; the evidently intended check is on the out-pointer itself,
      which is never NULL. */
  lemma FindGuardStopsEveryCaller()
    ensures !FindGuardAsWritten(None)
  {
  }

  /** ifp_state_find past its assertion: the existing state with an equal
      id, else a new disabled state appended at fpt_idx.  A full list is
      grown first: fpt_size doubles, but AS WRITTEN the reallocated list
      is dropped, so the allocation keeps its old size and the new state
      lands past its end (None: undefined behaviour).  The intended
      growth keeps the reallocated list. */
  function StateFindWith(t: Table, id: FpId, keepRealloc: bool): (r: Option<(Table, nat)>)
    requires |t.states| <= t.size && |t.states| <= t.capacity
    ensures r.Some? ==> r.value.1 < |r.value.0.states| && r.value.0.states[r.value.1].id == id
    ensures FindIndex(t.states, id).Some? ==> r == Some((t, FindIndex(t.states, id).value))
    ensures FindIndex(t.states, id).None? && r.Some? ==>
              r.value.0.states == t.states + [NewState(id)] && r.value.1 == |t.states|
  {
    match FindIndex(t.states, id)
    case Some(i) => Some((t, i))
    case None =>
      var t1 :=
        if |t.states| == t.size then
          t.(size := 2 * t.size, capacity := if keepRealloc then 2 * t.size else t.capacity)
        else t;
      if |t1.states| >= t1.capacity then None
      else Some((t1.(states := t1.states + [NewState(id)]), |t.states|))
  }

  function StateFindAsWritten(t: Table, id: FpId): (r: Option<(Table, nat)>)
    requires |t.states| <= t.size && |t.states| <= t.capacity
  {
    StateFindWith(t, id, false)
  }

  function StateFind(t: Table, id: FpId): (r: Option<(Table, nat)>)
    requires Valid(t)
    ensures r.Some? && Valid(r.value.0)
  {
    StateFindWith(t, id, true)
  }

  /** Once the list is full, a new id makes the code as written write past
      the allocation, while the intended growth doubles the list and
      stores the state. */
  lemma FullTableOverflowsAsWritten(t: Table, id: FpId)
    requires Valid(t) && |t.states| == t.size
    requires FindIndex(t.states, id).None?
    ensures StateFindAsWritten(t, id).None?
    ensures var r := StateFind(t, id);
            r.Some? && r.value.0.capacity == 2 * t.capacity && |r.value.0.states| == |t.states| + 1
  {
  }

  /** Finding an id twice gives the same state and changes nothing the
      second time. */
  lemma StateFindIdempotent(t: Table, id: FpId)
    requires Valid(t)
    ensures var (t1, i) := StateFind(t, id).value;
            StateFind(t1, id) == Some((t1, i))
  {
    var (t1, i) := StateFind(t, id).value;
    if FindIndex(t.states, id).None? {
      assert t1.states[|t.states|].id == id;
      var k := FindIndex(t1.states, id);
      assert k.Some?;
      assert forall j :: 0 <= j < |t.states| ==> t1.states[j] == t.states[j];
    }
  }

  /** Ids stay unique: a table in which no id appears twice keeps that
      property through any find. */
  predicate UniqueIds(states: seq<FpState>) {
    forall i, j :: 0 <= i < j < |states| ==> states[i].id != states[j].id
  }

  lemma StateFindKeepsIdsUnique(t: Table, id: FpId)
    requires Valid(t) && UniqueIds(t.states)
    ensures UniqueIds(StateFind(t, id).value.0.states)
  {
  }

  // ---------------------------------------------------------------- register and check

  /** ifault_register past the state lookup: find the state, initialise
      its data from `words` (the hit count restarts at 0) and attach the
      type's handler; the enabled flag and every other state are kept. */
  function RegisterWith(t: Table, id: FpId, ty: FpType, words: seq<nat>, fixed: bool): (r: (Table, nat))
    requires Valid(t) && |words| >= ArgCount(ty)
    ensures Valid(r.0) && r.1 < |r.0.states|
    ensures r.0.states[r.1].id == id && r.0.states[r.1].data == Some(DataInitWith(ty, words, fixed))
    ensures r.0.states[r.1].enabled == (FindIndex(t.states, id).Some? && t.states[FindIndex(t.states, id).value].enabled)
    ensures |t.states| <= |r.0.states|
    ensures forall j :: 0 <= j < |t.states| && j != r.1 ==> r.0.states[j] == t.states[j]
  {
    var (t1, i) := StateFind(t, id).value;
    var s := t1.states[i];
    (t1.(states := t1.states[i := s.(data := Some(DataInitWith(ty, words, fixed)))]), i)
  }

  /** ifault_register AS WRITTEN.  It hands ifp_data_init its own va_list
      as the one variadic argument, so the words ifp_data_init reads with
      va_arg are undefined: `read` stands for them, whatever they are, and
      nothing ties them to the macro's arguments.  (FP_SPEC would also put
      the undeclared `va_argc` and the argument count ahead of those
      arguments.) */
  function RegisterAsWritten(t: Table, id: FpId, ty: FpType, read: seq<nat>): (r: (Table, nat))
    requires Valid(t) && |read| >= ArgCount(ty)
    ensures Valid(r.0) && r.1 < |r.0.states| && r.0.states[r.1].id == id
    ensures r.0.states[r.1].data == Some(DataInitAsWritten(ty, read))
  {
    RegisterWith(t, id, ty, read, false)
  }

  /** ifault_register as intended: the data holds the macro's arguments in
      order (hit_start or delay or prob or the call-back first, hit_end or
      the call-back's data second), with a zero hit count. */
  function Register(t: Table, id: FpId, ty: FpType, args: seq<nat>): (r: (Table, nat))
    requires Valid(t) && |args| >= ArgCount(ty)
    ensures Valid(r.0) && r.1 < |r.0.states| && r.0.states[r.1].id == id
    ensures var d := r.0.states[r.1].data;
            d.Some? && d.value.fpType == ty && d.value.hitCount == 0 && d.value.word0 == args[0]
            && d.value.word1 == (if ArgCount(ty) == 2 then args[1] else 0)
  {
    RegisterWith(t, id, ty, args, true)
  }

  /** FP_ONCE(h) registered as written stores whatever word ifp_data_init
      happens to read, not h; the intended registration stores h. */
  lemma RegisterAsWrittenLosesArguments(t: Table, id: FpId, h: nat, junk: nat)
    requires Valid(t) && junk != h
    ensures var (t1, i) := RegisterAsWritten(t, id, Once, [junk]);
            t1.states[i].data.value.word0 == junk != h
    ensures var (t2, j) := Register(t, id, Once, [h]);
            t2.states[j].data.value.word0 == h
  {
  }

  /** ifault_enabled: a disabled point never fires; an enabled one asks its
      handler.  AS WRITTEN the hit count is never advanced, so the state
      never changes; the intended check counts the hit (in 32 bits) before
      asking the handler. */
  function CheckWith(s: FpState, rnd: nat, call: (nat, nat) -> int, fixed: bool): (r: (FpState, int))
    requires s.data.Some?
    ensures !s.enabled ==> r == (s, 0)
    ensures !fixed ==> r.0 == s
    ensures r.0.data.Some? && r.0.enabled == s.enabled && r.0.id == s.id
    ensures r.0.data.value == s.data.value.(hitCount := r.0.data.value.hitCount)
    ensures s.enabled && fixed ==> r.0.data.value.hitCount == (s.data.value.hitCount + 1) % U32_LIMIT
  {
    if !s.enabled then (s, 0)
    else if !fixed then (s, SpecFiresWith(s.data.value, rnd, call, false))
    else
      var d := s.data.value;
      var d1 := d.(hitCount := (d.hitCount + 1) % U32_LIMIT);
      (s.(data := Some(d1)), SpecFiresWith(d1, rnd, call, true))
  }

  function CheckAsWritten(s: FpState, rnd: nat, call: (nat, nat) -> int): (r: (FpState, int))
    requires s.data.Some?
    ensures r.0 == s
  {
    CheckWith(s, rnd, call, false)
  }

  function Check(s: FpState, rnd: nat, call: (nat, nat) -> int): (r: (FpState, int))
    requires s.data.Some?
  {
    CheckWith(s, rnd, call, true)
  }

  /** The state after n checks. */
  function Checks(s: FpState, n: nat, rnd: nat, call: (nat, nat) -> int, fixed: bool): (r: FpState)
    requires s.data.Some?
    ensures r.data.Some? && r.enabled == s.enabled
    ensures r.data.value == s.data.value.(hitCount := r.data.value.hitCount)
    decreases n
  {
    if n == 0 then s else CheckWith(Checks(s, n - 1, rnd, call, fixed), rnd, call, fixed).0
  }

  /** Starting from a fresh registration, an enabled point has counted n
      hits after n intended checks, and none after any number of checks
      as written. */
  lemma {:induction false} ChecksCount(s: FpState, n: nat, rnd: nat, call: (nat, nat) -> int)
    requires s.data.Some? && s.data.value.hitCount == 0 && s.enabled && n < U32_LIMIT
    ensures Checks(s, n, rnd, call, true).data.value.hitCount == n
    ensures Checks(s, n, rnd, call, false) == s
    decreases n
  {
    if n != 0 {
      ChecksCount(s, n - 1, rnd, call);
    }
  }

  /** After n checks of a freshly registered enabled point, the next
      intended check asks the handler with hit count n + 1, while the next
      check as written asks it with hit count 0. */
  lemma NextCheckAsks(s: FpState, n: nat, rnd: nat, call: (nat, nat) -> int)
    requires s.data.Some? && s.data.value.hitCount == 0 && s.enabled && n < U32_LIMIT - 1
    ensures Check(Checks(s, n, rnd, call, true), rnd, call).1 == SpecFires(s.data.value.(hitCount := n + 1), rnd, call)
    ensures CheckAsWritten(Checks(s, n, rnd, call, false), rnd, call).1 == SpecFiresAsWritten(s.data.value, rnd, call)
  {
    ChecksCount(s, n, rnd, call);
    assert Checks(s, n, rnd, call, true).data.value == s.data.value.(hitCount := n);
  }

  /** FP_ALWAYS() registers hit_start 1.  With the hit count frozen at 0,
      the code as written never fires it; counting hits, it fires on every
      check.  FP_ONCE(h) for h >= 1 fires on exactly the h-th check. */
  lemma AlwaysNeverFiresAsWritten(id: FpId, n: nat, h: nat, rnd: nat, call: (nat, nat) -> int)
    requires n < U32_LIMIT - 1 && 1 <= h
    ensures var s := FpState(true, id, Some(DataInitAsWritten(Always, [1])));
            CheckAsWritten(Checks(s, n, rnd, call, false), rnd, call).1 == 0
    ensures var s := FpState(true, id, Some(DataInit(Always, [1])));
            Check(Checks(s, n, rnd, call, true), rnd, call).1 == 1
    ensures var s := FpState(true, id, Some(DataInit(Once, [h])));
            Check(Checks(s, n, rnd, call, true), rnd, call).1 == (if n + 1 == h then 1 else 0)
  {
    NextCheckAsks(FpState(true, id, Some(DataInitAsWritten(Always, [1]))), n, rnd, call);
    NextCheckAsks(FpState(true, id, Some(DataInit(Always, [1]))), n, rnd, call);
    NextCheckAsks(FpState(true, id, Some(DataInit(Once, [h]))), n, rnd, call);
  }
}

=== FILE: inode_attr.dfy ===
/** Inode attribute rules shared by the three metadata forks: cortxfs
    (cortxfs_internal.c), its rename efs (efs_internal.c, identical logic) and
    the older kvsns (kvsns_internal.c).  Each divergence between the forks is a
    branch on `Fork` and is stated as a lemma at the end of the module. */
module InodeAttr {
  import opened Errno

  const U64_LIMIT: nat := 0x1_0000_0000_0000_0000
  type u64 = x: nat | x < U64_LIMIT

  type Ino = u64
  type Time = int

  /** One byte of file data. */
  type Byte = b: int | 0 <= b < 256

  const ROOT_INODE: Ino := 2
  const ROOT_UID: nat := 0
  const NAME_MAX: nat := 255
  /** CFS_MAX_LINK / EFS_MAX_LINK, i.e. UINT32_MAX. */
  const MAX_LINK: u64 := 0xFFFF_FFFF
  /** The inode counter is initialised to the root inode plus one. */
  const INO_COUNTER_START: Ino := ROOT_INODE + 1

  /** `st_mode` as the set of positions of its one bits, so that `|` is
      union, `&` is intersection and `(a & b) == a` is `a <= b`. */
  type ModeBits = set<nat>

  /** S_IFMT (0170000) and the type values under it. */
  const S_IFMT: ModeBits := {12, 13, 14, 15}
  const S_IFDIR: ModeBits := {14}
  const S_IFREG: ModeBits := {15}
  const S_IFLNK: ModeBits := {13, 15}
  /** The nine rwx permission bits (0777). */
  const PERMS_0777: ModeBits := {0, 1, 2, 3, 4, 5, 6, 7, 8}

  /** The STAT_* flags of an amend or setattr request; `f in flags` stands
      for `flags & f != 0`. */
  datatype StatFlag = ModeSet | UidSet | GidSet | SizeSet | AtimeSet | MtimeSet
                    | CtimeSet | IncrLink | DecrLink | SizeAttach
  type StatFlags = set<StatFlag>

  /** The ACCESS request bits; SetattrReq exists only in cortxfs and efs. */
  datatype AccessFlag = ReadReq | WriteReq | ExecReq | SetattrReq
  type AccessFlags = set<AccessFlag>

  /** CFS_ACCESS_CREATE_ENTITY and CFS_ACCESS_DELETE_ENTITY: write and
      search permission on the parent directory. */
  const CREATE_ENTITY: AccessFlags := {WriteReq, ExecReq}
  const DELETE_ENTITY: AccessFlags := {WriteReq, ExecReq}

  datatype Fork = Cortxfs | Efs | Kvsns
  datatype FileType = Dir | File | Symlink
  datatype Cred = Cred(uid: nat, gid: nat)

  /** The fields of `struct stat` the file system reads or writes. */
  datatype Stat = Stat(ino: Ino, mode: ModeBits, nlink: u64, uid: nat, gid: nat,
                       size: nat, blocks: nat,
                       atime: Time, mtime: Time, ctime: Time)

  predicate IsDir(mode: ModeBits) { mode * S_IFMT == S_IFDIR }
  predicate IsReg(mode: ModeBits) { mode * S_IFMT == S_IFREG }
  predicate IsLnk(mode: ModeBits) { mode * S_IFMT == S_IFLNK }

  function TypeBits(ft: FileType): ModeBits {
    match ft
    case Dir => S_IFDIR
    case File => S_IFREG
    case Symlink => S_IFLNK
  }

  /** Two stats describe the same object: only times and the link count may
      differ. */
  predicate SameObject(a: Stat, b: Stat) {
    a.ino == b.ino && a.mode == b.mode && a.uid == b.uid && a.gid == b.gid
    && a.size == b.size && a.blocks == b.blocks
  }

  /** `b` carries the clock reading `t` in exactly the time fields `flags`
      selects and `a`'s times elsewhere. */
  predicate Stamped(a: Stat, b: Stat, flags: StatFlags, t: Time) {
    b.atime == (if AtimeSet in flags then t else a.atime)
    && b.mtime == (if MtimeSet in flags then t else a.mtime)
    && b.ctime == (if CtimeSet in flags then t else a.ctime)
  }

  // ---------------------------------------------------------------- access

  datatype Class = Owner | Group | Other
  datatype Right = Read | Write | Exec

  /** Exactly one class is checked: owner, else group, else other. */
  function ClassOf(cred: Cred, st: Stat): Class {
    if cred.uid == st.uid then Owner
    else if cred.gid == st.gid then Group
    else Other
  }

  function RequestBit(r: Right): AccessFlag {
    match r
    case Read => ReadReq
    case Write => WriteReq
    case Exec => ExecReq
  }

  /** The position of STAT_{OWNER,GROUP,OTHER}_{READ,WRITE,EXEC} in
      `st_mode` (0400 down to 01). */
  function ModeBit(c: Class, r: Right): nat {
    var shift := match c case Owner => 6 case Group => 3 case Other => 0;
    shift + match r case Read => 2 case Write => 1 case Exec => 0
  }

  /** The right `r` is granted to class `c` by `mode`. */
  predicate Grants(mode: ModeBits, c: Class, r: Right) {
    ModeBit(c, r) in mode
  }

  /** Reference definition of the access decision, right by right: root, or
      (cortxfs and efs only) an owner asking for SETATTR, or every requested
      right granted to the caller's class. */
  predicate Permitted(fork: Fork, cred: Cred, st: Stat, flags: AccessFlags) {
    cred.uid == ROOT_UID
    || (fork != Kvsns && cred.uid == st.uid && SetattrReq in flags)
    || forall r: Right :: RequestBit(r) in flags ==> Grants(st.mode, ClassOf(cred, st), r)
  }

  /** The `check` mask the C code ORs together for the selected class: the
      bit of each requested right. */
  function CheckMask(c: Class, flags: AccessFlags): (check: ModeBits)
    ensures forall r: Right :: ModeBit(c, r) in check <==> RequestBit(r) in flags
  {
    (if ReadReq in flags then {ModeBit(c, Read)} else {})
    + (if WriteReq in flags then {ModeBit(c, Write)} else {})
    + (if ExecReq in flags then {ModeBit(c, Exec)} else {})
  }

  /** cfs_access_check, efs_access_check and kvsns_access_check: EPERM
      unless `(check & st_mode) == check`. */
  function AccessCheck(fork: Fork, cred: Cred, st: Stat, flags: AccessFlags): (r: Result<()>)
    ensures r.Err? ==> r.code == EPERM
    ensures r.Ok? <==> Permitted(fork, cred, st, flags)
  {
    if cred.uid == ROOT_UID then Ok(())
    else if fork != Kvsns && cred.uid == st.uid && SetattrReq in flags then Ok(())
    else
      var check := CheckMask(ClassOf(cred, st), flags);
      if !(check <= st.mode) then Err(EPERM) else Ok(())
  }

  // ---------------------------------------------------------------- amend

  function Incr(flags: StatFlags): nat { if IncrLink in flags then 1 else 0 }
  function Decr(flags: StatFlags): nat { if DecrLink in flags then 1 else 0 }

  /** When the cortxfs/efs link-count bounds let the flags through. */
  predicate LinkChangeAllowed(nlink: u64, flags: StatFlags) {
    (IncrLink in flags ==> nlink + 1 < U64_LIMIT && nlink != MAX_LINK)
    && (DecrLink in flags ==> nlink + Incr(flags) != 0)
  }

  /** cfs_amend_stat / efs_amend_stat (fork Cortxfs or Efs) and
      kvsns_amend_stat (fork Kvsns) with the clock reading `t`.  The time
      fields are stamped first; then the link count moves by the INCR and
      DECR flags.  cortxfs/efs refuse an increment at MAX_LINK or at the 64-bit
      wrap and a decrement of 0; kvsns increments without bound (wrapping)
      and refuses a decrement only when the count is 1.  On failure the
      caller discards the half-amended stat, so only the errno is kept. */
  function Amend(fork: Fork, st: Stat, flags: StatFlags, t: Time): (r: Result<Stat>)
    ensures r.Err? ==> r.code == EINVAL
    ensures r.Ok? ==> SameObject(st, r.value) && Stamped(st, r.value, flags, t)
    ensures fork != Kvsns ==> (r.Ok? <==> LinkChangeAllowed(st.nlink, flags))
    ensures fork != Kvsns && r.Ok? ==>
              r.value.nlink == st.nlink + Incr(flags) - Decr(flags)
    ensures fork == Kvsns ==>
              (r.Ok? <==> !(DecrLink in flags && (st.nlink + Incr(flags)) % U64_LIMIT == 1))
    ensures fork == Kvsns && r.Ok? ==>
              r.value.nlink == ((st.nlink + Incr(flags)) % U64_LIMIT + U64_LIMIT - Decr(flags)) % U64_LIMIT
  {
    var stamped := st.(atime := if AtimeSet in flags then t else st.atime,
                       mtime := if MtimeSet in flags then t else st.mtime,
                       ctime := if CtimeSet in flags then t else st.ctime);
    var n :- AmendLinks(fork, st.nlink, flags);
    Ok(stamped.(nlink := n))
  }

  /** The link-count half of the amend: the new count, or EINVAL. */
  function AmendLinks(fork: Fork, nlink: u64, flags: StatFlags): (r: Result<u64>)
    ensures r.Err? ==> r.code == EINVAL
    ensures fork != Kvsns ==> (r.Ok? <==> LinkChangeAllowed(nlink, flags))
    ensures fork != Kvsns && r.Ok? ==> r.value == nlink + Incr(flags) - Decr(flags)
    ensures fork == Kvsns ==>
              (r.Ok? <==> !(DecrLink in flags && (nlink + Incr(flags)) % U64_LIMIT == 1))
    ensures fork == Kvsns && r.Ok? ==>
              r.value == ((nlink + Incr(flags)) % U64_LIMIT + U64_LIMIT - Decr(flags)) % U64_LIMIT
  {
    if fork == Kvsns then
      var n1: u64 := if IncrLink in flags then (nlink + 1) % U64_LIMIT else nlink;
      if DecrLink in flags then
        if n1 == 1 then Err(EINVAL)
        else Ok((n1 + U64_LIMIT - 1) % U64_LIMIT)
      else Ok(n1)
    else if IncrLink in flags && (nlink + 1 == U64_LIMIT || nlink == MAX_LINK) then
      Err(EINVAL)
    else
      var n1: u64 := nlink + Incr(flags);
      if DecrLink in flags then
        if n1 == 0 then Err(EINVAL) else Ok(n1 - 1)
      else Ok(n1)
  }

  /** An increment that succeeds is undone by a decrement, in every fork
      except kvsns from a link count of 0: the increment leaves 1, which
      kvsns refuses to decrement. */
  lemma AmendIncrDecrRoundTrip(fork: Fork, st: Stat, t1: Time, t2: Time)
    requires Amend(fork, st, {IncrLink}, t1).Ok?
    ensures fork == Kvsns && st.nlink == 0 <==>
            Amend(fork, Amend(fork, st, {IncrLink}, t1).value, {DecrLink}, t2).Err?
    ensures Amend(fork, Amend(fork, st, {IncrLink}, t1).value, {DecrLink}, t2).Ok? ==>
            Amend(fork, Amend(fork, st, {IncrLink}, t1).value, {DecrLink}, t2).value.nlink
            == st.nlink
  {
  }

  /** Divergence: at nlink 0 kvsns wraps to 2^64-1 where cortxfs and efs
      refuse with EINVAL. */
  lemma KvsnsDecrementWrapsAtZero(st: Stat, t: Time)
    requires st.nlink == 0
    ensures Amend(Cortxfs, st, {DecrLink}, t) == Err(EINVAL)
    ensures Amend(Efs, st, {DecrLink}, t) == Err(EINVAL)
    ensures Amend(Kvsns, st, {DecrLink}, t).Ok?
    ensures Amend(Kvsns, st, {DecrLink}, t).value.nlink == U64_LIMIT - 1
  {
  }

  /** Divergence: kvsns refuses the decrement from 1 that cortxfs allows. */
  lemma KvsnsRefusesLastDecrement(st: Stat, t: Time)
    requires st.nlink == 1
    ensures Amend(Kvsns, st, {DecrLink}, t) == Err(EINVAL)
    ensures Amend(Cortxfs, st, {DecrLink}, t).Ok?
    ensures Amend(Cortxfs, st, {DecrLink}, t).value.nlink == 0
  {
  }

  /** Divergence: kvsns increments past MAX_LINK, cortxfs and efs stop there. */
  lemma KvsnsIncrementUnbounded(st: Stat, t: Time)
    requires st.nlink == MAX_LINK
    ensures Amend(Cortxfs, st, {IncrLink}, t) == Err(EINVAL)
    ensures Amend(Kvsns, st, {IncrLink}, t).Ok?
    ensures Amend(Kvsns, st, {IncrLink}, t).value.nlink == MAX_LINK + 1
  {
  }

  // ---------------------------------------------------------------- names

  /** cfs_create_check_name (identical in efs and kvsns): over-long names are
      E2BIG, the names ".", "/" and ".." are EEXIST. */
  function CheckName(name: string): (r: Result<()>)
    ensures r.Err? ==> r.code == E2BIG || r.code == EEXIST
    ensures (r.Err? && r.code == E2BIG) <==> |name| > NAME_MAX
    ensures r.Ok? <==> |name| <= NAME_MAX && name != "." && name != "/" && name != ".."
  {
    if |name| > NAME_MAX then Err(E2BIG)
    else if |name| == 1 && (name[0] == '.' || name[0] == '/') then Err(EEXIST)
    else if |name| == 2 && name[0] == '.' && name[1] == '.' then Err(EEXIST)
    else Ok(())
  }

  /** _kvsns_get_dirent_key_len: the fixed part of the dentry key plus the
      name length, which the C signature narrows to uint8_t. */
  function DirentKeyLen(header: nat, namelen: nat): nat {
    header + namelen % 256
  }

  /** Every name that passes the name check fits the uint8_t length, so the
      dentry key holds the whole name. */
  lemma DirentKeyCoversCheckedNames(header: nat, name: string)
    requires CheckName(name).Ok?
    ensures DirentKeyLen(header, |name|) == header + |name|
  {
  }

  // ---------------------------------------------------------------- inode numbers

  /** cfs_next_inode: returns the stored counter plus one and stores that
      value back; cfs_ino_t is 64-bit, so the increment wraps. */
  function NextInode(stored: Ino): (r: (Ino, Ino))
    ensures r.1 == r.0
    ensures stored + 1 < U64_LIMIT ==> r.0 == stored + 1
    ensures stored + 1 == U64_LIMIT ==> r.0 == 0
  {
    var ino: Ino := (stored + 1) % U64_LIMIT;
    (ino, ino)
  }

  /** `n` successive allocations: the counter left behind and the inode
      numbers handed out. */
  function AllocateInodes(stored: Ino, n: nat): (r: (Ino, seq<Ino>))
    ensures |r.1| == n
    decreases n
  {
    if n == 0 then (stored, [])
    else
      var (ino, next) := NextInode(stored);
      var (last, rest) := AllocateInodes(next, n - 1);
      (last, [ino] + rest)
  }

  /** Allocations count up one by one from the stored counter, so they never
      repeat and never return a number at or below it, as long as the 64-bit
      space is not exhausted. */
  lemma {:induction false} AllocationsFresh(stored: Ino, n: nat)
    requires stored + n < U64_LIMIT
    ensures AllocateInodes(stored, n).0 == stored + n
    ensures forall i :: 0 <= i < n ==> AllocateInodes(stored, n).1[i] == stored + i + 1
    ensures forall i, j :: 0 <= i < j < n ==> AllocateInodes(stored, n).1[i] < AllocateInodes(stored, n).1[j]
    decreases n
  {
    if n > 0 {
      var (ino, next) := NextInode(stored);
      AllocationsFresh(next, n - 1);
      var s := AllocateInodes(stored, n).1;
      var rest := AllocateInodes(next, n - 1).1;
      assert s == [ino] + rest;
      forall i | 0 <= i < n ensures s[i] == stored + i + 1 {
        if i > 0 {
          assert s[i] == rest[i - 1];
        }
      }
    }
  }

  /** Starting from the initial counter, no allocation returns the root
      inode or anything below it. */
  lemma FirstInodesFollowRoot(n: nat)
    requires INO_COUNTER_START + n < U64_LIMIT
    ensures forall i :: 0 <= i < n ==> AllocateInodes(INO_COUNTER_START, n).1[i] > ROOT_INODE
  {
    AllocationsFresh(INO_COUNTER_START, n);
  }

  // ---------------------------------------------------------------- new entries

  /** The stat cfs_create_entry builds: type bits OR-ed with the requested
      mode, two links for a directory and one otherwise, owner from the
      credentials, all three times from one clock reading. */
  function NewStat(ft: FileType, mode: ModeBits, cred: Cred, ino: Ino, t: Time): (st: Stat)
    ensures st.nlink == (if ft == Dir then 2 else 1)
    ensures st.ino == ino && st.uid == cred.uid && st.gid == cred.gid
    ensures st.size == 0 && st.blocks == 0
    ensures st.atime == t && st.mtime == t && st.ctime == t
  {
    Stat(ino, TypeBits(ft) + mode, if ft == Dir then 2 else 1, cred.uid, cred.gid, 0, 0, t, t, t)
  }

  /** A permission-only mode leaves the new object's type to `ft`, and every
      requested permission bit is kept. */
  lemma NewStatType(ft: FileType, mode: ModeBits, cred: Cred, ino: Ino, t: Time)
    requires mode * S_IFMT == {}
    ensures IsDir(NewStat(ft, mode, cred, ino, t).mode) <==> ft == Dir
    ensures IsReg(NewStat(ft, mode, cred, ino, t).mode) <==> ft == File
    ensures IsLnk(NewStat(ft, mode, cred, ino, t).mode) <==> ft == Symlink
    ensures NewStat(ft, mode, cred, ino, t).mode - S_IFMT == mode
  {
    var m := NewStat(ft, mode, cred, ino, t).mode;
    assert TypeBits(ft) <= S_IFMT;
    assert m * S_IFMT == TypeBits(ft);
  }

  // ---------------------------------------------------------------- node ids

  /** A 128-bit kvtree node id. */
  datatype NodeId = NodeId(hi: u64, lo: u64)

  /** ino_to_node_id: the inode number in the high word, zero in the low. */
  function InoToNodeId(ino: Ino): (n: NodeId)
    ensures n.lo == 0
  {
    NodeId(ino, 0)
  }

  /** node_id_to_ino: the high word. */
  function NodeIdToIno(n: NodeId): (ino: Ino)
    ensures n.lo == 0 ==> n == NodeId(ino, 0)
  {
    n.hi
  }

  /** The conversions invert each other on inode numbers, and on node ids
      exactly when the low word is zero. */
  lemma NodeIdRoundTrip(ino: Ino, n: NodeId)
    ensures NodeIdToIno(InoToNodeId(ino)) == ino
    ensures InoToNodeId(NodeIdToIno(n)) == n <==> n.lo == 0
  {
  }

  // ---------------------------------------------------------------- access divergences

  /** cortxfs/efs setattr ask for SETATTR alone; that request selects no mode
      bit, so the check never refuses anybody, owner or not. */
  lemma SetattrRequestNeverRefused(fork: Fork, cred: Cred, st: Stat)
    ensures AccessCheck(fork, cred, st, {SetattrReq}).Ok?
  {
  }

  /** The intended setattr permission: only root or the owner. */
  function SetattrCheck(cred: Cred, st: Stat): (r: Result<()>)
    ensures r.Ok? <==> cred.uid == ROOT_UID || cred.uid == st.uid
    ensures r.Err? ==> r.code == EPERM
  {
    if cred.uid == ROOT_UID || cred.uid == st.uid then Ok(()) else Err(EPERM)
  }

  /** The SETATTR-only request admits exactly the callers the intended check
      admits plus every non-owner. */
  lemma SetattrCheckRefusesStrangers(cred: Cred, st: Stat)
    requires cred.uid != ROOT_UID && cred.uid != st.uid
    ensures SetattrCheck(cred, st) == Err(EPERM)
    ensures AccessCheck(Cortxfs, cred, st, {SetattrReq}).Ok?
  {
  }

  /** Without the SETATTR bit the forks decide alike. */
  lemma AccessForksAgree(cred: Cred, st: Stat, flags: AccessFlags)
    requires SetattrReq !in flags
    ensures AccessCheck(Cortxfs, cred, st, flags) == AccessCheck(Efs, cred, st, flags)
    ensures AccessCheck(Cortxfs, cred, st, flags) == AccessCheck(Kvsns, cred, st, flags)
  {
  }

  /** The owner bypass is cortxfs/efs only: an owner lacking the write bit is
      admitted with SETATTR|WRITE there and refused by kvsns. */
  lemma OwnerBypassIsForkSpecific(cred: Cred, st: Stat)
    requires cred.uid != ROOT_UID && cred.uid == st.uid
    requires !Grants(st.mode, Owner, Write)
    ensures AccessCheck(Cortxfs, cred, st, {SetattrReq, WriteReq}).Ok?
    ensures AccessCheck(Kvsns, cred, st, {SetattrReq, WriteReq}) == Err(EPERM)
  {
    assert RequestBit(Write) in {SetattrReq, WriteReq};
  }
}

=== FILE: kvnode.dfy ===
/** kvtree nodes (kvnode.c): a node's basic attribute is stored under its
    id, and small system attributes under (id, attribute id). */
module Kvnode {
  import opened Errno
  import opened InodeAttr

  type NodeId = nat

  /** KVNODE_NULL_ID. */
  const NULL_ID: NodeId := 0
  /** The basic attribute size is a `uint16_t`. */
  const U16_LIMIT: nat := 0x1_0000
  /** The system attribute id is stored in a `uint8_t`. */
  const U8_LIMIT: nat := 0x100

  /** The store of one kvtree index. */
  datatype Store = Store(basic: map<NodeId, seq<Byte>>, sys: map<(NodeId, nat), seq<Byte>>)

  /** struct kvnode: the tree it belongs to (None is NULL), its id and its
      basic attribute (None is NULL). */
  datatype Node = Node(tree: Option<nat>, id: NodeId, attr: Option<seq<Byte>>)

  /** KVNODE_INIT_EMTPY. */
  const EMPTY: Node := Node(None, NULL_ID, None)

  /** kvnode_init: a node holding a copy of `attr`; `allocOk` is the
      answer of the allocator. */
  function Init(tree: nat, id: NodeId, attr: seq<Byte>, allocOk: bool): (r: Result<Node>)
    requires 0 < |attr| < U16_LIMIT
    ensures r.Ok? <==> allocOk
    ensures r.Err? ==> r.code == ENOMEM
    ensures r.Ok? ==> r.value.tree == Some(tree) && r.value.id == id && r.value.attr == Some(attr)
  {
    if !allocOk then Err(ENOMEM) else Ok(Node(Some(tree), id, Some(attr)))
  }

  /** kvnode_get_basic_attr_buff: the payload and its size. */
  function BasicAttrBuff(node: Node): (r: (nat, seq<Byte>))
    requires node.attr.Some?
    ensures r.0 == |r.1| && r.1 == node.attr.value
  {
    (|node.attr.value|, node.attr.value)
  }

  /** kvnode_dump: the basic attribute is stored under the node's id. */
  function Dump(s: Store, node: Node): (r: Store)
    requires node.tree.Some? && node.attr.Some? && |node.attr.value| != 0
    ensures r.basic.Keys == s.basic.Keys + {node.id} && r.basic[node.id] == node.attr.value
    ensures r.sys == s.sys
    ensures forall id :: id in s.basic && id != node.id ==> r.basic[id] == s.basic[id]
  {
    s.(basic := s.basic[node.id := node.attr.value])
  }

  /** kvnode_load: ENOENT for an id with no basic attribute. */
  function Load(s: Store, tree: nat, id: NodeId): (r: Result<Node>)
    ensures r.Ok? <==> id in s.basic
    ensures r.Err? ==> r.code == ENOENT
    ensures r.Ok? ==> r.value.tree == Some(tree) && r.value.id == id && r.value.attr == Some(s.basic[id])
  {
    if id in s.basic then Ok(Node(Some(tree), id, Some(s.basic[id]))) else Err(ENOENT)
  }

  /** kvnode_delete: removes the basic attribute; ENOENT if there is none. */
  function Delete(s: Store, node: Node): (r: Result<Store>)
    requires node.tree.Some?
    ensures r.Ok? <==> node.id in s.basic
    ensures r.Err? ==> r.code == ENOENT
    ensures r.Ok? ==> r.value.basic == s.basic - {node.id} && r.value.sys == s.sys
  {
    if node.id in s.basic then Ok(s.(basic := s.basic - {node.id})) else Err(ENOENT)
  }

  /** kvnode_fini: forgets tree, id and attribute; an empty node stays as
      it is. */
  function Fini(node: Node): (r: Node)
    requires node.tree.Some? ==> node.attr.Some?
    ensures node.tree.Some? ==> r == EMPTY
    ensures node.tree.None? ==> r == node
  {
    if node.tree.Some? then EMPTY else node
  }

  /** Dumping a node and loading it back gives the same node. */
  lemma DumpLoadRoundTrip(s: Store, node: Node)
    requires node.tree.Some? && node.attr.Some? && |node.attr.value| != 0
    ensures Load(Dump(s, node), node.tree.value, node.id) == Ok(node)
  {
  }

  /** The buffer a caller gets from a node loaded back after a dump is the
      attribute that was dumped, with its length as the size; a node made
      by kvnode_init reports a size that fits the `uint16_t` field. */
  lemma LoadedBufferIsDumped(s: Store, tree: nat, id: NodeId, attr: seq<Byte>)
    requires 0 < |attr| < U16_LIMIT
    ensures var n := Init(tree, id, attr, true).value;
            var l := Load(Dump(s, n), tree, id);
            l.Ok? && BasicAttrBuff(l.value) == (|attr|, attr) && BasicAttrBuff(l.value).0 < U16_LIMIT
  {
    DumpLoadRoundTrip(s, Init(tree, id, attr, true).value);
  }

  /** After a delete the node no longer loads, and a second delete fails. */
  lemma LoadAfterDelete(s: Store, node: Node)
    requires node.tree.Some? && Delete(s, node).Ok?
    ensures Load(Delete(s, node).value, node.tree.value, node.id) == Err(ENOENT)
    ensures Delete(Delete(s, node).value, node) == Err(ENOENT)
  {
  }

  // ---------------------------------------------------------------- system attributes

  /** The attribute id as it lands in the key's `uint8_t`. */
  function SysKey(node: Node, key: int): (k: (NodeId, nat))
    ensures k.0 == node.id && k.1 < U8_LIMIT && (0 <= key < U8_LIMIT ==> k.1 == key)
  {
    (node.id, key % U8_LIMIT)
  }

  /** kvnode_set_sys_attr: an empty value is a caller error. */
  function SetSysAttr(s: Store, node: Node, key: int, value: seq<Byte>): (r: Store)
    requires node.tree.Some? && |value| != 0
    ensures r.basic == s.basic
    ensures r.sys.Keys == s.sys.Keys + {SysKey(node, key)} && r.sys[SysKey(node, key)] == value
    ensures forall k :: k in s.sys && k != SysKey(node, key) ==> r.sys[k] == s.sys[k]
  {
    s.(sys := s.sys[SysKey(node, key) := value])
  }

  /** kvnode_get_sys_attr: ENOENT, with the caller's buffer left empty, for
      a missing attribute. */
  function GetSysAttr(s: Store, node: Node, key: int): (r: Result<seq<Byte>>)
    requires node.tree.Some?
    ensures r.Ok? <==> SysKey(node, key) in s.sys
    ensures r.Err? ==> r.code == ENOENT
    ensures r.Ok? ==> r.value == s.sys[SysKey(node, key)]
  {
    if SysKey(node, key) in s.sys then Ok(s.sys[SysKey(node, key)]) else Err(ENOENT)
  }

  /** kvnode_del_sys_attr: ENOENT for a missing attribute. */
  function DelSysAttr(s: Store, node: Node, key: int): (r: Result<Store>)
    requires node.tree.Some?
    ensures r.Ok? <==> SysKey(node, key) in s.sys
    ensures r.Err? ==> r.code == ENOENT
    ensures r.Ok? ==> r.value.sys == s.sys - {SysKey(node, key)} && r.value.basic == s.basic
  {
    if SysKey(node, key) in s.sys then Ok(s.(sys := s.sys - {SysKey(node, key)})) else Err(ENOENT)
  }

  /** A system attribute reads back as set, deleting it twice fails the
      second time, and attributes of other ids are untouched. */
  lemma SysAttrRoundTrip(s: Store, node: Node, key: int, value: seq<Byte>, other: int)
    requires node.tree.Some? && |value| != 0
    ensures GetSysAttr(SetSysAttr(s, node, key, value), node, key) == Ok(value)
    ensures var s2 := DelSysAttr(SetSysAttr(s, node, key, value), node, key);
            s2.Ok? && DelSysAttr(s2.value, node, key) == Err(ENOENT)
    ensures SysKey(node, other) != SysKey(node, key) ==>
              GetSysAttr(SetSysAttr(s, node, key, value), node, other) == GetSysAttr(s, node, other)
  {
  }

  /** Attribute ids that agree modulo 256 name the same attribute. */
  lemma SysAttrIdsWrap(s: Store, node: Node, key: int, value: seq<Byte>)
    requires node.tree.Some? && |value| != 0
    ensures GetSysAttr(SetSysAttr(s, node, key, value), node, key + U8_LIMIT) == Ok(value)
  {
  }
}

=== FILE: kvsal.dfy ===
/** The Motr-backed key-value abstraction layer of kvsns (kvsal_mero.c):
    the inode counter kept as a decimal string, the prefix iterator, and
    the transaction calls, over a store modelled as a map. */
module Kvsal {
  import opened Errno
  import opened InodeAttr
  import opened ParentList

  type Store = map<string, string>

  // ---------------------------------------------------------------- transactions

  /** kvsal_begin_transaction, kvsal_end_transaction and
      kvsal_discard_transaction all return 0 and do nothing. */
  datatype TxCall = Begin | End | Discard

  function Transaction(s: Store, call: TxCall): (r: (Store, int))
    ensures r.0 == s && r.1 == 0
  {
    (s, 0)
  }

  /** The transaction calls roll nothing back: a counter increment made
      between begin and discard is still in the store after the discard,
      and the counter no longer holds its old value. */
  lemma DiscardKeepsIncrement(s: Store, k: string, n: u64, prior: nat)
    requires k in s && s[k] == Decimal(n)
    ensures var (s1, rc1) := Transaction(s, Begin);
            var (s2, rc) := IncrCounter(s1, k, prior, Ok(()));
            var (s3, rc3) := Transaction(s2, Discard);
            rc1 == 0 && rc3 == 0 && rc.Ok? && k in s3 && s3[k] == Decimal(rc.value) && s3[k] != s[k]
  {
    IncrCounterCounts(s, k, n, prior);
    var (s2, rc) := IncrCounter(s, k, prior, Ok(()));
    ParseDecimal(n);
    ParseDecimal(rc.value);
  }

  // ---------------------------------------------------------------- counter

  /** `sscanf(buf, "%llu", v)`: the leading decimal of the stored text;
      text without one leaves the caller's value. */
  function ScanCounter(prior: nat, text: string): (v: nat)
    ensures DigitRun(text) == 0 ==> v == prior
  {
    if DigitRun(text) == 0 then prior else ParseToken(text)
  }

  /** kvsal_incr_counter and kvsal2_incr_counter: read the counter, add one
      in `unsigned long long`, store the sum printed in decimal, and return
      it.  A missing key gives the read error and writes nothing; a failed
      write (`setRc`) gives its error after the read. */
  function IncrCounter(s: Store, k: string, prior: nat, setRc: Result<()>): (r: (Store, Result<u64>))
    ensures k !in s ==> r == (s, Err(ENOENT))
    ensures setRc.Err? ==> r.0 == s && r.1.Err?
    ensures r.1.Ok? ==> k in s && r.0 == s[k := Decimal(r.1.value)]
  {
    if k !in s then (s, Err(ENOENT))
    else
      var v := (ScanCounter(prior, s[k]) + 1) % U64_LIMIT;
      match setRc
      case Err(code) => (s, Err(code))
      case Ok(_) => (s[k := Decimal(v)], Ok(v))
  }

  /** A counter holding the printed form of `n` moves to `n + 1`, wrapping
      to 0 past the largest u64, and no other key changes. */
  lemma IncrCounterCounts(s: Store, k: string, n: u64, prior: nat)
    requires k in s && s[k] == Decimal(n)
    ensures var (s1, rc) := IncrCounter(s, k, prior, Ok(()));
            rc == Ok(if n + 1 < U64_LIMIT then n + 1 else 0)
            && s1[k] == Decimal(rc.value)
            && forall k' :: k' in s && k' != k ==> k' in s1 && s1[k'] == s[k']
  {
    ParseDecimal(n);
    assert DigitRun(Decimal(n)) > 0 by {
      assert IsDigit(Decimal(n)[0]);
    }
  }

  /** Two increments in a row hand out two consecutive values. */
  lemma IncrCounterTwice(s: Store, k: string, n: u64, prior: nat)
    requires k in s && s[k] == Decimal(n) && n + 2 < U64_LIMIT
    ensures var (s1, rc1) := IncrCounter(s, k, prior, Ok(()));
            var (s2, rc2) := IncrCounter(s1, k, prior, Ok(()));
            rc1 == Ok(n + 1) && rc2 == Ok(n + 2)
  {
    IncrCounterCounts(s, k, n, prior);
    var (s1, _) := IncrCounter(s, k, prior, Ok(()));
    IncrCounterCounts(s1, k, n + 1, prior);
  }

  // ---------------------------------------------------------------- prefix iterator

  type Key = seq<Byte>

  /** kvsal_prefix_iter_has_prefix: the key's first bytes are the prefix. */
  predicate HasPrefix(prefix: Key, key: Key) {
    |key| >= |prefix| && key[..|prefix|] == prefix
  }

  /** The records a prefix iteration visits, given the keys the underlying
      iterator reaches from its starting point: find and next both stop at
      the first key without the prefix. */
  function PrefixRun(keys: seq<Key>, prefix: Key): (r: seq<Key>)
    ensures |r| <= |keys| && r == keys[..|r|]
    ensures forall i :: 0 <= i < |r| ==> HasPrefix(prefix, r[i])
    ensures |r| < |keys| ==> !HasPrefix(prefix, keys[|r|])
    decreases |keys|
  {
    if |keys| == 0 || !HasPrefix(prefix, keys[0]) then []
    else
      var rest := PrefixRun(keys[1..], prefix);
      assert keys[..|rest| + 1] == [keys[0]] + keys[1..][..|rest|];
      [keys[0]] + rest
  }

  /** Byte-wise lexicographic order, the order the index keeps its keys
      in. */
  predicate LexLe(a: Key, b: Key)
    decreases |a|
  {
    |a| == 0 || (|b| > 0 && (a[0] < b[0] || (a[0] == b[0] && LexLe(a[1..], b[1..]))))
  }

  predicate Sorted(keys: seq<Key>) {
    forall i, j :: 0 <= i < j < |keys| ==> LexLe(keys[i], keys[j])
  }

  /** The keys carrying a prefix are contiguous in lexicographic order. */
  lemma {:induction false} PrefixConvex(p: Key, a: Key, b: Key, c: Key)
    requires HasPrefix(p, a) && HasPrefix(p, c)
    requires LexLe(a, b) && LexLe(b, c)
    ensures HasPrefix(p, b)
    decreases |p|
  {
    if |p| != 0 {
      assert a[0] == p[0] && c[0] == p[0];
      assert b[0] == p[0];
      assert a[1..][..|p| - 1] == p[1..];
      assert c[1..][..|p| - 1] == p[1..];
      PrefixConvex(p[1..], a[1..], b[1..], c[1..]);
      assert b[..|p|] == [b[0]] + b[1..][..|p| - 1];
    }
  }

  lemma {:induction false} LexLeRefl(a: Key)
    ensures LexLe(a, a)
    decreases |a|
  {
    if |a| != 0 {
      LexLeRefl(a[1..]);
    }
  }

  /** Started on a sorted index at the first key not below the prefix,
      the iteration visits every key that carries the prefix. */
  lemma PrefixRunComplete(keys: seq<Key>, prefix: Key)
    requires Sorted(keys)
    requires forall i :: 0 <= i < |keys| ==> LexLe(prefix, keys[i])
    ensures forall i :: 0 <= i < |keys| && HasPrefix(prefix, keys[i]) ==> i < |PrefixRun(keys, prefix)|
  {
    var m := |PrefixRun(keys, prefix)|;
    forall i | 0 <= i < |keys| && HasPrefix(prefix, keys[i])
      ensures i < m
    {
      if i >= m {
        assert m < i;
        LexLeRefl(prefix);
        assert prefix[..|prefix|] == prefix;
        PrefixConvex(prefix, prefix, keys[m], keys[i]);
      }
    }
  }
}

=== FILE: le_codec.dfy ===
/** Fixed-width unsigned integers laid out in memory least significant
    byte first, as `memcpy` of a `uint64_t` field does on the little-endian
    hosts the code runs on. */
module LeCodec {
  import opened InodeAttr

  function Pow256(n: nat): (p: nat)
    ensures p >= 1
  {
    if n == 0 then 1 else 256 * Pow256(n - 1)
  }

  /** The `n` bytes of `x`, least significant first; bits above the width
      are dropped, as a store into an `n`-byte field does. */
  function Encode(x: nat, n: nat): (s: seq<Byte>)
    ensures |s| == n
  {
    if n == 0 then [] else [x % 256] + Encode(x / 256, n - 1)
  }

  /** The number that bytes `s` hold, least significant first. */
  function Decode(s: seq<Byte>): (x: nat)
    ensures x < Pow256(|s|)
  {
    if |s| == 0 then 0 else s[0] + 256 * Decode(s[1..])
  }

  lemma {:induction false} DecodeEncode(x: nat, n: nat)
    requires x < Pow256(n)
    ensures Decode(Encode(x, n)) == x
  {
    if n > 0 {
      var s := Encode(x, n);
      assert s[1..] == Encode(x / 256, n - 1);
      DecodeEncode(x / 256, n - 1);
    }
  }

  lemma {:induction false} EncodeDecode(s: seq<Byte>)
    ensures Encode(Decode(s), |s|) == s
  {
    if |s| > 0 {
      var x := Decode(s);
      assert x % 256 == s[0] && x / 256 == Decode(s[1..]);
      EncodeDecode(s[1..]);
    }
  }

  lemma U64Fits()
    ensures Pow256(8) == U64_LIMIT
  {
    assert Pow256(4) == 0x1_0000_0000;
  }

  /** A `uint64_t` as it sits in memory. */
  function EncodeU64(x: u64): (s: seq<Byte>)
    ensures |s| == 8
    ensures Decode(s) == x
  {
    U64Fits();
    DecodeEncode(x, 8);
    Encode(x, 8)
  }

  function DecodeU64(s: seq<Byte>): (x: u64)
    requires |s| == 8
    ensures EncodeU64(x) == s
  {
    U64Fits();
    EncodeDecode(s);
    Decode(s)
  }
}

=== FILE: md_xattr.dfy ===
/** Extended attributes in the metadata store (md_xattrs.c): one key per
    (object, name) holding the value, and the packed name list. */
module MdXattr {
  import opened Errno
  import opened InodeAttr

  const MD_XATTR_SIZE_MAX: nat := 4096
  /** sizeof(obj_id_t) and sizeof(md_key_md_t). */
  const OBJ_ID_SIZE: nat := 16
  const KEY_MD_SIZE: nat := 2
  /** md_xattr_key_psize: the part of a key shared by all names of one
      object. */
  const KEY_PREFIX_SIZE: nat := OBJ_ID_SIZE + KEY_MD_SIZE
  /** sizeof(md_str_t): the length byte and NAME_MAX + 1 characters. */
  const NAME_STRUCT_SIZE: nat := 1 + NAME_MAX + 1

  /** The stored part of a key: the object and the name. */
  datatype XKey = XKey(oid: Ino, name: string)

  type XattrStore = map<XKey, seq<Byte>>

  /** md_xattr_key_dsize: the bytes of a key written to the store, i.e. the
      prefix, the length byte, the name and its terminator. */
  function KeyDynSize(nameLen: nat): (n: nat)
    ensures n == KEY_PREFIX_SIZE + 1 + nameLen + 1
    ensures nameLen <= NAME_MAX ==> n <= KEY_PREFIX_SIZE + NAME_STRUCT_SIZE
  {
    KEY_PREFIX_SIZE + (1 + nameLen + 1)
  }

  /** md_xattr_alloc_init_key AS WRITTEN: the length is kept in a `uint8_t`,
      so it is the name's length modulo 256 and the NAME_MAX test can never
      fire; the key holds that many leading characters. */
  function InitKeyAsWritten(oid: Ino, name: string): (r: Result<XKey>)
    ensures r.Ok? && r.value.oid == oid && r.value.name <= name
  {
    var len := |name| % 256;
    if len > NAME_MAX then Err(ENAMETOOLONG) else Ok(XKey(oid, name[..len]))
  }

  /** A name longer than NAME_MAX is never refused: it is cut to its length
      modulo 256, so it shares its key with that prefix of itself, a
      different name (for 256 characters, the empty name). */
  lemma LongNameSharesKey(oid: Ino, name: string)
    requires |name| > NAME_MAX
    ensures InitKeyAsWritten(oid, name).Ok?
    ensures name[..|name| % 256] != name
    ensures InitKeyAsWritten(oid, name) == InitKeyAsWritten(oid, name[..|name| % 256])
  {
    var short := name[..|name| % 256];
    assert |short| < |name|;
    assert short[..|short| % 256] == short;
  }

  /** md_xattr_alloc_init_key with the length checked before it is
      narrowed: ENAMETOOLONG above NAME_MAX. */
  function InitKey(oid: Ino, name: string): (r: Result<XKey>)
    ensures r.Ok? <==> |name| <= NAME_MAX
    ensures r.Err? ==> r.code == ENAMETOOLONG
    ensures r.Ok? ==> KeyDynSize(|r.value.name|) <= KEY_PREFIX_SIZE + NAME_STRUCT_SIZE
  {
    if |name| > NAME_MAX then Err(ENAMETOOLONG) else Ok(XKey(oid, name))
  }

  /** Accepted names get distinct keys. */
  lemma InitKeyInjective(oid1: Ino, a: string, oid2: Ino, b: string)
    requires InitKey(oid1, a).Ok? && InitKey(oid2, b).Ok?
    ensures InitKey(oid1, a) == InitKey(oid2, b) <==> oid1 == oid2 && a == b
  {
  }

  /** The two agree on every name they both accept. */
  lemma InitKeyAgreesOnShortNames(oid: Ino, name: string)
    requires |name| <= NAME_MAX
    ensures InitKeyAsWritten(oid, name) == InitKey(oid, name)
  {
    assert name[..|name| % 256] == name;
  }

  /** md_xattr_set as intended, with the key from the checked InitKey:
      ERANGE for a value above MD_XATTR_SIZE_MAX, then the key, then the
      store.  An empty value is a caller error.  The code as written is
      MdSetAsWritten. */
  function MdSet(xs: XattrStore, oid: Ino, name: string, value: seq<Byte>): (r: Result<XattrStore>)
    requires |value| != 0
    ensures r.Ok? <==> |value| <= MD_XATTR_SIZE_MAX && |name| <= NAME_MAX
    ensures r.Err? ==> r.code == (if |value| > MD_XATTR_SIZE_MAX then ERANGE else ENAMETOOLONG)
    ensures r.Ok? ==> r.value.Keys == xs.Keys + {XKey(oid, name)} && r.value[XKey(oid, name)] == value
    ensures r.Ok? ==> forall k :: k in xs && k != XKey(oid, name) ==> r.value[k] == xs[k]
  {
    if |value| > MD_XATTR_SIZE_MAX then Err(ERANGE)
    else
      var key :- InitKey(oid, name);
      Ok(xs[key := value])
  }

  /** md_xattr_get as intended, with the checked InitKey: the stored
      value, or ENOENT.  The code as written is MdGetAsWritten. */
  function MdGet(xs: XattrStore, oid: Ino, name: string): (r: Result<seq<Byte>>)
    ensures r.Ok? <==> |name| <= NAME_MAX && XKey(oid, name) in xs
    ensures r.Ok? ==> r.value == xs[XKey(oid, name)]
    ensures r.Err? ==> r.code == (if |name| > NAME_MAX then ENAMETOOLONG else ENOENT)
  {
    var key :- InitKey(oid, name);
    if key in xs then Ok(xs[key]) else Err(ENOENT)
  }

  /** md_xattr_exists as intended, over MdGet: a missing name is the
      answer `false`, not an error.  The code as written is
      MdExistsAsWritten. */
  function MdExists(xs: XattrStore, oid: Ino, name: string): (r: Result<bool>)
    ensures r.Ok? <==> |name| <= NAME_MAX
    ensures r.Ok? ==> (r.value <==> XKey(oid, name) in xs)
    ensures r.Err? ==> r.code == ENAMETOOLONG
  {
    match MdGet(xs, oid, name)
    case Ok(_) => Ok(true)
    case Err(code) => if code == ENOENT then Ok(false) else Err(code)
  }

  /** md_xattr_delete as intended, with the checked InitKey: removes the
      key; the store answers ENOENT for a missing one.  The code as written
      is MdDeleteAsWritten. */
  function MdDelete(xs: XattrStore, oid: Ino, name: string): (r: Result<XattrStore>)
    ensures r.Ok? <==> |name| <= NAME_MAX && XKey(oid, name) in xs
    ensures r.Ok? ==> r.value == xs - {XKey(oid, name)}
    ensures r.Err? ==> r.code == ENAMETOOLONG || r.code == ENOENT
  {
    var key :- InitKey(oid, name);
    if key in xs then Ok(xs - {key}) else Err(ENOENT)
  }

  /** A value that was set reads back; other names keep theirs. */
  lemma GetAfterSet(xs: XattrStore, oid: Ino, name: string, value: seq<Byte>, oid2: Ino, name2: string)
    requires |value| != 0 && MdSet(xs, oid, name, value).Ok?
    ensures MdGet(MdSet(xs, oid, name, value).value, oid, name) == Ok(value)
    ensures XKey(oid2, name2) != XKey(oid, name) ==>
              MdGet(MdSet(xs, oid, name, value).value, oid2, name2) == MdGet(xs, oid2, name2)
  {
  }

  /** Deleting a name makes it absent; deleting it again is ENOENT. */
  lemma DeleteThenAbsent(xs: XattrStore, oid: Ino, name: string)
    requires MdDelete(xs, oid, name).Ok?
    ensures MdExists(MdDelete(xs, oid, name).value, oid, name) == Ok(false)
    ensures MdDelete(MdDelete(xs, oid, name).value, oid, name) == Err(ENOENT)
  {
  }

  // ------------------------------------------------- the calls as written

  /** The name a key built as written holds: the leading |name| mod 256
      characters. */
  function StoredName(name: string): (n: string)
    ensures n <= name
    ensures |name| <= NAME_MAX ==> n == name
  {
    name[..|name| % 256]
  }

  /** md_xattr_set AS WRITTEN: no name is refused, and the value goes under
      the key of the stored name. */
  function MdSetAsWritten(xs: XattrStore, oid: Ino, name: string, value: seq<Byte>): (r: Result<XattrStore>)
    requires |value| != 0
    ensures r.Ok? <==> |value| <= MD_XATTR_SIZE_MAX
    ensures r.Err? ==> r.code == ERANGE
    ensures r.Ok? ==> r.value.Keys == xs.Keys + {XKey(oid, StoredName(name))}
                      && r.value[XKey(oid, StoredName(name))] == value
    ensures r.Ok? ==> forall k :: k in xs && k != XKey(oid, StoredName(name)) ==> r.value[k] == xs[k]
  {
    if |value| > MD_XATTR_SIZE_MAX then Err(ERANGE)
    else
      var key := InitKeyAsWritten(oid, name).value;
      Ok(xs[key := value])
  }

  /** md_xattr_get AS WRITTEN: the value under the stored name's key, or
      ENOENT; ENAMETOOLONG never comes back. */
  function MdGetAsWritten(xs: XattrStore, oid: Ino, name: string): (r: Result<seq<Byte>>)
    ensures r.Ok? <==> XKey(oid, StoredName(name)) in xs
    ensures r.Ok? ==> r.value == xs[XKey(oid, StoredName(name))]
    ensures r.Err? ==> r.code == ENOENT
  {
    var key := InitKeyAsWritten(oid, name).value;
    if key in xs then Ok(xs[key]) else Err(ENOENT)
  }

  /** md_xattr_exists AS WRITTEN, over MdGetAsWritten: it always answers. */
  function MdExistsAsWritten(xs: XattrStore, oid: Ino, name: string): (r: Result<bool>)
    ensures r.Ok?
    ensures r.value <==> XKey(oid, StoredName(name)) in xs
  {
    match MdGetAsWritten(xs, oid, name)
    case Ok(_) => Ok(true)
    case Err(code) => if code == ENOENT then Ok(false) else Err(code)
  }

  /** md_xattr_delete AS WRITTEN: removes the stored name's key, or ENOENT. */
  function MdDeleteAsWritten(xs: XattrStore, oid: Ino, name: string): (r: Result<XattrStore>)
    ensures r.Ok? <==> XKey(oid, StoredName(name)) in xs
    ensures r.Ok? ==> r.value == xs - {XKey(oid, StoredName(name))}
    ensures r.Err? ==> r.code == ENOENT
  {
    var key := InitKeyAsWritten(oid, name).value;
    if key in xs then Ok(xs - {key}) else Err(ENOENT)
  }

  /** On names within NAME_MAX the calls as written are the intended ones. */
  lemma AsWrittenAgreesOnShortNames(xs: XattrStore, oid: Ino, name: string, value: seq<Byte>)
    requires |name| <= NAME_MAX && |value| != 0
    ensures MdSetAsWritten(xs, oid, name, value) == MdSet(xs, oid, name, value)
    ensures MdGetAsWritten(xs, oid, name) == MdGet(xs, oid, name)
    ensures MdExistsAsWritten(xs, oid, name) == MdExists(xs, oid, name)
    ensures MdDeleteAsWritten(xs, oid, name) == MdDelete(xs, oid, name)
  {
    InitKeyAgreesOnShortNames(oid, name);
  }

  /** A name longer than NAME_MAX, which the intended calls refuse, is
      served as written as its stored prefix, a different name: set, get,
      exists and delete act on that other attribute. */
  lemma LongNameActsOnPrefix(xs: XattrStore, oid: Ino, name: string, value: seq<Byte>)
    requires |name| > NAME_MAX && |value| != 0
    ensures StoredName(name) != name && |StoredName(name)| <= NAME_MAX
    ensures MdGet(xs, oid, name) == Err(ENAMETOOLONG)
    ensures MdDelete(xs, oid, name) == Err(ENAMETOOLONG)
    ensures MdSetAsWritten(xs, oid, name, value) == MdSet(xs, oid, StoredName(name), value)
    ensures MdGetAsWritten(xs, oid, name) == MdGet(xs, oid, StoredName(name))
    ensures MdExistsAsWritten(xs, oid, name) == MdExists(xs, oid, StoredName(name))
    ensures MdDeleteAsWritten(xs, oid, name) == MdDelete(xs, oid, StoredName(name))
  {
    LongNameSharesKey(oid, name);
    AsWrittenAgreesOnShortNames(xs, oid, StoredName(name), value);
    assert StoredName(StoredName(name)) == StoredName(name);
  }

  /** Setting a 256-character attribute as written overwrites the object's
      attribute with the empty name. */
  lemma LongSetOverwritesEmptyName(xs: XattrStore, oid: Ino, name: string, value: seq<Byte>)
    requires |name| == 256 && 0 < |value| <= MD_XATTR_SIZE_MAX
    ensures MdSetAsWritten(xs, oid, name, value).Ok?
    ensures MdGetAsWritten(MdSetAsWritten(xs, oid, name, value).value, oid, "") == Ok(value)
  {
    assert StoredName(name) == "";
    assert StoredName("") == "";
  }

  // ---------------------------------------------------------------- listing

  /** Each name followed by its terminator, one after another. */
  function Packed(names: seq<string>): (s: seq<char>)
  {
    if |names| == 0 then [] else names[0] + ['\0'] + Packed(names[1..])
  }

  lemma {:induction false} PackedSnoc(names: seq<string>, n: string)
    ensures Packed(names + [n]) == Packed(names) + n + ['\0']
  {
    if |names| > 0 {
      assert (names + [n])[1..] == names[1..] + [n];
      PackedSnoc(names[1..], n);
    } else {
      assert names + [n] == [n];
    }
  }

  lemma {:induction false} PackedLength(names: seq<string>, i: nat)
    requires i <= |names|
    ensures |Packed(names[..i])| <= |Packed(names)|
    decreases |names| - i
  {
    if i < |names| {
      PackedLength(names, i + 1);
      PackedSnoc(names[..i], names[i]);
      assert names[..i + 1] == names[..i] + [names[i]];
    } else {
      assert names[..i] == names;
    }
  }

  /** The position of the first terminator of `s`, or |s|. */
  function FirstNul(s: seq<char>): (k: nat)
    ensures k <= |s|
    ensures forall j :: 0 <= j < k ==> s[j] != '\0'
    ensures k < |s| ==> s[k] == '\0'
  {
    if |s| == 0 then 0 else if s[0] == '\0' then 0 else 1 + FirstNul(s[1..])
  }

  /** The names of a packed list, read back terminator by terminator. */
  function Unpacked(s: seq<char>): seq<string>
    decreases |s|
  {
    if |s| == 0 then []
    else
      var k := FirstNul(s);
      if k == |s| then [s] else [s[..k]] + Unpacked(s[k + 1..])
  }

  predicate NoNul(name: string) {
    forall j :: 0 <= j < |name| ==> name[j] != '\0'
  }

  lemma FirstNulOfNamed(n: string, rest: seq<char>)
    requires NoNul(n)
    ensures FirstNul(n + ['\0'] + rest) == |n|
  {
    var s := n + ['\0'] + rest;
    assert s[|n|] == '\0';
    assert forall j :: 0 <= j < |n| ==> s[j] == n[j];
  }

  /** The packed list of C strings (which cannot hold a terminator) reads
      back as the same names. */
  lemma {:induction false} UnpackPacked(names: seq<string>)
    requires forall i :: 0 <= i < |names| ==> NoNul(names[i])
    ensures Unpacked(Packed(names)) == names
  {
    if |names| > 0 {
      var s := Packed(names);
      FirstNulOfNamed(names[0], Packed(names[1..]));
      assert s[..|names[0]|] == names[0];
      assert s[|names[0]| + 1..] == Packed(names[1..]);
      UnpackPacked(names[1..]);
    }
  }

  /** What md_xattr_list hands back: the result, the number of names
      copied, the `*size` it leaves and the bytes written to the buffer. */
  datatype Listing = Listing(res: Result<()>, count: nat, size: nat, buf: seq<char>)

  /** md_xattr_list over the names the prefix iterator yields, in its
      order.  A `size` above MD_XATTR_SIZE_MAX is E2BIG.  A `size` of 0 asks
      for the length only: nothing is copied, `*size` becomes the packed
      length and the result is ERANGE.  Otherwise the names are packed
      until one does not fit, which is ERANGE with `*size` the offset that
      overflowed. */
  method MdList(names: seq<string>, size: nat) returns (out: Listing)
    requires forall i :: 0 <= i < |names| ==> names[i] != []
    ensures size > MD_XATTR_SIZE_MAX ==> out == Listing(Err(E2BIG), 0, size, [])
    ensures size == 0 ==> out == Listing(Err(ERANGE), |names|, |Packed(names)|, [])
    ensures 0 < size <= MD_XATTR_SIZE_MAX && |Packed(names)| <= size ==>
              out == Listing(Ok(()), |names|, |Packed(names)|, Packed(names))
    ensures 0 < size <= MD_XATTR_SIZE_MAX && |Packed(names)| > size ==>
              out.res == Err(ERANGE) && out.count < |names|
              && out.buf == Packed(names[..out.count]) && |out.buf| <= size
              && out.size == |Packed(names[..out.count + 1])| > size
  {
    if size > MD_XATTR_SIZE_MAX {
      return Listing(Err(E2BIG), 0, size, []);
    }
    var offset := 0;
    var buf: seq<char> := [];
    var res: Result<()> := Ok(());
    var i := 0;
    while i < |names|
      invariant 0 <= i <= |names|
      invariant offset == |Packed(names[..i])|
      invariant size != 0 ==> offset <= size && buf == Packed(names[..i])
      invariant size == 0 ==> buf == []
      invariant res == Ok(())
    {
      PackedSnoc(names[..i], names[i]);
      assert names[..i + 1] == names[..i] + [names[i]];
      offset := offset + |names[i]| + 1;
      if offset > size && size != 0 {
        PackedLength(names, i + 1);
        res := Err(ERANGE);
        return Listing(res, i, offset, buf);
      }
      if size != 0 {
        buf := buf + names[i] + ['\0'];
      }
      i := i + 1;
    }
    assert names[..i] == names;
    if size == 0 {
      res := Err(ERANGE);
    }
    out := Listing(res, i, offset, buf);
  }
}

=== FILE: mds.dfy ===
/** The pNFS metadata-server side of the KVSFS FSAL (mds.c): the server
    role an export's configuration gives, the data-server list rebuilt
    from it, the round-robin choice of a data server for getdeviceinfo,
    and the checks layoutget, layoutreturn and layoutcommit make. */
module Mds {
  import opened Errno
  import opened InodeAttr

  /** enum kvsfs_pNFS_server_role, in its declaration order. */
  datatype Role = PnfsDisabled | PnfsDs | PnfsMds | PnfsBoth

  function Rank(r: Role): nat {
    match r
    case PnfsDisabled => 0
    case PnfsDs => 1
    case PnfsMds => 2
    case PnfsBoth => 3
  }

  /** One configured data-server address. */
  datatype DsAddr = DsAddr(id: nat, port: nat, ip: nat)

  /** A data server of the list: its id and its addresses. */
  datatype DsInfo = DsInfo(dsId: nat, addrs: seq<DsAddr>)

  /** struct kvsfs_pnfs_mds_info: the stripe unit, the data-server list,
      its length, and the server the last getdeviceinfo handed out (an
      index into the list). */
  datatype MdsInfo = MdsInfo(stripeUnit: nat, dsList: seq<DsInfo>, numDs: nat, next: Option<nat>)

  /** struct kvsfs_pnfs_mds_ctx without its mutex. */
  datatype MdsCtx = MdsCtx(role: Role, mds: Option<MdsInfo>)

  /** The pNFS part of an export's configuration. */
  datatype ExportConfig = ExportConfig(pnfsEnabled: bool, dsEnabled: bool, mdsEnabled: bool,
                                       stripeUnit: nat, dsArray: seq<DsAddr>)

  /** The list and its cursor agree. */
  predicate ValidMds(m: MdsInfo) {
    m.numDs == |m.dsList| && (m.next.Some? ==> m.next.value < |m.dsList|)
  }

  /** A server acting as metadata server has its configuration. */
  predicate ValidCtx(c: MdsCtx) {
    (Rank(c.role) >= Rank(PnfsMds) ==> c.mds.Some?) && (c.mds.Some? ==> ValidMds(c.mds.value))
  }

  // ---------------------------------------------------------------- role

  /** The role an export asks for: none unless pNFS is enabled; both, or
      the one of the two services that is enabled. */
  function RoleOf(cfg: ExportConfig): (r: Role)
    ensures r == PnfsDisabled <==> !cfg.pnfsEnabled || (!cfg.dsEnabled && !cfg.mdsEnabled)
  {
    if !cfg.pnfsEnabled then PnfsDisabled
    else if cfg.dsEnabled && cfg.mdsEnabled then PnfsBoth
    else if cfg.mdsEnabled then PnfsMds
    else if cfg.dsEnabled then PnfsDs
    else PnfsDisabled
  }

  /** The metadata-server operations are open exactly to exports that
      enable pNFS and the MDS service; the data-server service alone is
      not enough. */
  lemma RoleServesMdsIffEnabled(cfg: ExportConfig)
    ensures Rank(RoleOf(cfg)) > Rank(PnfsDs) <==> cfg.pnfsEnabled && cfg.mdsEnabled
    ensures RoleOf(cfg) == PnfsDs <==> cfg.pnfsEnabled && cfg.dsEnabled && !cfg.mdsEnabled
  {
  }

  // ---------------------------------------------------------------- update

  /** The list as kvsfs_pmds_update_exp builds it: every configured server
      is inserted at the head with its index as id and its one address, so
      the list runs from the last configured server to the first. */
  function BuildList(ds: seq<DsAddr>): (l: seq<DsInfo>)
    ensures |l| == |ds|
    ensures forall i :: 0 <= i < |l| ==> l[i] == DsInfo(|ds| - 1 - i, [ds[|ds| - 1 - i]])
  {
    if |ds| == 0 then []
    else [DsInfo(|ds| - 1, [ds[|ds| - 1]])] + BuildList(ds[..|ds| - 1])
  }

  /** kvsfs_pmds_update_exp: only a role above data server rebuilds the
      MDS configuration (ENOMEM when an allocation fails, `allocOk`), which
      then replaces the context's role and configuration with a fresh
      cursor; any other role leaves the context as it was, role included. */
  function UpdateExp(ctx: MdsCtx, cfg: ExportConfig, allocOk: bool): (r: Result<MdsCtx>)
    ensures Rank(RoleOf(cfg)) <= Rank(PnfsDs) ==> r == Ok(ctx)
    ensures Rank(RoleOf(cfg)) > Rank(PnfsDs) ==> (r.Ok? <==> allocOk)
    ensures r.Err? ==> r.code == ENOMEM
    ensures r.Ok? && Rank(RoleOf(cfg)) > Rank(PnfsDs) ==>
              r.value.role == RoleOf(cfg) && r.value.mds.Some?
              && var m := r.value.mds.value;
                 m.stripeUnit == cfg.stripeUnit && m.numDs == |cfg.dsArray| && m.next.None?
                 && |m.dsList| == |cfg.dsArray|
                 && forall i :: 0 <= i < |m.dsList| ==> m.dsList[i].addrs == [cfg.dsArray[|cfg.dsArray| - 1 - i]]
  {
    var role := RoleOf(cfg);
    if Rank(role) > Rank(PnfsDs) then
      if !allocOk then Err(ENOMEM)
      else
        var l := BuildList(cfg.dsArray);
        Ok(MdsCtx(role, Some(MdsInfo(cfg.stripeUnit, l, |l|, None))))
    else Ok(ctx)
  }

  /** An update keeps a valid context valid. */
  lemma UpdateExpKeepsValid(ctx: MdsCtx, cfg: ExportConfig, allocOk: bool)
    requires ValidCtx(ctx) && UpdateExp(ctx, cfg, allocOk).Ok?
    ensures ValidCtx(UpdateExp(ctx, cfg, allocOk).value)
  {
  }

  // ---------------------------------------------------------------- getdeviceinfo

  /** The NFSv4 status codes these operations return. */
  datatype Nfs4Status = Nfs4Ok | Nfs4ErrNotSupp | Nfs4ErrInval | Nfs4ErrNoEnt
                      | Nfs4ErrServerFault | Nfs4ErrPnfsNoLayout | Nfs4ErrUnknownLayoutType

  datatype FsalId = FsalIdExperimental | OtherFsalId

  /** The server the next getdeviceinfo hands out: the first one on the
      first call, then the following one, wrapping to the first; none when
      the list is empty. */
  function Pick(m: MdsInfo): (r: Option<nat>)
    requires ValidMds(m)
    ensures r.Some? ==> r.value < |m.dsList|
    ensures r.None? <==> |m.dsList| == 0
  {
    if m.next.None? then (if m.numDs == 0 then None else Some(0))
    else if m.next.value + 1 < |m.dsList| then Some(m.next.value + 1)
    else Some(0)
  }

  datatype DevInfo = DevInfo(status: Nfs4Status, ctx: MdsCtx, hosts: seq<DsAddr>)

  /** kvsfs_getdeviceinfo: NOTSUPP below the MDS role, INVAL for a device
      id of another FSAL, NOENT without data servers; otherwise the chosen
      server's addresses, one stripe, and the cursor left on that server. */
  function GetDevInfo(ctx: MdsCtx, fsalId: FsalId): (r: DevInfo)
    requires ValidCtx(ctx)
    ensures Rank(ctx.role) < Rank(PnfsMds) ==> r.status == Nfs4ErrNotSupp
    ensures Rank(ctx.role) >= Rank(PnfsMds) && fsalId != FsalIdExperimental ==> r.status == Nfs4ErrInval
    ensures r.status != Nfs4Ok ==> r.ctx == ctx && r.hosts == []
    ensures r.status == Nfs4Ok ==>
              var m := ctx.mds.value;
              Rank(ctx.role) >= Rank(PnfsMds) && fsalId == FsalIdExperimental && Pick(m).Some?
              && r.ctx == ctx.(mds := Some(m.(next := Pick(m))))
              && r.hosts == m.dsList[Pick(m).value].addrs
    ensures ValidCtx(r.ctx)
  {
    if Rank(ctx.role) < Rank(PnfsMds) then DevInfo(Nfs4ErrNotSupp, ctx, [])
    else if fsalId != FsalIdExperimental then DevInfo(Nfs4ErrInval, ctx, [])
    else
      var m := ctx.mds.value;
      match Pick(m)
      case None => DevInfo(Nfs4ErrNoEnt, ctx, [])
      case Some(i) => DevInfo(Nfs4Ok, ctx.(mds := Some(m.(next := Some(i)))), m.dsList[i].addrs)
  }

  /** The hosts handed out by `n` successive getdeviceinfo calls. */
  function Handouts(ctx: MdsCtx, n: nat): seq<seq<DsAddr>>
    requires ValidCtx(ctx)
    decreases n
  {
    if n == 0 then []
    else
      var d := GetDevInfo(ctx, FsalIdExperimental);
      [d.hosts] + Handouts(d.ctx, n - 1)
  }

  /** The list position `k` steps on, wrapping once past the end. */
  function Wrap(k: nat, len: nat): nat {
    if k < len then k else k - len
  }

  /** From a cursor on server `j`, the next `n` calls (at most one round)
      hand out servers j+1, j+2, ... wrapping to the first after the last. */
  lemma {:induction false} HandoutsFrom(ctx: MdsCtx, j: nat, n: nat)
    requires ValidCtx(ctx) && Rank(ctx.role) >= Rank(PnfsMds)
    requires ctx.mds.value.next == Some(j) && n <= |ctx.mds.value.dsList|
    ensures |Handouts(ctx, n)| == n
    ensures forall i :: 0 <= i < n ==>
              Handouts(ctx, n)[i] == ctx.mds.value.dsList[Wrap(j + 1 + i, |ctx.mds.value.dsList|)].addrs
    decreases n
  {
    if n > 0 {
      var l := ctx.mds.value.dsList;
      var d := GetDevInfo(ctx, FsalIdExperimental);
      var j1 := Wrap(j + 1, |l|);
      assert d.ctx.mds.value.next == Some(j1) && d.ctx.mds.value.dsList == l;
      HandoutsFrom(d.ctx, j1, n - 1);
      var rest := Handouts(d.ctx, n - 1);
      assert Handouts(ctx, n) == [d.hosts] + rest;
      forall i | 0 <= i < n ensures Handouts(ctx, n)[i] == l[Wrap(j + 1 + i, |l|)].addrs {
        if i > 0 {
          assert Handouts(ctx, n)[i] == rest[i - 1];
          assert Wrap(j1 + 1 + (i - 1), |l|) == Wrap(j + 1 + i, |l|);
        }
      }
    }
  }

  /** Round robin: a freshly configured MDS hands out every data server
      once, in list order, and then starts again with the first. */
  lemma RoundRobin(ctx: MdsCtx)
    requires ValidCtx(ctx) && Rank(ctx.role) >= Rank(PnfsMds)
    requires ctx.mds.value.next.None? && |ctx.mds.value.dsList| > 0
    ensures var l := ctx.mds.value.dsList;
            |Handouts(ctx, |l| + 1)| == |l| + 1
            && (forall i :: 0 <= i < |l| ==> Handouts(ctx, |l| + 1)[i] == l[i].addrs)
            && Handouts(ctx, |l| + 1)[|l|] == l[0].addrs
  {
    var l := ctx.mds.value.dsList;
    var d := GetDevInfo(ctx, FsalIdExperimental);
    assert d.ctx.mds.value.next == Some(0) && d.ctx.mds.value.dsList == l;
    HandoutsFrom(d.ctx, 0, |l|);
    var rest := Handouts(d.ctx, |l|);
    assert Handouts(ctx, |l| + 1) == [d.hosts] + rest;
    forall i | 0 < i <= |l| ensures Handouts(ctx, |l| + 1)[i] == l[Wrap(i, |l|)].addrs {
      assert Handouts(ctx, |l| + 1)[i] == rest[i - 1];
    }
  }

  // ---------------------------------------------------------------- layouts

  datatype LayoutType = LayoutFiles | OtherLayout

  /** NFL4_UFLG_COMMIT_THRU_MDS and NFL4_UFLG_STRIPE_UNIT_SIZE_MASK, the
      nfl_util4 bits of section 13.3 of RFC 5661 (0x2 and 0xFFFFFFC0). */
  const COMMIT_THRU_MDS: nat := 2
  const U32_LIMIT: nat := 0x1_0000_0000

  /** x | 0x2 on a 32-bit word. */
  function OrCommitThruMds(x: nat): (r: nat)
    requires x < U32_LIMIT
    ensures r < U32_LIMIT
  {
    if (x / 2) % 2 == 1 then x else x + COMMIT_THRU_MDS
  }

  /** x & 0xFFFFFFC0 on a 32-bit word: the low six bits cleared. */
  function StripeUnitBits(x: nat): nat {
    x - x % 64
  }

  /** The stripe unit survives the nfl_util4 encoding exactly when it is a
      multiple of 64. */
  lemma StripeUnitFitsIffAligned(su: nat)
    requires su < U32_LIMIT
    ensures StripeUnitBits(OrCommitThruMds(su)) == su <==> su % 64 == 0
  {
  }

  /** The segment a layoutget grants. */
  datatype Segment = Segment(offset: nat, length: nat, returnOnClose: bool, lastSegment: bool,
                             signalAvailable: bool, util: nat)

  const NFS4_UINT64_MAX: nat := 0xFFFF_FFFF_FFFF_FFFF

  /** kvsfs_layoutget: PNFS_NO_LAYOUT below the MDS role,
      UNKNOWN_LAYOUTTYPE for anything but a files layout, SERVERFAULT for a
      stripe unit the encoding would truncate; otherwise the whole file in
      one segment, returned on close, with the encoder's status
      (`encodeStatus`). */
  function LayoutGet(ctx: MdsCtx, ty: LayoutType, encodeStatus: Nfs4Status): (r: (Nfs4Status, Option<Segment>))
    requires ValidCtx(ctx)
    requires ctx.mds.Some? ==> ctx.mds.value.stripeUnit < U32_LIMIT
    ensures Rank(ctx.role) < Rank(PnfsMds) ==> r == (Nfs4ErrPnfsNoLayout, None)
    ensures Rank(ctx.role) >= Rank(PnfsMds) && ty != LayoutFiles ==> r == (Nfs4ErrUnknownLayoutType, None)
    ensures Rank(ctx.role) >= Rank(PnfsMds) && ty == LayoutFiles ==>
              (r.0 == Nfs4ErrServerFault && r.1.None? <==> ctx.mds.value.stripeUnit % 64 != 0)
    ensures r.1.Some? ==> r.0 == encodeStatus
                          && r.1.value.offset == 0 && r.1.value.length == NFS4_UINT64_MAX
                          && r.1.value.returnOnClose && r.1.value.lastSegment && !r.1.value.signalAvailable
                          && StripeUnitBits(r.1.value.util) == ctx.mds.value.stripeUnit
  {
    if Rank(ctx.role) < Rank(PnfsMds) then (Nfs4ErrPnfsNoLayout, None)
    else if ty != LayoutFiles then (Nfs4ErrUnknownLayoutType, None)
    else
      var su := ctx.mds.value.stripeUnit;
      var util := OrCommitThruMds(su);
      StripeUnitFitsIffAligned(su);
      if StripeUnitBits(util) != su then (Nfs4ErrServerFault, None)
      else (encodeStatus, Some(Segment(0, NFS4_UINT64_MAX, true, true, false, util)))
  }

  /** kvsfs_layoutreturn: only a files layout is known; nothing is held. */
  function LayoutReturn(ty: LayoutType): (r: Nfs4Status)
    ensures r == Nfs4Ok <==> ty == LayoutFiles
    ensures r != Nfs4Ok ==> r == Nfs4ErrUnknownLayoutType
  {
    if ty != LayoutFiles then Nfs4ErrUnknownLayoutType else Nfs4Ok
  }

  /** The outcome of a layoutcommit: the status, size_supplied and
      commit_done. */
  datatype Commit = Commit(status: Nfs4Status, sizeSupplied: bool, commitDone: bool)

  /** kvsfs_layoutcommit: a files layout is committed at once, with no new
      size; anything else is UNKNOWN_LAYOUTTYPE. */
  function LayoutCommit(ty: LayoutType): (r: Commit)
    ensures r.status == Nfs4Ok <==> ty == LayoutFiles
    ensures ty != LayoutFiles ==> r.status == Nfs4ErrUnknownLayoutType
    ensures ty == LayoutFiles ==> r.commitDone && !r.sizeSupplied
  {
    if ty != LayoutFiles then Commit(Nfs4ErrUnknownLayoutType, false, false)
    else Commit(Nfs4Ok, false, true)
  }

  /** Every layout a granted layoutget hands out can be returned and
      committed. */
  lemma GrantedLayoutReturnsAndCommits(ctx: MdsCtx, ty: LayoutType, encodeStatus: Nfs4Status)
    requires ValidCtx(ctx) && (ctx.mds.Some? ==> ctx.mds.value.stripeUnit < U32_LIMIT)
    requires LayoutGet(ctx, ty, encodeStatus).1.Some?
    ensures LayoutReturn(ty) == Nfs4Ok && LayoutCommit(ty).status == Nfs4Ok
  {
  }
}

=== FILE: namespace.dfy ===
/** The metadata of one file system as the namespace operations see it,
    with the key-value store abstracted as maps, and the operations that
    add names: setattr, create_entry and link.  The transaction calls of
    the cortx and eos key-value stores and of the Motr kvsal do nothing
    and return 0, so an operation that fails after its first write keeps
    the writes made so far: such an operation returns an `Outcome`, the
    state left behind with the result.  A `Result<Fs>` operation is one
    whose failures all come before any write, or the all-or-nothing
    reading its transaction bracket asks for (`Atomic`). */
module Namespace {
  import opened Errno
  import opened InodeAttr

  /** The key of a directory entry: the parent directory and the name. */
  datatype Dentry = Dentry(parent: Ino, name: string)

  /** The process and thread that opened a file. */
  datatype Owner = Owner(pid: int, tid: int)

  /** The store contents the namespace operations read and write. */
  datatype Fs = Fs(
    /** kvtree children (cortxfs/efs) or "<parent>.dentries.<name>" (kvsns). */
    dentries: map<Dentry, Ino>,
    /** The stat record of each inode. */
    stats: map<Ino, Stat>,
    /** Symlink contents. */
    symlinks: map<Ino, string>,
    /** The data object of each inode that owns one, by its contents; the
        ino-to-object-id indirection is folded into the key. */
    objects: map<Ino, seq<Byte>>,
    /** kvsns "<ino>.parentdir": the directories that hold a name for ino. */
    parentLists: map<Ino, seq<nat>>,
    /** kvsns "<ino>.openowner.<pid>.<tid>": who holds each file open. */
    openOwners: map<Ino, set<Owner>>,
    /** kvsns "<ino>.opened_and_deleted": unlinked while open. */
    openedAndDeleted: set<Ino>,
    /** The stored inode counter. */
    counter: Ino)

  /** Some open-owner key exists for `ino`. */
  predicate IsOpen(fs: Fs, ino: Ino) {
    ino in fs.openOwners && fs.openOwners[ino] != {}
  }

  predicate HasChildren(fs: Fs, dir: Ino) {
    exists d :: d in fs.dentries && d.parent == dir
  }

  function GetStat(fs: Fs, ino: Ino): (r: Result<Stat>)
    ensures r.Ok? <==> ino in fs.stats
    ensures r.Ok? ==> r.value == fs.stats[ino]
    ensures r.Err? ==> r.code == ENOENT
  {
    if ino in fs.stats then Ok(fs.stats[ino]) else Err(ENOENT)
  }

  /** cfs_access / efs_access / kvsns2_access: load the stat, then the access
      check of the fork. */
  function Access(fork: Fork, fs: Fs, cred: Cred, ino: Ino, flags: AccessFlags): (r: Result<()>)
    ensures r.Ok? <==> ino in fs.stats && Permitted(fork, cred, fs.stats[ino], flags)
    ensures r.Err? ==> r.code == (if ino in fs.stats then EPERM else ENOENT)
  {
    var st :- GetStat(fs, ino);
    AccessCheck(fork, cred, st, flags)
  }

  /** cortxfs and efs answer ".." at the root with the root itself. */
  predicate RootDotDot(fork: Fork, parent: Ino, name: string) {
    fork != Kvsns && parent == ROOT_INODE && name == ".."
  }

  /** cfs_lookup (through cfs_fh_lookup), efs_lookup, kvsns2_lookup: READ
      access on the parent, then the directory entry. */
  function Lookup(fork: Fork, fs: Fs, cred: Cred, parent: Ino, name: string): (r: Result<Ino>)
    ensures r.Ok? <==> Access(fork, fs, cred, parent, {ReadReq}).Ok?
                       && (RootDotDot(fork, parent, name) || Dentry(parent, name) in fs.dentries)
    ensures r.Ok? ==> r.value == if RootDotDot(fork, parent, name) then ROOT_INODE
                                 else fs.dentries[Dentry(parent, name)]
    ensures r.Err? ==> r.code == EPERM || r.code == ENOENT
  {
    var _ :- Access(fork, fs, cred, parent, {ReadReq});
    if RootDotDot(fork, parent, name) then Ok(ROOT_INODE)
    else if Dentry(parent, name) in fs.dentries then Ok(fs.dentries[Dentry(parent, name)])
    else Err(ENOENT)
  }

  /** cfs_update_stat / efs_update_stat / kvsns2_update_stat: load, amend,
      store. */
  function UpdateStat(fork: Fork, fs: Fs, ino: Ino, flags: StatFlags, t: Time): (r: Result<Fs>)
    ensures r.Ok? <==> ino in fs.stats && Amend(fork, fs.stats[ino], flags, t).Ok?
    ensures r.Ok? ==> r.value == fs.(stats := fs.stats[ino := Amend(fork, fs.stats[ino], flags, t).value])
    ensures r.Err? ==> r.code == (if ino in fs.stats then EINVAL else ENOENT)
  {
    var st :- GetStat(fs, ino);
    var st2 :- Amend(fork, st, flags, t);
    Ok(fs.(stats := fs.stats[ino := st2]))
  }

  // ---------------------------------------------------------------- setattr

  /** The stat setattr stores: ctime refreshed to `t`, then each field whose
      flag is set copied from `setstat`.  MODE keeps the stored type bits;
      SIZE copies size and blocks in cortxfs/efs, while kvsns truncates,
      which sets the size only. */
  function ApplySetattr(fork: Fork, st: Stat, setstat: Stat, flags: StatFlags, t: Time): (s: Stat)
    ensures s.ino == st.ino && s.nlink == st.nlink
    ensures ModeSet !in flags ==> s.mode == st.mode
    ensures ModeSet in flags ==> s.mode * S_IFMT == (setstat.mode + st.mode) * S_IFMT
                                 && s.mode - S_IFMT == setstat.mode - S_IFMT
    ensures s.uid == (if UidSet in flags then setstat.uid else st.uid)
    ensures s.gid == (if GidSet in flags then setstat.gid else st.gid)
    ensures s.size == (if SizeSet in flags || (fork == Kvsns && SizeAttach in flags)
                       then setstat.size else st.size)
    ensures s.blocks == (if SizeSet in flags && fork != Kvsns then setstat.blocks else st.blocks)
    ensures s.atime == (if AtimeSet in flags then setstat.atime else st.atime)
    ensures s.mtime == (if MtimeSet in flags then setstat.mtime else st.mtime)
    ensures s.ctime == (if CtimeSet in flags then setstat.ctime else t)
  {
    var mode := if ModeSet in flags then setstat.mode + st.mode * S_IFMT else st.mode;
    var size := if SizeSet in flags || (fork == Kvsns && SizeAttach in flags) then setstat.size
                else st.size;
    var blocks := if SizeSet in flags && fork != Kvsns then setstat.blocks else st.blocks;
    st.(mode := mode,
        uid := if UidSet in flags then setstat.uid else st.uid,
        gid := if GidSet in flags then setstat.gid else st.gid,
        size := size, blocks := blocks,
        atime := if AtimeSet in flags then setstat.atime else st.atime,
        mtime := if MtimeSet in flags then setstat.mtime else st.mtime,
        ctime := if CtimeSet in flags then setstat.ctime else t)
  }

  /** A permission-only MODE request keeps the object's file type. */
  lemma SetattrKeepsType(fork: Fork, st: Stat, setstat: Stat, flags: StatFlags, t: Time)
    requires setstat.mode * S_IFMT == {}
    ensures ApplySetattr(fork, st, setstat, flags, t).mode * S_IFMT == st.mode * S_IFMT
  {
    var s := ApplySetattr(fork, st, setstat, flags, t);
    if ModeSet in flags {
      assert (setstat.mode + st.mode) * S_IFMT == setstat.mode * S_IFMT + st.mode * S_IFMT;
    }
  }

  /** Repeating a setattr with the same request and clock reading changes
      nothing more. */
  lemma SetattrIdempotent(fork: Fork, st: Stat, setstat: Stat, flags: StatFlags, t: Time)
    ensures var once := ApplySetattr(fork, st, setstat, flags, t);
            ApplySetattr(fork, once, setstat, flags, t) == once
  {
    var once := ApplySetattr(fork, st, setstat, flags, t);
    var twice := ApplySetattr(fork, once, setstat, flags, t);
    if ModeSet in flags {
      assert twice.mode == once.mode;
    }
  }

  /** cfs_setattr / efs_setattr / kvsns2_setattr.  An empty flag set does
      nothing.  cortxfs/efs load the stat and ask for SETATTR access; kvsns
      asks for WRITE access and then loads the stat.  cortxfs/efs assert that
      SIZE_ATTACH is never requested. */
  function Setattr(fork: Fork, fs: Fs, cred: Cred, ino: Ino, setstat: Stat,
                   flags: StatFlags, t: Time): (r: Result<Fs>)
    requires fork != Kvsns ==> SizeAttach !in flags
    ensures flags == {} ==> r == Ok(fs)
    ensures flags != {} ==>
              (r.Ok? <==> ino in fs.stats
                          && (fork == Kvsns ==> Permitted(Kvsns, cred, fs.stats[ino], {WriteReq})))
    ensures flags != {} && r.Ok? ==>
              r.value == fs.(stats := fs.stats[ino := ApplySetattr(fork, fs.stats[ino], setstat, flags, t)])
    ensures r.Err? ==> r.code == ENOENT || r.code == EPERM
  {
    if flags == {} then Ok(fs)
    else if fork == Kvsns then
      var _ :- Access(fork, fs, cred, ino, {WriteReq});
      Ok(fs.(stats := fs.stats[ino := ApplySetattr(fork, fs.stats[ino], setstat, flags, t)]))
    else
      // The SETATTR access request that follows the load never refuses
      // (SetattrRequestNeverRefused), so only the load can fail.
      var st :- GetStat(fs, ino);
      Ok(fs.(stats := fs.stats[ino := ApplySetattr(fork, st, setstat, flags, t)]))
  }

  // ---------------------------------------------------------------- outcomes

  /** The state a call leaves behind and what it returns. */
  datatype Outcome<T> = Outcome(fs: Fs, res: Result<T>)

  /** One store-writing step run on `fs`: its state when it succeeds, `fs`
      with its error when it fails. */
  function Step(fs: Fs, r: Result<Fs>): Outcome<()> {
    if r.Ok? then Outcome(r.value, Ok(())) else Outcome(fs, Err(r.code))
  }

  /** The reading a transaction that rolls back gives a run of steps: their
      state when they all succeed, only the error otherwise. */
  function Atomic(o: Outcome<()>): Result<Fs> {
    if o.res.Ok? then Ok(o.fs) else Err(o.res.code)
  }

  // ---------------------------------------------------------------- create

  /** The store writes of create_entry once its checks have passed, in the
      order the code makes them.  cortxfs/efs take the inode number (the
      counter is stored), attach the dentry, store the new stat and the
      symlink text, and only then load and amend the parent, so a missing
      parent (ENOENT) or a parent at MAX_LINK that would gain a directory
      (EINVAL) leaves those writes behind.  kvsns loads the parent before
      writing anything and only stamps it, which cannot fail. */
  function CreateSteps(fork: Fork, fs: Fs, cred: Cred, parent: Ino, name: string,
                       lnk: Option<string>, mode: ModeBits, ft: FileType, t: Time)
    : (r: Outcome<Ino>)
    requires ft == Symlink ==> lnk.Some?
    ensures r.res.Ok? <==> parent in fs.stats
                           && Amend(fork, fs.stats[parent], ParentFlags(fork, ft), t).Ok?
    ensures r.res.Ok? ==> r.res.value == NextInode(fs.counter).0 && r.fs.counter == r.res.value
    ensures r.res.Err? ==> r.res.code == ENOENT || r.res.code == EINVAL
    ensures r.res.Err? && fork == Kvsns ==> r.fs == fs
    ensures r.res.Err? && fork != Kvsns ==>
              var ino := NextInode(fs.counter).0;
              HalfCreated(fs, r.fs, ino, parent, name, NewStat(ft, mode, cred, ino, t))
  {
    var (ino, counter) := NextInode(fs.counter);
    if fork == Kvsns && parent !in fs.stats then Outcome(fs, Err(ENOENT))
    else
      var fs1 := fs.(counter := counter,
                     dentries := fs.dentries[Dentry(parent, name) := ino],
                     stats := fs.stats[ino := NewStat(ft, mode, cred, ino, t)],
                     symlinks := if ft == Symlink && fork != Kvsns then fs.symlinks[ino := lnk.value]
                                 else fs.symlinks);
      if parent !in fs.stats then Outcome(fs1, Err(ENOENT))
      else
        var a := Amend(fork, fs.stats[parent], ParentFlags(fork, ft), t);
        if a.Err? then Outcome(fs1, Err(a.code))
        else Outcome(fs1.(stats := fs1.stats[parent := a.value]), Ok(ino))
  }

  /** What a cortxfs/efs create that failed at its parent leaves: the
      counter at `ino`, the name attached to `ino` and its stat stored, the
      data objects, the open owners and every other stat as they were. */
  predicate HalfCreated(fs: Fs, fs2: Fs, ino: Ino, parent: Ino, name: string, st: Stat) {
    && fs2.counter == ino
    && fs2.dentries == fs.dentries[Dentry(parent, name) := ino]
    && fs2.stats == fs.stats[ino := st]
    && fs2.objects == fs.objects && fs2.openOwners == fs.openOwners
  }

  /** create_entry's writes as its transaction bracket intends them: all of
      them once the parent is amended, none when a step fails. */
  function CreateAfterChecks(fork: Fork, fs: Fs, cred: Cred, parent: Ino, name: string,
                             lnk: Option<string>, mode: ModeBits, ft: FileType, t: Time)
    : (r: Result<(Fs, Ino)>)
    requires ft == Symlink ==> lnk.Some?
    ensures r.Ok? <==> parent in fs.stats
                       && Amend(fork, fs.stats[parent], ParentFlags(fork, ft), t).Ok?
    ensures r.Ok? ==> r.value.1 == NextInode(fs.counter).0 && r.value.0.counter == r.value.1
    ensures r.Err? ==> r.code == ENOENT || r.code == EINVAL
  {
    var o := CreateSteps(fork, fs, cred, parent, name, lnk, mode, ft, t);
    if o.res.Ok? then Ok((o.fs, o.res.value)) else Err(o.res.code)
  }

  /** cortxfs/efs stamp the parent and give it a link for a new directory
      (its ".."); kvsns only stamps it. */
  function ParentFlags(fork: Fork, ft: FileType): (f: StatFlags)
    ensures CtimeSet in f && MtimeSet in f
    ensures IncrLink in f <==> fork != Kvsns && ft == Dir
    ensures DecrLink !in f
  {
    if fork != Kvsns && ft == Dir then {CtimeSet, MtimeSet, IncrLink} else {CtimeSet, MtimeSet}
  }

  /** The checks create_entry makes before touching the store, in order:
      empty name, name rules, symlink without target; `taken` is the answer
      of the existence probe. */
  function CreateChecks(name: string, lnk: Option<string>, ft: FileType, taken: bool): (r: Result<()>)
    ensures r.Ok? <==> name != "" && CheckName(name).Ok? && !(ft == Symlink && lnk.None?) && !taken
    ensures name == "" ==> r == Err(EINVAL)
    ensures name != "" && CheckName(name).Err? ==> r == CheckName(name)
    ensures name != "" && CheckName(name).Ok? && ft == Symlink && lnk.None? ==> r == Err(EINVAL)
    ensures name != "" && CheckName(name).Ok? && !(ft == Symlink && lnk.None?) && taken ==> r == Err(EEXIST)
  {
    if name == "" then Err(EINVAL)
    else
      var _ :- CheckName(name);
      if ft == Symlink && lnk.None? then Err(EINVAL)
      else if taken then Err(EEXIST)
      else Ok(())
  }

  /** cfs_create_entry / efs_create_entry / kvsns2_create_entry AS WRITTEN:
      the existence probe is a full lookup, which also needs READ access on
      the parent, and any lookup failure counts as "absent"; the writes
      that follow are never rolled back. */
  function CreateEntryAsWritten(fork: Fork, fs: Fs, cred: Cred, parent: Ino, name: string,
                                lnk: Option<string>, mode: ModeBits, ft: FileType, t: Time)
    : (r: Outcome<Ino>)
    ensures CreateChecks(name, lnk, ft, Lookup(fork, fs, cred, parent, name).Ok?).Err? ==>
              r.res.Err? && r.fs == fs
    ensures r.res.Ok? ==> && CreateChecks(name, lnk, ft, Lookup(fork, fs, cred, parent, name).Ok?).Ok?
                          && CreateAfterChecks(fork, fs, cred, parent, name, lnk, mode, ft, t)
                             == Ok((r.fs, r.res.value))
    ensures CreateChecks(name, lnk, ft, Lookup(fork, fs, cred, parent, name).Ok?).Ok? && fork != Kvsns
            && CreateAfterChecks(fork, fs, cred, parent, name, lnk, mode, ft, t).Err? ==>
              r.res.Err? && Dentry(parent, name) in r.fs.dentries
              && r.fs.dentries[Dentry(parent, name)] == NextInode(fs.counter).0
  {
    var c := CreateChecks(name, lnk, ft, Lookup(fork, fs, cred, parent, name).Ok?);
    if c.Err? then Outcome(fs, Err(c.code))
    else CreateSteps(fork, fs, cred, parent, name, lnk, mode, ft, t)
  }

  /** The intended create_entry: an existing name is EEXIST whether or not
      the caller may read the directory, and a failing step rolls back. */
  function CreateEntry(fork: Fork, fs: Fs, cred: Cred, parent: Ino, name: string,
                       lnk: Option<string>, mode: ModeBits, ft: FileType, t: Time)
    : (r: Result<(Fs, Ino)>)
    ensures name == "" ==> r == Err(EINVAL)
    ensures name != "" && CheckName(name).Err? ==> r == Err(CheckName(name).code)
    ensures name != "" && CheckName(name).Ok? && ft == Symlink && lnk.None? ==> r == Err(EINVAL)
    ensures CreateChecks(name, lnk, ft, false).Ok? && Dentry(parent, name) in fs.dentries ==>
              r == Err(EEXIST)
    ensures r.Ok? ==> Dentry(parent, name) !in fs.dentries && parent in fs.stats
    ensures r.Ok? ==> CreatedAs(fork, fs, r.value.0, r.value.1, cred, parent, name, lnk, mode, ft, t)
  {
    var _ :- CreateChecks(name, lnk, ft, Dentry(parent, name) in fs.dentries);
    var res :- CreateAfterChecks(fork, fs, cred, parent, name, lnk, mode, ft, t);
    CreateEffect(fork, fs, cred, parent, name, lnk, mode, ft, t);
    Ok(res)
  }

  /** What a successful create leaves behind, stated field by field. */
  predicate CreatedAs(fork: Fork, fs: Fs, fs2: Fs, ino: Ino, cred: Cred, parent: Ino, name: string,
                      lnk: Option<string>, mode: ModeBits, ft: FileType, t: Time)
    requires parent in fs.stats
  {
    && fs2.counter == ino
    && fs2.dentries == fs.dentries[Dentry(parent, name) := ino]
    && ino in fs2.stats && parent in fs2.stats
    && (ino != parent ==> fs2.stats[ino] == NewStat(ft, mode, cred, ino, t))
    && (ino != parent ==>
          fs2.stats[parent].nlink == fs.stats[parent].nlink + (if fork != Kvsns && ft == Dir then 1 else 0))
    && fs2.stats[parent].mtime == t && fs2.stats[parent].ctime == t
    && (forall i :: i in fs.stats && i != ino && i != parent ==> i in fs2.stats && fs2.stats[i] == fs.stats[i])
    && (fork != Kvsns && ft == Symlink && lnk.Some? ==> ino in fs2.symlinks && fs2.symlinks[ino] == lnk.value)
    && fs2.objects == fs.objects && fs2.openOwners == fs.openOwners
  }

  lemma CreateEffect(fork: Fork, fs: Fs, cred: Cred, parent: Ino, name: string,
                     lnk: Option<string>, mode: ModeBits, ft: FileType, t: Time)
    requires ft == Symlink ==> lnk.Some?
    requires CreateAfterChecks(fork, fs, cred, parent, name, lnk, mode, ft, t).Ok?
    ensures parent in fs.stats
    ensures var res := CreateAfterChecks(fork, fs, cred, parent, name, lnk, mode, ft, t).value;
            CreatedAs(fork, fs, res.0, res.1, cred, parent, name, lnk, mode, ft, t)
  {
    var pst := fs.stats[parent];
    var flags := ParentFlags(fork, ft);
    var a := Amend(fork, pst, flags, t);
    assert Incr(flags) == (if fork != Kvsns && ft == Dir then 1 else 0) && Decr(flags) == 0;
    if fork == Kvsns {
      assert a.value.nlink == pst.nlink;
    }
  }

  /** The existence probe of the code as written misses a name the caller
      cannot read: with READ refused on the parent, create_entry goes on and
      re-attaches an existing name to a new inode. */
  lemma CreateOverwritesUnreadableName(fork: Fork, fs: Fs, cred: Cred, parent: Ino, name: string,
                                       mode: ModeBits, t: Time)
    requires parent in fs.stats && !Permitted(fork, cred, fs.stats[parent], {ReadReq})
    requires Dentry(parent, name) in fs.dentries
    requires CheckName(name).Ok? && name != ""
    requires Amend(fork, fs.stats[parent], ParentFlags(fork, File), t).Ok?
    ensures CreateEntryAsWritten(fork, fs, cred, parent, name, None, mode, File, t).res.Ok?
    ensures CreateEntryAsWritten(fork, fs, cred, parent, name, None, mode, File, t).fs
              .dentries[Dentry(parent, name)] == NextInode(fs.counter).0
    ensures CreateEntry(fork, fs, cred, parent, name, None, mode, File, t) == Err(EEXIST)
  {
  }

  /** Both readings agree whenever the caller may read the parent and the
      writes all succeed; failures report the same error. */
  lemma CreateAgreesWhenReadable(fork: Fork, fs: Fs, cred: Cred, parent: Ino, name: string,
                                 lnk: Option<string>, mode: ModeBits, ft: FileType, t: Time)
    requires parent in fs.stats && Permitted(fork, cred, fs.stats[parent], {ReadReq})
    requires !RootDotDot(fork, parent, name)
    ensures var w := CreateEntryAsWritten(fork, fs, cred, parent, name, lnk, mode, ft, t);
            var c := CreateEntry(fork, fs, cred, parent, name, lnk, mode, ft, t);
            && (w.res.Ok? <==> c.Ok?)
            && (c.Ok? ==> c.value == (w.fs, w.res.value))
            && (c.Err? ==> w.res.code == c.code)
  {
  }

  /** mkdir under a cortxfs/efs parent whose link count is at MAX_LINK, so
      the parent cannot take the new directory's ".." link.  As written the
      call fails with EINVAL yet leaves the name attached to a new inode
      whose stat is stored; with the transaction rolling back it fails
      with nothing written. */
  lemma MkdirAtMaxLinkKeepsEntry(fork: Fork, fs: Fs, cred: Cred, parent: Ino, name: string,
                                 mode: ModeBits, t: Time)
    requires fork != Kvsns
    requires parent in fs.stats && fs.stats[parent].nlink == MAX_LINK
    requires Permitted(fork, cred, fs.stats[parent], {ReadReq})
    requires name != "" && CheckName(name).Ok? && Dentry(parent, name) !in fs.dentries
    ensures var w := CreateEntryAsWritten(fork, fs, cred, parent, name, None, mode, Dir, t);
            var ino := NextInode(fs.counter).0;
            && w.res == Err(EINVAL)
            && Dentry(parent, name) in w.fs.dentries && w.fs.dentries[Dentry(parent, name)] == ino
            && ino in w.fs.stats && w.fs.stats[ino] == NewStat(Dir, mode, cred, ino, t)
    ensures CreateEntry(fork, fs, cred, parent, name, None, mode, Dir, t) == Err(EINVAL)
  {
  }

  // ---------------------------------------------------------------- link

  /** The writes of link once its checks have passed, in the code's order:
      the name is attached, the object's stat is amended (ENOENT without
      one, EINVAL at MAX_LINK), and in cortxfs the target directory is
      stamped; a failing step keeps the steps before it. */
  function LinkSteps(fork: Fork, fs: Fs, ino: Ino, dino: Ino, dname: string, t: Time)
    : (r: Outcome<()>)
    ensures r.fs.dentries == fs.dentries[Dentry(dino, dname) := ino]
    ensures r.fs.objects == fs.objects && r.fs.symlinks == fs.symlinks
    ensures r.res.Ok? ==> ino in fs.stats
    ensures r.res.Err? ==> r.res.code == ENOENT || r.res.code == EINVAL
    ensures ino !in fs.stats ==> r.res == Err(ENOENT) && r.fs.stats == fs.stats
    ensures fork != Kvsns && ino in fs.stats && !LinkChangeAllowed(fs.stats[ino].nlink, {CtimeSet, IncrLink})
            ==> r.res == Err(EINVAL) && r.fs.stats == fs.stats
  {
    var fs1 := fs.(dentries := fs.dentries[Dentry(dino, dname) := ino]);
    var o := Step(fs1, UpdateStat(fork, fs1, ino, {CtimeSet, IncrLink}, t));
    if o.res.Err? || fork != Cortxfs then o
    else Step(o.fs, UpdateStat(fork, o.fs, dino, {MtimeSet, CtimeSet}, t))
  }

  /** cfs_link / efs_link / kvsns_link AS WRITTEN: WRITE access on the
      target directory, then a lookup whose success means EEXIST, then the
      writes with no rollback.  It agrees with the intended link whenever
      the name is free. */
  function LinkAsWritten(fork: Fork, fs: Fs, cred: Cred, ino: Ino, dino: Ino, dname: string, t: Time)
    : (r: Outcome<()>)
    ensures r.res.Ok? ==> Lookup(fork, fs, cred, dino, dname).Err?
    ensures Access(fork, fs, cred, dino, {WriteReq}).Err? || Lookup(fork, fs, cred, dino, dname).Ok? ==>
              r.res.Err? && r.fs == fs
    ensures Access(fork, fs, cred, dino, {WriteReq}).Ok? && Lookup(fork, fs, cred, dino, dname).Err? ==>
              r.fs.dentries == fs.dentries[Dentry(dino, dname) := ino]
    ensures Dentry(dino, dname) !in fs.dentries && !RootDotDot(fork, dino, dname) ==>
              Link(fork, fs, cred, ino, dino, dname, t) == Atomic(r)
  {
    var a := Access(fork, fs, cred, dino, {WriteReq});
    if a.Err? then Outcome(fs, Err(a.code))
    else if Lookup(fork, fs, cred, dino, dname).Ok? then Outcome(fs, Err(EEXIST))
    else LinkSteps(fork, fs, ino, dino, dname, t)
  }

  /** The intended link: an existing name is EEXIST, and a failing step
      rolls back. */
  function Link(fork: Fork, fs: Fs, cred: Cred, ino: Ino, dino: Ino, dname: string, t: Time)
    : (r: Result<Fs>)
    ensures Access(fork, fs, cred, dino, {WriteReq}).Err? ==> r == Access(fork, fs, cred, dino, {WriteReq}).PropagateFailure()
    ensures Access(fork, fs, cred, dino, {WriteReq}).Ok? && Dentry(dino, dname) in fs.dentries ==>
              r == Err(EEXIST)
    ensures r.Ok? ==> Dentry(dino, dname) !in fs.dentries && ino in fs.stats
    ensures r.Ok? ==> r.value.dentries == fs.dentries[Dentry(dino, dname) := ino]
    ensures r.Ok? && ino != dino ==> ino in r.value.stats
                                     && r.value.stats[ino].nlink == (fs.stats[ino].nlink + 1) % U64_LIMIT
                                     && r.value.stats[ino].ctime == t
    ensures r.Ok? ==> r.value.objects == fs.objects && r.value.symlinks == fs.symlinks
    ensures r.Ok? && fork != Cortxfs ==> r.value.stats.Keys == fs.stats.Keys
  {
    var _ :- Access(fork, fs, cred, dino, {WriteReq});
    if Dentry(dino, dname) in fs.dentries then Err(EEXIST)
    else
      var r := Atomic(LinkSteps(fork, fs, ino, dino, dname, t));
      assert r.Ok? && ino != dino ==> r.value.stats[ino].nlink == (fs.stats[ino].nlink + 1) % U64_LIMIT by {
        assert Incr({CtimeSet, IncrLink}) == 1 && Decr({CtimeSet, IncrLink}) == 0;
      }
      r
  }

  /** Only cortxfs stamps the target directory of a link. */
  lemma LinkStampsDirOnlyInCortxfs(fs: Fs, cred: Cred, ino: Ino, dino: Ino, dname: string, t: Time)
    requires ino != dino
    requires Link(Cortxfs, fs, cred, ino, dino, dname, t).Ok?
    requires Link(Efs, fs, cred, ino, dino, dname, t).Ok?
    ensures Link(Cortxfs, fs, cred, ino, dino, dname, t).value.stats[dino].mtime == t
    ensures Link(Efs, fs, cred, ino, dino, dname, t).value.stats[dino] == fs.stats[dino]
  {
  }

  /** A name the caller cannot read is linked over by the code as written,
      and refused with EEXIST by the intended link. */
  lemma LinkOverwritesUnreadableName(fork: Fork, fs: Fs, cred: Cred, ino: Ino, dino: Ino,
                                     dname: string, t: Time)
    requires dino in fs.stats && ino in fs.stats && ino != dino
    requires Permitted(fork, cred, fs.stats[dino], {WriteReq})
    requires !Permitted(fork, cred, fs.stats[dino], {ReadReq})
    requires Dentry(dino, dname) in fs.dentries && !RootDotDot(fork, dino, dname)
    requires fs.stats[ino].nlink < MAX_LINK
    ensures Link(fork, fs, cred, ino, dino, dname, t) == Err(EEXIST)
    ensures LinkAsWritten(fork, fs, cred, ino, dino, dname, t).res.Ok?
    ensures LinkAsWritten(fork, fs, cred, ino, dino, dname, t).fs.dentries[Dentry(dino, dname)] == ino
  {
    assert Incr({CtimeSet, IncrLink}) == 1;
    assert Amend(fork, fs.stats[ino], {CtimeSet, IncrLink}, t).Ok?;
  }

  /** Linking an object whose link count is at MAX_LINK in cortxfs/efs: as
      written the call fails with EINVAL after attaching the new name, which
      then names the object; the intended link fails with nothing written. */
  lemma LinkAtMaxLinkKeepsEntry(fork: Fork, fs: Fs, cred: Cred, ino: Ino, dino: Ino,
                                dname: string, t: Time)
    requires fork != Kvsns
    requires dino in fs.stats && ino in fs.stats
    requires Permitted(fork, cred, fs.stats[dino], {WriteReq})
    requires Dentry(dino, dname) !in fs.dentries && !RootDotDot(fork, dino, dname)
    requires fs.stats[ino].nlink == MAX_LINK
    ensures var w := LinkAsWritten(fork, fs, cred, ino, dino, dname, t);
            && w.res == Err(EINVAL)
            && Dentry(dino, dname) in w.fs.dentries && w.fs.dentries[Dentry(dino, dname)] == ino
            && w.fs.stats == fs.stats
    ensures Link(fork, fs, cred, ino, dino, dname, t) == Err(EINVAL)
  {
  }
}

=== FILE: ns.dfy ===
/** Namespaces (ns.c): records in a global metadata index, numbered by a
    16-bit counter, each with its own key-value index. */
module Ns {
  import opened Errno

  const U16_LIMIT: nat := 0x1_0000
  type u16 = x: nat | x < U16_LIMIT

  /** NS_ID_INIT: the counter value assumed when none is stored. */
  const NS_ID_INIT: u16 := 2

  /** struct namespace: id, name and the id of its index. */
  datatype Namespace = Namespace(id: u16, name: string, fid: nat)

  /** The global namespace index: the stored counter, the records by id,
      and the key-value indices that exist. */
  datatype Meta = Meta(nextId: Option<u16>, records: map<u16, Namespace>, indices: set<nat>)

  /** str256_isalphanum, which is not part of this model: taken as every
      character being an ASCII letter or digit. */
  predicate IsAlnum(name: string) {
    forall i :: 0 <= i < |name| ==>
      ('a' <= name[i] <= 'z') || ('A' <= name[i] <= 'Z') || ('0' <= name[i] <= '9')
  }

  /** ns_next_id: one more than the stored counter (NS_ID_INIT when there is
      none), wrapping at 16 bits; the new value is stored and returned. */
  function NextId(m: Meta): (r: (Meta, u16))
    ensures r.0 == m.(nextId := Some(r.1))
    ensures m.nextId.None? ==> r.1 == NS_ID_INIT + 1
    ensures m.nextId.Some? ==> r.1 == (m.nextId.value + 1) % U16_LIMIT
  {
    var prev := if m.nextId.Some? then m.nextId.value else NS_ID_INIT;
    var id := (prev + 1) % U16_LIMIT;
    (m.(nextId := Some(id)), id)
  }

  /** With no counter stored, the first ids handed out are 3 and 4. */
  lemma IdsCountUp(m: Meta)
    requires m.nextId.None?
    ensures NextId(m).1 == 3
    ensures NextId(NextId(m).0).1 == 4
  {
  }

  /** ns_create: the name must be alphanumeric (EINVAL), then a fresh id,
      then a new index `fid`, then the record stored under the id. */
  function Create(m: Meta, name: string, fid: nat): (r: Result<(Meta, Namespace)>)
    ensures r.Ok? <==> IsAlnum(name)
    ensures r.Err? ==> r.code == EINVAL
    ensures r.Ok? ==> var (m2, ns) := r.value;
              ns == Namespace(NextId(m).1, name, fid)
              && m2.records == m.records[ns.id := ns] && m2.indices == m.indices + {fid}
              && m2.nextId == Some(ns.id)
  {
    if !IsAlnum(name) then Err(EINVAL)
    else
      var (m1, id) := NextId(m);
      var ns := Namespace(id, name, fid);
      Ok((m1.(records := m1.records[id := ns], indices := m1.indices + {fid}), ns))
  }

  /** ns_delete: the record (ENOENT if missing), then the index. */
  function Delete(m: Meta, ns: Namespace): (r: Result<Meta>)
    ensures r.Ok? <==> ns.id in m.records
    ensures r.Err? ==> r.code == ENOENT
    ensures r.Ok? ==> r.value == m.(records := m.records - {ns.id}, indices := m.indices - {ns.fid})
  {
    if ns.id !in m.records then Err(ENOENT)
    else Ok(m.(records := m.records - {ns.id}, indices := m.indices - {ns.fid}))
  }

  /** The counter has not gone below its start, and every id in use lies
      between 3 and the counter. */
  ghost predicate IdsBelowCounter(m: Meta) {
    (m.nextId.Some? ==> NS_ID_INIT <= m.nextId.value)
    && forall id :: id in m.records ==> m.nextId.Some? && NS_ID_INIT < id <= m.nextId.value
  }

  /** While the counter has not wrapped, a created namespace gets an id no
      other namespace has, and the counter bound is kept. */
  lemma CreateFreshId(m: Meta, name: string, fid: nat)
    requires IdsBelowCounter(m) && IsAlnum(name)
    requires m.nextId.Some? ==> m.nextId.value + 1 < U16_LIMIT
    ensures Create(m, name, fid).value.1.id !in m.records
    ensures IdsBelowCounter(Create(m, name, fid).value.0)
  {
  }

  /** A namespace created and then deleted leaves the records and indices
      as they were (the counter keeps its new value). */
  lemma CreateDeleteRoundTrip(m: Meta, name: string, fid: nat)
    requires IdsBelowCounter(m) && IsAlnum(name) && fid !in m.indices
    requires m.nextId.Some? ==> m.nextId.value + 1 < U16_LIMIT
    ensures var (m2, ns) := Create(m, name, fid).value;
            Delete(m2, ns).Ok? && Delete(m2, ns).value.records == m.records
            && Delete(m2, ns).value.indices == m.indices
  {
    CreateFreshId(m, name, fid);
  }

  /** At the top of the 16-bit range the counter wraps to 0, after which
      ids of existing namespaces come round again. */
  lemma NextIdWraps(m: Meta)
    requires m.nextId == Some(U16_LIMIT - 1)
    ensures NextId(m).1 == 0
  {
  }

  /** One entry of the prefix iterator: the value length and the record. */
  datatype Entry = Entry(vlen: nat, ns: Namespace)

  /** ns_scan: each record whose length is `recSize`, sizeof(struct
      namespace) on the host, is handed to the callback in iterator order;
      others are logged and skipped.  The scan succeeds. */
  function Scan(entries: seq<Entry>, recSize: nat): (delivered: seq<Namespace>)
    ensures |delivered| <= |entries|
    ensures forall ns :: ns in delivered ==> exists e :: e in entries && e.vlen == recSize && e.ns == ns
  {
    if |entries| == 0 then []
    else if entries[0].vlen != recSize then Scan(entries[1..], recSize)
    else [entries[0].ns] + Scan(entries[1..], recSize)
  }

  /** Every well-sized record reaches the callback. */
  lemma {:induction false} ScanDeliversValid(entries: seq<Entry>, recSize: nat, i: nat)
    requires i < |entries| && entries[i].vlen == recSize
    ensures entries[i].ns in Scan(entries, recSize)
  {
    if i > 0 {
      ScanDeliversValid(entries[1..], recSize, i - 1);
    }
  }
}

=== FILE: parent_list.dfy ===
/** The kvsns "<ino>.parentdir" record: the inode numbers of the
    directories holding a name for `ino`, written as `"p1|p2|...|"`
    (kvsns_parentlist2str) and read back with strtok_r and sscanf
    (kvsns_str2parentlist). */
module ParentList {

  /** Room the callers give the decoded list (KVSAL_ARRAY_SIZE). */
  const ARRAY_SIZE: nat := 100

  predicate IsDigit(c: char) { '0' <= c <= '9' }

  function DigitChar(d: nat): (c: char)
    requires d < 10
    ensures IsDigit(c)
  {
    (('0' as int) + d) as char
  }

  function DigitValue(c: char): nat
    requires IsDigit(c)
  {
    (c as int) - ('0' as int)
  }

  /** `%llu` as printed by snprintf: no leading zeros, at least one digit. */
  function Decimal(n: nat): (s: string)
    ensures |s| > 0 && forall i :: 0 <= i < |s| ==> IsDigit(s[i])
    decreases n
  {
    if n < 10 then [DigitChar(n)] else Decimal(n / 10) + [DigitChar(n % 10)]
  }

  /** The value of a string of digits. */
  function DigitsValue(s: string): nat
    requires forall i :: 0 <= i < |s| ==> IsDigit(s[i])
    decreases |s|
  {
    if s == [] then 0 else DigitsValue(s[..|s| - 1]) * 10 + DigitValue(s[|s| - 1])
  }

  /** Length of the run of digits `sscanf("%llu")` consumes. */
  function DigitRun(s: string): (n: nat)
    ensures n <= |s|
    ensures forall i :: 0 <= i < n ==> IsDigit(s[i])
    decreases |s|
  {
    if s == [] || !IsDigit(s[0]) then 0 else 1 + DigitRun(s[1..])
  }

  /** `sscanf(token, "%llu", &x)`: the leading decimal; a token without one
      leaves the zero the caller's memset put there. */
  function ParseToken(token: string): nat {
    DigitsValue(token[..DigitRun(token)])
  }

  /** Length of the prefix free of the '|' delimiter. */
  function TokenLen(s: string): (n: nat)
    ensures n <= |s|
    ensures forall i :: 0 <= i < n ==> s[i] != '|'
    ensures n < |s| ==> s[n] == '|'
    decreases |s|
  {
    if s == [] || s[0] == '|' then 0 else 1 + TokenLen(s[1..])
  }

  /** The tokens strtok_r(…, "|", …) returns: maximal '|'-free runs, empty
      ones skipped. */
  function Tokens(s: string): (ts: seq<string>)
    ensures forall i :: 0 <= i < |ts| ==> |ts[i]| > 0
    decreases |s|
  {
    if s == [] then []
    else if s[0] == '|' then Tokens(s[1..])
    else
      var n := TokenLen(s);
      [s[..n]] + Tokens(s[n..])
  }

  function ParseAll(ts: seq<string>): (r: seq<nat>)
    ensures |r| == |ts|
    ensures forall i :: 0 <= i < |ts| ==> r[i] == ParseToken(ts[i])
  {
    if ts == [] then [] else [ParseToken(ts[0])] + ParseAll(ts[1..])
  }

  /** kvsns_str2parentlist: parses at most `maxsize` tokens; the returned
      list's length is the count written back to `*size`. */
  function Str2ParentList(s: string, maxsize: nat): (r: seq<nat>)
    requires maxsize > 0
    ensures |r| <= maxsize && |r| <= |Tokens(s)|
    ensures |r| == if |Tokens(s)| < maxsize then |Tokens(s)| else maxsize
    ensures forall i :: 0 <= i < |r| ==> r[i] == ParseToken(Tokens(s)[i])
  {
    var ts := Tokens(s);
    ParseAll(if |ts| <= maxsize then ts else ts[..maxsize])
  }

  /** The entries parentlist2str keeps: the nonzero ones, in order. */
  function NonZero(l: seq<nat>): (r: seq<nat>)
    ensures |r| <= |l|
    ensures forall i :: 0 <= i < |r| ==> r[i] != 0
  {
    if l == [] then [] else (if l[0] != 0 then [l[0]] else []) + NonZero(l[1..])
  }

  /** kvsns_parentlist2str: `"n|"` for each nonzero entry. */
  function ParentList2Str(l: seq<nat>): string {
    if l == [] then ""
    else (if l[0] != 0 then Decimal(l[0]) + "|" else "") + ParentList2Str(l[1..])
  }

  // ---------------------------------------------------------------- lemmas

  lemma {:induction false} DigitsValueSnoc(s: string, c: char)
    requires forall i :: 0 <= i < |s| ==> IsDigit(s[i])
    requires IsDigit(c)
    ensures DigitsValue(s + [c]) == DigitsValue(s) * 10 + DigitValue(c)
  {
    assert (s + [c])[..|s + [c]| - 1] == s;
  }

  /** Reading back a printed number gives the number. */
  lemma {:induction false} DecimalRoundTrip(n: nat)
    ensures DigitsValue(Decimal(n)) == n
    decreases n
  {
    if n < 10 {
      assert Decimal(n)[..0] == [];
    } else {
      DecimalRoundTrip(n / 10);
      DigitsValueSnoc(Decimal(n / 10), DigitChar(n % 10));
    }
  }

  lemma {:induction false} DigitRunAll(s: string, rest: string)
    requires forall i :: 0 <= i < |s| ==> IsDigit(s[i])
    requires rest == [] || !IsDigit(rest[0])
    ensures DigitRun(s + rest) == |s|
    decreases |s|
  {
    if s == [] {
      assert s + rest == rest;
    } else {
      assert (s + rest)[1..] == s[1..] + rest;
      DigitRunAll(s[1..], rest);
    }
  }

  lemma {:induction false} TokenLenAll(s: string, rest: string)
    requires forall i :: 0 <= i < |s| ==> s[i] != '|'
    requires rest == [] || rest[0] == '|'
    ensures TokenLen(s + rest) == |s|
    decreases |s|
  {
    if s == [] {
      assert s + rest == rest;
    } else {
      assert (s + rest)[1..] == s[1..] + rest;
      TokenLenAll(s[1..], rest);
    }
  }

  /** The token of a printed number parses back to the number. */
  lemma ParseDecimal(n: nat)
    ensures ParseToken(Decimal(n)) == n
  {
    var d := Decimal(n);
    DigitRunAll(d, []);
    assert d + [] == d;
    assert d[..|d|] == d;
    DecimalRoundTrip(n);
  }

  /** strtok_r splits a printed list back into the printed numbers. */
  lemma {:induction false} TokensOfPrinted(l: seq<nat>)
    ensures |Tokens(ParentList2Str(l))| == |NonZero(l)|
    ensures forall i :: 0 <= i < |NonZero(l)| ==>
              Tokens(ParentList2Str(l))[i] == Decimal(NonZero(l)[i])
    decreases |l|
  {
    if l != [] {
      TokensOfPrinted(l[1..]);
      var rest := ParentList2Str(l[1..]);
      if l[0] != 0 {
        var d := Decimal(l[0]);
        var s := d + "|" + rest;
        assert ParentList2Str(l) == s;
        TokenLenAll(d, "|" + rest);
        assert s == d + ("|" + rest);
        assert s[|d|..] == "|" + rest;
        assert s[..|d|] == d;
        assert Tokens(s[|d|..]) == Tokens(rest) by {
          assert ("|" + rest)[1..] == rest;
        }
        assert Tokens(s) == [d] + Tokens(rest);
        assert NonZero(l) == [l[0]] + NonZero(l[1..]);
      } else {
        assert ParentList2Str(l) == rest by {
          assert "" + rest == rest;
        }
        assert NonZero(l) == NonZero(l[1..]) by {
          assert [] + NonZero(l[1..]) == NonZero(l[1..]);
        }
      }
    }
  }

  /** Printing a list and parsing it back gives the nonzero entries, cut to
      the room the reader provides: the zero a caller writes to drop one
      parent really drops it. */
  lemma ParentListRoundTrip(l: seq<nat>, maxsize: nat)
    requires maxsize > 0
    ensures var nz := NonZero(l);
            Str2ParentList(ParentList2Str(l), maxsize)
            == if |nz| <= maxsize then nz else nz[..maxsize]
  {
    var nz := NonZero(l);
    TokensOfPrinted(l);
    var r := Str2ParentList(ParentList2Str(l), maxsize);
    forall i | 0 <= i < |r| ensures r[i] == nz[i] {
      ParseDecimal(nz[i]);
    }
  }

  /** Dropping one parent by zeroing it and re-printing: the list read back
      has one entry less when the zeroed entry was a nonzero one. */
  lemma DropParentShrinks(l: seq<nat>, i: nat)
    requires i < |l| && l[i] != 0
    ensures |NonZero(l[i := 0])| + 1 == |NonZero(l)|
  {
    NonZeroSplit(l, i);
    NonZeroSplit(l[i := 0], i);
    assert l[i := 0][..i] == l[..i];
    assert l[i := 0][i + 1..] == l[i + 1..];
  }

  lemma {:induction false} NonZeroConcat(a: seq<nat>, b: seq<nat>)
    ensures NonZero(a + b) == NonZero(a) + NonZero(b)
    decreases |a|
  {
    if a == [] {
      assert a + b == b;
    } else {
      assert (a + b)[1..] == a[1..] + b;
      NonZeroConcat(a[1..], b);
    }
  }

  lemma NonZeroSplit(l: seq<nat>, i: nat)
    requires i < |l|
    ensures |NonZero(l)| == |NonZero(l[..i])| + (if l[i] != 0 then 1 else 0) + |NonZero(l[i + 1..])|
  {
    assert l == l[..i] + ([l[i]] + l[i + 1..]);
    NonZeroConcat(l[..i], [l[i]] + l[i + 1..]);
    NonZeroConcat([l[i]], l[i + 1..]);
    assert [l[i]][1..] == [];
  }
}

=== FILE: removal.dfy ===
/** The operations that take names away: detach, destroy_orphaned_file,
    unlink and rmdir in cortxfs/efs, and the two kvsns unlinks (the
    parent-list one and the tree one). */
module Removal {
  import opened Errno
  import opened InodeAttr
  import opened Namespace
  import ParentList

  /** kvtree_detach / efs_tree_detach / kvsns_tree_detach: remove one
      dentry; a missing one is ENOENT. */
  function RemoveDentry(fs: Fs, parent: Ino, name: string): (r: Result<Fs>)
    ensures r.Ok? <==> Dentry(parent, name) in fs.dentries
    ensures r.Err? ==> r.code == ENOENT
    ensures r.Ok? ==> r.value == fs.(dentries := fs.dentries - {Dentry(parent, name)})
  {
    if Dentry(parent, name) in fs.dentries
    then Ok(fs.(dentries := fs.dentries - {Dentry(parent, name)}))
    else Err(ENOENT)
  }

  /** cfs_detach / efs_detach as written: DELETE_ENTITY access on the
      parent, then, with no rollback behind the transaction bracket, the
      dentry goes, the object loses one link (with a fresh ctime) and
      cortxfs stamps the parent.  A failing step keeps the steps before it:
      a refused decrement leaves the name removed. */
  function DetachAsWritten(fork: Fork, fs: Fs, cred: Cred, parent: Ino, obj: Ino, name: string, t: Time)
    : (r: Outcome<()>)
    requires fork != Kvsns
    ensures Access(fork, fs, cred, parent, DELETE_ENTITY).Err? || Dentry(parent, name) !in fs.dentries ==>
              r.res.Err? && r.fs == fs
    ensures Access(fork, fs, cred, parent, DELETE_ENTITY).Ok? && Dentry(parent, name) in fs.dentries ==>
              r.fs.dentries == fs.dentries - {Dentry(parent, name)}
    ensures r.fs.stats.Keys == fs.stats.Keys && r.fs.objects == fs.objects && r.fs.symlinks == fs.symlinks
    ensures r.res.Err? && Access(fork, fs, cred, parent, DELETE_ENTITY).Ok? && Dentry(parent, name) in fs.dentries
            ==> r.res.code == (if obj in fs.stats then EINVAL else ENOENT) && r.fs.stats == fs.stats
  {
    var a := Access(fork, fs, cred, parent, DELETE_ENTITY);
    if a.Err? then Outcome(fs, Err(a.code))
    else
      var o1 := Step(fs, RemoveDentry(fs, parent, name));
      if o1.res.Err? then o1
      else
        var o2 := Step(o1.fs, UpdateStat(fork, o1.fs, obj, {CtimeSet, DecrLink}, t));
        if o2.res.Err? || fork != Cortxfs then o2
        else Step(o2.fs, UpdateStat(fork, o2.fs, parent, {CtimeSet, MtimeSet}, t))
  }

  /** detach as its transaction bracket intends it: every write or none. */
  function Detach(fork: Fork, fs: Fs, cred: Cred, parent: Ino, obj: Ino, name: string, t: Time)
    : (r: Result<Fs>)
    requires fork != Kvsns
    ensures r.Ok? ==> Access(fork, fs, cred, parent, DELETE_ENTITY).Ok?
    ensures r.Ok? ==> Dentry(parent, name) in fs.dentries && obj in fs.stats
                      && fs.stats[obj].nlink > 0
    ensures r.Ok? ==> r.value.dentries == fs.dentries - {Dentry(parent, name)}
    ensures r.Ok? && obj != parent ==>
              obj in r.value.stats && r.value.stats[obj].nlink == fs.stats[obj].nlink - 1
    ensures r.Ok? ==> r.value.stats.Keys == fs.stats.Keys && r.value.objects == fs.objects
                      && r.value.symlinks == fs.symlinks
    ensures Access(fork, fs, cred, parent, DELETE_ENTITY).Ok? && Dentry(parent, name) in fs.dentries
            && obj in fs.stats && fs.stats[obj].nlink > 0 && (fork == Cortxfs ==> obj != parent)
            ==> r.Ok?
  {
    assert Incr({CtimeSet, DecrLink}) == 0 && Decr({CtimeSet, DecrLink}) == 1;
    Atomic(DetachAsWritten(fork, fs, cred, parent, obj, name, t))
  }

  /** Detaching a name whose object has no link left to take: the
      decrement is refused after the dentry went, so as written the name is
      gone although the call failed; the intended detach keeps it. */
  lemma DetachAtZeroLinksDropsName(fork: Fork, fs: Fs, cred: Cred, parent: Ino, obj: Ino, name: string, t: Time)
    requires fork != Kvsns
    requires Access(fork, fs, cred, parent, DELETE_ENTITY).Ok? && Dentry(parent, name) in fs.dentries
    requires obj in fs.stats && fs.stats[obj].nlink == 0
    ensures var w := DetachAsWritten(fork, fs, cred, parent, obj, name, t);
            w.res == Err(EINVAL) && Dentry(parent, name) !in w.fs.dentries && w.fs.stats == fs.stats
    ensures Detach(fork, fs, cred, parent, obj, name, t) == Err(EINVAL)
  {
    assert !LinkChangeAllowed(0, {CtimeSet, DecrLink});
  }

  /** cfs_destroy_orphaned_file / efs_destroy_orphaned_file: nothing while
      the file still has links; otherwise its stat goes, then the symlink
      text of a symlink or the data object of a regular file.  These run
      outside any transaction, so a missing text or object leaves the stat
      already deleted.  (A directory never gets here: rmdir handles
      those.) */
  function DestroyOrphanedFile(fs: Fs, ino: Ino): (r: Outcome<()>)
    ensures r.res.Ok? <==> ino in fs.stats
                           && (fs.stats[ino].nlink == 0 && IsLnk(fs.stats[ino].mode) ==> ino in fs.symlinks)
                           && (fs.stats[ino].nlink == 0 && IsReg(fs.stats[ino].mode) ==> ino in fs.objects)
    ensures r.res.Err? ==> r.res.code == ENOENT
    ensures ino !in fs.stats || fs.stats[ino].nlink > 0 ==> r.fs == fs
    ensures ino in fs.stats && fs.stats[ino].nlink == 0 ==>
              r.fs.stats == fs.stats - {ino}
              && r.fs.symlinks == (if IsLnk(fs.stats[ino].mode) then fs.symlinks - {ino} else fs.symlinks)
              && r.fs.objects == (if IsReg(fs.stats[ino].mode) then fs.objects - {ino} else fs.objects)
              && r.fs.dentries == fs.dentries
  {
    if ino !in fs.stats then Outcome(fs, Err(ENOENT))
    else
      var st := fs.stats[ino];
      if st.nlink > 0 then Outcome(fs, Ok(()))
      else
        var fs1 := fs.(stats := fs.stats - {ino});
        if IsLnk(st.mode) then
          if ino in fs.symlinks then Outcome(fs1.(symlinks := fs.symlinks - {ino}), Ok(()))
          else Outcome(fs1, Err(ENOENT))
        else if IsReg(st.mode) then
          if ino in fs.objects then Outcome(fs1.(objects := fs.objects - {ino}), Ok(()))
          else Outcome(fs1, Err(ENOENT))
        else Outcome(fs1, Ok(()))
  }

  /** cfs_unlink / efs_unlink: detach the name (looking the inode up unless
      the caller passes it), then destroy the object if that was its last
      link; each step keeps what the one before it wrote. */
  function Unlink(fork: Fork, fs: Fs, cred: Cred, dir: Ino, fino: Option<Ino>, name: string, t: Time)
    : (r: Outcome<()>)
    requires fork != Kvsns
  {
    var l := if fino.Some? then Ok(fino.value) else Lookup(fork, fs, cred, dir, name);
    if l.Err? then Outcome(fs, Err(l.code))
    else
      var d := DetachAsWritten(fork, fs, cred, dir, l.value, name, t);
      if d.res.Err? then d else DestroyOrphanedFile(d.fs, l.value)
  }

  /** Unlinking one of several links only detaches: the object, its stat
      record and its data all survive. */
  lemma UnlinkKeepsLinkedObject(fork: Fork, fs: Fs, cred: Cred, dir: Ino, ino: Ino, name: string, t: Time)
    requires fork != Kvsns && ino != dir
    requires Unlink(fork, fs, cred, dir, Some(ino), name, t).res.Ok?
    requires ino in fs.stats && fs.stats[ino].nlink > 1
    ensures var fs2 := Unlink(fork, fs, cred, dir, Some(ino), name, t).fs;
            ino in fs2.stats && fs2.stats[ino].nlink == fs.stats[ino].nlink - 1
            && fs2.objects == fs.objects && fs2.dentries == fs.dentries - {Dentry(dir, name)}
  {
  }

  /** Unlinking the last link removes the object's stat and its data. */
  lemma UnlinkLastLinkDestroys(fork: Fork, fs: Fs, cred: Cred, dir: Ino, ino: Ino, name: string, t: Time)
    requires fork != Kvsns && ino != dir
    requires Unlink(fork, fs, cred, dir, Some(ino), name, t).res.Ok?
    requires ino in fs.stats && fs.stats[ino].nlink == 1 && IsReg(fs.stats[ino].mode)
    ensures var fs2 := Unlink(fork, fs, cred, dir, Some(ino), name, t).fs;
            ino !in fs2.stats && ino !in fs2.objects
  {
  }

  /** Link then unlink of the new name gives back the directory entries and
      the link count the object had before. */
  lemma LinkUnlinkRoundTrip(fork: Fork, fs: Fs, cred: Cred, ino: Ino, dino: Ino, dname: string,
                            t1: Time, t2: Time)
    requires fork != Kvsns && ino != dino
    requires ino in fs.stats && fs.stats[ino].nlink > 0
    requires Link(fork, fs, cred, ino, dino, dname, t1).Ok?
    requires Access(fork, Link(fork, fs, cred, ino, dino, dname, t1).value, cred, dino, DELETE_ENTITY).Ok?
    ensures var fs1 := Link(fork, fs, cred, ino, dino, dname, t1).value;
            var r := Unlink(fork, fs1, cred, dino, Some(ino), dname, t2);
            r.res.Ok? && r.fs.dentries == fs.dentries
            && ino in r.fs.stats && r.fs.stats[ino].nlink == fs.stats[ino].nlink
  {
    var fs1 := Link(fork, fs, cred, ino, dino, dname, t1).value;
    assert fs1.dentries - {Dentry(dino, dname)} == fs.dentries;
    assert Incr({CtimeSet, DecrLink}) == 0 && Decr({CtimeSet, DecrLink}) == 1;
    var d := Detach(fork, fs1, cred, dino, ino, dname, t2);
    assert d.Ok?;
    assert d.value.stats[ino].nlink == fs.stats[ino].nlink;
  }

  /** The checks rmdir makes before its transaction: WRITE access on the
      parent, the lookup, and ENOTEMPTY while the directory has entries.
      None of the forks checks that the name denotes a directory. */
  function RmdirChecks(fork: Fork, fs: Fs, cred: Cred, parent: Ino, name: string): (r: Result<Ino>)
    ensures r.Ok? <==> Access(fork, fs, cred, parent, {WriteReq}).Ok? && Lookup(fork, fs, cred, parent, name).Ok?
                       && !HasChildren(fs, Lookup(fork, fs, cred, parent, name).value)
    ensures r.Ok? ==> parent in fs.stats && r.value == Lookup(fork, fs, cred, parent, name).value
  {
    var _ :- Access(fork, fs, cred, parent, {WriteReq});
    var ino :- Lookup(fork, fs, cred, parent, name);
    if HasChildren(fs, ino) then Err(ENOTEMPTY) else Ok(ino)
  }

  /** The writes of rmdir inside its transaction, in the code's order; the
      transaction has no rollback, so a failing step keeps the steps before
      it.  cortxfs/efs detach the name, delete the directory's stat and take
      the parent's link (cortxfs also stamps the parent and drops the
      directory's object id); kvsns deletes the dentry, "<ino>.parentdir"
      and "<ino>.stat" and stamps the parent stat it read before the
      transaction. */
  function RmdirSteps(fork: Fork, fs: Fs, parent: Ino, ino: Ino, name: string, t: Time)
    : (r: Outcome<()>)
    requires parent in fs.stats
    ensures Dentry(parent, name) !in fs.dentries ==> r == Outcome(fs, Err(ENOENT))
    ensures Dentry(parent, name) in fs.dentries ==> r.fs.dentries == fs.dentries - {Dentry(parent, name)}
    ensures Dentry(parent, name) in fs.dentries && ino in fs.stats && ino != parent && (fork != Kvsns || r.res.Ok?)
            ==> ino !in r.fs.stats
    ensures r.fs.symlinks == fs.symlinks && r.fs.stats.Keys <= fs.stats.Keys
    ensures r.res.Err? ==> r.res.code in {ENOENT, EINVAL}
  {
    if Dentry(parent, name) !in fs.dentries then Outcome(fs, Err(ENOENT))
    else
      var fs1 := fs.(dentries := fs.dentries - {Dentry(parent, name)});
      if fork == Kvsns then
        if ino !in fs1.parentLists then Outcome(fs1, Err(ENOENT))
        else
          var fs2 := fs1.(parentLists := fs1.parentLists - {ino});
          if ino !in fs2.stats then Outcome(fs2, Err(ENOENT))
          else
            var pst2 := Amend(fork, fs.stats[parent], {CtimeSet, MtimeSet}, t).value;
            Outcome(fs2.(stats := (fs2.stats - {ino})[parent := pst2]), Ok(()))
      else if ino !in fs1.stats then Outcome(fs1, Err(ENOENT))
      else
        var fs2 := fs1.(stats := fs1.stats - {ino});
        if fork == Cortxfs then
          var o3 := Step(fs2, UpdateStat(fork, fs2, parent, {DecrLink, MtimeSet, CtimeSet}, t));
          if o3.res.Err? then o3
          else if ino in o3.fs.objects then Outcome(o3.fs.(objects := o3.fs.objects - {ino}), Ok(()))
          else Outcome(o3.fs, Err(ENOENT))
        else Step(fs2, UpdateStat(fork, fs2, parent, {DecrLink}, t))
  }

  /** cfs_rmdir / efs_rmdir / kvsns_rmdir as written: after the checks the
      steps run with no rollback, and in cortxfs/efs the discard's own
      return code (0) replaces the error of a failing step, so the call
      reports success over whatever the steps before the failure wrote. */
  function RmdirAsWritten(fork: Fork, fs: Fs, cred: Cred, parent: Ino, name: string, t: Time)
    : (r: Outcome<()>)
    ensures RmdirChecks(fork, fs, cred, parent, name).Err? ==>
              r == Outcome(fs, Err(RmdirChecks(fork, fs, cred, parent, name).code))
    ensures RmdirChecks(fork, fs, cred, parent, name).Ok? && fork != Kvsns ==> r.res.Ok?
    ensures Rmdir(fork, fs, cred, parent, name, t).Ok? ==>
              r == Outcome(Rmdir(fork, fs, cred, parent, name, t).value, Ok(()))
    ensures r.res.Err? ==> Rmdir(fork, fs, cred, parent, name, t) == Err(r.res.code)
    ensures RmdirChecks(fork, fs, cred, parent, name).Ok? && Dentry(parent, name) in fs.dentries ==>
              r.fs.dentries == fs.dentries - {Dentry(parent, name)}
  {
    var c := RmdirChecks(fork, fs, cred, parent, name);
    if c.Err? then Outcome(fs, Err(c.code))
    else
      var o := RmdirSteps(fork, fs, parent, c.value, name, t);
      if fork == Kvsns then o else Outcome(o.fs, Ok(()))
  }

  /** rmdir as its transaction bracket intends it: the checks, then every
      write or none, with the error of a failing step reported. */
  function Rmdir(fork: Fork, fs: Fs, cred: Cred, parent: Ino, name: string, t: Time): (r: Result<Fs>)
    ensures Access(fork, fs, cred, parent, {WriteReq}).Err? ==> r.Err?
    ensures r.Ok? ==> Lookup(fork, fs, cred, parent, name).Ok?
    ensures Access(fork, fs, cred, parent, {WriteReq}).Ok? && Lookup(fork, fs, cred, parent, name).Ok?
            && HasChildren(fs, Lookup(fork, fs, cred, parent, name).value)
            ==> r == Err(ENOTEMPTY)
    ensures r.Ok? ==> var ino := Lookup(fork, fs, cred, parent, name).value;
                      !HasChildren(fs, ino) && ino !in r.value.stats
                      && r.value.dentries == fs.dentries - {Dentry(parent, name)}
    ensures r.Ok? && fork != Kvsns && Lookup(fork, fs, cred, parent, name).value != parent ==>
              parent in r.value.stats && r.value.stats[parent].nlink == fs.stats[parent].nlink - 1
    ensures r.Ok? && fork == Kvsns && Lookup(fork, fs, cred, parent, name).value != parent ==>
              parent in r.value.stats && r.value.stats[parent].nlink == fs.stats[parent].nlink
  {
    assert Incr({DecrLink, MtimeSet, CtimeSet}) == 0 && Decr({DecrLink, MtimeSet, CtimeSet}) == 1;
    assert Incr({DecrLink}) == 0 && Decr({DecrLink}) == 1;
    assert Incr({CtimeSet, MtimeSet}) == 0 && Decr({CtimeSet, MtimeSet}) == 0;
    var ino :- RmdirChecks(fork, fs, cred, parent, name);
    Atomic(RmdirSteps(fork, fs, parent, ino, name, t))
  }

  /** rmdir of ".." at the root of an empty cortxfs/efs file system: the
      lookup answers with the root itself, which has no entries, and the
      detach of the missing ".." entry fails.  As written the call reports
      success; with the error kept it is ENOENT. */
  lemma RmdirAsWrittenHidesFailure(fork: Fork, fs: Fs, t: Time)
    requires fork != Kvsns
    requires ROOT_INODE in fs.stats && fs.dentries == map[]
    ensures RmdirAsWritten(fork, fs, Cred(ROOT_UID, 0), ROOT_INODE, "..", t) == Outcome(fs, Ok(()))
    ensures Rmdir(fork, fs, Cred(ROOT_UID, 0), ROOT_INODE, "..", t) == Err(ENOENT)
  {
  }

  /** cortxfs rmdir of an empty directory that has no object id: as
      written the call reports success with the name and the stat gone and
      the parent's link taken; the intended rmdir reports ENOENT and
      removes nothing. */
  lemma CortxfsRmdirWithoutObjectId(fs: Fs, cred: Cred, parent: Ino, name: string, t: Time)
    requires RmdirChecks(Cortxfs, fs, cred, parent, name).Ok?
    requires var ino := RmdirChecks(Cortxfs, fs, cred, parent, name).value;
             ino != parent && ino in fs.stats && ino !in fs.objects
    requires Dentry(parent, name) in fs.dentries && fs.stats[parent].nlink > 0
    ensures var w := RmdirAsWritten(Cortxfs, fs, cred, parent, name, t);
            var ino := RmdirChecks(Cortxfs, fs, cred, parent, name).value;
            w.res.Ok? && Dentry(parent, name) !in w.fs.dentries && ino !in w.fs.stats
            && parent in w.fs.stats && w.fs.stats[parent].nlink == fs.stats[parent].nlink - 1
    ensures Rmdir(Cortxfs, fs, cred, parent, name, t) == Err(ENOENT)
  {
    assert Incr({DecrLink, MtimeSet, CtimeSet}) == 0 && Decr({DecrLink, MtimeSet, CtimeSet}) == 1;
    assert LinkChangeAllowed(fs.stats[parent].nlink, {DecrLink, MtimeSet, CtimeSet});
  }

  /** efs_rmdir of an empty directory, other than the parent, that the
      caller may look up in a parent it may write: the name goes, the
      directory's stat goes, and the parent loses the link the
      directory's ".." held. */
  lemma EfsRmdirRemovesEmptyDir(fs: Fs, cred: Cred, parent: Ino, name: string, t: Time)
    requires parent in fs.stats && Permitted(Efs, cred, fs.stats[parent], {WriteReq})
    requires Lookup(Efs, fs, cred, parent, name).Ok? && !RootDotDot(Efs, parent, name)
    requires var ino := Lookup(Efs, fs, cred, parent, name).value;
             ino != parent && ino in fs.stats && !HasChildren(fs, ino)
    requires fs.stats[parent].nlink > 0
    ensures var ino := Lookup(Efs, fs, cred, parent, name).value;
            var r := Rmdir(Efs, fs, cred, parent, name, t);
            r.Ok? && r.value.dentries == fs.dentries - {Dentry(parent, name)}
            && r.value.stats.Keys == fs.stats.Keys - {ino}
            && r.value.stats[parent].nlink == fs.stats[parent].nlink - 1
  {
    var ino := Lookup(Efs, fs, cred, parent, name).value;
    var fs1 := fs.(dentries := fs.dentries - {Dentry(parent, name)});
    assert RemoveDentry(fs, parent, name) == Ok(fs1);
    var fs2 := fs1.(stats := fs1.stats - {ino});
    assert LinkChangeAllowed(fs2.stats[parent].nlink, {DecrLink});
    var fs3 := UpdateStat(Efs, fs2, parent, {DecrLink}, t).value;
    assert RmdirSteps(Efs, fs, parent, ino, name, t) == Outcome(fs3, Ok(()));
    assert fs3.stats.Keys == fs.stats.Keys - {ino};
  }

  /** What create_entry leaves for a new directory: the parent is still
      writable, the name looks up to the new, empty directory, and
      nothing but the new inode joined the stats. */
  lemma EfsMkdirFacts(fs: Fs, cred: Cred, parent: Ino, name: string, mode: ModeBits, t: Time)
    requires NextInode(fs.counter).0 !in fs.stats && NextInode(fs.counter).0 != parent
    requires forall d :: d in fs.dentries ==> d.parent != NextInode(fs.counter).0
    requires CreateEntry(Efs, fs, cred, parent, name, None, mode, Dir, t).Ok?
    requires Permitted(Efs, cred, fs.stats[parent], {ReadReq, WriteReq})
    requires !RootDotDot(Efs, parent, name)
    ensures var (fs1, ino) := CreateEntry(Efs, fs, cred, parent, name, None, mode, Dir, t).value;
            && ino != parent && ino in fs1.stats && ino !in fs.stats
            && parent in fs1.stats && Permitted(Efs, cred, fs1.stats[parent], {WriteReq})
            && Lookup(Efs, fs1, cred, parent, name) == Ok(ino) && !HasChildren(fs1, ino)
            && fs1.dentries - {Dentry(parent, name)} == fs.dentries
            && fs1.stats.Keys == fs.stats.Keys + {ino}
            && fs1.stats[parent].nlink == fs.stats[parent].nlink + 1
  {
    var (fs1, ino) := CreateEntry(Efs, fs, cred, parent, name, None, mode, Dir, t).value;
    assert fs1.stats[parent].uid == fs.stats[parent].uid && fs1.stats[parent].gid == fs.stats[parent].gid
           && fs1.stats[parent].mode == fs.stats[parent].mode;
    assert Permitted(Efs, cred, fs1.stats[parent], {ReadReq});
    assert Permitted(Efs, cred, fs1.stats[parent], {WriteReq});
    assert !HasChildren(fs1, ino);
    assert fs1.dentries - {Dentry(parent, name)} == fs.dentries;
  }

  /** A directory made by create_entry and removed again by rmdir: the
      namespace, the set of inodes and the parent's link count are as
      before. */
  lemma MkdirRmdirRoundTrip(fs: Fs, cred: Cred, parent: Ino, name: string,
                            mode: ModeBits, t1: Time, t2: Time)
    requires NextInode(fs.counter).0 !in fs.stats && NextInode(fs.counter).0 != parent
    requires forall d :: d in fs.dentries ==> d.parent != NextInode(fs.counter).0
    requires CreateEntry(Efs, fs, cred, parent, name, None, mode, Dir, t1).Ok?
    requires Permitted(Efs, cred, fs.stats[parent], {ReadReq, WriteReq})
    requires !RootDotDot(Efs, parent, name)
    ensures var fs1 := CreateEntry(Efs, fs, cred, parent, name, None, mode, Dir, t1).value.0;
            var r := Rmdir(Efs, fs1, cred, parent, name, t2);
            r.Ok? && r.value.dentries == fs.dentries
            && r.value.stats.Keys == fs.stats.Keys
            && r.value.stats[parent].nlink == fs.stats[parent].nlink
  {
    var (fs1, ino) := CreateEntry(Efs, fs, cred, parent, name, None, mode, Dir, t1).value;
    EfsMkdirFacts(fs, cred, parent, name, mode, t1);
    EfsRmdirRemovesEmptyDir(fs1, cred, parent, name, t2);
  }

  // ---------------------------------------------------------------- kvsns unlink

  /** The parents kvsns_unlink reads back from "<ino>.parentdir", with
      KVSAL_ARRAY_SIZE entries of room. */
  function ReadParents(fs: Fs, ino: Ino): seq<nat>
    requires ino in fs.parentLists
  {
    ParentList.Str2ParentList(ParentList.ParentList2Str(fs.parentLists[ino]), ParentList.ARRAY_SIZE)
  }

  /** Zero the first occurrence of `x`, as the unlink loop does. */
  function ZeroFirst(l: seq<nat>, x: nat): (r: seq<nat>)
    ensures |r| == |l|
    ensures x !in l ==> r == l
    ensures forall i :: 0 <= i < |l| && r[i] != l[i] ==> l[i] == x && r[i] == 0
  {
    if l == [] then []
    else if l[0] == x then [0] + l[1..]
    else [l[0]] + ZeroFirst(l[1..], x)
  }

  /** The link bookkeeping of kvsns_unlink.  With one parent this was the
      last link: parentdir and stat go, and an open file is marked
      opened_and_deleted.  Otherwise this directory is zeroed in the list,
      the list is written back and the link count drops. */
  function KvsnsDropLink(fs: Fs, dir: Ino, ino: Ino, t: Time): (r: Result<Fs>)
    requires ino in fs.stats && ino in fs.parentLists
    ensures r.Ok? ==> r.value.dentries == fs.dentries && r.value.objects == fs.objects
                      && r.value.symlinks == fs.symlinks
    ensures |ReadParents(fs, ino)| == 1 ==>
              r == Ok(fs.(parentLists := fs.parentLists - {ino}, stats := fs.stats - {ino},
                          openedAndDeleted := if IsOpen(fs, ino) then fs.openedAndDeleted + {ino}
                                              else fs.openedAndDeleted))
    ensures r.Ok? && |ReadParents(fs, ino)| != 1 ==>
              r.value.parentLists == fs.parentLists[ino := ZeroFirst(ReadParents(fs, ino), dir)]
              && ino in r.value.stats
              && r.value.stats[ino].nlink == (fs.stats[ino].nlink + U64_LIMIT - 1) % U64_LIMIT
              && r.value.stats.Keys == fs.stats.Keys
  {
    var parents := ReadParents(fs, ino);
    if |parents| == 1 then
      Ok(fs.(parentLists := fs.parentLists - {ino}, stats := fs.stats - {ino},
             openedAndDeleted := if IsOpen(fs, ino) then fs.openedAndDeleted + {ino}
                                 else fs.openedAndDeleted))
    else
      assert Incr({CtimeSet, DecrLink}) == 0 && Decr({CtimeSet, DecrLink}) == 1;
      var st2 :- Amend(Kvsns, fs.stats[ino], {CtimeSet, DecrLink}, t);
      Ok(fs.(parentLists := fs.parentLists[ino := ZeroFirst(parents, dir)], stats := fs.stats[ino := st2]))
  }

  /** The metadata part of kvsns_unlink, inside its transaction.  With one
      parent this was the last link: parentdir and stat go, and an open
      file is marked opened_and_deleted.  Otherwise this directory is zeroed
      in the list, the list is written back and the link count drops.  Then
      the dentry goes, a symlink loses its text, and the directory stat read
      before the transaction is stamped and stored. */
  function KvsnsUnlinkMeta(fs: Fs, dir: Ino, name: string, ino: Ino, t: Time): (r: Result<Fs>)
    requires dir in fs.stats && ino in fs.stats && ino in fs.parentLists
    ensures r.Ok? ==> r.value.dentries == fs.dentries - {Dentry(dir, name)}
    ensures r.Ok? ==> r.value.objects == fs.objects
    ensures r.Ok? && |ReadParents(fs, ino)| == 1 ==>
              r.value.parentLists == fs.parentLists - {ino}
              && (ino != dir ==> ino !in r.value.stats)
              && (IsOpen(fs, ino) ==> ino in r.value.openedAndDeleted)
    ensures r.Ok? && |ReadParents(fs, ino)| != 1 ==>
              r.value.parentLists == fs.parentLists[ino := ZeroFirst(ReadParents(fs, ino), dir)]
              && ino in r.value.stats
              && (ino != dir ==> r.value.stats[ino].nlink
                                 == (fs.stats[ino].nlink + U64_LIMIT - 1) % U64_LIMIT)
  {
    var inoStat := fs.stats[ino];
    var fs1 :- KvsnsDropLink(fs, dir, ino, t);
    var fs2 :- RemoveDentry(fs1, dir, name);
    var fs3 :- if IsLnk(inoStat.mode) then
                 (if ino in fs2.symlinks then Ok(fs2.(symlinks := fs2.symlinks - {ino})) else Err(ENOENT))
               else Ok(fs2);
    var dirStat2 :- Amend(Kvsns, fs.stats[dir], {MtimeSet, CtimeSet}, t);
    Ok(fs3.(stats := fs3.stats[dir := dirStat2]))
  }

  /** kvsns_unlink, the parent-list version: WRITE access on the directory,
      the lookup, both stats and the parent list must be there; then the
      metadata changes, and, after the transaction, the data object is
      deleted unless the file is open (a missing object counts as deleted).
      `onlyLast` limits the deletion to the last link. */
  function KvsnsUnlinkWith(fs: Fs, cred: Cred, dir: Ino, name: string, t: Time, onlyLast: bool)
    : (r: Result<Fs>)
  {
    var _ :- Access(Kvsns, fs, cred, dir, {WriteReq});
    var ino :- Lookup(Kvsns, fs, cred, dir, name);
    var _ :- GetStat(fs, ino);
    if ino !in fs.parentLists then Err(ENOENT)
    else
      var fs4 :- KvsnsUnlinkMeta(fs, dir, name, ino, t);
      var dropData := !IsOpen(fs, ino) && (|ReadParents(fs, ino)| == 1 || !onlyLast);
      Ok(if dropData then fs4.(objects := fs4.objects - {ino}) else fs4)
  }

  /** kvsns_unlink as written: the data object is deleted whenever the file
      is not open, even when other names still reach it. */
  function KvsnsUnlinkAsWritten(fs: Fs, cred: Cred, dir: Ino, name: string, t: Time): (r: Result<Fs>)
    ensures r.Ok? <==> KvsnsUnlink(fs, cred, dir, name, t).Ok?
    ensures r.Ok? ==> var ino := Lookup(Kvsns, fs, cred, dir, name).value;
                      !IsOpen(fs, ino) ==> ino !in r.value.objects
  {
    KvsnsUnlinkWith(fs, cred, dir, name, t, false)
  }

  /** kvsns_unlink with the data deletion limited to the last link, as
      kvsns2_unlink does it. */
  function KvsnsUnlink(fs: Fs, cred: Cred, dir: Ino, name: string, t: Time): (r: Result<Fs>)
    ensures r.Ok? ==> Lookup(Kvsns, fs, cred, dir, name).Ok?
    ensures r.Ok? ==> r.value.dentries == fs.dentries - {Dentry(dir, name)}
    ensures r.Ok? ==> var ino := Lookup(Kvsns, fs, cred, dir, name).value;
                      ino in fs.parentLists
                      && (ino in r.value.objects <==>
                            ino in fs.objects && (IsOpen(fs, ino) || |ReadParents(fs, ino)| != 1))
  {
    KvsnsUnlinkWith(fs, cred, dir, name, t, true)
  }

  /** A parent list holding `[dir, other]` reads back as exactly that. */
  lemma ReadTwoParents(fs: Fs, ino: Ino, dir: Ino, other: Ino)
    requires ino in fs.parentLists && fs.parentLists[ino] == [dir, other] && dir != 0 && other != 0
    ensures ReadParents(fs, ino) == [dir, other]
  {
    var l := fs.parentLists[ino];
    ParentList.ParentListRoundTrip(l, ParentList.ARRAY_SIZE);
    assert ParentList.NonZero(l) == [dir, other] by {
      assert l[1..] == [other];
      assert l[1..][1..] == [];
    }
  }

  /** Unlinking one of two names of a closed file: the code as written
      deletes the data the other name still reaches; the intended unlink
      keeps it. */
  lemma KvsnsUnlinkDropsSharedData(fs: Fs, cred: Cred, dir: Ino, other: Ino, name: string, t: Time)
    requires KvsnsUnlink(fs, cred, dir, name, t).Ok?
    requires var ino := Lookup(Kvsns, fs, cred, dir, name).value;
             ino in fs.objects && !IsOpen(fs, ino) && ino in fs.parentLists
             && fs.parentLists[ino] == [dir, other] && dir != 0 && other != 0
    ensures var ino := Lookup(Kvsns, fs, cred, dir, name).value;
            ino in KvsnsUnlink(fs, cred, dir, name, t).value.objects
            && KvsnsUnlinkAsWritten(fs, cred, dir, name, t).Ok?
            && ino !in KvsnsUnlinkAsWritten(fs, cred, dir, name, t).value.objects
  {
    ReadTwoParents(fs, Lookup(Kvsns, fs, cred, dir, name).value, dir, other);
  }

  /** The intended kvsns unlink leaves the other parent in the list when
      another link remains, and the file keeps its stat. */
  lemma KvsnsUnlinkDropsOneParent(fs: Fs, cred: Cred, dir: Ino, other: Ino, name: string, t: Time)
    requires KvsnsUnlink(fs, cred, dir, name, t).Ok?
    requires var ino := Lookup(Kvsns, fs, cred, dir, name).value;
             ino in fs.parentLists && fs.parentLists[ino] == [dir, other]
             && dir != 0 && other != 0 && ino != dir
    ensures var ino := Lookup(Kvsns, fs, cred, dir, name).value;
            var r := KvsnsUnlink(fs, cred, dir, name, t).value;
            ino in r.parentLists && ReadParents(r, ino) == [other] && ino in r.stats
  {
    var ino := Lookup(Kvsns, fs, cred, dir, name).value;
    ReadTwoParents(fs, ino, dir, other);
    var m := KvsnsUnlinkMeta(fs, dir, name, ino, t);
    assert m.Ok?;
    var r := KvsnsUnlink(fs, cred, dir, name, t).value;
    assert r.parentLists == m.value.parentLists && r.stats == m.value.stats;
    var z := ZeroFirst([dir, other], dir);
    assert z == [0, other];
    assert r.parentLists[ino] == z;
    ParentList.ParentListRoundTrip(z, ParentList.ARRAY_SIZE);
    assert ParentList.NonZero(z) == [other] by {
      assert z[1..] == [other];
      assert z[1..][1..] == [];
    }
  }

  /** What kvsns2_unlink checks before its first write: WRITE access on the
      directory, the lookup, and both stats. */
  predicate Kvsns2Unlinkable(fs: Fs, cred: Cred, dir: Ino, name: string)
  {
    Access(Kvsns, fs, cred, dir, {WriteReq}).Ok? && Lookup(Kvsns, fs, cred, dir, name).Ok?
    && dir in fs.stats && Lookup(Kvsns, fs, cred, dir, name).value in fs.stats
  }

  /** kvsns2_unlink, the tree version: WRITE access, lookup, both stats (the
      directory's read now, before any write); then, behind a transaction
      bracket with no rollback, the dentry goes, a link count of 1 deletes
      the stat (marking an open file opened_and_deleted), a larger one is
      decremented, a symlink loses its text and the directory stat read at
      the start is stamped and stored.  A symlink without text stops the
      call there with the earlier writes kept.  Last, the data of a closed
      regular file whose last link this was is deleted: extstore_ino_to_fid
      must find its object, or the call fails with ENOENT after all the
      metadata writes (extstore2_del itself forgives a missing object). */
  function Kvsns2Unlink(fs: Fs, cred: Cred, dir: Ino, name: string, t: Time): (r: Outcome<()>)
    ensures !Kvsns2Unlinkable(fs, cred, dir, name) ==>
              r.res.Err? && r.fs == fs
    ensures Kvsns2Unlinkable(fs, cred, dir, name) ==>
              var ino := Lookup(Kvsns, fs, cred, dir, name).value;
              r.fs.dentries == fs.dentries - {Dentry(dir, name)}
              && (r.res.Err? <==> LinkTextMissing(fs, ino) || DataObjectMissing(fs, ino))
              && (r.res.Err? ==> r.res.code == ENOENT)
              && (DataObjectMissing(fs, ino) ==> dir in r.fs.stats && r.fs.stats[dir].nlink == fs.stats[dir].nlink)
              && (fs.stats[ino].nlink == 1 && (ino != dir || LinkTextMissing(fs, ino)) ==> ino !in r.fs.stats)
              && (fs.stats[ino].nlink == 1 && IsOpen(fs, ino) ==> ino in r.fs.openedAndDeleted)
              && (fs.stats[ino].nlink > 1 && (ino != dir || r.res.Err?) ==>
                    ino in r.fs.stats && r.fs.stats[ino].nlink == fs.stats[ino].nlink - 1)
              && (IsOpen(fs, ino) || fs.stats[ino].nlink != 1 || r.res.Err? ==> r.fs.objects == fs.objects)
              && (r.res.Ok? && !IsOpen(fs, ino) && fs.stats[ino].nlink == 1 && !(S_IFLNK <= fs.stats[ino].mode)
                  ==> ino !in r.fs.objects)
              && (r.res.Ok? ==> dir in r.fs.stats && r.fs.stats[dir].nlink == fs.stats[dir].nlink)
  {
    var a := Access(Kvsns, fs, cred, dir, {WriteReq});
    var l := Lookup(Kvsns, fs, cred, dir, name);
    if a.Err? then Outcome(fs, Err(a.code))
    else if l.Err? then Outcome(fs, Err(l.code))
    else if dir !in fs.stats || l.value !in fs.stats then Outcome(fs, Err(ENOENT))
    else
      var ino := l.value;
      var dirStat := fs.stats[dir];
      var inoStat := fs.stats[ino];
      var isOpen := IsOpen(fs, ino);
      var fs1 := fs.(dentries := fs.dentries - {Dentry(dir, name)});
      var size := inoStat.nlink;
      var fs2 :=
        if size == 1 then
          fs1.(stats := fs1.stats - {ino},
               openedAndDeleted := if isOpen then fs1.openedAndDeleted + {ino} else fs1.openedAndDeleted)
        else if size > 1 then fs1.(stats := fs1.stats[ino := inoStat.(nlink := size - 1)])
        else fs1;
      // The symlink test is `(st_mode & S_IFLNK) == S_IFLNK`.
      var isLink := S_IFLNK <= inoStat.mode;
      if isLink && ino !in fs2.symlinks then Outcome(fs2, Err(ENOENT))
      else
        var fs3 := if isLink then fs2.(symlinks := fs2.symlinks - {ino}) else fs2;
        var dirStat2 := Amend(Kvsns, dirStat, {MtimeSet, CtimeSet}, t).value;
        var fs4 := fs3.(stats := fs3.stats[dir := dirStat2]);
        if !isOpen && !isLink && size == 1 then
          if ino !in fs4.objects then Outcome(fs4, Err(ENOENT))
          else Outcome(fs4.(objects := fs4.objects - {ino}), Ok(()))
        else Outcome(fs4, Ok(()))
  }

  /** A symlink (by kvsns2_unlink's bit test) whose text is not stored. */
  predicate LinkTextMissing(fs: Fs, ino: Ino)
    requires ino in fs.stats
  {
    S_IFLNK <= fs.stats[ino].mode && ino !in fs.symlinks
  }

  /** The last link of a closed file that is not a symlink, whose data
      object extstore_ino_to_fid cannot find. */
  predicate DataObjectMissing(fs: Fs, ino: Ino)
    requires ino in fs.stats
  {
    fs.stats[ino].nlink == 1 && !IsOpen(fs, ino) && !(S_IFLNK <= fs.stats[ino].mode) && ino !in fs.objects
  }

  /** kvsns2_unlink of a name that is not a symlink, which the caller may
      look up in a directory the caller may write, succeeds exactly when
      the data object is there to delete or nothing is to be deleted: the
      file is open or this is not its last link. */
  lemma Kvsns2UnlinkSucceeds(fs: Fs, cred: Cred, dir: Ino, name: string, t: Time)
    requires dir in fs.stats && Permitted(Kvsns, cred, fs.stats[dir], {WriteReq})
    requires Lookup(Kvsns, fs, cred, dir, name).Ok?
    requires var ino := Lookup(Kvsns, fs, cred, dir, name).value;
             ino in fs.stats && !(S_IFLNK <= fs.stats[ino].mode)
    ensures var ino := Lookup(Kvsns, fs, cred, dir, name).value;
            Kvsns2Unlink(fs, cred, dir, name, t).res.Ok?
            <==> ino in fs.objects || IsOpen(fs, ino) || fs.stats[ino].nlink != 1
  {
  }

  /** The last unlink of a closed regular file without its data object
      fails with ENOENT at extstore_ino_to_fid, after the name, the stat and
      the directory's stamp are already stored. */
  lemma Kvsns2UnlinkMissingObjectFails(fs: Fs, cred: Cred, dir: Ino, name: string, t: Time)
    requires Kvsns2Unlinkable(fs, cred, dir, name)
    requires var ino := Lookup(Kvsns, fs, cred, dir, name).value;
             ino != dir && DataObjectMissing(fs, ino)
    ensures var r := Kvsns2Unlink(fs, cred, dir, name, t);
            var ino := Lookup(Kvsns, fs, cred, dir, name).value;
            r.res == Err(ENOENT) && Dentry(dir, name) !in r.fs.dentries && ino !in r.fs.stats
            && r.fs.stats[dir] == Amend(Kvsns, fs.stats[dir], {MtimeSet, CtimeSet}, t).value
  {
  }

  /** kvsns2_unlink of a symlink whose text is missing: the call fails with
      ENOENT, yet the name and the link count it took are already gone. */
  lemma Kvsns2UnlinkKeepsDetachOnFailure(fs: Fs, cred: Cred, dir: Ino, name: string, t: Time)
    requires Kvsns2Unlinkable(fs, cred, dir, name)
    requires var ino := Lookup(Kvsns, fs, cred, dir, name).value;
             S_IFLNK <= fs.stats[ino].mode && ino !in fs.symlinks && fs.stats[ino].nlink == 1
    ensures var r := Kvsns2Unlink(fs, cred, dir, name, t);
            r.res == Err(ENOENT) && Dentry(dir, name) !in r.fs.dentries
            && Lookup(Kvsns, fs, cred, dir, name).value !in r.fs.stats
  {
  }
}

=== FILE: rename.dfy ===
/** rename in the three forks.  cortxfs and efs share one body; they
    differ in the directory the moved entry is attached under and in the
    inode whose link count drops when a directory moves.  kvsns has its own
    body, which never touches link counts.  rename runs without a
    transaction in every fork, so each operation returns the state its
    steps left together with the first error. */
module Rename {
  import opened Errno
  import opened InodeAttr
  import opened Namespace
  import opened Removal

  /** The arguments of rename: source and destination (directory, name),
      the optional already-known inodes `psrc`/`pdst`, and the
      `is_dst_open` flag of the rename flags. */
  datatype Args = Args(sdir: Ino, sname: string, psrc: Option<Ino>,
                       ddir: Ino, dname: string, pdst: Option<Ino>, isDstOpen: bool)

  /** The requirements rename asserts of its callers: both names within
      NAME_MAX and not the same entry. */
  predicate ValidArgs(a: Args) {
    |a.sname| <= NAME_MAX && |a.dname| <= NAME_MAX && (a.sdir != a.ddir || a.sname != a.dname)
  }

  /** How a cortxfs/efs rename re-links a moved entry: the directory it is
      attached under, and the inode whose link count drops when it is a
      directory. */
  datatype Relink = Relink(attachUnder: Ino, decrTarget: Ino)

  /** cfs_tree_rename_link / efs_tree_rename_link: move the entry to the
      new name in the same directory, then refresh the directory's ctime;
      a directory without a stat fails that last step with the entry
      already moved. */
  function RenameLink(fork: Fork, fs: Fs, dir: Ino, ino: Ino, oldName: string, newName: string, t: Time)
    : (r: Outcome<()>)
    ensures r.res.Ok? <==> Dentry(dir, oldName) in fs.dentries && dir in fs.stats
    ensures r.res.Err? ==> r.res.code == ENOENT
    ensures Dentry(dir, oldName) !in fs.dentries ==> r.fs == fs
    ensures Dentry(dir, oldName) in fs.dentries ==>
              r.fs.dentries == (fs.dentries - {Dentry(dir, oldName)})[Dentry(dir, newName) := ino]
    ensures r.fs.stats.Keys == fs.stats.Keys && r.fs.objects == fs.objects
    ensures r.res.Ok? ==> r.fs.stats[dir].nlink == fs.stats[dir].nlink && r.fs.stats[dir].ctime == t
  {
    if Dentry(dir, oldName) !in fs.dentries then Outcome(fs, Err(ENOENT))
    else
      var fs2 := fs.(dentries := (fs.dentries - {Dentry(dir, oldName)})[Dentry(dir, newName) := ino]);
      assert Incr({CtimeSet}) == 0 && Decr({CtimeSet}) == 0;
      Step(fs2, UpdateStat(fork, fs2, dir, {CtimeSet}, t))
  }

  /** The destination probe: `pdst` when given, otherwise a lookup whose
      ENOENT means "no destination"; any other lookup error ends the
      rename. */
  function Destination(fork: Fork, fs: Fs, cred: Cred, a: Args): (r: Result<Option<Ino>>)
    ensures a.pdst.Some? ==> r == Ok(a.pdst)
    ensures a.pdst.None? && Lookup(fork, fs, cred, a.ddir, a.dname).Ok? ==>
              r == Ok(Some(Lookup(fork, fs, cred, a.ddir, a.dname).value))
    ensures a.pdst.None? && Lookup(fork, fs, cred, a.ddir, a.dname).Err? ==>
              (r.Ok? <==> Lookup(fork, fs, cred, a.ddir, a.dname).code == ENOENT)
    ensures r.Ok? && r.value.None? && a.ddir in fs.stats ==> Dentry(a.ddir, a.dname) !in fs.dentries
    ensures r.Err? ==> r.code == EPERM
  {
    if a.pdst.Some? then Ok(a.pdst)
    else
      var l := Lookup(fork, fs, cred, a.ddir, a.dname);
      if l.Ok? then Ok(Some(l.value))
      else if l.code == ENOENT then Ok(None)
      else Err(l.code)
  }

  /** The checks on an existing destination, made before anything is
      written: both stats, source and destination both directories or both
      not (ENOTDIR), and a directory destination empty (EEXIST). */
  predicate DestinationClearable(fs: Fs, sino: Ino, dino: Ino) {
    sino in fs.stats && dino in fs.stats && IsDir(fs.stats[sino].mode) == IsDir(fs.stats[dino].mode)
    && !(IsDir(fs.stats[dino].mode) && HasChildren(fs, dino))
  }

  /** Clearing the destination: after the checks an empty directory is
      removed with rmdir, anything else is detached and left for the final
      destroy.  `asWritten` runs the rmdir and detach the code calls, whose
      transaction brackets roll nothing back (and whose rmdir reports inner
      failures as success); otherwise each is all-or-nothing. */
  function ClearDestination(fork: Fork, fs: Fs, cred: Cred, a: Args, sino: Ino, dino: Ino,
                            t: Time, asWritten: bool): (r: Outcome<()>)
    requires fork != Kvsns
    ensures r.res.Ok? ==> DestinationClearable(fs, sino, dino)
    ensures !DestinationClearable(fs, sino, dino) ==> r.res.Err? && r.fs == fs
    ensures sino in fs.stats && dino in fs.stats && IsDir(fs.stats[sino].mode) != IsDir(fs.stats[dino].mode)
            ==> r.res == Err(ENOTDIR)
    ensures sino in fs.stats && dino in fs.stats && IsDir(fs.stats[sino].mode) ==>
              (IsDir(fs.stats[dino].mode) && HasChildren(fs, dino) ==> r.res == Err(EEXIST))
    ensures !asWritten && r.res.Err? ==> r.fs == fs
  {
    if sino !in fs.stats || dino !in fs.stats then Outcome(fs, Err(ENOENT))
    else
      var sst := fs.stats[sino];
      var dst := fs.stats[dino];
      if IsDir(sst.mode) != IsDir(dst.mode) then Outcome(fs, Err(ENOTDIR))
      else if IsDir(dst.mode) && HasChildren(fs, dino) then Outcome(fs, Err(EEXIST))
      else if IsDir(dst.mode) then
        (if asWritten then RmdirAsWritten(fork, fs, cred, a.ddir, a.dname, t)
         else Step(fs, Rmdir(fork, fs, cred, a.ddir, a.dname, t)))
      else if asWritten then DetachAsWritten(fork, fs, cred, a.ddir, dino, a.dname, t)
      else Step(fs, Detach(fork, fs, cred, a.ddir, dino, a.dname, t))
  }

  /** Moving the source entry to another directory: read the source's
      stat, detach, attach under `rl.attachUnder`, and for a directory move
      one link from `rl.decrTarget` to the destination directory (its
      ".."); a failing link update keeps the move. */
  function MoveEntry(fork: Fork, fs: Fs, a: Args, sino: Ino, rl: Relink, t: Time): (r: Outcome<()>)
    requires fork != Kvsns
    ensures r.res.Ok? ==> sino in fs.stats && Dentry(a.sdir, a.sname) in fs.dentries
    ensures sino !in fs.stats || Dentry(a.sdir, a.sname) !in fs.dentries ==> r.res.Err? && r.fs == fs
    ensures sino in fs.stats && Dentry(a.sdir, a.sname) in fs.dentries ==>
              r.fs.dentries == (fs.dentries - {Dentry(a.sdir, a.sname)})[Dentry(rl.attachUnder, a.dname) := sino]
    ensures r.res.Ok? && !IsDir(fs.stats[sino].mode) ==> r.fs.stats == fs.stats
    ensures r.res.Ok? && IsDir(fs.stats[sino].mode) && rl.decrTarget != a.ddir ==>
              rl.decrTarget in fs.stats && a.ddir in fs.stats && rl.decrTarget in r.fs.stats && a.ddir in r.fs.stats
              && r.fs.stats[rl.decrTarget].nlink == fs.stats[rl.decrTarget].nlink - 1
              && r.fs.stats[a.ddir].nlink == fs.stats[a.ddir].nlink + 1
    ensures r.fs.objects == fs.objects && r.fs.stats.Keys == fs.stats.Keys
    ensures forall i :: i in fs.stats && i != rl.decrTarget && i != a.ddir ==> r.fs.stats[i] == fs.stats[i]
  {
    if sino !in fs.stats || Dentry(a.sdir, a.sname) !in fs.dentries then Outcome(fs, Err(ENOENT))
    else
      var fs2 := fs.(dentries := (fs.dentries - {Dentry(a.sdir, a.sname)})[Dentry(rl.attachUnder, a.dname) := sino]);
      if IsDir(fs.stats[sino].mode) then
        assert Incr({DecrLink}) == 0 && Decr({DecrLink}) == 1;
        assert Incr({IncrLink}) == 1 && Decr({IncrLink}) == 0;
        var o3 := Step(fs2, UpdateStat(fork, fs2, rl.decrTarget, {DecrLink}, t));
        if o3.res.Err? then o3
        else Step(o3.fs, UpdateStat(fork, o3.fs, a.ddir, {IncrLink}, t))
      else Outcome(fs2, Ok(()))
  }

  /** The cortxfs/efs rename body.  Nothing brackets it in a transaction:
      a step that fails keeps what the steps before it wrote.  `asWritten`
      selects cortxfs's re-linking and the clearing the code calls. */
  function RenameWith(fork: Fork, fs: Fs, cred: Cred, a: Args, t: Time, asWritten: bool, stale: Ino)
    : (r: Outcome<()>)
    requires fork != Kvsns && ValidArgs(a)
  {
    var inPlace := a.sdir == a.ddir;
    var a1 := Access(fork, fs, cred, a.sdir, DELETE_ENTITY);
    var a2 := if inPlace then Ok(()) else Access(fork, fs, cred, a.ddir, CREATE_ENTITY);
    var l := if a.psrc.Some? then Ok(a.psrc.value) else Lookup(fork, fs, cred, a.sdir, a.sname);
    var dest := Destination(fork, fs, cred, a);
    if a1.Err? then Outcome(fs, Err(a1.code))
    else if a2.Err? then Outcome(fs, Err(a2.code))
    else if l.Err? then Outcome(fs, Err(l.code))
    else if dest.Err? then Outcome(fs, Err(dest.code))
    else
      var sino := l.value;
      var c := if dest.value.Some? then ClearDestination(fork, fs, cred, a, sino, dest.value.value, t, asWritten)
               else Outcome(fs, Ok(()));
      if c.res.Err? then c
      else
        var rl := if asWritten && fork == Cortxfs
                  then Relink(if dest.value.Some? then dest.value.value else stale, sino)
                  else Relink(a.ddir, a.sdir);
        var m := if inPlace then RenameLink(fork, c.fs, a.sdir, sino, a.sname, a.dname, t)
                 else MoveEntry(fork, c.fs, a, sino, rl, t);
        if m.res.Err? then m
        else if dest.value.Some? && !IsDir(fs.stats[dest.value.value].mode) && !a.isDstOpen
        then DestroyOrphanedFile(m.fs, dest.value.value)
        else m
  }

  /** cfs_rename / efs_rename as written.  cortxfs attaches the moved entry
      under `dnode_id`, which holds the overwritten destination's node id
      when there was one and is otherwise never set (`stale` stands for
      whatever it holds), and takes the ".." link from the moved directory
      itself rather than from the source directory.  A directory
      destination goes through the rmdir that reports inner failures as
      success. */
  function RenameAsWritten(fork: Fork, fs: Fs, cred: Cred, a: Args, t: Time, stale: Ino)
    : (r: Outcome<()>)
    requires fork != Kvsns && ValidArgs(a)
    ensures (fork == Efs && a.pdst.None? && a.ddir in fs.stats && Dentry(a.ddir, a.dname) !in fs.dentries
             && !RootDotDot(fork, a.ddir, a.dname)) ==> r == Rename(fork, fs, cred, a, t)
    ensures Access(fork, fs, cred, a.sdir, DELETE_ENTITY).Err? ==> r.res.Err? && r.fs == fs
  {
    RenameWith(fork, fs, cred, a, t, true, stale)
  }

  /** rename as efs does it, which is what cortxfs intends: the entry is
      attached under the destination directory, a moved directory's ".."
      link moves from the source directory to the destination, and
      clearing the destination is all-or-nothing.  The rename itself has
      no transaction, so a later failure still keeps the earlier steps. */
  function Rename(fork: Fork, fs: Fs, cred: Cred, a: Args, t: Time): (r: Outcome<()>)
    requires fork != Kvsns && ValidArgs(a)
    ensures Access(fork, fs, cred, a.sdir, DELETE_ENTITY).Err? ==> r.res.Err? && r.fs == fs
    ensures a.sdir != a.ddir && Access(fork, fs, cred, a.ddir, CREATE_ENTITY).Err? ==> r.res.Err? && r.fs == fs
    ensures r.res.Ok? && a.psrc.None? ==> Lookup(fork, fs, cred, a.sdir, a.sname).Ok?
    ensures r.res.Ok? && a.pdst.None? && Dentry(a.ddir, a.dname) !in fs.dentries
            && !RootDotDot(fork, a.ddir, a.dname) ==>
              var sino := if a.psrc.Some? then a.psrc.value else Lookup(fork, fs, cred, a.sdir, a.sname).value;
              Dentry(a.sdir, a.sname) in fs.dentries
              && r.fs.dentries == (fs.dentries - {Dentry(a.sdir, a.sname)})[Dentry(a.ddir, a.dname) := sino]
  {
    RenameWith(fork, fs, cred, a, t, false, 0)
  }

  /** Moving a file to a fresh name in another cortxfs directory: as
      written the entry lands under the stale node id and the destination
      directory never gets it; the intended rename puts it there. */
  lemma CortxfsRenameLosesEntry(fs: Fs, a: Args, t: Time, stale: Ino)
    requires ValidArgs(a) && a.sdir != a.ddir && a.psrc.None? && a.pdst.None?
    requires !RootDotDot(Cortxfs, a.sdir, a.sname) && !RootDotDot(Cortxfs, a.ddir, a.dname)
    requires a.sdir in fs.stats && a.ddir in fs.stats && stale != a.ddir
    requires Dentry(a.sdir, a.sname) in fs.dentries && Dentry(a.ddir, a.dname) !in fs.dentries
    requires fs.dentries[Dentry(a.sdir, a.sname)] in fs.stats
    requires !IsDir(fs.stats[fs.dentries[Dentry(a.sdir, a.sname)]].mode)
    ensures var root := Cred(ROOT_UID, 0);
            var w := RenameAsWritten(Cortxfs, fs, root, a, t, stale);
            var i := Rename(Cortxfs, fs, root, a, t);
            w.res.Ok? && Dentry(a.ddir, a.dname) !in w.fs.dentries
            && Dentry(stale, a.dname) in w.fs.dentries
            && i.res.Ok? && i.fs.dentries[Dentry(a.ddir, a.dname)] == fs.dentries[Dentry(a.sdir, a.sname)]
  {
  }

  /** Moving a directory between two cortxfs directories: as written the
      source directory keeps its link count and the moved directory loses
      one; the intended rename takes the link from the source directory. */
  lemma CortxfsRenameDecrementsMovedDir(fs: Fs, a: Args, t: Time, stale: Ino)
    requires ValidArgs(a) && a.sdir != a.ddir && a.psrc.None? && a.pdst.None?
    requires !RootDotDot(Cortxfs, a.sdir, a.sname) && !RootDotDot(Cortxfs, a.ddir, a.dname)
    requires a.sdir in fs.stats && a.ddir in fs.stats
    requires Dentry(a.sdir, a.sname) in fs.dentries && Dentry(a.ddir, a.dname) !in fs.dentries
    requires var sino := fs.dentries[Dentry(a.sdir, a.sname)];
             sino in fs.stats && IsDir(fs.stats[sino].mode) && sino != a.sdir && sino != a.ddir
             && 0 < fs.stats[sino].nlink && 0 < fs.stats[a.sdir].nlink
             && fs.stats[a.ddir].nlink < MAX_LINK
    ensures var root := Cred(ROOT_UID, 0);
            var sino := fs.dentries[Dentry(a.sdir, a.sname)];
            var w := RenameAsWritten(Cortxfs, fs, root, a, t, stale);
            var i := Rename(Cortxfs, fs, root, a, t);
            w.res.Ok? && w.fs.stats[a.sdir] == fs.stats[a.sdir]
            && w.fs.stats[sino].nlink == fs.stats[sino].nlink - 1
            && i.res.Ok? && i.fs.stats[a.sdir].nlink == fs.stats[a.sdir].nlink - 1
            && i.fs.stats[sino] == fs.stats[sino]
  {
  }

  /** A rename in one directory whose source name is gone after an
      existing file destination was detached: with no transaction around
      rename the call fails with the destination name already removed. */
  lemma RenameFailureKeepsClearedDestination(fork: Fork, fs: Fs, cred: Cred, a: Args, t: Time)
    requires fork != Kvsns && ValidArgs(a) && a.sdir == a.ddir && a.psrc.Some? && a.pdst.Some?
    requires Access(fork, fs, cred, a.sdir, DELETE_ENTITY).Ok?
    requires Dentry(a.sdir, a.sname) !in fs.dentries && Dentry(a.ddir, a.dname) in fs.dentries
    requires var s := a.psrc.value; var d := a.pdst.value;
             s in fs.stats && d in fs.stats && !IsDir(fs.stats[s].mode) && !IsDir(fs.stats[d].mode)
             && fs.stats[d].nlink > 0 && (fork == Cortxfs ==> d != a.ddir)
    ensures var r := Rename(fork, fs, cred, a, t);
            r.res == Err(ENOENT) && Dentry(a.ddir, a.dname) !in r.fs.dentries
  {
    var c := ClearDestination(fork, fs, cred, a, a.psrc.value, a.pdst.value, t, false);
    assert c.res.Ok?;
  }

  /** A directory moved between two directories: the link it takes from the
      source directory is the one the destination directory gains. */
  lemma RenameConservesLinks(fork: Fork, fs: Fs, cred: Cred, a: Args, t: Time)
    requires fork != Kvsns && ValidArgs(a) && a.sdir != a.ddir && a.pdst.None?
    requires Dentry(a.ddir, a.dname) !in fs.dentries && !RootDotDot(fork, a.ddir, a.dname)
    requires !RootDotDot(fork, a.sdir, a.sname)
    requires Rename(fork, fs, cred, a, t).res.Ok?
    requires var sino := if a.psrc.Some? then a.psrc.value else fs.dentries[Dentry(a.sdir, a.sname)];
             sino in fs.stats && IsDir(fs.stats[sino].mode)
    ensures var r := Rename(fork, fs, cred, a, t).fs;
            r.stats[a.sdir].nlink + r.stats[a.ddir].nlink == fs.stats[a.sdir].nlink + fs.stats[a.ddir].nlink
  {
    var sino := if a.psrc.Some? then a.psrc.value else fs.dentries[Dentry(a.sdir, a.sname)];
    assert Destination(fork, fs, cred, a) == Ok(None);
    var m := MoveEntry(fork, fs, a, sino, Relink(a.ddir, a.sdir), t);
    assert m.res.Ok?;
  }

  /** Renaming to a fresh name and back restores the namespace. */
  lemma RenameRoundTrip(fork: Fork, fs: Fs, cred: Cred, a: Args, t1: Time, t2: Time)
    requires fork != Kvsns && ValidArgs(a) && a.psrc.None? && a.pdst.None?
    requires !RootDotDot(fork, a.sdir, a.sname) && !RootDotDot(fork, a.ddir, a.dname)
    requires Dentry(a.ddir, a.dname) !in fs.dentries
    requires Rename(fork, fs, cred, a, t1).res.Ok?
    requires var back := Args(a.ddir, a.dname, None, a.sdir, a.sname, None, a.isDstOpen);
             Rename(fork, Rename(fork, fs, cred, a, t1).fs, cred, back, t2).res.Ok?
    ensures var back := Args(a.ddir, a.dname, None, a.sdir, a.sname, None, a.isDstOpen);
            Rename(fork, Rename(fork, fs, cred, a, t1).fs, cred, back, t2).fs.dentries == fs.dentries
  {
    var back := Args(a.ddir, a.dname, None, a.sdir, a.sname, None, a.isDstOpen);
    var s := Dentry(a.sdir, a.sname);
    var d := Dentry(a.ddir, a.dname);
    var fs1 := Rename(fork, fs, cred, a, t1).fs;
    assert s in fs.dentries;
    var x := fs.dentries[s];
    assert fs1.dentries == (fs.dentries - {s})[d := x];
    assert s !in fs1.dentries;
    var fs2 := Rename(fork, fs1, cred, back, t2).fs;
    assert fs2.dentries == (fs1.dentries - {d})[s := x];
    assert fs2.dentries == fs.dentries;
  }

  /** Overwriting a file whose last link the destination name was: the
      victim is destroyed unless the caller says it is still open, in which
      case it stays as an orphan for the last close. */
  lemma OpenDestinationSurvives(fork: Fork, fs: Fs, cred: Cred, a: Args, t: Time)
    requires fork != Kvsns && ValidArgs(a) && a.pdst.Some?
    requires a.pdst.value in fs.stats && !IsDir(fs.stats[a.pdst.value].mode)
    requires a.pdst.value != a.ddir && a.pdst.value != a.sdir
    requires Rename(fork, fs, cred, a, t).res.Ok?
    requires fs.stats[a.pdst.value].nlink == 1
    ensures a.isDstOpen ==> a.pdst.value in Rename(fork, fs, cred, a, t).fs.stats
    ensures !a.isDstOpen ==> a.pdst.value !in Rename(fork, fs, cred, a, t).fs.stats
  {
  }

  // ---------------------------------------------------------------- kvsns

  /** kvsns_rename: the same checks, but a directory destination is only
      detached, a file destination goes through kvsns2_unlink, and the
      moved entry is re-attached without any link-count change.  There is
      no transaction: a failure after the destination was cleared keeps
      the clearing, and a failing kvsns2_unlink of the destination (a
      symlink without text, or a last link without its data object) stops
      the rename with that unlink's writes kept. */
  function KvsnsRename(fs: Fs, cred: Cred, a: Args, t: Time): (r: Outcome<()>)
    requires ValidArgs(a) && a.psrc.None? && a.pdst.None?
    ensures Access(Kvsns, fs, cred, a.sdir, DELETE_ENTITY).Err? ==> r.res.Err? && r.fs == fs
    ensures r.res.Ok? ==> Dentry(a.sdir, a.sname) in fs.dentries
    ensures r.res.Ok? && a.sdir != a.ddir && Dentry(a.ddir, a.dname) !in fs.dentries ==>
              r.fs.stats == fs.stats
              && r.fs.dentries == (fs.dentries - {Dentry(a.sdir, a.sname)})
                                  [Dentry(a.ddir, a.dname) := fs.dentries[Dentry(a.sdir, a.sname)]]
  {
    var inPlace := a.sdir == a.ddir;
    var a1 := Access(Kvsns, fs, cred, a.sdir, DELETE_ENTITY);
    var a2 := if inPlace then Ok(()) else Access(Kvsns, fs, cred, a.ddir, CREATE_ENTITY);
    var l := Lookup(Kvsns, fs, cred, a.sdir, a.sname);
    var dest := Destination(Kvsns, fs, cred, a);
    if a1.Err? then Outcome(fs, Err(a1.code))
    else if a2.Err? then Outcome(fs, Err(a2.code))
    else if l.Err? then Outcome(fs, Err(l.code))
    else if dest.Err? then Outcome(fs, Err(dest.code))
    else
      var sino := l.value;
      var c :=
        if dest.value.None? then Outcome(fs, Ok(()))
        else
          var dino := dest.value.value;
          if sino !in fs.stats || dino !in fs.stats then Outcome(fs, Err(ENOENT))
          else if IsDir(fs.stats[sino].mode) != IsDir(fs.stats[dino].mode) then Outcome(fs, Err(ENOTDIR))
          else if IsDir(fs.stats[dino].mode) && HasChildren(fs, dino) then Outcome(fs, Err(EEXIST))
          else if IsDir(fs.stats[dino].mode) then Step(fs, RemoveDentry(fs, a.ddir, a.dname))
          else Kvsns2Unlink(fs, cred, a.ddir, a.dname, t);
      if c.res.Err? then c
      else if Dentry(a.sdir, a.sname) !in c.fs.dentries then Outcome(c.fs, Err(ENOENT))
      else
        var fs2 := c.fs.(dentries := (c.fs.dentries - {Dentry(a.sdir, a.sname)})[Dentry(a.ddir, a.dname) := sino]);
        Outcome(fs2, Ok(()))
  }

  /** A kvsns rename onto an existing file whose last link this is and
      whose data object is missing: the kvsns2_unlink of the destination
      fails with ENOENT, and the rename stops there, keeping what that
      unlink wrote (the destination name is gone) and leaving the source
      name where it was. */
  lemma KvsnsRenameStopsOnMissingDestinationData(fs: Fs, cred: Cred, a: Args, t: Time)
    requires ValidArgs(a) && a.psrc.None? && a.pdst.None?
    requires Access(Kvsns, fs, cred, a.sdir, DELETE_ENTITY).Ok?
    requires a.sdir == a.ddir || Access(Kvsns, fs, cred, a.ddir, CREATE_ENTITY).Ok?
    requires Lookup(Kvsns, fs, cred, a.sdir, a.sname).Ok? && Kvsns2Unlinkable(fs, cred, a.ddir, a.dname)
    requires var s := Lookup(Kvsns, fs, cred, a.sdir, a.sname).value;
             var d := Lookup(Kvsns, fs, cred, a.ddir, a.dname).value;
             s in fs.stats && !IsDir(fs.stats[s].mode) && !IsDir(fs.stats[d].mode) && DataObjectMissing(fs, d)
    ensures var r := KvsnsRename(fs, cred, a, t);
            r.res == Err(ENOENT) && r.fs == Kvsns2Unlink(fs, cred, a.ddir, a.dname, t).fs
            && Dentry(a.ddir, a.dname) !in r.fs.dentries
            && (Dentry(a.sdir, a.sname) in fs.dentries ==> Dentry(a.sdir, a.sname) in r.fs.dentries)
  {
  }

  /** Moving a directory: cortxfs/efs move its ".." link between the
      parents, kvsns leaves every link count as it was. */
  lemma KvsnsRenameKeepsLinkCounts(fs: Fs, cred: Cred, a: Args, t: Time)
    requires ValidArgs(a) && a.psrc.None? && a.pdst.None? && a.sdir != a.ddir
    requires Dentry(a.ddir, a.dname) !in fs.dentries
    requires KvsnsRename(fs, cred, a, t).res.Ok?
    ensures KvsnsRename(fs, cred, a, t).fs.stats[a.sdir] == fs.stats[a.sdir]
    ensures KvsnsRename(fs, cred, a, t).fs.stats[a.ddir] == fs.stats[a.ddir]
  {
  }
}

=== FILE: tenant.dfy ===
/** Tenants (tenant.c): records in a global metadata index keyed by the
    namespace id, each carrying the caller's option string. */
module Tenant {
  import opened Errno
  import Ns

  /** struct tenant: id, name, the 16-bit length of the options and the
      options themselves. */
  datatype Tenant = Tenant(id: Ns.u16, name: string, size: Ns.u16, priv: string)

  /** A stored record with the length of the value it was stored as. */
  datatype Entry = Entry(vlen: nat, t: Tenant)

  type Meta = map<Ns.u16, Entry>

  /** The value length a scan accepts: the header `hdr` (sizeof(struct
      tenant) on the host) plus the recorded option length. */
  predicate WellSized(e: Entry, hdr: nat) {
    e.vlen == hdr + e.t.size
  }

  /** tenant_create: the name must be alphanumeric (EINVAL); the record
      stores the options and their length narrowed to 16 bits, and is
      written as the header plus every byte of the options. */
  function Create(m: Meta, name: string, nsId: Ns.u16, options: string, hdr: nat): (r: Result<(Meta, Tenant)>)
    ensures r.Ok? <==> Ns.IsAlnum(name)
    ensures r.Err? ==> r.code == EINVAL
    ensures r.Ok? ==> var (m2, t) := r.value;
              t.id == nsId && t.name == name && t.priv == options
              && m2 == m[nsId := Entry(hdr + |options|, t)]
  {
    if !Ns.IsAlnum(name) then Err(EINVAL)
    else
      var t := Tenant(nsId, name, |options| % Ns.U16_LIMIT, options);
      Ok((m[nsId := Entry(hdr + |options|, t)], t))
  }

  /** A created tenant passes the scan's size check exactly when its
      options fit the 16-bit length. */
  lemma CreatedIsWellSized(m: Meta, name: string, nsId: Ns.u16, options: string, hdr: nat)
    requires Ns.IsAlnum(name)
    ensures var (m2, _) := Create(m, name, nsId, options, hdr).value;
            WellSized(m2[nsId], hdr) <==> |options| < Ns.U16_LIMIT
  {
  }

  /** tenant_copy: the header and `size` bytes of options are copied, so a
      record whose length wrapped loses the tail of its options. */
  function Copy(src: Tenant, allocOk: bool): (r: Result<Tenant>)
    ensures r.Ok? <==> allocOk
    ensures r.Err? ==> r.code == ENOMEM
    ensures r.Ok? ==> r.value.id == src.id && r.value.name == src.name && r.value.size == src.size
    ensures r.Ok? ==> r.value.priv <= src.priv && (src.size >= |src.priv| ==> r.value == src)
  {
    if !allocOk then Err(ENOMEM)
    else
      var n := if src.size < |src.priv| then src.size else |src.priv|;
      Ok(src.(priv := src.priv[..n]))
  }

  /** tenant_delete: ENOENT if the record is missing. */
  function Delete(m: Meta, t: Tenant): (r: Result<Meta>)
    ensures r.Ok? <==> t.id in m
    ensures r.Err? ==> r.code == ENOENT
    ensures r.Ok? ==> r.value == m - {t.id}
  {
    if t.id in m then Ok(m - {t.id}) else Err(ENOENT)
  }

  // ---------------------------------------------------------------- scan

  /** The context the callback is handed: the caller's, or the (void *)-1
      the code substitutes once it meets a bad record. */
  datatype Ctx = CallerCtx | BadCtx

  datatype Call = Call(ctx: Ctx, t: Tenant)

  /** tenant_scan AS WRITTEN, from the iterator's position onward: a
      badly sized record sets rc to EINVAL and the context to -1, but the
      callback is still called and its result overwrites rc. */
  function ScanAsWritten(entries: seq<Entry>, hdr: nat, cb: (Ctx, Tenant) -> Result<()>, ctx: Ctx)
    : (r: (Result<()>, seq<Call>))
    ensures |r.1| <= |entries|
    ensures r.0.Err? ==> |r.1| > 0 && r.0 == cb(r.1[|r.1| - 1].ctx, r.1[|r.1| - 1].t)
  {
    if |entries| == 0 then (Ok(()), [])
    else
      var e := entries[0];
      var ctx1 := if !WellSized(e, hdr) then BadCtx else ctx;
      var rc := cb(ctx1, e.t);
      if rc.Err? then (rc, [Call(ctx1, e.t)])
      else
        var rest := ScanAsWritten(entries[1..], hdr, cb, ctx1);
        (rest.0, [Call(ctx1, e.t)] + rest.1)
  }

  /** tenant_scan as evidently intended: a badly sized record ends the scan
      with EINVAL before the callback sees it. */
  function Scan(entries: seq<Entry>, hdr: nat, cb: (Ctx, Tenant) -> Result<()>): (r: (Result<()>, seq<Call>))
    ensures |r.1| <= |entries|
    ensures forall i :: 0 <= i < |r.1| ==> r.1[i] == Call(CallerCtx, entries[i].t) && WellSized(entries[i], hdr)
    ensures r.0.Ok? ==> |r.1| == |entries|
  {
    if |entries| == 0 then (Ok(()), [])
    else
      var e := entries[0];
      if !WellSized(e, hdr) then (Err(EINVAL), [])
      else
        var rc := cb(CallerCtx, e.t);
        if rc.Err? then (rc, [Call(CallerCtx, e.t)])
        else
          var rest := Scan(entries[1..], hdr, cb);
          (rest.0, [Call(CallerCtx, e.t)] + rest.1)
  }

  predicate AllWellSized(entries: seq<Entry>, hdr: nat) {
    forall i :: 0 <= i < |entries| ==> WellSized(entries[i], hdr)
  }

  /** On a store of well-sized records the two scans agree. */
  lemma {:induction false} ScansAgreeOnWellSized(entries: seq<Entry>, hdr: nat, cb: (Ctx, Tenant) -> Result<()>)
    requires AllWellSized(entries, hdr)
    ensures ScanAsWritten(entries, hdr, cb, CallerCtx) == Scan(entries, hdr, cb)
  {
    if |entries| > 0 {
      assert AllWellSized(entries[1..], hdr) by {
        forall i | 0 <= i < |entries[1..]| ensures WellSized(entries[1..][i], hdr) {
          assert entries[1..][i] == entries[i + 1];
        }
      }
      ScansAgreeOnWellSized(entries[1..], hdr, cb);
    }
  }

  /** A single badly sized record: the scan as written hands it to the
      callback with the bogus context and, when the callback accepts it,
      reports success; the intended scan reports EINVAL. */
  lemma ScanAsWrittenHidesBadRecord(e: Entry, hdr: nat, cb: (Ctx, Tenant) -> Result<()>)
    requires !WellSized(e, hdr) && cb(BadCtx, e.t) == Ok(())
    ensures ScanAsWritten([e], hdr, cb, CallerCtx) == (Ok(()), [Call(BadCtx, e.t)])
    ensures Scan([e], hdr, cb) == (Err(EINVAL), [])
  {
    assert [e][0] == e && [e][1..] == [];
    assert ScanAsWritten([], hdr, cb, BadCtx) == (Ok(()), []);
    assert [Call(BadCtx, e.t)] + [] == [Call(BadCtx, e.t)];
  }
}

=== FILE: test_option.dfy ===
/** The command-line parsers of the kvsns test framework (option.c): user
    credentials "uid:gid", file modes and open flags given either as a
    number or as ':'/'|'-separated symbolic names, and the IO mode.  A
    mode or flag word is the set of positions of its one bits, as for
    `st_mode`; the flag values are those of Linux on x86-64.  getuid()
    and getgid() are inputs. */
module TestOption {
  import opened Errno
  import opened ParentList
  import opened InodeAttr
  import opened CliValidate

  const U32_LIMIT: nat := 0x1_0000_0000
  const INT_MAX: nat := 0x7FFF_FFFF
  /** INT_MIN converted to the unsigned mode_t it is compared with. */
  const INT_MIN_AS_UNSIGNED: nat := 0x8000_0000
  const LONG_MAX: nat := 0x7FFF_FFFF_FFFF_FFFF

  const STATUS_OK: int := 0
  const STATUS_FAIL: int := -1

  type Bits = set<nat>

  // ---------------------------------------------------------------- strtok

  /** The delimiters every parser hands to strtok. */
  predicate IsDelim(c: char) { c == ':' || c == '|' }

  /** A token strtok can return: non-empty and free of delimiters. */
  predicate Word(t: string) {
    |t| > 0 && forall j :: 0 <= j < |t| ==> !IsDelim(t[j])
  }

  /** Length of the leading run of non-delimiters. */
  function WordLen(s: string): (n: nat)
    ensures n <= |s|
    ensures forall i :: 0 <= i < n ==> !IsDelim(s[i])
    ensures n < |s| ==> IsDelim(s[n])
    decreases |s|
  {
    if |s| == 0 || IsDelim(s[0]) then 0 else 1 + WordLen(s[1..])
  }

  /** The tokens successive strtok calls return: the maximal runs of
      non-delimiters, empty runs skipped. */
  function StrTok(s: string): (ts: seq<string>)
    ensures forall i :: 0 <= i < |ts| ==> Word(ts[i])
    decreases |s|
  {
    if |s| == 0 then []
    else if IsDelim(s[0]) then StrTok(s[1..])
    else
      var n := WordLen(s);
      [s[..n]] + StrTok(s[n..])
  }

  lemma {:induction false} WordLenOfWord(w: string, t: string)
    requires forall j :: 0 <= j < |w| ==> !IsDelim(w[j])
    requires |t| == 0 || IsDelim(t[0])
    ensures WordLen(w + t) == |w|
    decreases |w|
  {
    if |w| != 0 {
      assert (w + t)[1..] == w[1..] + t;
      WordLenOfWord(w[1..], t);
    } else {
      assert w + t == t;
    }
  }

  lemma WordThen(w: string, t: string)
    requires Word(w)
    requires |t| == 0 || IsDelim(t[0])
    ensures StrTok(w + t) == [w] + StrTok(t)
  {
    WordLenOfWord(w, t);
    assert (w + t)[..|w|] == w && (w + t)[|w|..] == t;
  }

  /** Tokens joined with a delimiter come back from strtok unchanged. */
  lemma {:induction false} StrTokJoin(ts: seq<string>, sep: char)
    requires IsDelim(sep) && |ts| >= 1
    requires forall i :: 0 <= i < |ts| ==> Word(ts[i])
    ensures StrTok(JoinWith(ts, sep)) == ts
    decreases |ts|
  {
    if |ts| == 1 {
      WordThen(ts[0], "");
      assert ts[0] + "" == ts[0];
      assert ts == [ts[0]];
    } else {
      var rest := JoinWith(ts[1..], sep);
      StrTokJoin(ts[1..], sep);
      assert JoinWith(ts, sep) == ts[0] + ([sep] + rest);
      WordThen(ts[0], [sep] + rest);
      assert ([sep] + rest)[1..] == rest;
      assert ts == [ts[0]] + ts[1..];
    }
  }

  // ---------------------------------------------------------------- numbers

  /** isspace() in the C locale. */
  predicate IsSpace(c: char) {
    c == ' ' || c == '\t' || c == '\n' || c == '\r' || c as int == 11 || c as int == 12
  }

  function SkipSpace(s: string): (t: string)
    ensures |t| <= |s|
    ensures |t| > 0 ==> !IsSpace(t[0])
    decreases |s|
  {
    if |s| > 0 && IsSpace(s[0]) then SkipSpace(s[1..]) else s
  }

  predicate IsSign(c: char) { c == '-' || c == '+' }

  /** atoi: leading white space, an optional sign, then the leading
      decimal digits; no digits gives 0. */
  function Atoi(s: string): (v: int)
    ensures (var t := SkipSpace(s); |t| > 0 && !IsSign(t[0]) && DigitRun(t) == 0 ==> v == 0)
  {
    var t := SkipSpace(s);
    if |t| > 0 && IsSign(t[0]) then
      var m := ParseToken(t[1..]);
      if t[0] == '-' then 0 - m else m
    else ParseToken(t)
  }

  lemma AtoiDecimal(n: nat)
    ensures Atoi(Decimal(n)) == n
  {
    ParseDecimal(n);
    assert !IsSpace(Decimal(n)[0]) && !IsSign(Decimal(n)[0]);
  }

  predicate IsOctal(c: char) { '0' <= c <= '7' }

  function OctalRun(s: string): (n: nat)
    ensures n <= |s|
    ensures forall i :: 0 <= i < n ==> IsOctal(s[i])
    decreases |s|
  {
    if |s| == 0 || !IsOctal(s[0]) then 0 else 1 + OctalRun(s[1..])
  }

  function OctalValue(s: string): nat
    requires forall i :: 0 <= i < |s| ==> IsOctal(s[i])
    decreases |s|
  {
    if |s| == 0 then 0
    else
      var c := s[|s| - 1];
      assert IsOctal(c);
      OctalValue(s[..|s| - 1]) * 8 + (c as int - '0' as int)
  }

  /** strtol(s, NULL, 8): white space, an optional sign and the octal
      digits, the magnitude saturating at LONG_MAX (LONG_MIN when
      negative). */
  function StrtolOctal(s: string): (v: int)
    ensures -(LONG_MAX + 1) <= v <= LONG_MAX
    ensures (var t := SkipSpace(s); |t| > 0 && !IsSign(t[0]) && OctalRun(t) == 0 ==> v == 0)
  {
    var t := SkipSpace(s);
    var neg := |t| > 0 && t[0] == '-';
    var u := if |t| > 0 && IsSign(t[0]) then t[1..] else t;
    var m := OctalValue(u[..OctalRun(u)]);
    if neg then (if m > LONG_MAX + 1 then -(LONG_MAX + 1) else 0 - m)
    else if m > LONG_MAX then LONG_MAX else m
  }

  /** The one bits of n from position k up. */
  function BitsFrom(n: nat, k: nat): (b: Bits)
    ensures forall i :: i in b ==> i >= k
    ensures b == {} <==> n == 0
    decreases n
  {
    if n == 0 then {}
    else (if n % 2 == 1 then {k} else {}) + BitsFrom(n / 2, k + 1)
  }

  function BitsOf(n: nat): Bits {
    BitsFrom(n, 0)
  }

  // ---------------------------------------------------------------- symbolic names

  type NameTable = seq<(string, Bits)>

  /** The value of the first table entry with this name. */
  function Lookup(table: NameTable, name: string): (r: Option<Bits>)
    ensures r.Some? <==> exists i :: 0 <= i < |table| && table[i].0 == name
    ensures r.Some? ==> r.value <= TableBits(table)
    decreases |table|
  {
    if |table| == 0 then None
    else if |table[0].0| == |name| && table[0].0 == name then Some(table[0].1)
    else
      var r := Lookup(table[1..], name);
      assert forall i :: 1 <= i < |table| ==> table[i] == table[1..][i - 1];
      r
  }

  /** Every bit any entry of the table sets. */
  function TableBits(table: NameTable): Bits {
    set i, b | 0 <= i < |table| && b in table[i].1 :: b
  }

  /** OR of the values of the names; the first unknown name fails the
      whole parse. */
  function ParseNames(ts: seq<string>, table: NameTable): (r: Option<Bits>)
    ensures r.Some? <==> forall i :: 0 <= i < |ts| ==> Lookup(table, ts[i]).Some?
    ensures r.Some? ==> r.value <= TableBits(table)
    ensures r.Some? ==> forall i :: 0 <= i < |ts| ==> Lookup(table, ts[i]).value <= r.value
    decreases |ts|
  {
    if |ts| == 0 then Some({})
    else
      match Lookup(table, ts[0])
      case None => None
      case Some(b) =>
        var rest := ParseNames(ts[1..], table);
        assert forall i :: 1 <= i < |ts| ==> ts[i] == ts[1..][i - 1];
        match rest
        case None => None
        case Some(r) => Some(b + r)
  }

  /** mode_table: the nine permission bits and the three rwx groups. */
  const MODE_TABLE: NameTable := [
    ("S_IRWXU", {6, 7, 8}), ("S_IRUSR", {8}), ("S_IWUSR", {7}), ("S_IXUSR", {6}),
    ("S_IRWXG", {3, 4, 5}), ("S_IRGRP", {5}), ("S_IWGRP", {4}), ("S_IXGRP", {3}),
    ("S_IRWXO", {0, 1, 2}), ("S_IROTH", {2}), ("S_IWOTH", {1}), ("S_IXOTH", {0})]

  /** flag_table, with the Linux x86-64 values (O_LARGEFILE is 0 there,
      O_DIRECT is present). */
  const FLAG_TABLE: NameTable := [
    ("O_RDONLY", {}), ("O_WRONLY", {0}), ("O_RDWR", {1}), ("O_CREAT", {6}),
    ("O_CLOEXEC", {19}), ("O_EXCL", {7}), ("O_NOCTTY", {8}), ("O_TRUNC", {9}),
    ("O_APPEND", {10}), ("O_NONBLOCK", {11}), ("O_NDELAY", {11}), ("O_SYNC", {12, 20}),
    ("O_DIRECT", {14}), ("O_LARGEFILE", {}), ("O_DIRECTORY", {16}), ("O_NOFOLLOW", {17})]

  // ---------------------------------------------------------------- parsers

  /** What parse_mode and parse_flags share: a number the parser took is
      the word itself; otherwise every token must be a name of the table
      and the word is the OR of their values.  A failure leaves 0. */
  function NumberOrNames(number: Option<nat>, str: string, table: NameTable): (r: (int, Bits))
    ensures number.Some? ==> r == (STATUS_OK, BitsOf(number.value))
    ensures number.None? ==> (r.0 == STATUS_OK <==> ParseNames(StrTok(str), table).Some?)
    ensures number.None? && r.0 == STATUS_OK ==> r.1 == ParseNames(StrTok(str), table).value
    ensures r.0 == STATUS_OK || (r.0 == STATUS_FAIL && r.1 == {})
  {
    match number
    case Some(n) => (STATUS_OK, BitsOf(n))
    case None =>
      match ParseNames(StrTok(str), table)
      case None => (STATUS_FAIL, {})
      case Some(b) => (STATUS_OK, b)
  }

  /** The number parse_mode takes from strtol's value `v`: v truncated to
      the unsigned mode_t, unless that is 0, INT_MAX or INT_MIN. */
  function ModeNumber(v: int): (n: Option<nat>)
    ensures n.Some? ==> 0 < n.value < U32_LIMIT && n.value % U32_LIMIT == v % U32_LIMIT
    ensures 0 < v < INT_MAX ==> n == Some(v)
    ensures v == 0 ==> n.None?
  {
    var m := v % U32_LIMIT;
    if m != INT_MIN_AS_UNSIGNED && m != INT_MAX && m != 0 then Some(m) else None
  }

  /** The number parse_flags takes: atoi's value when positive. */
  function FlagsNumber(str: string): (n: Option<nat>)
    ensures n.Some? <==> Atoi(str) > 0
    ensures n.Some? ==> n.value == Atoi(str)
  {
    var v := Atoi(str);
    if v > 0 then Some(v) else None
  }

  /** parse_mode: a NULL string fails; otherwise the octal number, or the
      OR of mode names. */
  function ParseMode(s: Option<string>): (r: (int, Bits))
    ensures s.None? ==> r == (STATUS_FAIL, {})
    ensures s.Some? ==> r == NumberOrNames(ModeNumber(StrtolOctal(s.value)), s.value, MODE_TABLE)
  {
    match s
    case None => (STATUS_FAIL, {})
    case Some(str) => NumberOrNames(ModeNumber(StrtolOctal(str)), str, MODE_TABLE)
  }

  /** parse_flags: as parse_mode, but the number is read with atoi and
      must be positive to be taken as the flags. */
  function ParseFlags(s: Option<string>): (r: (int, Bits))
    ensures s.None? ==> r == (STATUS_FAIL, {})
    ensures s.Some? ==> r == NumberOrNames(FlagsNumber(s.value), s.value, FLAG_TABLE)
  {
    match s
    case None => (STATUS_FAIL, {})
    case Some(str) => NumberOrNames(FlagsNumber(str), str, FLAG_TABLE)
  }

  /** Symbolic names joined with '|' parse to the OR of their values, for
      modes and for flags alike. */
  lemma SymbolicRoundTrip(names: seq<string>, sep: char)
    requires IsDelim(sep) && |names| >= 1
    requires forall i :: 0 <= i < |names| ==> Word(names[i]) && names[i][0] in {'S', 'O'}
    ensures var s := JoinWith(names, sep);
            (forall i :: 0 <= i < |names| ==> Lookup(MODE_TABLE, names[i]).Some?) ==>
              ParseMode(Some(s)) == (STATUS_OK, ParseNames(names, MODE_TABLE).value)
    ensures var s := JoinWith(names, sep);
            (forall i :: 0 <= i < |names| ==> Lookup(FLAG_TABLE, names[i]).Some?) ==>
              ParseFlags(Some(s)) == (STATUS_OK, ParseNames(names, FLAG_TABLE).value)
  {
    var s := JoinWith(names, sep);
    StrTokJoin(names, sep);
    JoinWithStarts(names, sep);
    LetterIsNoNumber(s);
    assert ParseMode(Some(s)) == NumberOrNames(None, s, MODE_TABLE);
    assert ParseFlags(Some(s)) == NumberOrNames(None, s, FLAG_TABLE);
  }

  /** A string starting with a letter is no number to atoi or strtol. */
  lemma LetterIsNoNumber(s: string)
    requires |s| > 0 && s[0] in {'S', 'O'}
    ensures StrtolOctal(s) == 0 && Atoi(s) == 0
  {
    assert SkipSpace(s) == s;
    assert OctalRun(s) == 0 && DigitRun(s) == 0;
  }

  lemma {:induction false} JoinWithStarts(parts: seq<string>, sep: char)
    requires |parts| >= 1 && |parts[0]| > 0
    ensures |JoinWith(parts, sep)| > 0 && JoinWith(parts, sep)[0] == parts[0][0]
  {
  }

  /** A mode cannot be given as "0": it is not a number the parser takes
      and not a mode name either.  The empty string gives mode 0. */
  lemma ZeroModeRejected()
    ensures ParseMode(Some("0")) == (STATUS_FAIL, {})
    ensures ParseMode(Some("")) == (STATUS_OK, {})
  {
    ZeroIsNoModeNumber();
    ZeroIsNoModeName();
    assert StrTok("") == [];
  }

  /** "0" is a single token that names no mode. */
  lemma ZeroIsNoModeName()
    ensures ParseNames(StrTok("0"), MODE_TABLE) == None
  {
    assert StrTok("0") == ["0"] by {
      WordThen("0", "");
      assert "0" + "" == "0";
    }
    ShortNameIsNoMode("0");
  }

  /** Every mode name has seven letters, so a shorter or longer word is
      none of them. */
  lemma ShortNameIsNoMode(name: string)
    requires |name| != 7
    ensures Lookup(MODE_TABLE, name).None?
  {
    ModeNamesAreLong();
  }

  lemma ZeroIsNoModeNumber()
    ensures StrtolOctal("0") == 0 && StrtolOctal("") == 0
  {
    assert SkipSpace("0") == "0";
    assert OctalRun("0") == 1;
    assert "0"[..1] == "0";
    assert OctalValue("0") == 0;
    assert StrtolOctal("0") == 0;
    assert StrtolOctal("") == 0;
  }

  lemma ModeNamesAreLong()
    ensures forall i :: 0 <= i < |MODE_TABLE| ==> |MODE_TABLE[i].0| == 7
  {
  }

  lemma {:induction false} OctalRunAll(d: string)
    requires forall i :: 0 <= i < |d| ==> IsOctal(d[i])
    ensures OctalRun(d) == |d|
    decreases |d|
  {
    if |d| != 0 {
      OctalRunAll(d[1..]);
    }
  }

  /** A string of octal digits whose value is neither 0 nor INT_MAX and
      fits in 31 bits is taken as the mode itself. */
  lemma OctalModeNumber(d: string)
    requires |d| > 0 && forall i :: 0 <= i < |d| ==> IsOctal(d[i])
    requires 0 < OctalValue(d) < INT_MAX
    ensures ParseMode(Some(d)) == (STATUS_OK, BitsOf(OctalValue(d)))
  {
    StrtolOctalDigits(d);
    assert ModeNumber(StrtolOctal(d)) == Some(OctalValue(d));
  }

  lemma StrtolOctalDigits(d: string)
    requires |d| > 0 && forall i :: 0 <= i < |d| ==> IsOctal(d[i])
    requires OctalValue(d) <= LONG_MAX
    ensures StrtolOctal(d) == OctalValue(d)
  {
    assert SkipSpace(d) == d by {
      assert IsOctal(d[0]);
    }
    assert !IsSign(d[0]) by {
      assert IsOctal(d[0]);
    }
    OctalRunAll(d);
    StrtolOctalPlain(d);
  }

  /** strtol of a string that starts with neither white space nor a sign
      and is octal digits throughout reads all of it. */
  lemma StrtolOctalPlain(d: string)
    requires |d| > 0 && SkipSpace(d) == d && !IsSign(d[0])
    requires OctalRun(d) == |d| && OctalValue(d) <= LONG_MAX
    ensures StrtolOctal(d) == OctalValue(d)
  {
    assert d[..|d|] == d;
  }

  /** A positive decimal is taken as the flag word itself. */
  lemma NumericFlags(n: nat)
    requires n > 0
    ensures ParseFlags(Some(Decimal(n))) == (STATUS_OK, BitsOf(n))
  {
    AtoiDecimal(n);
  }

  /** parse_user_cred: strtok splits the string at ':' and '|'.  A string
      with fewer than two tokens passes NULL to atoi (None: undefined).  A
      third token fails with -1, after uid and gid are stored.  A uid of 0
      becomes getuid().  For a gid of 0 the code AS WRITTEN stores
      getuid() into the uid and leaves the gid 0; the intended code stores
      getgid() into the gid. */
  function ParseUserCredWith(s: string, getuid: nat, getgid: nat, fixed: bool): (r: Option<(int, Cred)>)
    ensures r.None? <==> |StrTok(s)| < 2
    ensures r.Some? ==> (r.value.0 == STATUS_FAIL <==> |StrTok(s)| > 2)
    ensures r.Some? && r.value.0 == STATUS_OK ==> r.value.1.uid != 0 || getuid == 0
  {
    var ts := StrTok(s);
    if |ts| < 2 then None
    else
      var uid := Atoi(ts[0]) % U32_LIMIT;
      var gid := Atoi(ts[1]) % U32_LIMIT;
      if |ts| > 2 then Some((STATUS_FAIL, Cred(uid, gid)))
      else
        var uid1 := if uid == 0 then getuid else uid;
        if gid != 0 then Some((STATUS_OK, Cred(uid1, gid)))
        else if fixed then Some((STATUS_OK, Cred(uid1, getgid)))
        else Some((STATUS_OK, Cred(getuid, gid)))
  }

  function ParseUserCredAsWritten(s: string, getuid: nat, getgid: nat): (r: Option<(int, Cred)>)
    ensures r.None? <==> |StrTok(s)| < 2
  {
    ParseUserCredWith(s, getuid, getgid, false)
  }

  function ParseUserCred(s: string, getuid: nat, getgid: nat): (r: Option<(int, Cred)>)
    ensures r.None? <==> |StrTok(s)| < 2
    ensures r.Some? && r.value.0 == STATUS_OK ==> r.value.1.gid != 0 || getgid == 0
  {
    ParseUserCredWith(s, getuid, getgid, true)
  }

  /** "uid:gid" with both positive and below 2^32 parses to exactly that
      credential, as written and intended alike.  With gid 0 the code as
      written loses the given uid and keeps gid 0, where the intended code
      keeps the uid and takes getgid(). */
  lemma UserCredRoundTrip(u: nat, g: nat, getuid: nat, getgid: nat)
    requires 0 < u < U32_LIMIT && g < U32_LIMIT
    ensures var s := Decimal(u) + ":" + Decimal(g);
            g > 0 ==> ParseUserCredAsWritten(s, getuid, getgid) == Some((STATUS_OK, Cred(u, g)))
                      && ParseUserCred(s, getuid, getgid) == Some((STATUS_OK, Cred(u, g)))
    ensures var s := Decimal(u) + ":" + Decimal(g);
            g == 0 ==> ParseUserCredAsWritten(s, getuid, getgid) == Some((STATUS_OK, Cred(getuid, 0)))
                       && ParseUserCred(s, getuid, getgid) == Some((STATUS_OK, Cred(u, getgid)))
  {
    CredTokens(u, g);
    AtoiDecimal(u);
    AtoiDecimal(g);
    CredOfTokens(Decimal(u) + ":" + Decimal(g), Decimal(u), Decimal(g), u, g, getuid, getgid);
  }

  lemma CredOfTokens(s: string, a: string, b: string, u: nat, g: nat, getuid: nat, getgid: nat)
    requires StrTok(s) == [a, b] && Atoi(a) == u && Atoi(b) == g
    requires 0 < u < U32_LIMIT && g < U32_LIMIT
    ensures g > 0 ==> ParseUserCredAsWritten(s, getuid, getgid) == Some((STATUS_OK, Cred(u, g)))
                      && ParseUserCred(s, getuid, getgid) == Some((STATUS_OK, Cred(u, g)))
    ensures g == 0 ==> ParseUserCredAsWritten(s, getuid, getgid) == Some((STATUS_OK, Cred(getuid, 0)))
                       && ParseUserCred(s, getuid, getgid) == Some((STATUS_OK, Cred(u, getgid)))
  {
  }

  lemma CredTokens(u: nat, g: nat)
    ensures StrTok(Decimal(u) + ":" + Decimal(g)) == [Decimal(u), Decimal(g)]
  {
    var du, dg := Decimal(u), Decimal(g);
    assert Word(du) && Word(dg);
    assert JoinWith([du, dg], ':') == du + ":" + dg by {
      assert [du, dg][1..] == [dg];
    }
    StrTokJoin([du, dg], ':');
  }

  /** enum io_mode and its two names. */
  datatype IoMode = FileMode | InodeMode

  function IoModeName(m: IoMode): string {
    match m
    case FileMode => "FILE"
    case InodeMode => "INODE"
  }

  /** parse_io_mode: exactly "FILE" or "INODE"; anything else fails and
      leaves the mode unset. */
  function ParseIoMode(s: string): (r: (int, Option<IoMode>))
    ensures r.0 == STATUS_OK <==> r.1.Some?
    ensures r.1.Some? ==> IoModeName(r.1.value) == s
    ensures r.0 == STATUS_FAIL <==> s != "FILE" && s != "INODE"
  {
    if s == "FILE" then (STATUS_OK, Some(FileMode))
    else if s == "INODE" then (STATUS_OK, Some(InodeMode))
    else (STATUS_FAIL, None)
  }

  lemma IoModeRoundTrip(m: IoMode)
    ensures ParseIoMode(IoModeName(m)) == (STATUS_OK, Some(m))
  {
  }
}

=== FILE: xattr.dfy ===
/** The file-system extended-attribute calls of cortxfs (cortxfs_xattr.c)
    and efs (efs_xattr.c): access and flag checks on top of the metadata
    store of MdXattr, keyed by the inode's data object. */
module Xattr {
  import opened Errno
  import opened InodeAttr
  import opened Namespace
  import opened MdXattr
  import Removal

  /** The `flags` values of setxattr: 0, XATTR_CREATE, XATTR_REPLACE. */
  const XATTR_CREATE: int := 1
  const XATTR_REPLACE: int := 2

  /** cfs_ino_to_oid: the object of an inode, ENOENT when it has none. */
  function InoToOid(fs: Fs, ino: Ino): (r: Result<Ino>)
    ensures r.Ok? <==> ino in fs.objects
    ensures r.Ok? ==> r.value == ino
    ensures r.Err? ==> r.code == ENOENT
  {
    if ino in fs.objects then Ok(ino) else Err(ENOENT)
  }

  /** cfs_setxattr / efs_setxattr as intended, over the checked md_xattr
      calls of MdXattr (a name above NAME_MAX is ENAMETOOLONG): EINVAL for
      unknown flags, WRITE access, the object, then XATTR_CREATE refuses an
      existing name (EEXIST) and XATTR_REPLACE a missing one (ENOENT); 0
      sets unconditionally. */
  function SetXattr(fork: Fork, fs: Fs, xs: XattrStore, cred: Cred, ino: Ino, name: string,
                    value: seq<Byte>, flags: int): (r: Result<XattrStore>)
    requires fork != Kvsns && |value| != 0
    ensures flags !in {0, XATTR_CREATE, XATTR_REPLACE} ==> r == Err(EINVAL)
    ensures r.Ok? ==> flags in {0, XATTR_CREATE, XATTR_REPLACE}
                      && Access(fork, fs, cred, ino, {WriteReq}).Ok? && ino in fs.objects
    ensures r.Ok? && flags == XATTR_CREATE ==> XKey(ino, name) !in xs
    ensures r.Ok? && flags == XATTR_REPLACE ==> XKey(ino, name) in xs
    ensures r.Ok? ==> r == MdSet(xs, ino, name, value)
    ensures (flags in {0, XATTR_CREATE, XATTR_REPLACE} && Access(fork, fs, cred, ino, {WriteReq}).Ok?
             && ino in fs.objects && |name| <= NAME_MAX)
            ==> (flags == XATTR_CREATE && XKey(ino, name) in xs ==> r == Err(EEXIST))
                && (flags == XATTR_REPLACE && XKey(ino, name) !in xs ==> r == Err(ENOENT))
  {
    if flags != XATTR_CREATE && flags != XATTR_REPLACE && flags != 0 then Err(EINVAL)
    else
      var _ :- Access(fork, fs, cred, ino, {WriteReq});
      var oid :- InoToOid(fs, ino);
      if flags == XATTR_CREATE || flags == XATTR_REPLACE then
        var exists_ :- MdExists(xs, oid, name);
        if flags == XATTR_CREATE && exists_ then Err(EEXIST)
        else if flags == XATTR_REPLACE && !exists_ then Err(ENOENT)
        else MdSet(xs, oid, name, value)
      else MdSet(xs, oid, name, value)
  }

  /** cfs_getxattr / efs_getxattr as intended, over the checked MdGet: efs
      first checks READ access, cortxfs checks nothing; then the value, or
      ERANGE when the caller's buffer of `size` bytes is too small. */
  function GetXattr(fork: Fork, fs: Fs, xs: XattrStore, cred: Cred, ino: Ino, name: string,
                    size: nat): (r: Result<seq<Byte>>)
    requires fork != Kvsns && size != 0
    ensures r.Ok? <==> (fork == Efs ==> Access(fork, fs, cred, ino, {ReadReq}).Ok?)
                       && ino in fs.objects && MdGet(xs, ino, name).Ok? && |xs[XKey(ino, name)]| <= size
    ensures r.Ok? ==> r.value == xs[XKey(ino, name)]
    ensures ((fork == Efs ==> Access(fork, fs, cred, ino, {ReadReq}).Ok?) && ino in fs.objects
             && MdGet(xs, ino, name).Ok? && |xs[XKey(ino, name)]| > size) ==> r == Err(ERANGE)
  {
    var _ :- if fork == Efs then Access(fork, fs, cred, ino, {ReadReq}) else Ok(());
    var oid :- InoToOid(fs, ino);
    var v :- MdGet(xs, oid, name);
    if size < |v| then Err(ERANGE) else Ok(v)
  }

  /** cfs_removexattr / efs_removexattr as intended: WRITE access, then the
      checked MdDelete. */
  function RemoveXattr(fork: Fork, fs: Fs, xs: XattrStore, cred: Cred, ino: Ino, name: string)
    : (r: Result<XattrStore>)
    requires fork != Kvsns
    ensures r.Ok? <==> Access(fork, fs, cred, ino, {WriteReq}).Ok? && ino in fs.objects
                       && MdDelete(xs, ino, name).Ok?
    ensures r.Ok? ==> r.value == xs - {XKey(ino, name)}
  {
    var _ :- Access(fork, fs, cred, ino, {WriteReq});
    var oid :- InoToOid(fs, ino);
    MdDelete(xs, oid, name)
  }

  /** cfs_remove_all_xattr / efs_remove_all_xattr: does nothing and
      succeeds, so the attributes of a removed file stay in the store. */
  function RemoveAllXattr(xs: XattrStore, ino: Ino): (r: Result<XattrStore>)
    ensures r == Ok(xs)
  {
    Ok(xs)
  }

  /** The attributes of a file outlive remove_all. */
  lemma RemoveAllKeepsAttributes(xs: XattrStore, ino: Ino, name: string)
    requires XKey(ino, name) in xs
    ensures RemoveAllXattr(xs, ino).Ok? && XKey(ino, name) in RemoveAllXattr(xs, ino).value
  {
  }

  /** Unlinking the last link of a regular file destroys its stat and its
      object, yet after remove_all the metadata store still answers for
      every attribute the file had, under its old object id. */
  lemma DestroyedFileAttributesLinger(fork: Fork, fs: Fs, xs: XattrStore, cred: Cred, dir: Ino, ino: Ino,
                                      fname: string, name: string, t: Time)
    requires fork != Kvsns && ino != dir
    requires Removal.Unlink(fork, fs, cred, dir, Some(ino), fname, t).res.Ok?
    requires ino in fs.stats && fs.stats[ino].nlink == 1 && IsReg(fs.stats[ino].mode)
    requires XKey(ino, name) in xs && |name| <= NAME_MAX
    ensures var u := Removal.Unlink(fork, fs, cred, dir, Some(ino), fname, t).fs;
            ino !in u.stats && ino !in u.objects
    ensures var r := RemoveAllXattr(xs, ino);
            r.Ok? && MdGet(r.value, ino, name) == Ok(xs[XKey(ino, name)])
  {
    Removal.UnlinkLastLinkDestroys(fork, fs, cred, dir, ino, fname, t);
  }

  /** The names of `oid` in the order the prefix iterator yields them. */
  ghost predicate ListsNamesOf(xs: XattrStore, oid: Ino, names: seq<string>) {
    (forall i :: 0 <= i < |names| ==> XKey(oid, names[i]) in xs)
    && (forall k :: k in xs && k.oid == oid ==> k.name in names)
  }

  /** cfs_listxattr / efs_listxattr: READ access, the object, then the
      packed list of `names`, the attribute names of the object. */
  method ListXattr(fork: Fork, fs: Fs, xs: XattrStore, cred: Cred, ino: Ino, names: seq<string>,
                   size: nat) returns (out: Listing)
    requires fork != Kvsns && ListsNamesOf(xs, ino, names)
    requires forall i :: 0 <= i < |names| ==> names[i] != []
    ensures Access(fork, fs, cred, ino, {ReadReq}).Err? ==>
              out == Listing(Access(fork, fs, cred, ino, {ReadReq}), 0, size, [])
    ensures Access(fork, fs, cred, ino, {ReadReq}).Ok? && ino !in fs.objects ==>
              out == Listing(Err(ENOENT), 0, size, [])
    ensures out.res.Ok? ==> Access(fork, fs, cred, ino, {ReadReq}).Ok? && ino in fs.objects
                            && out.buf == Packed(names) && out.count == |names| && out.size == |out.buf|
  {
    var acc := Access(fork, fs, cred, ino, {ReadReq});
    if acc.Err? {
      return Listing(acc, 0, size, []);
    }
    var oid := InoToOid(fs, ino);
    if oid.Err? {
      return Listing(Err(oid.code), 0, size, []);
    }
    out := MdList(names, size);
  }

  /** Set then get returns the value set, for a caller allowed to read in
      efs and for anyone in cortxfs. */
  lemma SetThenGet(fork: Fork, fs: Fs, xs: XattrStore, cred: Cred, ino: Ino, name: string,
                   value: seq<Byte>, flags: int, size: nat)
    requires fork != Kvsns && |value| != 0 && size >= |value|
    requires SetXattr(fork, fs, xs, cred, ino, name, value, flags).Ok?
    requires fork == Efs ==> Access(fork, fs, cred, ino, {ReadReq}).Ok?
    ensures GetXattr(fork, fs, SetXattr(fork, fs, xs, cred, ino, name, value, flags).value,
                     cred, ino, name, size) == Ok(value)
  {
  }

  /** cortxfs reads an attribute for a caller that efs turns away with
      EPERM. */
  lemma GetXattrSkipsAccessInCortxfs(fs: Fs, xs: XattrStore, cred: Cred, ino: Ino, name: string, size: nat)
    requires size != 0 && ino in fs.stats && ino in fs.objects && XKey(ino, name) in xs
    requires |name| <= NAME_MAX && |xs[XKey(ino, name)]| <= size
    requires !Permitted(Efs, cred, fs.stats[ino], {ReadReq})
    ensures GetXattr(Cortxfs, fs, xs, cred, ino, name, size) == Ok(xs[XKey(ino, name)])
    ensures GetXattr(Efs, fs, xs, cred, ino, name, size) == Err(EPERM)
  {
  }
}
